=== FILE: README.md ===
# omgeo geocoding core, modelled in Dafny

omgeo is a Python geocoding wrapper. A `Geocoder` takes a `PlaceQuery`, which is
free text or a set of address fields plus an optional `Viewbox`. It runs
universal preprocessors that may rewrite or reject the query. It asks a list of
geocoding services in turn, stopping after the first one that returns anything
unless "waterfall" mode is on. It then runs universal postprocessors over the
merged `Candidate` list. Each service (`GeocodeService`) has the same shape
inside: its own preprocessors, a call to the upstream API, and its own
postprocessors, with an `UpstreamResponseInfo` record describing the call.

This project models that core as pure functions over immutable values:

- the data model (`Places`, `Values`);
- the processors, in both revisions of the code (`Preprocessors`,
  `LegacyPreprocessors`, `Postprocessors`, `Dupes`, `LegacyPostprocessors`);
- the pipeline that runs them (`Pipeline`);
- the service skeleton (`ServiceBase`);
- the two orchestrators (`Orchestrator` for `omgeo/geocoder.py`,
  `LegacyOrchestrator` for `omgeo/__init__.py`);
- the request building and response shaping of the Esri, US Census, Google,
  MapQuest and Bing adapters (`Esri`, `USCensus`, `Google`, `MapQuest`, `Bing`).

Python exceptions are `Err` values of a `Result`. A preprocessor that returns
`False` yields `None`. Candidate attributes are a `map<string, Value>`, where
`Value` stands for the Python objects that appear as attribute values.

The upstream call is a parameter of each service. So are a few things the model
cannot compute:

- the number formatting used for viewbox strings and `%f`;
- the great-circle distance test of `SnapPoints`;
- the compiled regular expressions of `ParseSingleLine`;
- URL unquoting and JSON encoding for MapQuest.

The modules `Seqs`, `Greedy` and `Text` hold the sequence, de-duplication and
string facts the processors share.

## Model

The older revision's `LocatorFilter`, `LocatorSorter`, `AttrFilter`, `AttrExclude`, `AttrRename`, `AttrMigrator`, `UseHighScoreIfAtLeast`, `ScoreSorter`, `AttrSorter` and `DupePicker` in `omgeo/processors/postprocessors.py` compute what the current ones in `omgeo/postprocessors.py` compute when that module is read as Python 2, where `unicode` exists, and when `case_sensitive` is a bool. Under those two readings the `Postprocessors` and `Dupes` members below model both revisions. `LegacyPostprocessors` holds only the two classes whose results differ. Under Python 3 the older `DupePicker` raises `NameError` instead (see `Dupes.DupePicker` under "## Left out").

| member | source | states |
|---|---|---|
| Places.NewViewbox | omgeo/places.py:10-27 | a viewbox is built exactly when all four bounds are real numbers, left <= right and bottom <= top, keeping the bounds and wkid; a non-number bound raises `TypeError` from formatting the message; misordered bounds raise the `ValueError` for left/right or bottom/top |
| Places.NewViewboxIntended | omgeo/places.py:18-24 | as intended: the same boxes, and every failure, a non-number bound included, is a `ValueError` |
| Places.ViewboxRevisionsAgree | omgeo/places.py:18-24 | the constructor as written and as intended agree exactly when all four bounds are numbers |
| Places.NonNumberBoundTypeError | omgeo/places.py:19-20 | `Viewbox(left='a')` raises `TypeError` as written, where the intended constructor raises the not-a-number `ValueError` |
| Places.DefaultViewbox | omgeo/places.py:10 | the default arguments give the whole WGS84 world box, wkid 4326, with either constructor |
| Places.ConvertSrs | omgeo/places.py:6-8 | SRS conversion is not implemented and returns the same viewbox |
| Places.BingFields | omgeo/places.py:29-35 | the Bing string splits at commas into bottom, left, top, right |
| Places.MapQuestFields | omgeo/places.py:55-62 | the MapQuest string splits at commas into left, top, right, bottom |
| Places.GoogleFields | omgeo/places.py:50-53 | the Google string is two corners separated by `\|`, each `lat,lng`: bottom-left, then top-right |
| Places.ToMapzenDict | omgeo/places.py:37-48 | exactly the four `boundary.rect` keys, with min/max lat/lon taken from bottom/left/top/right |
| Places.EsriEnvelopeRoundTrip | omgeo/places.py:64-83 | the Esri envelope maps xmin/ymin/xmax/ymax back to the same viewbox, and keeps the orientation of the bounds |
| Places.Lbl | omgeo/places.py:91-102 | labels longer than 8 characters are cut to 8; shorter ones end with the text, padded with spaces to the left: none for `L`, half the gap for `C`, the full gap otherwise |
| Places.NewPlaceQuery | omgeo/places.py:117-159 | a query is refused exactly when query, address, city, state and postal are all empty; otherwise every field is kept |
| Places.RegionOnlyRejected | omgeo/places.py:156-157 | neighborhood, subregion and country alone do not make a query |
| Places.QueryOf | omgeo/places.py:117-159 | `PlaceQuery(s)` is accepted exactly for non-empty `s` and carries `s` as its query |
| Places.NewCandidate | omgeo/places.py:176-213 | a candidate holds exactly the six formal attributes and the keyword arguments, each with the value it was given |
| Places.CandidateDefaults | omgeo/places.py:176-177 | the defaults are locator `''`, score 0, match address `''`, no coordinates and wkid 4326 |
| Pipeline.RunPre | omgeo/geocoder.py:105-108 | preprocessors run in order; the first rejection stops the chain and no later one runs |
| Pipeline.RunPreAppend | omgeo/services/base.py:215-219 | running two chains one after the other is running their concatenation |
| Pipeline.RunAllAppend | omgeo/services/base.py:232-234 | postprocessors compose in order |
| Pipeline.Gated | omgeo/geocoder.py:120-123 | an empty list is never postprocessed; a postprocessor that empties the list stops the chain |
| Pipeline.GatedNonEmpty | omgeo/geocoder.py:120-123 | when the gated chain ends non-empty, it equals running every postprocessor |
| Pipeline.GatedNeverEmpty | omgeo/geocoder.py:120-123 | when no prefix of the chain empties the list, gating makes no difference |
| ServiceBase.SetResponseCode | omgeo/services/base.py:28-32 | only `None` or an int is accepted; anything else raises |
| ServiceBase.RoundHalfEven | omgeo/services/base.py:41 | `round` gives the nearest integer, with ties to the even one |
| ServiceBase.SetResponseTime | omgeo/services/base.py:34-43 | `None` clears the time; a non-number and a negative number raise; any other time is stored rounded to an integer |
| ServiceBase.SetSuccess | omgeo/services/base.py:45-49 | only a bool is accepted, and it is stored |
| ServiceBase.NewInfo | omgeo/services/base.py:51-72 | the record is built exactly when code, time and success are all valid; it keeps the service name and the processed query |
| ServiceBase.NewInfoDefaults | omgeo/services/base.py:51-72 | with default arguments the record has no code, no time, success true and no errors |
| ServiceBase.NewService | omgeo/services/base.py:90-114 | missing processor lists become empty and given ones are installed as they are; missing settings become `{}`; given settings are copied key by key with their values; name and upstream call are kept |
| ServiceBase.CheckKeys | omgeo/services/base.py:116-136 | all keys pass exactly when none is missing (or `None` when that is refused); otherwise the first offending key is named |
| ServiceBase.SettingsChecker | omgeo/services/base.py:116-136 | with no required list everything passes; otherwise all pass exactly when no required key is missing (or `None` when that is refused), and the reported key is the first required key that offends |
| ServiceBase.Geocode | omgeo/services/base.py:215-235 | no upstream info exactly when a preprocessor rejects, and then no candidates; otherwise the record names the service and the processed query, has no response code, succeeds exactly when it holds no error, and a failure gives no candidates |
| ServiceBase.GeocodeOutcomes | omgeo/services/base.py:220-235 | an upstream failure gives no candidates and an info record with success false and the error; a success gives the postprocessed candidates and the elapsed time |
| ServiceBase.RejectionSkipsCall | omgeo/services/base.py:215-219 | a rejected query never reaches the upstream call, whatever it is |
| ServiceBase.PostprocessorsNotGated | omgeo/services/base.py:232-234 | unlike the geocoder, a service keeps postprocessing after the list becomes empty |
| Postprocessors.AnyIn | omgeo/postprocessors.py:290-295 | a non-exact match holds exactly when some good value is a substring of the attribute |
| Postprocessors.AttrFilter | omgeo/postprocessors.py:290-295 | keeps exactly the candidates whose attribute matches, in their original order |
| Postprocessors.AttrExclude | omgeo/postprocessors.py:321-325 | keeps exactly the candidates whose attribute does not match, in their original order |
| Postprocessors.FilterExcludePartition | omgeo/postprocessors.py:290-325 | filter and exclude over the same values split the list: together they hold every candidate exactly once |
| Postprocessors.LocatorFilter | omgeo/postprocessors.py:37-46 | removes in place every candidate whose locator is not listed: the list returned and the list given end up the same, holding the exact `AttrFilter` on `locator` |
| Postprocessors.AttrSorter | omgeo/postprocessors.py:190-200 | a permutation: the candidates of each listed value in list order, then the unlisted ones in their original order |
| Postprocessors.SortLoopPermutes | omgeo/postprocessors.py:190-200 | each step of the sort loop moves candidates and never loses or duplicates one |
| Postprocessors.RepeatedValueEmptyBucket | omgeo/postprocessors.py:190-200 | a value listed twice contributes nothing the second time |
| Postprocessors.LocatorSorter | omgeo/postprocessors.py:65-80 | a permutation ordered by the locator ranking, with unranked locators last in their original order |
| Postprocessors.AttrReverseSorter | omgeo/postprocessors.py:225-229 | sorts by the reversed list, and the stored list is left reversed |
| Postprocessors.ReverseSorterAlternates | omgeo/postprocessors.py:225-229 | because the list is reversed in place, a second call with the same object sorts by the original order |
| Postprocessors.FirstMatch | omgeo/postprocessors.py:248-265 | finds the first mapping entry whose key matches, with exact or substring matching and optional case folding |
| Postprocessors.MigrateOne | omgeo/postprocessors.py:248-265 | with no matching key the candidate is unchanged; with one, the target attribute takes the first match's value and nothing else changes |
| Postprocessors.AttrMigrator | omgeo/postprocessors.py:248-265 | applies that to every candidate, keeping order, ids and all other attributes |
| Postprocessors.NoContainedNoEqual | omgeo/postprocessors.py:248-265 | exact matching never finds a key that substring matching misses |
| Postprocessors.AttrRename | omgeo/postprocessors.py:104-123 | a candidate whose value no key matches is unchanged; otherwise the attribute takes the value of the first matching key in map order (substring match first unless exact, then equality); ids, key sets and every other attribute are kept |
| Postprocessors.RenameExactIsLookup | omgeo/postprocessors.py:104-123 | with distinct keys, an exact case-sensitive rename is a dictionary lookup |
| Postprocessors.UseHighScoreIfAtLeast | omgeo/postprocessors.py:140-150 | if some score reaches the minimum, only those candidates stay; otherwise the list is unchanged; a non-empty list stays non-empty |
| Postprocessors.UseHighScoreIdempotent | omgeo/postprocessors.py:140-150 | applying it twice is the same as applying it once |
| Postprocessors.Insert | omgeo/postprocessors.py:165-170 | inserting one scored candidate adds exactly that candidate |
| Postprocessors.InsertSorted | omgeo/postprocessors.py:165-170 | inserting into a sorted list keeps it sorted |
| Postprocessors.SortByScoreProperties | omgeo/postprocessors.py:165-170 | the sort by score is ordered and stable: candidates with equal score keep their relative order |
| Postprocessors.ScoreSorter | omgeo/postprocessors.py:165-170 | a stable permutation sorted by score, descending by default |
| Postprocessors.GroupByMultiple | omgeo/postprocessors.py:490-500 | keeps the first candidate of each combination of attribute values |
| Postprocessors.GroupBy | omgeo/postprocessors.py:460-470 | keeps the first candidate of each attribute value (or of each combination, for several attributes) |
| Postprocessors.GroupByFirstOfEachValue | omgeo/postprocessors.py:460-470 | the result has pairwise distinct values, covers every value of the input, and comes from the input |
| Postprocessors.GroupByIdempotent | omgeo/postprocessors.py:460-470 | grouping a grouped list changes nothing |
| Greedy.UniqKeepsOrder | omgeo/postprocessors.py:460-470 | keeping the first of each value keeps the survivors in input order: a relation that holds from every earlier input element to every later one holds the same way in the result |
| Postprocessors.SnapPoints | omgeo/postprocessors.py:539-548 | keeps a sub-multiset of the input; every kept point was matched by an anchor of the input whose range holds none of the points kept after it |
| Postprocessors.SnapPointsReflexive | omgeo/postprocessors.py:508-548 | when each point is within range of itself, the first candidate is kept first, no later kept point is within its range, and the second returned list is empty |
| Greedy.SweepSeparates | omgeo/postprocessors.py:539-548 | each keeper of the loop is guarded by an anchor: it is in the anchor's range and no later keeper is |
| SnapExamples.SnapNotTransitive | omgeo/postprocessors.py:539-548 | a point close to a kept point is dropped even when a third point is close to it but not to the kept one |
| SnapExamples.SnapAbsorbedAnchor | omgeo/postprocessors.py:539-548 | the order of the survivors follows the sweep, not the input |
| SnapExamples.SnapKeepsNearPair | omgeo/postprocessors.py:508-548 | two kept points can be within range of each other, when the earlier one was matched through an absorbed anchor |
| Dupes.Cleanup | omgeo/postprocessors.py:404-408 | a string loses its commas and is upper-cased; any other object is returned unchanged |
| Dupes.CleanIdempotent | omgeo/postprocessors.py:404-408 | cleaning twice is cleaning once |
| Dupes.HiScoreIsMax | omgeo/postprocessors.py:413 | the high score is the maximum and belongs to some candidate |
| Dupes.HiScoreCandidates | omgeo/postprocessors.py:414 | exactly the candidates with the high score |
| Dupes.Matching | omgeo/postprocessors.py:419-422 | exactly the candidates whose cleaned value equals that of the high-scoring one |
| Dupes.Ranked | omgeo/postprocessors.py:424 | a non-empty reordering of the matching candidates |
| Dupes.PickLoopNoRepeats | omgeo/postprocessors.py:429-434 | no candidate is appended twice |
| Dupes.PickLoopMembers | omgeo/postprocessors.py:416-434 | every picked candidate comes from the input and is a near-duplicate of some high-scoring candidate |
| Dupes.PickDupes | omgeo/postprocessors.py:403-435 | empty in, empty out; otherwise non-empty, drawn from the input, no repeats; every pick belongs to the queue of a high-scoring candidate (its duplicates ranked by `ordered_list` and narrowed to the best-ranked one's raw value), and every member of every such queue is picked unless a candidate with its identity already was |
| Dupes.PicksQueued | omgeo/postprocessors.py:416-434 | every pick of the loop is a member of the queue of some high-scoring candidate |
| Dupes.PicksCovered | omgeo/postprocessors.py:416-434 | every member of the queue of every high-scoring candidate is picked, by identity |
| Dupes.DupePickerFacts | omgeo/postprocessors.py:403-435 | the loop over the high scorers gives a non-empty result without repeats |
| Dupes.DupePicker | omgeo/postprocessors.py:403-435 | as written, the result does not depend on `return_clean` |
| Dupes.CleanAttr | omgeo/postprocessors.py:404-408 | cleans only the named attribute, leaving its cleaned form unchanged |
| Dupes.CleanAll | omgeo/postprocessors.py:430-434 | with `return_clean` every picked candidate carries a clean value; without it the list is unchanged |
| Dupes.DupePickerCleaned | omgeo/postprocessors.py:430-434 | the picked candidates, with the dupe attribute cleaned when `return_clean` is set |
| DupeExamples.DocumentedPick | omgeo/postprocessors.py:343-387 | the documented example keeps the rooftop North Wood and the South Wood candidate |
| DupeExamples.ReturnCleanAsWritten | omgeo/postprocessors.py:430-434 | as written, `return_clean=True` still returns `123, S Wood ST` with its comma and case |
| DupeExamples.ReturnCleanCorrected | omgeo/postprocessors.py:430-434 | corrected, the same input returns `123 N WOOD ST` and `123 S WOOD ST` |
| LegacyPostprocessors.AttrReverseSorter | omgeo/processors/postprocessors.py:170-174 | the older reverse sorter sorts by `locator` whatever attribute it is given |
| LegacyPostprocessors.ReverseSorterIgnoresAttr | omgeo/processors/postprocessors.py:170-174 | its result does not depend on the attribute, and equals the current sorter on `locator` |
| LegacyPostprocessors.ReverseSorterDiffers | omgeo/processors/postprocessors.py:140-174 | a pair on which the two revisions give different orders |
| LegacyPostprocessors.GroupBy | omgeo/processors/postprocessors.py:384-392 | keeps the first candidate of each value; values are pairwise distinct and none is lost |
| LegacyPostprocessors.GroupByAgrees | omgeo/processors/postprocessors.py:384-392 | the older grouping equals the current one on one attribute |
| Preprocessors.RangeToken | omgeo/preprocessors.py:45 | finds the leading `\d+\w*-\d*\w*` token; none exists exactly when the text does not start with digits, word characters and a hyphen |
| Preprocessors.ReplaceRange | omgeo/preprocessors.py:45-53 | the text changes exactly when it starts with a range followed by whitespace, and then only the hyphen and what follows it in the token are cut |
| Preprocessors.ReplaceRangeOf | omgeo/preprocessors.py:40-53 | `a-b rest` becomes `a rest` |
| Preprocessors.ReplaceRangeIdempotent | omgeo/preprocessors.py:47-53 | replacing twice is replacing once |
| Preprocessors.RangeExamples | omgeo/preprocessors.py:22-26 | the documented ranges `4109-4113` and `272-B`, and `4452-54` from the test suite, lose everything from the hyphen when whitespace follows, whatever the rest of the address |
| Preprocessors.RangeExampleQueens | omgeo/preprocessors.py:29-35 | the documented Queens address `76-20 34th Ave, Queens NY` becomes `76 34th Ave, Queens NY`: the cross street is kept and the house number dropped, as the warning says |
| Preprocessors.ZipPlusFourUnchanged | omgeo/preprocessors.py:45 | a bare ZIP+4 code is left alone because no whitespace follows it |
| Preprocessors.ReplaceRangeWithNumber | omgeo/preprocessors.py:55-62 | only query and address change, each by `ReplaceRange`; the query changes exactly when one of them starts with a range |
| Preprocessors.CommaJoin | omgeo/preprocessors.py:75-79 | joins with `, ` unless the left part is empty |
| Preprocessors.ParseQuery | omgeo/preprocessors.py:87-121 | the postcode is the last match; without a comma no city is found |
| Preprocessors.CommaJoinAllIsJoin | omgeo/preprocessors.py:75-79 | folding `CommaJoin` over parts from a non-empty start joins them all with `, ` |
| Preprocessors.ClassifyPartsSeparates | omgeo/preprocessors.py:107-121 | each later part, stripped and freed of the postcode, goes to the address when it is a unit and to the city otherwise, keeping the order within each |
| Preprocessors.ParseQueryParts | omgeo/preprocessors.py:87-121 | the address is the first comma part, reduced by the postcode rule (and unchanged when it holds no postcode), followed by the unit parts, and the city is the other later parts joined with `, ` |
| Preprocessors.ParseUKShape | omgeo/preprocessors.py:87-121 | `street, town, county postcode` parses to the street as address, `town, county` as city and the postcode, when no part is a unit |
| Preprocessors.ParseUKExample | omgeo/tests/tests.py:515-521 | `32 Bond Road, Surbiton, Surrey KT6 7SH` parses to address `32 Bond Road`, city `Surbiton, Surrey` and postcode `KT6 7SH` |
| Preprocessors.ParseSingleLine | omgeo/preprocessors.py:81-127 | an empty query changes nothing; only postal, address and city can change, and only when they were empty, taking the parsed values |
| Preprocessors.ComposeSingleLine | omgeo/preprocessors.py:130-140 | a present query is kept; otherwise only the query changes, and it is empty exactly when every component is |
| Preprocessors.ComposeSplits | omgeo/preprocessors.py:130-140 | when no component holds a comma, splitting the composed line at commas gives back its non-empty parts in order (address, city, subregion, `state postal`, country), each after the first led by a space |
| Preprocessors.ComposedEmpty | omgeo/preprocessors.py:133-138 | the composed line is empty exactly when address, city, subregion, state, postal and country are all empty |
| Preprocessors.ComposeExample | omgeo/preprocessors.py:133-138 | address, city, state and postal compose to `address, city, state postal` |
| Preprocessors.NewCountryRule | omgeo/preprocessors.py:149-168 | missing lists and maps become empty |
| Preprocessors.CountryPreProcessor | omgeo/preprocessors.py:170-182 | only the country can change; an acceptable country is kept; an unacceptable country that is mapped becomes its mapped value, kept when that is acceptable; an unmapped country is kept when acceptable; an empty acceptable list accepts everything; otherwise the query is rejected |
| Preprocessors.CountryStable | omgeo/preprocessors.py:170-182 | re-applying the rule to its own accepted output changes nothing |
| Preprocessors.RequireCountry | omgeo/preprocessors.py:246-271 | rejects exactly when the country is blank and there is no default; a blank country takes the default; any other query is unchanged |
| Preprocessors.RequireCountryIdempotent | omgeo/preprocessors.py:246-271 | with a non-blank default the processor always accepts and is idempotent |
| Preprocessors.NewRegexCanceller | omgeo/preprocessors.py:196-216 | construction succeeds exactly for a string pattern and a list or tuple of strings; a non-string pattern, a non-sequence attribute list and a non-string attribute name each raise their own error, checked in that order |
| Preprocessors.PresentValues | omgeo/preprocessors.py:219 | exactly the values of the named attributes the query has |
| Preprocessors.CancelIfRegexInAttr | omgeo/preprocessors.py:218-222 | a non-string attribute raises; otherwise it rejects exactly when some attribute matches, and never alters the query |
| Preprocessors.CancelIfPOBox | omgeo/preprocessors.py:230-238 | rejects exactly when address or query starts with a PO Box form, and otherwise keeps the query |
| Preprocessors.POBoxExtend | omgeo/preprocessors.py:237 | a match at the start survives whatever follows |
| Preprocessors.POBoxOnlyAtStart | omgeo/preprocessors.py:237 | text starting with anything but whitespace or `P` never matches |
| Preprocessors.POBoxExampleSpaced | omgeo/preprocessors.py:237 | `PO Box 123` matches |
| Preprocessors.POBoxExampleDotted | omgeo/preprocessors.py:237 | `p.o. box 9` matches |
| Preprocessors.POBoxExampleLater | omgeo/preprocessors.py:237 | a PO Box after the street does not match |
| LegacyPreprocessors.ReplaceRange | omgeo/processors/preprocessors.py:14-20 | any leading range token loses its hyphenated part, whatever follows it |
| LegacyPreprocessors.ReplaceRangeWithNumber | omgeo/processors/preprocessors.py:22-29 | only query and address change, each by the older cut |
| LegacyPreprocessors.ReplaceRangeRevisions | omgeo/processors/preprocessors.py:5-20 | the two revisions agree exactly except on a range token not followed by whitespace |
| LegacyPreprocessors.ZipPlusFourCut | omgeo/processors/preprocessors.py:5-20 | the older cut turns `19127-1112` into `19127` |
| LegacyPreprocessors.ReplaceRangeNotIdempotent | omgeo/processors/preprocessors.py:14-20 | the older cut is not idempotent: `1-2-3`, then `1-3`, then `1` |
| LegacyPreprocessors.ParseSingleLineAgrees | omgeo/processors/preprocessors.py:38-90 | the older single-line parse equals the current one |
| LegacyPreprocessors.CountryPreProcessorAgrees | omgeo/processors/preprocessors.py:117-129 | the older country rule equals the current one |
| LegacyPreprocessors.RequireCountryAgrees | omgeo/processors/preprocessors.py:136-143 | the older required-country rule equals the current one |
| Orchestrator.SetSources | omgeo/geocoder.py:55-56 | an empty source list raises; otherwise only the sources change |
| Orchestrator.NewGeocoder | omgeo/geocoder.py:61-84 | defaults fill missing sources and processors; construction fails exactly when the resulting sources are empty |
| Orchestrator.Gather | omgeo/geocoder.py:110-118 | sources are asked in order; without early stopping all are asked; stopping early happens only once candidates exist; the result is the concatenation of the answers so far |
| Orchestrator.GatherAll | omgeo/geocoder.py:110-118 | all sources asked unless stopping early, and every source asked before the last one returned nothing |
| Orchestrator.GatherIgnoresLater | omgeo/geocoder.py:116-118 | sources after the stopping point never influence the result |
| Orchestrator.QueryFrom | omgeo/geocoder.py:101-102 | a string becomes `PlaceQuery(string)`, which raises for an empty string |
| Orchestrator.EffectiveWaterfall | omgeo/geocoder.py:100 | an omitted argument or an explicit `None` falls back to the geocoder's setting; any other value overrides it |
| Orchestrator.ExplicitNoneIsDefault | omgeo/geocoder.py:100 | passing `waterfall=None` gives the same geocode, corrected geocode and candidate list as leaving it out |
| Orchestrator.Geocode | omgeo/geocoder.py:99-135 | as written a rejection raises; a failing stats log raises only when forced; otherwise the result is the gated postprocessing of the gathered candidates with the upstream infos |
| Orchestrator.RejectionRaises | omgeo/geocoder.py:105-108 | a preprocessor rejection reaches an undefined `get_result` and raises, while the corrected version returns no candidates |
| Orchestrator.GeocodeFixed | omgeo/geocoder.py:99-135 | the corrected geocode never raises for a rejection and returns empty lists instead |
| Orchestrator.StringIsWrapped | omgeo/geocoder.py:101-102 | geocoding a string is geocoding `PlaceQuery(string)` |
| Orchestrator.LaterSourcesUnused | omgeo/geocoder.py:116-117 | with waterfall off, appending sources after a source that answered changes nothing |
| Orchestrator.WaterfallCallsAll | omgeo/geocoder.py:110-118 | with waterfall on, every source is asked |
| Orchestrator.StatsFailureSwallowed | omgeo/geocoder.py:125-135 | a stats-logging failure changes nothing unless logging is forced |
| Orchestrator.EmptyNotPostprocessed | omgeo/geocoder.py:120-123 | when nothing is gathered, no postprocessor runs and the result is empty |
| Orchestrator.GetCandidates | omgeo/geocoder.py:137-141 | succeeds exactly when the query is valid and not rejected; then it returns the gated candidates of the geocode |
| LegacyOrchestrator.SetSources | omgeo/__init__.py:57-58 | an empty source list raises; otherwise only the sources change |
| LegacyOrchestrator.NewGeocoder | omgeo/__init__.py:64-75 | defaults fill missing sources and processors; construction fails exactly when the sources are empty |
| LegacyOrchestrator.Lift | omgeo/__init__.py:95-100 | an older service is a current one that returns no upstream info |
| LegacyOrchestrator.Waterfall | omgeo/__init__.py:72 | the waterfall setting defaults to false |
| LegacyOrchestrator.Geocode | omgeo/__init__.py:89-105 | a rejection gives an empty list; otherwise every postprocessor runs over the gathered candidates |
| LegacyOrchestrator.WaterfallIgnored | omgeo/__init__.py:89 | the waterfall argument has no effect |
| LegacyOrchestrator.AlwaysStopsEarly | omgeo/__init__.py:72 | a freshly built geocoder always stops at the first source that answers |
| LegacyOrchestrator.EmptyListPostprocessed | omgeo/__init__.py:102-105 | unlike the current geocoder, postprocessors run on an empty list and can add candidates |
| LegacyOrchestrator.AgreesWithCurrent | omgeo/__init__.py:89-105 | with default settings the older geocoder returns what the current one returns, except that postprocessors run on an empty list |
| Esri.ServiceEndpoint | omgeo/services/esri.py:28-30 | an API key selects the premium URL, otherwise the free one |
| Esri.AppendTokenIfNeeded | omgeo/services/esri.py:32-35 | an API key adds it as `token`, and nothing else changes |
| Esri.PremiumIffToken | omgeo/services/esri.py:28-35 | the premium URL is used exactly when the request carries a token |
| Esri.PromotePostal | omgeo/services/esri.py:480-481 | a postal code alone becomes the query; otherwise nothing changes |
| Esri.MultipartRequest | omgeo/services/esri.py:483-496 | uses `findAddressCandidates` and sends the address as given |
| Esri.MultipartKeys | omgeo/services/esri.py:470-496 | sends the base and structured parameters, and the search extent exactly when the query is bounded with a viewbox |
| Esri.MultipartBase | omgeo/services/esri.py:470-476 | keeps `f`, `outFields` and `maxLocations` as the base query sets them |
| Esri.MultipartValues | omgeo/services/esri.py:485-494 | sends every structured field with the query's value |
| Esri.MultipartExtent | omgeo/services/esri.py:495-496 | a bounded query's extent is the viewbox's ESRI JSON envelope |
| Esri.SingleLineRequest | omgeo/services/esri.py:497-503 | uses `find` and sends the query as `text` |
| Esri.SingleLineKeys | omgeo/services/esri.py:497-507 | sends the base parameters, text and country, the magic key exactly when truthy and the box exactly when bounded |
| Esri.SingleLineValues | omgeo/services/esri.py:470-507 | keeps the base values, and sends the country, the magic key and the viewbox's envelope as given |
| Esri.GeocodeRequest | omgeo/services/esri.py:480-509 | single line exactly when the query (after postal promotion) is non-empty, multipart otherwise |
| Esri.PostalOnlyIsSingleLine | omgeo/services/esri.py:480-481 | a postal-only query is sent as single-line text |
| Esri.FreeTextIgnoresFields | omgeo/services/esri.py:497-507 | with free text, the structured fields are not sent |
| Esri.RequestKindsDisjoint | omgeo/services/esri.py:483-507 | the two request kinds never share their address parameters |
| Esri.OptionalParamsByKind | omgeo/services/esri.py:495-507 | a magic key is only sent with single-line text, a search extent only with structured fields |
| Esri.StreetAddr | omgeo/services/esri.py:552-559 | the street address is empty exactly when every street field is |
| Esri.StreetAddrSplits | omgeo/services/esri.py:552-559 | splitting the street address at spaces gives back the non-empty fields |
| Esri.WithComponents | omgeo/services/esri.py:534-537 | copies each response component into its candidate attribute and leaves the others |
| Esri.AddressStep | omgeo/services/esri.py:417 | grouping by `match_addr` leaves distinct addresses, only input candidates, and something from a non-empty list; a best-first list stays best-first |
| Esri.PointStep | omgeo/services/esri.py:418 | grouping by `(x, y)` leaves distinct points, only input candidates, and something from a non-empty list; a best-first list stays best-first |
| Esri.DefaultChain | omgeo/services/esri.py:400-419 | the default postprocessing leaves distinct match addresses and distinct points, from the input, ordered best score first, and something whenever a good locator type was present |
| USCensus.GeocodeRequest | omgeo/services/us_census.py:17-30 | free text goes to `onelineaddress`; structured fields go to `address`; both send json and the current benchmark |
| USCensus.RequestKindsDisjoint | omgeo/services/us_census.py:22-30 | one-line and structured parameters are never sent together |
| USCensus.DigitLen | omgeo/services/us_census.py:69-71 | the leading digit run of the matched address |
| USCensus.StreetAddr | omgeo/services/us_census.py:61-78 | empty exactly when the match does not start with a digit; otherwise it starts with the house number |
| USCensus.StreetAddrSplits | omgeo/services/us_census.py:61-78 | splitting at spaces gives the house number and the non-empty street fields |
| USCensus.WithComponents | omgeo/services/us_census.py:44-48 | city, state and zip copied or `''`, subregion `''`, country `USA`, other attributes kept |
| Google.NewGoogle | omgeo/services/google.py:16-25 | preprocessing defaults to `ComposeSingleLine` alone |
| Google.DefaultPreComposes | omgeo/services/google.py:16 | every query reaches the API composed into one line |
| Google.GeocodeParams | omgeo/services/google.py:28-36 | address and key always, country restriction exactly with a country, bounds exactly with a viewbox; a missing key raises |
| Google.GetComponent | omgeo/services/google.py:78-81 | the requested name of the first component of the type, `''` when none has it |
| Google.GetComponentPrefix | omgeo/services/google.py:78-81 | components after the first match are never looked at |
| Google.Locator | omgeo/services/google.py:18-21 | `ROOFTOP` and `RANGE_INTERPOLATED` map to `rooftop` and `interpolated`; anything else maps to `''` |
| Google.ResultFields | omgeo/services/google.py:47-58 | locator through the mapping; `partial_match` defaults to false; region and country by short name; the rest by long name |
| Google.NoComponentsEmpty | omgeo/services/google.py:47-58 | a result without components gives empty component fields |
| MapQuest.Appended | omgeo/services/mapquest.py:23-28 | each non-empty argument sets its key, the last one winning; keys without a non-empty argument keep their value |
| MapQuest.AppendedNothing | omgeo/services/mapquest.py:23-28 | only empty arguments leave the location unchanged |
| MapQuest.AppendedAt | omgeo/services/mapquest.py:23-28 | with distinct keys, each key is present exactly when its argument is non-empty or it was present |
| MapQuest.Location | omgeo/services/mapquest.py:29-34 | street is the query, or else the address; each other key is present exactly when its field is non-empty, with that value |
| MapQuest.QueryWinsOverAddress | omgeo/services/mapquest.py:29-31 | with a query, the address is ignored |
| MapQuest.GeocodeParams | omgeo/services/mapquest.py:38-41 | the unquoted key and the JSON location always, the viewbox exactly when present; a missing key raises |
| MapQuest.PresentValues | omgeo/services/mapquest.py:49-51 | exactly the values of the listed keys present in the response, one per present key, in the order of the key list |
| MapQuest.MatchAddr | omgeo/services/mapquest.py:49-51 | empty when no listed element is present; otherwise starts with the first present element's value, and is exactly that value when it is the only one |
| MapQuest.MatchAddrOnlyElements | omgeo/services/mapquest.py:49-51 | only street, city, state, county and postal code affect the match address |
| MapQuest.MatchAddrSplits | omgeo/services/mapquest.py:49-51 | without commas in the values, splitting at commas gives the first value and the rest with a leading space |
| MapQuest.ResultFields | omgeo/services/mapquest.py:47-54 | x is the longitude, y the latitude, wkid 4326, locator and confidence from the quality fields |
| Bing.NewBing | omgeo/services/bing.py:23-67 | preprocessing defaults to `ReplaceRangeWithNumber`; postprocessing defaults to none |
| Bing.DefaultChains | omgeo/services/bing.py:23-62 | by default a query reaches the API with its ranges replaced and candidates come back unchanged |
| Bing.AddressParams | omgeo/services/bing.py:70-78 | a blank query sends the five structured fields; any other sends the query alone |
| Bing.ExtraParams | omgeo/services/bing.py:80-87 | map view exactly with a viewbox, culture and user IP exactly when given, user location exactly when both coordinates are given |
| Bing.GeocodeParams | omgeo/services/bing.py:70-90 | the address and optional parameters plus the key; a missing key raises |
| Bing.BlankQueryUsesAddress | omgeo/services/bing.py:70-78 | a whitespace-only query sends the structured fields and no query; any other sends the query and no structured field |
| Bing.ResultFields | omgeo/services/bing.py:95-101 | x is the second coordinate and y the first, wkid 4326; no geocode point or fewer than two coordinates raises |
| Bing.LatitudeFirst | omgeo/services/bing.py:95-101 | a Bing point `[lat, lon]` lands where MapQuest puts the same latitude and longitude |

## Left out

- The HTTP requests, JSON parsing of responses and the loops over response
  entries: the upstream call is a parameter of each service.
- The clock: the elapsed time of a service call is part of the upstream outcome.
- The great-circle test of `SnapPoints` is the `within` parameter, because it
  uses floating-point trigonometry.
- Number-to-text formatting (`str` of a float, `%f`), `urllib.unquote` and
  `json.dumps` are parameters (`show`, `fixed`, `unquote`, `dumps`).
- Preprocessors.ParseSingleLine: its unit and postcode regular expressions are
  parameters (`Patterns`), not compiled regular expressions.
  The found postcode is looked for as a plain substring, while the source
  passes it to `re.search` as a pattern; the two agree for postcodes free of
  regular-expression metacharacters.
- Text: `\w`, `\d` and case mapping (`lower`, `upper`) cover ASCII only.
  Whitespace (`\s`, `strip()`, `str.isspace`) is the full Unicode set of
  Python 3's `str.isspace`. Python 2 `unicode` strings are the same as `str`.
- Python version: setup.py declares Python 2.6 and 2.7, while the code also
  imports the Python 3 modules first (omgeo/services/base.py:8-16). Where the
  two differ, the model follows Python 3: `round` sends halves to the even
  neighbour (`ServiceBase.RoundHalfEven`); dicts iterate in insertion order
  (the entry lists of `AttrRename`, `AttrMigrator` and `Esri.LocatorMap`);
  and whitespace is Unicode. Under Python 2, `round` sends halves away from
  zero, dict order is arbitrary, and `\s` on a byte string is ASCII.
- Places.NewViewbox: `wkid` is an `int` parameter, while the source stores
  whatever object it is given without checking it (omgeo/places.py:10, 25-27).
- Places.Field: the viewbox attribute cannot be named by `CancelIfRegexInAttr`,
  since its value is not a string.
- Values: `Bool` and `Num` are distinct, so `True == 1` does not hold. Scores
  are reals; floating-point rounding is not modelled.
- Processors that mutate a shared list or query are modelled as returning new
  values, so aliasing between the returned and the given list is not modelled.
  The one visible effect, `AttrReverseSorter` reversing its list in place, is
  modelled explicitly.
- The Mapzen, Nominatim, EsriEU, EsriNA and SOAP-based services, because they
  are not part of this model.
- The stats logger and `convert_geocode_result_to_nested_dicts`: a logging
  failure is a boolean parameter.
- `add_source`, `remove_source` and `_get_service_by_name`: these resolve
  services by dynamic import.
- Esri, US Census and MapQuest response fields are strings. A non-string value
  would make the `join` raise, and that is not modelled.
- Bing.ExtraParams: `%f` on a non-number raising is not modelled, because
  `fixed` is a parameter.
- Esri.DefaultChain: the class's default preprocessor `CancelIfPOBox` is
  modelled separately as `Preprocessors.CancelIfPOBox` and is not wired into
  an Esri service.
- Google.ResultFields, MapQuest.ResultFields, Bing.ResultFields: the candidate
  is a record of its fields rather than a `Candidate`, and the `Candidate` is
  built by `Places.NewCandidate`.
- Dupes.DupePicker: as a model of the older revision it reads
  omgeo/processors/postprocessors.py as Python 2. Under Python 3 the older
  `cleanup` evaluates `unicode` (omgeo/processors/postprocessors.py:340) and
  raises `NameError` for any non-empty list; that is not modelled.
- Postprocessors.AttrRename: as a model of the older revision, `caseSensitive`
  is a bool. The older `_cc` tests `is False`
  (omgeo/processors/postprocessors.py:77-78), so a false value that is not
  `False`, such as `None` or `0`, would compare case-sensitively there and
  case-insensitively in the current code.
- ServiceBase.GeocodeOutcomes: for a negative elapsed time the recorded error
  is the message alone. The source appends `format_exc()`, the traceback text
  that ends with that message (omgeo/services/base.py:226-228).
- Esri.PromotePostal: returns a changed copy of the query. The source assigns
  `pq.query` in place (omgeo/services/esri.py:480-481), and that object is the
  `processed_pq` already held by the `UpstreamResponseInfo` record
  (omgeo/services/base.py:218-219). So in the source the record's query also
  shows the postal code; in the model it keeps the preprocessed query.
- Pipeline.RunPre, Pipeline.RunAll: processors are total functions. An
  exception raised inside a processor is not modelled. Examples are the
  `TypeError` of `CancelIfRegexInAttr` on a non-string attribute
  (omgeo/preprocessors.py:219-220) and an `AttributeError` from `getattr` on a
  missing attribute. In the source such an exception is raised outside the
  `try` of omgeo/services/base.py:221-229, so it escapes `geocode` rather
  than being recorded as an upstream error.
- Bing.NewBing: the first, shadowed `DEFAULT_POSTPROCESSORS` list of the class
  is never used and is not modelled.

## Findings

| source | as written | input that shows it | evidently intended | confidence | as-written member | corrected member |
|---|---|---|---|---|---|---|
| omgeo/postprocessors.py:430-434 | with `return_clean`, `cleanup(nc)` is applied to the candidate, not to its attribute, so the candidate comes back unchanged | the documented table with `return_clean=True`: `123, S Wood ST` comes back with its comma | the dupe attribute of each returned candidate is upper-cased and comma-free | not executed | Dupes.DupePicker, DupeExamples.ReturnCleanAsWritten | Dupes.DupePickerCleaned, DupeExamples.ReturnCleanCorrected |
| omgeo/places.py:19-20 | the message formats the 4-tuple `bounds` into a single `%s`, so building it raises `TypeError` | `Viewbox(left='a')` | raise `ValueError('One or more bounds (...) is not a real number.')` | not executed | Places.NewViewbox, Places.NonNumberBoundTypeError | Places.NewViewboxIntended, Places.ViewboxRevisionsAgree |
| omgeo/geocoder.py:105-108 | a rejecting universal preprocessor calls `get_result()`, which is not defined, so `geocode` raises `NameError` | any geocoder whose first preprocessor rejects the query | return an empty result (no candidates, no upstream info) | not executed | Orchestrator.Geocode, Orchestrator.RejectionRaises | Orchestrator.GeocodeFixed |

=== FILE: bing.dfy ===
/**
 * The Bing adapter of `omgeo/services/bing.py`, up to the network call:
 * its effective default processors, the request parameters chosen for a
 * query, and the fields and coordinates of its candidates.
 */
module Bing {
  import opened Wrappers
  import opened Values
  import opened Text
  import opened Places
  import opened Pipeline
  import opened ServiceBase
  import Preprocessors
  import MapQuest

  // ----------------------------------------------------------------------
  // Construction

  /** `ReplaceRangeWithNumber` as a preprocessor: it never rejects. */
  function ReplaceRangePre(): Pre {
    (pq: PlaceQuery) => Some(Preprocessors.ReplaceRangeWithNumber(pq))
  }

  /**
   * The class's default postprocessors.  The class body assigns a long
   * list first and then rebinds the name to `[]`; only the second binding
   * is ever seen.
   */
  const DefaultPost: seq<Post> := []

  /** `Bing(preprocessors, postprocessors, settings)`. */
  function NewBing(backend: PlaceQuery -> Outcome, pre: Option<seq<Pre>>, post: Option<seq<Post>>,
                   settings: Option<map<string, Value>>): (r: Service)
    ensures pre.None? ==> r.pre == [ReplaceRangePre()]
    ensures pre.Some? ==> r.pre == pre.value
    ensures post.None? ==> r.post == []
    ensures post.Some? ==> r.post == post.value
    ensures r.name == "Bing"
  {
    NewService("Bing", backend, Some(pre.GetOr([ReplaceRangePre()])), Some(post.GetOr(DefaultPost)), settings)
  }

  /**
   * With the defaults, every query reaches the backend with its ranges
   * replaced, and the candidates come back exactly as the backend gave
   * them.
   */
  lemma {:induction false} DefaultChains(backend: PlaceQuery -> Outcome, settings: Option<map<string, Value>>, pq: PlaceQuery,
                      cs: seq<Candidate>)
    ensures var s := NewBing(backend, None, None, settings);
      RunPre(s.pre, pq) == PreRun(Some(Preprocessors.ReplaceRangeWithNumber(pq)), 1)
      && Gated(s.post, cs) == cs
  {
    var s := NewBing(backend, None, None, settings);
    assert s.pre[1..] == [];
  }

  // ----------------------------------------------------------------------
  // _geocode: request parameters

  datatype Param = AddressLine | Locality | AdminDistrict | PostalCode | CountryRegion | Query
                 | Umv | Culture | UserIp | UserLocation | Key

  function Name(p: Param): string {
    match p
    case AddressLine => "addressLine"
    case Locality => "locality"
    case AdminDistrict => "adminDistrict"
    case PostalCode => "postalCode"
    case CountryRegion => "countryRegion"
    case Query => "query"
    case Umv => "umv"
    case Culture => "c"
    case UserIp => "uip"
    case UserLocation => "ul"
    case Key => "key"
  }

  const StructuredKeys: set<Param> := {AddressLine, Locality, AdminDistrict, PostalCode, CountryRegion}

  /** The address parameters: structured fields for a blank query, else the query alone. */
  function AddressParams(pq: PlaceQuery): (r: map<Param, Value>)
    ensures Strip(pq.query) == "" ==>
      (r.Keys == StructuredKeys
       && r[AddressLine] == Str(pq.address) && r[Locality] == Str(pq.city)
       && r[AdminDistrict] == Str(pq.state) && r[PostalCode] == Str(pq.postal)
       && r[CountryRegion] == Str(pq.country))
    ensures Strip(pq.query) != "" ==> r.Keys == {Query} && r[Query] == Str(pq.query)
    ensures Key !in r && r.Keys !! ExtraKeys
  {
    QueryOrFields(Strip(pq.query) == "", pq)
  }

  /** The structured fields when `blank`, else the query alone. */
  function QueryOrFields(blank: bool, pq: PlaceQuery): (r: map<Param, Value>)
    ensures blank ==> r == StructuredParams(pq.address, pq.city, pq.state, pq.postal, pq.country)
    ensures !blank ==> r.Keys == {Query} && r[Query] == Str(pq.query)
    ensures Key !in r && r.Keys !! ExtraKeys
  {
    if blank then StructuredParams(pq.address, pq.city, pq.state, pq.postal, pq.country)
    else map[Query := Str(pq.query)]
  }

  /** The five structured fields, by parameter. */
  function StructuredParams(address: string, city: string, state: string, postal: string, country: string)
    : (r: map<Param, Value>)
    ensures r.Keys == StructuredKeys
    ensures r[AddressLine] == Str(address) && r[Locality] == Str(city) && r[AdminDistrict] == Str(state)
    ensures r[PostalCode] == Str(postal) && r[CountryRegion] == Str(country)
  {
    map[AddressLine := Str(address), Locality := Str(city), AdminDistrict := Str(state),
        PostalCode := Str(postal), CountryRegion := Str(country)]
  }

  const ExtraKeys: set<Param> := {Umv, Culture, UserIp, UserLocation}

  /**
   * The optional parameters: the map view when a viewbox is given, and
   * the culture, the user's IP and the user's location when the query
   * carries those extra attributes (the location only when it carries
   * both coordinates).  `fixed` is the `%f` rendering of a number.
   */
  function ExtraParams(pq: PlaceQuery, show: real -> string, fixed: Value -> string): (r: map<Param, Value>)
    ensures r.Keys <= ExtraKeys
    ensures Umv in r <==> pq.viewbox.Some?
    ensures pq.viewbox.Some? ==> r[Umv] == Str(ToBingStr(pq.viewbox.value, show))
    ensures Culture in r <==> "culture" in pq.ext
    ensures "culture" in pq.ext ==> r[Culture] == pq.ext["culture"]
    ensures UserIp in r <==> "user_ip" in pq.ext
    ensures "user_ip" in pq.ext ==> r[UserIp] == pq.ext["user_ip"]
    ensures UserLocation in r <==> "user_lat" in pq.ext && "user_lon" in pq.ext
    ensures "user_lat" in pq.ext && "user_lon" in pq.ext ==>
      r[UserLocation] == Str(fixed(pq.ext["user_lat"]) + "," + fixed(pq.ext["user_lon"]))
  {
    var query: map<Param, Value> := map[];
    var query := if pq.viewbox.Some? then query[Umv := Str(ToBingStr(pq.viewbox.value, show))] else query;
    var query := if "culture" in pq.ext then query[Culture := pq.ext["culture"]] else query;
    var query := if "user_ip" in pq.ext then query[UserIp := pq.ext["user_ip"]] else query;
    if "user_lat" in pq.ext && "user_lon" in pq.ext
    then query[UserLocation := Str(fixed(pq.ext["user_lat"]) + "," + fixed(pq.ext["user_lon"]))]
    else query
  }

  /**
   * The parameters for `pq`: the address parameters, the optional ones,
   * and always the API key, whose absence raises.
   */
  function GeocodeParams(pq: PlaceQuery, settings: map<string, Value>, show: real -> string, fixed: Value -> string)
    : (r: Result<map<Param, Value>, string>)
    ensures r.Err? <==> "api_key" !in settings
    ensures r.Ok? ==> r.value.Keys == AddressParams(pq).Keys + ExtraParams(pq, show, fixed).Keys + {Key}
    ensures r.Ok? ==> r.value[Key] == settings["api_key"]
    ensures r.Ok? ==> forall p :: p in AddressParams(pq) ==> r.value[p] == AddressParams(pq)[p]
    ensures r.Ok? ==> forall p :: p in ExtraParams(pq, show, fixed) ==> r.value[p] == ExtraParams(pq, show, fixed)[p]
  {
    if "api_key" !in settings then Err("KeyError: api_key")
    else Ok(WithKey(AddressParams(pq), ExtraParams(pq, show, fixed), settings["api_key"]))
  }

  /** `dict(dict(address, **extra), key=key)` for disjoint parameter sets. */
  function WithKey(address: map<Param, Value>, extra: map<Param, Value>, key: Value): (r: map<Param, Value>)
    requires address.Keys !! extra.Keys
    ensures r.Keys == address.Keys + extra.Keys + {Key}
    ensures r[Key] == key
    ensures forall p :: p in address && p != Key ==> r[p] == address[p]
    ensures forall p :: p in extra && p != Key ==> r[p] == extra[p]
  {
    (address + extra)[Key := key]
  }

  /**
   * A query of whitespace only sends the structured fields and no `query`;
   * any other query sends `query` and none of the structured fields.
   */
  lemma {:induction false} BlankQueryUsesAddress(pq: PlaceQuery, settings: map<string, Value>, show: real -> string,
                              fixed: Value -> string)
    requires "api_key" in settings
    ensures var r := GeocodeParams(pq, settings, show, fixed).value;
      (AllSpace(pq.query) ==> StructuredKeys <= r.Keys && Query !in r)
      && (!AllSpace(pq.query) ==> Query in r && r[Query] == Str(pq.query) && r.Keys !! StructuredKeys)
  {
    AddressKinds(pq);
    var a := AddressParams(pq);
    var e := ExtraParams(pq, show, fixed);
    var r := GeocodeParams(pq, settings, show, fixed).value;
    KeysByKind(a.Keys, e.Keys, r.Keys);
    if !AllSpace(pq.query) {
      assert r[Query] == a[Query];
    }
  }

  lemma {:induction false} KeysByKind(a: set<Param>, e: set<Param>, r: set<Param>)
    requires r == a + e + {Key} && e <= ExtraKeys
    ensures a == StructuredKeys ==> StructuredKeys <= r && Query !in r
    ensures a == {Query} ==> Query in r && r !! StructuredKeys
  {
  }

  /** The address parameters by whether the query is whitespace only. */
  lemma {:induction false} AddressKinds(pq: PlaceQuery)
    ensures AllSpace(pq.query) ==> AddressParams(pq).Keys == StructuredKeys
    ensures !AllSpace(pq.query) ==> AddressParams(pq).Keys == {Query} && AddressParams(pq)[Query] == Str(pq.query)
  {
    StripBlank(pq.query);
  }

  // ----------------------------------------------------------------------
  // Candidates

  /** One entry of a resource's `geocodePoints`. */
  datatype GeocodePoint = GeocodePoint(calculationMethod: Value, coordinates: seq<Value>)

  /** One returned resource. */
  datatype Resource = Resource(entityType: Value, confidence: Value, name: Value, geocodePoints: seq<GeocodePoint>)

  /** The fields a resource gives its candidate. */
  datatype MatchFields = MatchFields(entity: Value, locator: Value, confidence: Value, matchAddr: Value,
                                     x: Value, y: Value, wkid: int)

  /**
   * The candidate fields of a resource, from its first geocode point:
   * Bing lists latitude first, so `x` is the second coordinate and `y` the
   * first.  A resource without a point, or a point with fewer than two
   * coordinates, raises.
   */
  function ResultFields(res: Resource): (r: Result<MatchFields, string>)
    ensures r.Err? <==> |res.geocodePoints| == 0 || |res.geocodePoints[0].coordinates| < 2
    ensures r.Ok? ==> r.value.x == res.geocodePoints[0].coordinates[1]
                      && r.value.y == res.geocodePoints[0].coordinates[0]
    ensures r.Ok? ==> r.value.wkid == 4326 && r.value.locator == res.geocodePoints[0].calculationMethod
    ensures r.Ok? ==> r.value.entity == res.entityType && r.value.matchAddr == res.name
                      && r.value.confidence == res.confidence
  {
    if |res.geocodePoints| == 0 then Err("IndexError: geocodePoints")
    else
      var point := res.geocodePoints[0];
      if |point.coordinates| < 2 then Err("IndexError: coordinates")
      else
        Ok(MatchFields(res.entityType, point.calculationMethod, res.confidence, res.name,
                       point.coordinates[1], point.coordinates[0], 4326))
  }

  /**
   * A point reported as `[lat, lon]` becomes the candidate at `x = lon`,
   * `y = lat`, the same place the MapQuest adapter puts a location whose
   * `latLng` holds that latitude and longitude.
   */
  lemma {:induction false} LatitudeFirst(res: Resource, lat: Value, lon: Value, loc: MapQuest.ResultLocation)
    requires |res.geocodePoints| > 0 && res.geocodePoints[0].coordinates == [lat, lon]
    requires loc.lat == lat && loc.lng == lon
    ensures ResultFields(res).Ok?
    ensures var f := ResultFields(res).value;
      var g := MapQuest.ResultFields(loc);
      f.x == g.x && f.y == g.y && f.wkid == g.wkid
  {
  }
}

=== FILE: dupe_examples.dfy ===
/**
 * The worked example in the documentation of `DupePicker`
 * (`omgeo/processors/postprocessors.py` and `omgeo/postprocessors.py`):
 * four candidates for 123 Wood St, picked by `match_addr` and ranked by
 * `locator`.
 */
module DupeExamples {
  import opened Values
  import opened Text
  import opened Seqs
  import opened Places
  import opened Postprocessors
  import opened Dupes

  /** Candidate `c` carries the given address, score and locator. */
  predicate Row(c: Candidate, addr: string, score: real, locator: string) {
    && "match_addr" in c.attrs && c.attrs["match_addr"] == Str(addr)
    && "score" in c.attrs && c.attrs["score"] == Num(score)
    && "locator" in c.attrs && c.attrs["locator"] == Str(locator)
  }

  /** `t` is the documented table, with `roof` as the locator of rows 1 and 4. */
  predicate Table(t: seq<Candidate>, roof: string) {
    && |t| == 4
    && (forall i :: 0 <= i < 4 ==> t[i].id == i + 1)
    && HasAttr(t, "match_addr") && HasAttr(t, "locator") && Scored(t)
    && Row(t[0], "123 N Wood St", 90.0, roof)
    && Row(t[1], "123 S Wood St", 90.0, "address")
    && Row(t[2], "123 N WOOD ST", 77.0, "address")
    && Row(t[3], "123, S Wood ST", 85.0, roof)
  }

  /** The documented `ordered_list`: `['rooftop', 'address_point', 'address_range']`. */
  predicate Ranking(r: seq<Value>) {
    |r| == 3 && r[0] == Str("rooftop") && r[1] == Str("address_point") && r[2] == Str("address_range")
  }

  /** `s.upper() == t`, checked character by character. */
  lemma {:induction false} UpperIs(s: string, t: string)
    requires |s| == |t| && forall i :: 0 <= i < |s| ==> UpperChar(s[i]) == t[i]
    ensures Upper(s) == t
  {
  }

  /** Cleaning a comma-free string only upper-cases it. */
  lemma {:induction false} CleanNoComma(s: string, t: string)
    requires ',' !in s && Upper(s) == t
    ensures Clean(Str(s)) == Str(t)
  {
  }

  lemma {:induction false} CleanNorth()
    ensures Clean(Str("123 N Wood St")) == Str("123 N WOOD ST")
    ensures Clean(Str("123 N WOOD ST")) == Str("123 N WOOD ST")
  {
    UpperIs("123 N Wood St", "123 N WOOD ST");
    UpperIs("123 N WOOD ST", "123 N WOOD ST");
    assert ',' !in "123 N Wood St";
    assert ',' !in "123 N WOOD ST";
    CleanNoComma("123 N Wood St", "123 N WOOD ST");
    CleanNoComma("123 N WOOD ST", "123 N WOOD ST");
  }

  lemma {:induction false} CleanSouth()
    ensures Clean(Str("123 S Wood St")) == Str("123 S WOOD ST")
  {
    UpperIs("123 S Wood St", "123 S WOOD ST");
    assert ',' !in "123 S Wood St";
    CleanNoComma("123 S Wood St", "123 S WOOD ST");
  }

  lemma {:induction false} UpperSouth()
    ensures Upper("123 S Wood ST") == "123 S WOOD ST"
  {
    UpperIs("123 S Wood ST", "123 S WOOD ST");
  }

  lemma {:induction false} RemoveLeadingComma()
    ensures RemoveChar(", S Wood ST", ',') == " S Wood ST"
  {
    assert ',' !in " S Wood ST";
    assert ", S Wood ST" == [','] + " S Wood ST";
    RemoveCharHead(',', " S Wood ST");
  }

  lemma {:induction false} RemoveCharHead(c: char, t: string)
    requires c !in t
    ensures RemoveChar([c] + t, c) == t
  {
    assert ([c] + t)[1..] == t;
  }

  lemma {:induction false} SouthParts()
    ensures "123, S Wood ST" == "123" + ", S Wood ST"
    ensures "123" + " S Wood ST" == "123 S Wood ST"
    ensures RemoveChar("123", ',') == "123"
  {
  }

  lemma {:induction false} RemoveCommaSouth()
    ensures RemoveChar("123, S Wood ST", ',') == "123 S Wood ST"
  {
    SouthParts();
    RemoveCharAppend("123", ", S Wood ST", ',');
    RemoveLeadingComma();
  }

  lemma {:induction false} CleanSouthComma()
    ensures Clean(Str("123, S Wood ST")) == Str("123 S WOOD ST")
  {
    RemoveCommaSouth();
    UpperSouth();
  }

  /** The documented rows use one of two spellings for the roof-top locator. */
  predicate RoofSpelling(roof: string) {
    roof == "rooftop" || roof == "roof"
  }

  lemma {:induction false} HiScoreOfTable(t: seq<Candidate>, roof: string)
    requires Table(t, roof)
    ensures Scored(t) && HiScore(t) == 90.0
  {
    assert Score(t[0]) == 90.0 && Score(t[1]) == 90.0 && Score(t[2]) == 77.0 && Score(t[3]) == 85.0;
    HiScoreIsMax(t);
    var k :| 0 <= k < |t| && HasScore(t[k], HiScore(t));
    assert Score(t[k]) <= 90.0;
  }

  lemma {:induction false} TopOfTable(t: seq<Candidate>, roof: string)
    requires Table(t, roof)
    ensures Scored(t) && HiScoreCandidates(t) == [t[0], t[1]]
  {
    HiScoreOfTable(t, roof);
    var keep := c => Selects(c, "score", [Num(90.0)], true);
    assert HiScoreCandidates(t) == Filter(t, keep);
    FilterOf4(t, keep);
    assert keep(t[0]) && keep(t[1]) && !keep(t[2]) && !keep(t[3]);
  }

  lemma {:induction false} MatchingNorth(t: seq<Candidate>, roof: string)
    requires Table(t, roof)
    ensures Matching(t, t[0], "match_addr") == [t[0], t[2]]
  {
    CleanNorth();
    CleanSouth();
    CleanSouthComma();
    var same := c => SameClean(c, t[0], "match_addr");
    FilterOf4(t, same);
    assert Str("123 S WOOD ST") != Str("123 N WOOD ST");
    assert same(t[0]) && !same(t[1]) && same(t[2]) && !same(t[3]);
  }

  lemma {:induction false} MatchingSouth(t: seq<Candidate>, roof: string)
    requires Table(t, roof)
    ensures Matching(t, t[1], "match_addr") == [t[1], t[3]]
  {
    CleanNorth();
    CleanSouth();
    CleanSouthComma();
    var same := c => SameClean(c, t[1], "match_addr");
    FilterOf4(t, same);
    assert Str("123 S WOOD ST") != Str("123 N WOOD ST");
    assert !same(t[0]) && same(t[1]) && !same(t[2]) && same(t[3]);
  }

  /** Sorting a pair by locator when neither locator is ranked keeps the pair as it is. */
  lemma {:induction false} SortUnranked(ranking: seq<Value>, x: Candidate, y: Candidate)
    requires "locator" in x.attrs && "locator" in y.attrs
    requires x.attrs["locator"] !in ranking && y.attrs["locator"] !in ranking
    ensures AttrSorter([x, y], ranking, "locator").out == [x, y]
  {
    BucketsNone(ranking, "locator", [x, y], []);
    FilterAll([x, y], c => Lookup(c, "locator") !in ranking);
  }

  /** Sorting a pair by locator when the first is ranked first and the second unranked keeps the pair. */
  lemma {:induction false} SortTopFirst(ranking: seq<Value>, top: Candidate, other: Candidate)
    requires |ranking| > 0
    requires "locator" in top.attrs && "locator" in other.attrs
    requires top.attrs["locator"] == ranking[0] && top.attrs["locator"] !in ranking[1..]
    requires other.attrs["locator"] !in ranking
    ensures AttrSorter([top, other], ranking, "locator").out == [top, other]
  {
    assert other.attrs["locator"] !in ranking[1..];
    BucketsOfPair(ranking, "locator", top, other);
    UnlistedOfPair(ranking, "locator", top, other);
  }

  /** Sorting a pair by locator when the second is ranked first and the first unranked swaps them. */
  lemma {:induction false} SortTopSecond(ranking: seq<Value>, other: Candidate, top: Candidate)
    requires |ranking| > 0
    requires "locator" in top.attrs && "locator" in other.attrs
    requires top.attrs["locator"] == ranking[0] && top.attrs["locator"] !in ranking[1..]
    requires other.attrs["locator"] !in ranking
    ensures AttrSorter([other, top], ranking, "locator").out == [top, other]
  {
    TopSecondOut(AttrSorter([other, top], ranking, "locator"), ranking, other, top);
  }

  lemma {:induction false} TopSecondOut(r: Processed, ranking: seq<Value>, other: Candidate, top: Candidate)
    requires |ranking| > 0
    requires Lookup(top, "locator") == ranking[0] && Lookup(top, "locator") !in ranking[1..]
    requires Lookup(other, "locator") !in ranking
    requires r.out == Buckets(ranking, "locator", [other, top], []) + r.input
    requires r.input == UnlistedIn([other, top], "locator", ranking)
    ensures r.out == [top, other]
  {
    assert Lookup(other, "locator") !in ranking[1..];
    BucketsOfPair(ranking, "locator", other, top);
    UnlistedOfPair(ranking, "locator", other, top);
  }

  /** A value is unranked when its length or first letter differs from every ranked locator. */
  lemma {:induction false} Unranked(ranking: seq<Value>, s: string)
    requires Ranking(ranking)
    requires |s| != 13 && (|s| != 7 || s[0] != 'r')
    ensures Str(s) !in ranking
  {
    assert |"address_point"| == 13 && |"address_range"| == 13 && "rooftop"[0] == 'r';
  }

  lemma {:induction false} AddressUnranked(ranking: seq<Value>)
    requires Ranking(ranking)
    ensures Str("address") !in ranking && Str("roof") !in ranking
  {
    Unranked(ranking, "address");
    Unranked(ranking, "roof");
  }

  lemma {:induction false} RooftopFirst(ranking: seq<Value>)
    requires Ranking(ranking)
    ensures ranking[0] == Str("rooftop") && Str("rooftop") !in ranking[1..]
  {
    assert ranking[1..] == [ranking[1], ranking[2]];
    assert |"address_point"| == 13 && |"address_range"| == 13;
  }

  /** Filtering a pair on the first one's raw value: the first, and the second if its value is the same. */
  lemma {:induction false} FilterPairOnFirst(x: Candidate, y: Candidate, attr: string)
    requires attr in x.attrs && attr in y.attrs
    ensures AttrFilter([x, y], [x.attrs[attr]], attr, true)
         == [x] + (if y.attrs[attr] == x.attrs[attr] then [y] else [])
  {
    var keep := c => Selects(c, attr, [x.attrs[attr]], true);
    FilterOf2([x, y], keep);
  }

  /** The queue drawn from a ranked pair: the first, and the second if its raw value is the same. */
  lemma {:induction false} QueueOfPair(cs: seq<Candidate>, h: Candidate, attrDupes: string, attrSort: string, orderedList: seq<Value>,
                    x: Candidate, y: Candidate)
    requires HasAttr(cs, attrDupes) && h in cs
    requires SortableFor(cs, h, attrDupes, attrSort, orderedList)
    requires attrDupes in x.attrs && attrDupes in y.attrs
    ensures Ranked(cs, h, attrDupes, attrSort, orderedList) == [x, y] ==>
      Queue(cs, h, attrDupes, attrSort, orderedList) == [x] + (if y.attrs[attrDupes] == x.attrs[attrDupes] then [y] else [])
  {
    if Ranked(cs, h, attrDupes, attrSort, orderedList) == [x, y] {
      FilterPairOnFirst(x, y, attrDupes);
    }
  }

  /** Every duplicate can be ranked when every candidate carries the ranking attribute. */
  lemma {:induction false} SortableAll(cs: seq<Candidate>, h: Candidate, attrDupes: string, attrSort: string, orderedList: seq<Value>)
    requires HasAttr(cs, attrSort)
    ensures SortableFor(cs, h, attrDupes, attrSort, orderedList)
  {
  }

  lemma {:induction false} PairHasAttr(x: Candidate, y: Candidate, a: string)
    requires a in x.attrs && a in y.attrs
    ensures HasAttr([x, y], a)
  {
  }

  /** `Ranked` is the sort of the matching candidates. */
  lemma {:induction false} RankedIs(cs: seq<Candidate>, h: Candidate, attrDupes: string, attrSort: string, orderedList: seq<Value>,
                 m: seq<Candidate>)
    requires h in cs && SortableFor(cs, h, attrDupes, attrSort, orderedList)
    requires Matching(cs, h, attrDupes) == m && HasAttr(m, attrSort)
    ensures Ranked(cs, h, attrDupes, attrSort, orderedList) == AttrSorter(m, orderedList, attrSort).out
  {
  }

  lemma {:induction false} RankedNorth(t: seq<Candidate>, roof: string, ranking: seq<Value>)
    requires Table(t, roof) && RoofSpelling(roof) && Ranking(ranking)
    ensures SortableFor(t, t[0], "match_addr", "locator", ranking)
    ensures Ranked(t, t[0], "match_addr", "locator", ranking) == [t[0], t[2]]
  {
    SortableAll(t, t[0], "match_addr", "locator", ranking);
    MatchingNorth(t, roof);
    AddressUnranked(ranking);
    RooftopFirst(ranking);
    if roof == "rooftop" {
      SortTopFirst(ranking, t[0], t[2]);
    } else {
      SortUnranked(ranking, t[0], t[2]);
    }
    PairHasAttr(t[0], t[2], "locator");
    RankedIs(t, t[0], "match_addr", "locator", ranking, [t[0], t[2]]);
  }

  lemma {:induction false} RankedSouth(t: seq<Candidate>, roof: string, ranking: seq<Value>)
    requires Table(t, roof) && RoofSpelling(roof) && Ranking(ranking)
    ensures SortableFor(t, t[1], "match_addr", "locator", ranking)
    ensures Ranked(t, t[1], "match_addr", "locator", ranking) == if roof == "rooftop" then [t[3], t[1]] else [t[1], t[3]]
  {
    SortableAll(t, t[1], "match_addr", "locator", ranking);
    MatchingSouth(t, roof);
    AddressUnranked(ranking);
    RooftopFirst(ranking);
    PairHasAttr(t[1], t[3], "locator");
    if roof == "rooftop" {
      SortTopSecond(ranking, t[1], t[3]);
      RankedIs(t, t[1], "match_addr", "locator", ranking, [t[1], t[3]]);
    } else {
      SortUnranked(ranking, t[1], t[3]);
      RankedIs(t, t[1], "match_addr", "locator", ranking, [t[1], t[3]]);
    }
  }

  /** The queue for the north address holds the first row only, whichever spelling is used. */
  lemma {:induction false} QueueNorth(t: seq<Candidate>, roof: string, ranking: seq<Value>)
    requires Table(t, roof) && RoofSpelling(roof) && Ranking(ranking)
    ensures SortableFor(t, t[0], "match_addr", "locator", ranking)
    ensures Queue(t, t[0], "match_addr", "locator", ranking) == [t[0]]
  {
    RankedNorth(t, roof, ranking);
    QueueOfPair(t, t[0], "match_addr", "locator", ranking, t[0], t[2]);
    assert Str("123 N WOOD ST") != Str("123 N Wood St");
  }

  /**
   * The queue for the south address: the comma-spelled row when its
   * locator is `rooftop`, the plain row otherwise.
   */
  lemma {:induction false} QueueSouth(t: seq<Candidate>, roof: string, ranking: seq<Value>)
    requires Table(t, roof) && RoofSpelling(roof) && Ranking(ranking)
    ensures SortableFor(t, t[1], "match_addr", "locator", ranking)
    ensures Queue(t, t[1], "match_addr", "locator", ranking) == if roof == "rooftop" then [t[3]] else [t[1]]
  {
    RankedSouth(t, roof, ranking);
    assert Str("123 S Wood St") != Str("123, S Wood ST");
    if roof == "rooftop" {
      QueueOfPair(t, t[1], "match_addr", "locator", ranking, t[3], t[1]);
    } else {
      QueueOfPair(t, t[1], "match_addr", "locator", ranking, t[1], t[3]);
    }
  }

  /** One turn of the loop over the top candidates. */
  lemma {:induction false} PickLoopStep(hs: seq<Candidate>, cs: seq<Candidate>, attrDupes: string, attrSort: string,
                     orderedList: seq<Value>, acc: seq<Candidate>)
    requires HasAttr(cs, attrDupes) && |hs| > 0
    requires forall k :: 0 <= k < |hs| ==> hs[k] in cs && SortableFor(cs, hs[k], attrDupes, attrSort, orderedList)
    ensures PickLoop(hs, cs, attrDupes, attrSort, orderedList, acc)
         == PickLoop(hs[1..], cs, attrDupes, attrSort, orderedList,
                     acc + Fresh(Queue(cs, hs[0], attrDupes, attrSort, orderedList), acc))
  {
  }

  lemma {:induction false} PairSortable(a: Candidate, b: Candidate, cs: seq<Candidate>, attrDupes: string, attrSort: string,
                     orderedList: seq<Value>)
    requires a in cs && b in cs
    requires SortableFor(cs, a, attrDupes, attrSort, orderedList) && SortableFor(cs, b, attrDupes, attrSort, orderedList)
    ensures forall k :: 0 <= k < |[a, b]| ==> [a, b][k] in cs && SortableFor(cs, [a, b][k], attrDupes, attrSort, orderedList)
    ensures forall k :: 0 <= k < |[b]| ==> [b][k] in cs && SortableFor(cs, [b][k], attrDupes, attrSort, orderedList)
  {
    forall k | 0 <= k < 2
      ensures [a, b][k] in cs && SortableFor(cs, [a, b][k], attrDupes, attrSort, orderedList)
    {
      if k == 0 {
        assert [a, b][k] == a;
      } else {
        assert [a, b][k] == b;
      }
    }
  }

  /** The loop over two top candidates, unrolled. */
  lemma {:induction false} PickLoopOfPair(hs: seq<Candidate>, cs: seq<Candidate>, attrDupes: string, attrSort: string,
                       orderedList: seq<Value>, acc: seq<Candidate>)
    requires HasAttr(cs, attrDupes) && |hs| == 2
    requires forall k :: 0 <= k < |hs| ==> hs[k] in cs && SortableFor(cs, hs[k], attrDupes, attrSort, orderedList)
    ensures var acc1 := acc + Fresh(Queue(cs, hs[0], attrDupes, attrSort, orderedList), acc);
      PickLoop(hs, cs, attrDupes, attrSort, orderedList, acc)
        == acc1 + Fresh(Queue(cs, hs[1], attrDupes, attrSort, orderedList), acc1)
  {
    var acc1 := acc + Fresh(Queue(cs, hs[0], attrDupes, attrSort, orderedList), acc);
    PickLoopStep(hs, cs, attrDupes, attrSort, orderedList, acc);
    assert hs[1..] == [hs[1]];
    PickLoopOfOne(hs[1], cs, attrDupes, attrSort, orderedList, acc1);
  }

  /** The loop over one top candidate adds the new members of its queue. */
  lemma {:induction false} PickLoopOfOne(b: Candidate, cs: seq<Candidate>, attrDupes: string, attrSort: string,
                      orderedList: seq<Value>, acc: seq<Candidate>)
    requires HasAttr(cs, attrDupes) && b in cs
    requires SortableFor(cs, b, attrDupes, attrSort, orderedList)
    ensures PickLoop([b], cs, attrDupes, attrSort, orderedList, acc)
         == acc + Fresh(Queue(cs, b, attrDupes, attrSort, orderedList), acc)
  {
    assert [b][0] == b;
    assert [b][1..] == [];
  }

  /** Whether a single candidate is new. */
  lemma {:induction false} FreshOne(x: Candidate, acc: seq<Candidate>)
    ensures Fresh([x], acc) == if x.id in Ids(acc) then [] else [x]
  {
    FilterOf1([x], (c: Candidate) => c.id !in Ids(acc));
  }

  lemma {:induction false} IdsOne(x: Candidate)
    ensures Ids([x]) == {x.id}
  {
    assert [x][0] == x;
  }

  /** Two single queues with distinct candidates each add their candidate. */
  lemma {:induction false} TwoFresh(x: Candidate, y: Candidate)
    requires x.id != y.id
    ensures var acc1 := [] + Fresh([x], []);
      acc1 == [x] && acc1 + Fresh([y], acc1) == [x, y]
  {
    FreshOne(x, []);
    IdsOne(x);
    FreshOne(y, [x]);
  }

  /** Every row of the documented table carries a locator, so the picker is defined on it. */
  lemma {:induction false} TableDefined(t: seq<Candidate>, roof: string, ranking: seq<Value>)
    requires Table(t, roof)
    ensures DupePickerDefined(t, "match_addr", "locator", ranking)
  {
    forall i | 0 <= i < |t|
      ensures SortableFor(t, t[i], "match_addr", "locator", ranking)
    {
      SortableAll(t, t[i], "match_addr", "locator", ranking);
    }
  }

  /**
   * The documented example: the north address keeps its roof-top row,
   * and the south address is represented by its roof-top row when the
   * locator is spelled `rooftop` (the documented output) and by its
   * top-scoring row when it is spelled `roof`, which is not in the
   * ranking.
   */
  lemma {:induction false} DocumentedPick(t: seq<Candidate>, roof: string, ranking: seq<Value>)
    requires Table(t, roof) && RoofSpelling(roof) && Ranking(ranking)
    ensures DupePickerDefined(t, "match_addr", "locator", ranking)
    ensures PickDupes(t, "match_addr", "locator", ranking) == if roof == "rooftop" then [t[0], t[3]] else [t[0], t[1]]
  {
    TableDefined(t, roof, ranking);
    TopOfTable(t, roof);
    QueueNorth(t, roof, ranking);
    QueueSouth(t, roof, ranking);
    var south := if roof == "rooftop" then t[3] else t[1];
    TwoFresh(t[0], south);
    assert PickDupes(t, "match_addr", "locator", ranking) == PickLoop([t[0], t[1]], t, "match_addr", "locator", ranking, []);
    PairSortable(t[0], t[1], t, "match_addr", "locator", ranking);
    PickLoopOfPair([t[0], t[1]], t, "match_addr", "locator", ranking, []);
  }

  /**
   * With `return_clean` the documented output shows the addresses upper
   * case and without commas; as written, the picker returns the rows
   * untouched.
   */
  lemma {:induction false} ReturnCleanAsWritten(t: seq<Candidate>, ranking: seq<Value>)
    requires Table(t, "rooftop") && Ranking(ranking)
    ensures DupePickerDefined(t, "match_addr", "locator", ranking)
    ensures var r := DupePicker(t, "match_addr", "locator", ranking, true);
      |r| == 2 && Lookup(r[0], "match_addr") == Str("123 N Wood St") && Lookup(r[1], "match_addr") == Str("123, S Wood ST")
  {
    DocumentedPick(t, "rooftop", ranking);
  }

  /** The corrected picker returns the documented cleaned addresses. */
  lemma {:induction false} ReturnCleanCorrected(t: seq<Candidate>, ranking: seq<Value>)
    requires Table(t, "rooftop") && Ranking(ranking)
    ensures DupePickerDefined(t, "match_addr", "locator", ranking)
    ensures var r := DupePickerCleaned(t, "match_addr", "locator", ranking, true);
      |r| == 2 && Lookup(r[0], "match_addr") == Str("123 N WOOD ST") && Lookup(r[1], "match_addr") == Str("123 S WOOD ST")
  {
    DocumentedPick(t, "rooftop", ranking);
    CleanNorth();
    CleanSouthComma();
  }
}

=== FILE: dupe_picker.dfy ===
/**
 * `DupePicker` of `omgeo/postprocessors.py` (and its older copy in
 * `omgeo/processors/postprocessors.py`): among the top-scoring
 * candidates, replace each by the best-ranked candidate(s) whose
 * attribute `attr_dupes` is the same address up to case and commas.
 */
module Dupes {
  import opened Values
  import opened Text
  import opened Seqs
  import opened Places
  import opened Postprocessors

  /** What `cleanup` may be handed: an attribute value, or a whole candidate object. */
  datatype PyObj = AttrValue(v: Value) | Object(c: Candidate)

  /** `cleanup`: strings lose their commas and are upper-cased; anything else is returned as is. */
  function Cleanup(o: PyObj): (r: PyObj)
    ensures o.Object? ==> r == o
    ensures o.AttrValue? ==> r.AttrValue? && (o.v.Str? <==> r.v.Str?)
    ensures o.AttrValue? && o.v.Str? ==> ',' !in r.v.s && |r.v.s| <= |o.v.s|
  {
    if o.AttrValue? && o.v.Str? then AttrValue(Str(Upper(RemoveChar(o.v.s, ',')))) else o
  }

  /** `cleanup` of an attribute value. */
  function Clean(v: Value): Value {
    Cleanup(AttrValue(v)).v
  }

  /** Two candidates carry essentially the same `attr`: equal once cleaned. */
  predicate SameClean(a: Candidate, b: Candidate, attr: string) {
    Clean(Lookup(a, attr)) == Clean(Lookup(b, attr))
  }

  /** Cleaning is idempotent: a cleaned string has no commas and is already upper case. */
  lemma {:induction false} CleanIdempotent(v: Value)
    ensures Clean(Clean(v)) == Clean(v)
  {
    if v.Str? {
      var u := Upper(RemoveChar(v.s, ','));
      assert ',' !in u by {
        forall i | 0 <= i < |u|
          ensures u[i] != ','
        {
          assert RemoveChar(v.s, ',')[i] != ',';
        }
      }
      assert Upper(u) == u;
    }
  }

  /** `ScoreSorter().process(cs)[0].score`. */
  function HiScore(cs: seq<Candidate>): real
    requires Scored(cs) && |cs| > 0
  {
    var sorted := ScoreSorter(cs, true);
    assert cs[0] in multiset(sorted);
    Score(sorted[0])
  }

  /** The first candidate of the score sort holds the maximum score. */
  lemma {:induction false} HiScoreIsMax(cs: seq<Candidate>)
    requires Scored(cs) && |cs| > 0
    ensures forall i :: 0 <= i < |cs| ==> Score(cs[i]) <= HiScore(cs)
    ensures exists i :: 0 <= i < |cs| && HasScore(cs[i], HiScore(cs))
  {
    var sorted := ScoreSorter(cs, true);
    assert cs[0] in multiset(sorted);
    forall i | 0 <= i < |cs|
      ensures Score(cs[i]) <= HiScore(cs)
    {
      assert cs[i] in multiset(sorted);
      var k :| 0 <= k < |sorted| && sorted[k] == cs[i];
      if k > 0 {
        assert GoesFirst(sorted[0], sorted[k], true);
      }
    }
    assert sorted[0] in multiset(cs);
    var k :| 0 <= k < |cs| && cs[k] == sorted[0];
    assert HasScore(cs[k], HiScore(cs));
  }

  /** `AttrFilter([hi_score], 'score').process(cs)`. */
  function HiScoreCandidates(cs: seq<Candidate>): (r: seq<Candidate>)
    requires Scored(cs) && |cs| > 0
    ensures forall i :: 0 <= i < |cs| ==> (cs[i] in r <==> HasScore(cs[i], HiScore(cs)))
    ensures forall i :: 0 <= i < |r| ==> r[i] in cs && HasScore(r[i], HiScore(cs))
    ensures |r| > 0
  {
    HiScoreIsMax(cs);
    var r := AttrFilter(cs, [Num(HiScore(cs))], "score", true);
    var k :| 0 <= k < |cs| && HasScore(cs[k], HiScore(cs));
    assert cs[k] in r;
    r
  }

  /** The candidates of `cs` that are essentially duplicates of `h`, in input order. */
  function Matching(cs: seq<Candidate>, h: Candidate, attr: string): (r: seq<Candidate>)
    ensures forall i :: 0 <= i < |r| ==> r[i] in cs && SameClean(r[i], h, attr)
    ensures forall i :: 0 <= i < |cs| && SameClean(cs[i], h, attr) ==> cs[i] in r
    ensures multiset(r) <= multiset(cs)
  {
    FilterMultiset(cs, c => SameClean(c, h, attr));
    Filter(cs, c => SameClean(c, h, attr))
  }

  /**
   * `getattr` succeeds throughout the loop body for top candidate `h`:
   * every duplicate of `h` carries `attr_sort` when there is a list to
   * sort by.
   */
  predicate SortableFor(cs: seq<Candidate>, h: Candidate, attrDupes: string, attrSort: string, orderedList: seq<Value>) {
    |orderedList| > 0 ==> forall j :: 0 <= j < |cs| && SameClean(cs[j], h, attrDupes) ==> attrSort in cs[j].attrs
  }

  /** `matching_candidates` after `AttrSorter(ordered_list, attr_sort)`: the duplicates of `h`, best ranked first. */
  function Ranked(cs: seq<Candidate>, h: Candidate, attrDupes: string, attrSort: string, orderedList: seq<Value>): (s: seq<Candidate>)
    requires h in cs
    requires SortableFor(cs, h, attrDupes, attrSort, orderedList)
    ensures |s| > 0
    ensures multiset(s) == multiset(Matching(cs, h, attrDupes))
  {
    var matching := Matching(cs, h, attrDupes);
    assert h in matching by {
      var k :| 0 <= k < |cs| && cs[k] == h;
    }
    var s := AttrSorter(matching, orderedList, attrSort).out;
    assert h in multiset(s);
    s
  }

  /** The ranked duplicates are duplicates of `h` from the input, and all of them. */
  lemma {:induction false} RankedMembers(cs: seq<Candidate>, h: Candidate, attrDupes: string, attrSort: string, orderedList: seq<Value>)
    requires h in cs
    requires SortableFor(cs, h, attrDupes, attrSort, orderedList)
    ensures var s := Ranked(cs, h, attrDupes, attrSort, orderedList);
      && multiset(s) <= multiset(cs)
      && (forall i :: 0 <= i < |s| ==> s[i] in cs && SameClean(s[i], h, attrDupes))
      && (forall i :: 0 <= i < |cs| && SameClean(cs[i], h, attrDupes) ==> cs[i] in s)
  {
    var s := Ranked(cs, h, attrDupes, attrSort, orderedList);
    var matching := Matching(cs, h, attrDupes);
    forall i | 0 <= i < |s|
      ensures s[i] in cs && SameClean(s[i], h, attrDupes)
    {
      assert s[i] in multiset(matching);
    }
    forall i | 0 <= i < |cs| && SameClean(cs[i], h, attrDupes)
      ensures cs[i] in s
    {
      assert cs[i] in multiset(matching);
    }
  }

  /**
   * One pass of the loop body for top candidate `h`: its ranked
   * duplicates narrowed to those whose raw `attr_dupes` equals the
   * top-ranked one's.
   */
  function Queue(cs: seq<Candidate>, h: Candidate, attrDupes: string, attrSort: string, orderedList: seq<Value>): (q: seq<Candidate>)
    requires HasAttr(cs, attrDupes) && h in cs
    requires SortableFor(cs, h, attrDupes, attrSort, orderedList)
    ensures |q| > 0
    ensures var s := Ranked(cs, h, attrDupes, attrSort, orderedList);
      forall i :: 0 <= i < |q| ==> q[i] in s && Lookup(q[i], attrDupes) == Lookup(s[0], attrDupes)
    ensures var s := Ranked(cs, h, attrDupes, attrSort, orderedList);
      forall i :: 0 <= i < |s| && Lookup(s[i], attrDupes) == Lookup(s[0], attrDupes) ==> s[i] in q
  {
    var s := Ranked(cs, h, attrDupes, attrSort, orderedList);
    RankedMembers(cs, h, attrDupes, attrSort, orderedList);
    assert HasAttr(s, attrDupes);
    var q := AttrFilter(s, [Lookup(s[0], attrDupes)], attrDupes, true);
    SingleValueFilter(s, Lookup(s[0], attrDupes), attrDupes);
    assert s[0] in q;
    q
  }

  /** Filtering on a single value keeps exactly the elements with that value. */
  lemma {:induction false} SingleValueFilter(s: seq<Candidate>, v: Value, attr: string)
    requires HasAttr(s, attr)
    ensures var q := AttrFilter(s, [v], attr, true);
      && (forall i :: 0 <= i < |q| ==> q[i] in s && Lookup(q[i], attr) == v)
      && (forall i :: 0 <= i < |s| && Lookup(s[i], attr) == v ==> s[i] in q)
  {
    var q := AttrFilter(s, [v], attr, true);
    forall i | 0 <= i < |q|
      ensures q[i] in s && Lookup(q[i], attr) == v
    {
      assert Selects(q[i], attr, [v], true);
    }
    forall i | 0 <= i < |s| && Lookup(s[i], attr) == v
      ensures s[i] in q
    {
      assert Selects(s[i], attr, [v], true);
    }
  }

  /**
   * The queue holds exactly the duplicates of `h` whose raw `attr_dupes`
   * equals that of the best-ranked duplicate, which comes first.
   */
  lemma {:induction false} QueueContents(cs: seq<Candidate>, h: Candidate, attrDupes: string, attrSort: string, orderedList: seq<Value>)
    requires HasAttr(cs, attrDupes) && h in cs
    requires SortableFor(cs, h, attrDupes, attrSort, orderedList)
    ensures var q := Queue(cs, h, attrDupes, attrSort, orderedList);
      && q[0] == Ranked(cs, h, attrDupes, attrSort, orderedList)[0]
      && (forall i :: 0 <= i < |q| ==> q[i] in cs && SameClean(q[i], h, attrDupes) && Lookup(q[i], attrDupes) == Lookup(q[0], attrDupes))
      && (forall i :: 0 <= i < |cs| && SameClean(cs[i], h, attrDupes) && Lookup(cs[i], attrDupes) == Lookup(q[0], attrDupes) ==> cs[i] in q)
      && multiset(q) <= multiset(cs)
  {
    QueueHead(cs, h, attrDupes, attrSort, orderedList);
    QueueMembers(cs, h, attrDupes, attrSort, orderedList);
    QueueComplete(cs, h, attrDupes, attrSort, orderedList);
    RankedMembers(cs, h, attrDupes, attrSort, orderedList);
  }

  /** Every queued candidate is a duplicate of `h` from the input, with the best raw value. */
  lemma {:induction false} QueueMembers(cs: seq<Candidate>, h: Candidate, attrDupes: string, attrSort: string, orderedList: seq<Value>)
    requires HasAttr(cs, attrDupes) && h in cs
    requires SortableFor(cs, h, attrDupes, attrSort, orderedList)
    ensures var q := Queue(cs, h, attrDupes, attrSort, orderedList);
      var s := Ranked(cs, h, attrDupes, attrSort, orderedList);
      forall i :: 0 <= i < |q| ==> q[i] in cs && SameClean(q[i], h, attrDupes) && Lookup(q[i], attrDupes) == Lookup(s[0], attrDupes)
  {
    var s := Ranked(cs, h, attrDupes, attrSort, orderedList);
    var q := Queue(cs, h, attrDupes, attrSort, orderedList);
    RankedMembers(cs, h, attrDupes, attrSort, orderedList);
    ChainMembers(q, s, cs, h, attrDupes, Lookup(s[0], attrDupes));
  }

  /** Members of `q` drawn from `s`, whose members are duplicates of `h` from `cs`, are such duplicates too. */
  lemma {:induction false} ChainMembers(q: seq<Candidate>, s: seq<Candidate>, cs: seq<Candidate>, h: Candidate, attr: string, best: Value)
    requires forall i :: 0 <= i < |q| ==> q[i] in s && Lookup(q[i], attr) == best
    requires forall j :: 0 <= j < |s| ==> s[j] in cs && SameClean(s[j], h, attr)
    ensures forall i :: 0 <= i < |q| ==> q[i] in cs && SameClean(q[i], h, attr) && Lookup(q[i], attr) == best
  {
    forall i | 0 <= i < |q|
      ensures q[i] in cs && SameClean(q[i], h, attr)
    {
      var j :| 0 <= j < |s| && s[j] == q[i];
    }
  }

  /** Every duplicate of `h` with the best raw value is queued. */
  lemma {:induction false} QueueComplete(cs: seq<Candidate>, h: Candidate, attrDupes: string, attrSort: string, orderedList: seq<Value>)
    requires HasAttr(cs, attrDupes) && h in cs
    requires SortableFor(cs, h, attrDupes, attrSort, orderedList)
    ensures var q := Queue(cs, h, attrDupes, attrSort, orderedList);
      var s := Ranked(cs, h, attrDupes, attrSort, orderedList);
      forall i :: 0 <= i < |cs| && SameClean(cs[i], h, attrDupes) && Lookup(cs[i], attrDupes) == Lookup(s[0], attrDupes) ==> cs[i] in q
  {
    var s := Ranked(cs, h, attrDupes, attrSort, orderedList);
    var q := Queue(cs, h, attrDupes, attrSort, orderedList);
    RankedMembers(cs, h, attrDupes, attrSort, orderedList);
    ChainComplete(q, s, cs, h, attrDupes, Lookup(s[0], attrDupes));
  }

  /** Duplicates of `h` in `cs` are all in `s`, and those of `s` with value `best` are in `q`: so those of `cs` are. */
  lemma {:induction false} ChainComplete(q: seq<Candidate>, s: seq<Candidate>, cs: seq<Candidate>, h: Candidate, attr: string, best: Value)
    requires forall j :: 0 <= j < |s| && Lookup(s[j], attr) == best ==> s[j] in q
    requires forall i :: 0 <= i < |cs| && SameClean(cs[i], h, attr) ==> cs[i] in s
    ensures forall i :: 0 <= i < |cs| && SameClean(cs[i], h, attr) && Lookup(cs[i], attr) == best ==> cs[i] in q
  {
    forall i | 0 <= i < |cs| && SameClean(cs[i], h, attr) && Lookup(cs[i], attr) == best
      ensures cs[i] in q
    {
      var j :| 0 <= j < |s| && s[j] == cs[i];
    }
  }

  /** The queue starts with the best-ranked duplicate and adds no occurrences. */
  lemma {:induction false} QueueHead(cs: seq<Candidate>, h: Candidate, attrDupes: string, attrSort: string, orderedList: seq<Value>)
    requires HasAttr(cs, attrDupes) && h in cs
    requires SortableFor(cs, h, attrDupes, attrSort, orderedList)
    ensures var q := Queue(cs, h, attrDupes, attrSort, orderedList);
      var s := Ranked(cs, h, attrDupes, attrSort, orderedList);
      q[0] == s[0] && multiset(q) <= multiset(s)
  {
    var s := Ranked(cs, h, attrDupes, attrSort, orderedList);
    RankedMembers(cs, h, attrDupes, attrSort, orderedList);
    var best := Lookup(s[0], attrDupes);
    var keep := c => Selects(c, attrDupes, [best], true);
    assert Queue(cs, h, attrDupes, attrSort, orderedList) == Filter(s, keep);
    FilterMultiset(s, keep);
    FilterHead(s, keep, 0);
  }

  /** The queue adds no occurrences to the input. */
  lemma {:induction false} QueueWithin(cs: seq<Candidate>, h: Candidate, attrDupes: string, attrSort: string, orderedList: seq<Value>)
    requires HasAttr(cs, attrDupes) && h in cs
    requires SortableFor(cs, h, attrDupes, attrSort, orderedList)
    ensures multiset(Queue(cs, h, attrDupes, attrSort, orderedList)) <= multiset(cs)
  {
    QueueHead(cs, h, attrDupes, attrSort, orderedList);
  }

  /** The members of `q` whose identity is not yet in `acc`, in order. */
  function Fresh(q: seq<Candidate>, acc: seq<Candidate>): seq<Candidate> {
    Filter(q, (c: Candidate) => c.id !in Ids(acc))
  }

  /**
   * The loop over the top candidates; `acc` is `new_candidates` so far.
   * The members of the queue that are new are picked before any is
   * appended.
   */
  function PickLoop(hs: seq<Candidate>, cs: seq<Candidate>, attrDupes: string, attrSort: string,
                    orderedList: seq<Value>, acc: seq<Candidate>): (r: seq<Candidate>)
    requires HasAttr(cs, attrDupes)
    requires forall k :: 0 <= k < |hs| ==> hs[k] in cs && SortableFor(cs, hs[k], attrDupes, attrSort, orderedList)
    ensures |acc| <= |r| && r[..|acc|] == acc
    decreases |hs|
  {
    if |hs| == 0 then acc
    else
      var q := Queue(cs, hs[0], attrDupes, attrSort, orderedList);
      TopsTail(hs, cs, attrDupes, attrSort, orderedList);
      var added := Fresh(q, acc);
      var r := PickLoop(hs[1..], cs, attrDupes, attrSort, orderedList, acc + added);
      PrefixOfPrefix(acc, added, r);
      r
  }

  /** `x` is a near-duplicate of one of `hs`. */
  predicate NearDup(x: Candidate, hs: seq<Candidate>, attr: string)
    decreases |hs|
  {
    |hs| > 0 && (SameClean(x, hs[0], attr) || NearDup(x, hs[1..], attr))
  }

  /** The loop always adds something for a first top candidate. */
  lemma {:induction false} PickLoopNonEmpty(hs: seq<Candidate>, cs: seq<Candidate>, attrDupes: string, attrSort: string,
                         orderedList: seq<Value>, acc: seq<Candidate>)
    requires HasAttr(cs, attrDupes)
    requires forall k :: 0 <= k < |hs| ==> hs[k] in cs && SortableFor(cs, hs[k], attrDupes, attrSort, orderedList)
    requires |hs| > 0
    ensures |PickLoop(hs, cs, attrDupes, attrSort, orderedList, acc)| > 0
  {
    var q := Queue(cs, hs[0], attrDupes, attrSort, orderedList);
    if |acc| == 0 {
      FilterHead(q, (c: Candidate) => c.id !in Ids(acc), 0);
    }
  }

  /** The elements of `r` from position `start` on are members of `cs`, each a near-duplicate of one of `hs`. */
  predicate NearDupsFrom(r: seq<Candidate>, start: nat, cs: seq<Candidate>, hs: seq<Candidate>, attr: string) {
    forall i :: start <= i < |r| ==> r[i] in cs && NearDup(r[i], hs, attr)
  }

  /** What the loop adds are members of the input, each a near-duplicate of some top candidate. */
  lemma {:induction false} PickLoopMembers(hs: seq<Candidate>, cs: seq<Candidate>, attrDupes: string, attrSort: string,
                                          orderedList: seq<Value>, acc: seq<Candidate>)
    requires HasAttr(cs, attrDupes)
    requires forall k :: 0 <= k < |hs| ==> hs[k] in cs && SortableFor(cs, hs[k], attrDupes, attrSort, orderedList)
    ensures NearDupsFrom(PickLoop(hs, cs, attrDupes, attrSort, orderedList, acc), |acc|, cs, hs, attrDupes)
    decreases |hs|
  {
    if |hs| > 0 {
      var q := Queue(cs, hs[0], attrDupes, attrSort, orderedList);
      QueueMembers(cs, hs[0], attrDupes, attrSort, orderedList);
      var added := Fresh(q, acc);
      FreshDupes(q, acc, cs, hs[0], attrDupes);
      TopsTail(hs, cs, attrDupes, attrSort, orderedList);
      var r := PickLoop(hs[1..], cs, attrDupes, attrSort, orderedList, acc + added);
      PickLoopMembers(hs[1..], cs, attrDupes, attrSort, orderedList, acc + added);
      NearDupsStep(r, acc, added, cs, hs, attrDupes);
      assert r == PickLoop(hs, cs, attrDupes, attrSort, orderedList, acc);
    }
  }

  /** What the queue holds, its new members hold too. */
  lemma {:induction false} FreshDupes(q: seq<Candidate>, acc: seq<Candidate>, cs: seq<Candidate>, h: Candidate, attr: string)
    requires forall i :: 0 <= i < |q| ==> q[i] in cs && SameClean(q[i], h, attr)
    ensures forall i :: 0 <= i < |Fresh(q, acc)| ==> Fresh(q, acc)[i] in cs && SameClean(Fresh(q, acc)[i], h, attr)
  {
    var added := Fresh(q, acc);
    forall i | 0 <= i < |added|
      ensures added[i] in cs && SameClean(added[i], h, attr)
    {
      var j :| 0 <= j < |q| && q[j] == added[i];
    }
  }

  lemma {:induction false} NearDupsStep(r: seq<Candidate>, acc: seq<Candidate>, added: seq<Candidate>, cs: seq<Candidate>,
                     hs: seq<Candidate>, attr: string)
    requires |hs| > 0
    requires |acc + added| <= |r| && r[..|acc + added|] == acc + added
    requires forall i :: 0 <= i < |added| ==> added[i] in cs && SameClean(added[i], hs[0], attr)
    requires NearDupsFrom(r, |acc + added|, cs, hs[1..], attr)
    ensures NearDupsFrom(r, |acc|, cs, hs, attr)
  {
    forall i | |acc| <= i < |r|
      ensures r[i] in cs && NearDup(r[i], hs, attr)
    {
      if i < |acc + added| {
        assert r[i] == r[..|acc + added|][i] == added[i - |acc|];
      }
    }
  }

  /** The queues of the top candidates, in order. */
  function Queues(hs: seq<Candidate>, cs: seq<Candidate>, attrDupes: string, attrSort: string,
                  orderedList: seq<Value>): (qs: seq<seq<Candidate>>)
    requires HasAttr(cs, attrDupes)
    requires forall k :: 0 <= k < |hs| ==> hs[k] in cs && SortableFor(cs, hs[k], attrDupes, attrSort, orderedList)
    ensures |qs| == |hs|
    ensures forall k :: 0 <= k < |hs| ==> qs[k] == Queue(cs, hs[k], attrDupes, attrSort, orderedList)
  {
    seq(|hs|, k requires 0 <= k < |hs| => Queue(cs, hs[k], attrDupes, attrSort, orderedList))
  }

  /** The loop with its queues already computed: the new members of each, appended in turn. */
  function PickFrom(qs: seq<seq<Candidate>>, acc: seq<Candidate>): (r: seq<Candidate>)
    ensures |acc| <= |r| && r[..|acc|] == acc
    decreases |qs|
  {
    if |qs| == 0 then acc
    else
      var added := Fresh(qs[0], acc);
      var r := PickFrom(qs[1..], acc + added);
      PrefixOfPrefix(acc, added, r);
      r
  }

  /** The loop over the top candidates is the loop over their queues. */
  lemma {:induction false} PickLoopIsPickFrom(hs: seq<Candidate>, cs: seq<Candidate>, attrDupes: string, attrSort: string,
                                             orderedList: seq<Value>, acc: seq<Candidate>)
    requires HasAttr(cs, attrDupes)
    requires forall k :: 0 <= k < |hs| ==> hs[k] in cs && SortableFor(cs, hs[k], attrDupes, attrSort, orderedList)
    ensures PickLoop(hs, cs, attrDupes, attrSort, orderedList, acc) == PickFrom(Queues(hs, cs, attrDupes, attrSort, orderedList), acc)
    decreases |hs|
  {
    if |hs| > 0 {
      var qs := Queues(hs, cs, attrDupes, attrSort, orderedList);
      var q := Queue(cs, hs[0], attrDupes, attrSort, orderedList);
      QueuesTail(hs, cs, attrDupes, attrSort, orderedList);
      var added := Fresh(q, acc);
      var rest := Queues(hs[1..], cs, attrDupes, attrSort, orderedList);
      PickLoopIsPickFrom(hs[1..], cs, attrDupes, attrSort, orderedList, acc + added);
      assert PickFrom(qs, acc) == PickFrom(rest, acc + added);
    }
  }

  /** The first queue is the first top candidate's; the others are those of the rest. */
  lemma {:induction false} QueuesTail(hs: seq<Candidate>, cs: seq<Candidate>, attrDupes: string, attrSort: string,
                                     orderedList: seq<Value>)
    requires HasAttr(cs, attrDupes) && |hs| > 0
    requires forall k :: 0 <= k < |hs| ==> hs[k] in cs && SortableFor(cs, hs[k], attrDupes, attrSort, orderedList)
    ensures Queues(hs, cs, attrDupes, attrSort, orderedList)[0] == Queue(cs, hs[0], attrDupes, attrSort, orderedList)
    ensures forall k :: 0 <= k < |hs[1..]| ==> hs[1..][k] in cs && SortableFor(cs, hs[1..][k], attrDupes, attrSort, orderedList)
    ensures Queues(hs, cs, attrDupes, attrSort, orderedList)[1..] == Queues(hs[1..], cs, attrDupes, attrSort, orderedList)
  {
    TopsTail(hs, cs, attrDupes, attrSort, orderedList);
    var qs := Queues(hs, cs, attrDupes, attrSort, orderedList);
    var rest := Queues(hs[1..], cs, attrDupes, attrSort, orderedList);
    forall k | 0 <= k < |rest|
      ensures qs[1..][k] == rest[k]
    {
      assert hs[1..][k] == hs[k + 1];
    }
  }

  /** `x` belongs to one of the queues `qs`. */
  predicate InSomeQueue(x: Candidate, qs: seq<seq<Candidate>>) {
    exists k :: 0 <= k < |qs| && x in qs[k]
  }

  /** Everything the loop adds belongs to one of the queues. */
  lemma {:induction false} PickFromQueued(qs: seq<seq<Candidate>>, acc: seq<Candidate>)
    ensures forall i :: |acc| <= i < |PickFrom(qs, acc)| ==> InSomeQueue(PickFrom(qs, acc)[i], qs)
    decreases |qs|
  {
    if |qs| > 0 {
      var added := Fresh(qs[0], acc);
      var r := PickFrom(qs[1..], acc + added);
      PickFromQueued(qs[1..], acc + added);
      assert r == PickFrom(qs, acc);
      forall i | |acc| <= i < |r|
        ensures InSomeQueue(r[i], qs)
      {
        if i < |acc + added| {
          assert r[i] == r[..|acc + added|][i] == added[i - |acc|];
          assert r[i] in qs[0];
        } else {
          assert InSomeQueue(r[i], qs[1..]);
          var k :| 0 <= k < |qs[1..]| && r[i] in qs[1..][k];
          assert qs[1..][k] == qs[k + 1];
        }
      }
    }
  }

  /** Every member of every queue ends up picked, or was picked already. */
  lemma {:induction false} PickFromCovers(qs: seq<seq<Candidate>>, acc: seq<Candidate>)
    ensures var r := PickFrom(qs, acc);
      forall k, j :: 0 <= k < |qs| && 0 <= j < |qs[k]| ==> qs[k][j].id in Ids(r)
    decreases |qs|
  {
    if |qs| > 0 {
      var q := qs[0];
      var added := Fresh(q, acc);
      var r := PickFrom(qs[1..], acc + added);
      PickFromCovers(qs[1..], acc + added);
      PrefixIds(acc + added, r);
      forall k, j | 0 <= k < |qs| && 0 <= j < |qs[k]|
        ensures qs[k][j].id in Ids(r)
      {
        if k == 0 {
          if q[j].id !in Ids(acc) {
            assert q[j] in added;
            var l :| 0 <= l < |added| && added[l] == q[j];
            assert (acc + added)[|acc| + l] == q[j];
          } else {
            var l :| 0 <= l < |acc| && acc[l].id == q[j].id;
            assert (acc + added)[l] == acc[l];
          }
        } else {
          assert qs[1..][k - 1] == qs[k];
        }
      }
    }
  }

  /** A prefix's identities are identities of the whole. */
  lemma {:induction false} PrefixIds(p: seq<Candidate>, r: seq<Candidate>)
    requires |p| <= |r| && r[..|p|] == p
    ensures Ids(p) <= Ids(r)
  {
    forall x | x in Ids(p)
      ensures x in Ids(r)
    {
      var i :| 0 <= i < |p| && p[i].id == x;
      assert r[i] == r[..|p|][i];
    }
  }

  /** Identities already present are never added again. */
  lemma {:induction false} PickLoopNoRepeats(hs: seq<Candidate>, cs: seq<Candidate>, attrDupes: string, attrSort: string,
                                            orderedList: seq<Value>, acc: seq<Candidate>)
    requires HasAttr(cs, attrDupes)
    requires forall k :: 0 <= k < |hs| ==> hs[k] in cs && SortableFor(cs, hs[k], attrDupes, attrSort, orderedList)
    requires NoRepeats(acc) && NoRepeats(cs)
    ensures NoRepeats(PickLoop(hs, cs, attrDupes, attrSort, orderedList, acc))
    decreases |hs|
  {
    if |hs| > 0 {
      var acc' := PickStep(hs, cs, attrDupes, attrSort, orderedList, acc);
      TopsTail(hs, cs, attrDupes, attrSort, orderedList);
      PickLoopNoRepeats(hs[1..], cs, attrDupes, attrSort, orderedList, acc');
    }
  }

  /**
   * One turn of the loop keeps `acc` free of repeats and leaves the rest
   * of the loop to the remaining top candidates.
   */
  lemma {:induction false} PickStep(hs: seq<Candidate>, cs: seq<Candidate>, attrDupes: string, attrSort: string,
                 orderedList: seq<Value>, acc: seq<Candidate>) returns (acc': seq<Candidate>)
    requires HasAttr(cs, attrDupes) && |hs| > 0
    requires forall k :: 0 <= k < |hs| ==> hs[k] in cs && SortableFor(cs, hs[k], attrDupes, attrSort, orderedList)
    requires NoRepeats(acc) && NoRepeats(cs)
    ensures NoRepeats(acc')
    ensures PickLoop(hs, cs, attrDupes, attrSort, orderedList, acc) == PickLoop(hs[1..], cs, attrDupes, attrSort, orderedList, acc')
  {
    var q := Queue(cs, hs[0], attrDupes, attrSort, orderedList);
    QueueWithin(cs, hs[0], attrDupes, attrSort, orderedList);
    FreshNoRepeats(acc, q, cs);
    acc' := acc + Fresh(q, acc);
  }

  /** The top candidates after the first still meet the loop's requirement. */
  lemma {:induction false} TopsTail(hs: seq<Candidate>, cs: seq<Candidate>, attrDupes: string, attrSort: string, orderedList: seq<Value>)
    requires |hs| > 0
    requires forall k :: 0 <= k < |hs| ==> hs[k] in cs && SortableFor(cs, hs[k], attrDupes, attrSort, orderedList)
    ensures forall k :: 0 <= k < |hs[1..]| ==> hs[1..][k] in cs && SortableFor(cs, hs[1..][k], attrDupes, attrSort, orderedList)
  {
    forall k | 0 <= k < |hs[1..]|
      ensures hs[1..][k] in cs && SortableFor(cs, hs[1..][k], attrDupes, attrSort, orderedList)
    {
      assert hs[1..][k] == hs[k + 1];
    }
  }

  /** No element occurs twice. */
  predicate NoRepeats(s: seq<Candidate>) {
    forall x :: x in s ==> multiset(s)[x] <= 1
  }

  /** Appending the members of `q` whose identity is new keeps the list free of repeats. */
  lemma {:induction false} FreshNoRepeats(acc: seq<Candidate>, q: seq<Candidate>, cs: seq<Candidate>)
    requires NoRepeats(acc) && NoRepeats(cs) && multiset(q) <= multiset(cs)
    ensures NoRepeats(acc + Fresh(q, acc))
  {
    var added := Fresh(q, acc);
    FilterMultiset(q, (c: Candidate) => c.id !in Ids(acc));
    forall x | x in acc + added
      ensures multiset(acc + added)[x] <= 1
    {
    }
  }

  /** The loop body for `h` may call `getattr(c, attr_sort)` on every duplicate of `h`. */
  predicate DupePickerDefined(cs: seq<Candidate>, attrDupes: string, attrSort: string, orderedList: seq<Value>) {
    && Scored(cs) && HasAttr(cs, attrDupes)
    && (|cs| > 0 ==> forall i :: 0 <= i < |cs| && HasScore(cs[i], HiScore(cs)) ==> SortableFor(cs, cs[i], attrDupes, attrSort, orderedList))
  }

  /** Every top candidate is an input whose duplicates can be sorted. */
  lemma {:induction false} TopsSortable(cs: seq<Candidate>, attrDupes: string, attrSort: string, orderedList: seq<Value>)
    requires DupePickerDefined(cs, attrDupes, attrSort, orderedList) && |cs| > 0
    ensures var hs := HiScoreCandidates(cs);
      forall k :: 0 <= k < |hs| ==> hs[k] in cs && SortableFor(cs, hs[k], attrDupes, attrSort, orderedList)
  {
    var hs := HiScoreCandidates(cs);
    forall k | 0 <= k < |hs|
      ensures hs[k] in cs && SortableFor(cs, hs[k], attrDupes, attrSort, orderedList)
    {
      var i :| 0 <= i < |cs| && cs[i] == hs[k];
    }
  }

  lemma {:induction false} DupePickerFacts(cs: seq<Candidate>, attrDupes: string, attrSort: string, orderedList: seq<Value>)
    requires DupePickerDefined(cs, attrDupes, attrSort, orderedList) && |cs| > 0
    ensures var r := PickLoop(HiScoreCandidates(cs), cs, attrDupes, attrSort, orderedList, []);
      && |r| > 0
      && (forall i :: 0 <= i < |r| ==> r[i] in cs)
      && (forall i :: 0 <= i < |r| ==> NearDup(r[i], HiScoreCandidates(cs), attrDupes))
      && (NoRepeats(cs) ==> NoRepeats(r))
  {
    var hs := HiScoreCandidates(cs);
    TopsSortable(cs, attrDupes, attrSort, orderedList);
    PickLoopNonEmpty(hs, cs, attrDupes, attrSort, orderedList, []);
    PickLoopMembers(hs, cs, attrDupes, attrSort, orderedList, []);
    if NoRepeats(cs) {
      PickLoopNoRepeats(hs, cs, attrDupes, attrSort, orderedList, []);
    }
  }

  /** Every pick is a member of the queue of a top-scoring candidate. */
  lemma {:induction false} PicksQueued(cs: seq<Candidate>, attrDupes: string, attrSort: string, orderedList: seq<Value>)
    requires DupePickerDefined(cs, attrDupes, attrSort, orderedList) && |cs| > 0
    ensures var hs := HiScoreCandidates(cs);
      forall k :: 0 <= k < |hs| ==> hs[k] in cs && SortableFor(cs, hs[k], attrDupes, attrSort, orderedList)
    ensures var hs := HiScoreCandidates(cs);
      forall i :: 0 <= i < |PickLoop(hs, cs, attrDupes, attrSort, orderedList, [])| ==>
        InSomeQueue(PickLoop(hs, cs, attrDupes, attrSort, orderedList, [])[i], Queues(hs, cs, attrDupes, attrSort, orderedList))
  {
    var hs := HiScoreCandidates(cs);
    TopsSortable(cs, attrDupes, attrSort, orderedList);
    var qs := Queues(hs, cs, attrDupes, attrSort, orderedList);
    PickLoopIsPickFrom(hs, cs, attrDupes, attrSort, orderedList, []);
    PickFromQueued(qs, []);
  }

  /**
   * Every member of a top-scoring candidate's queue is picked, by
   * identity: a member with the identity of an earlier pick is not
   * picked again.
   */
  lemma {:induction false} PicksCovered(cs: seq<Candidate>, attrDupes: string, attrSort: string, orderedList: seq<Value>)
    requires DupePickerDefined(cs, attrDupes, attrSort, orderedList) && |cs| > 0
    ensures var hs := HiScoreCandidates(cs);
      forall k :: 0 <= k < |hs| ==> hs[k] in cs && SortableFor(cs, hs[k], attrDupes, attrSort, orderedList)
    ensures var hs := HiScoreCandidates(cs);
      var r := PickLoop(hs, cs, attrDupes, attrSort, orderedList, []);
      forall k, j :: 0 <= k < |hs| && 0 <= j < |Queue(cs, hs[k], attrDupes, attrSort, orderedList)| ==>
        Queue(cs, hs[k], attrDupes, attrSort, orderedList)[j].id in Ids(r)
  {
    var hs := HiScoreCandidates(cs);
    TopsSortable(cs, attrDupes, attrSort, orderedList);
    var qs := Queues(hs, cs, attrDupes, attrSort, orderedList);
    PickLoopIsPickFrom(hs, cs, attrDupes, attrSort, orderedList, []);
    PickFromCovers(qs, []);
    CoveredAtTops(PickFrom(qs, []), qs, hs, cs, attrDupes, attrSort, orderedList);
  }

  lemma {:induction false} CoveredAtTops(r: seq<Candidate>, qs: seq<seq<Candidate>>, hs: seq<Candidate>, cs: seq<Candidate>,
                                        attrDupes: string, attrSort: string, orderedList: seq<Value>)
    requires HasAttr(cs, attrDupes)
    requires forall k :: 0 <= k < |hs| ==> hs[k] in cs && SortableFor(cs, hs[k], attrDupes, attrSort, orderedList)
    requires qs == Queues(hs, cs, attrDupes, attrSort, orderedList)
    requires forall k, j :: 0 <= k < |qs| && 0 <= j < |qs[k]| ==> qs[k][j].id in Ids(r)
    ensures forall k, j :: 0 <= k < |hs| && 0 <= j < |Queue(cs, hs[k], attrDupes, attrSort, orderedList)| ==>
      Queue(cs, hs[k], attrDupes, attrSort, orderedList)[j].id in Ids(r)
  {
    forall k, j | 0 <= k < |hs| && 0 <= j < |Queue(cs, hs[k], attrDupes, attrSort, orderedList)|
      ensures Queue(cs, hs[k], attrDupes, attrSort, orderedList)[j].id in Ids(r)
    {
      assert qs[k] == Queue(cs, hs[k], attrDupes, attrSort, orderedList);
    }
  }

  /** The candidate appended for `nc`: `cleanup(nc)` when `return_clean` is set. */
  function Appended(nc: Candidate, returnClean: bool): (r: Candidate)
    ensures r == nc
  {
    if returnClean then
      var o := Cleanup(Object(nc));
      o.c
    else nc
  }

  /**
   * `DupePicker(attr_dupes, attr_sort, ordered_list).process(cs)`: for
   * each top-scoring candidate, its best-ranked near-duplicates, skipping
   * candidates already picked.  The picks are exactly the members of the
   * top candidates' queues, each identity once.
   */
  function PickDupes(cs: seq<Candidate>, attrDupes: string, attrSort: string, orderedList: seq<Value>): (r: seq<Candidate>)
    requires DupePickerDefined(cs, attrDupes, attrSort, orderedList)
    ensures |cs| == 0 ==> r == []
    ensures |cs| > 0 ==> |r| > 0
    ensures forall i :: 0 <= i < |r| ==> r[i] in cs
    ensures |cs| > 0 ==> forall i :: 0 <= i < |r| ==> NearDup(r[i], HiScoreCandidates(cs), attrDupes)
    ensures NoRepeats(cs) ==> NoRepeats(r)
    ensures |cs| > 0 ==> var hs := HiScoreCandidates(cs);
      && (forall k :: 0 <= k < |hs| ==> hs[k] in cs && SortableFor(cs, hs[k], attrDupes, attrSort, orderedList))
      && (forall i :: 0 <= i < |r| ==> InSomeQueue(r[i], Queues(hs, cs, attrDupes, attrSort, orderedList)))
      && (forall k, j :: 0 <= k < |hs| && 0 <= j < |Queue(cs, hs[k], attrDupes, attrSort, orderedList)| ==>
            Queue(cs, hs[k], attrDupes, attrSort, orderedList)[j].id in Ids(r))
  {
    if |cs| == 0 then []
    else
      TopsSortable(cs, attrDupes, attrSort, orderedList);
      DupePickerFacts(cs, attrDupes, attrSort, orderedList);
      PicksQueued(cs, attrDupes, attrSort, orderedList);
      PicksCovered(cs, attrDupes, attrSort, orderedList);
      PickLoop(HiScoreCandidates(cs), cs, attrDupes, attrSort, orderedList, [])
  }

  /**
   * The same with `return_clean`, as written: each picked candidate is
   * appended as `cleanup(nc)`, and `cleanup` returns a candidate object
   * unchanged, so the flag has no effect.
   */
  function DupePicker(cs: seq<Candidate>, attrDupes: string, attrSort: string, orderedList: seq<Value>,
                      returnClean: bool): (r: seq<Candidate>)
    requires DupePickerDefined(cs, attrDupes, attrSort, orderedList)
    ensures r == PickDupes(cs, attrDupes, attrSort, orderedList)
  {
    AppendAll(PickDupes(cs, attrDupes, attrSort, orderedList), returnClean)
  }

  /** Appending each picked candidate in turn, as the loop does. */
  function AppendAll(picked: seq<Candidate>, returnClean: bool): (r: seq<Candidate>)
    ensures r == picked
  {
    if |picked| == 0 then []
    else [Appended(picked[0], returnClean)] + AppendAll(picked[1..], returnClean)
  }

  /** `cleanup` applied where the documented output shows it: to the `attr_dupes` value of a picked candidate. */
  function CleanAttr(c: Candidate, attr: string): (r: Candidate)
    ensures r.id == c.id && r.attrs.Keys == c.attrs.Keys
    ensures attr in c.attrs ==> Clean(r.attrs[attr]) == r.attrs[attr] && SameClean(r, c, attr)
    ensures forall k :: k in c.attrs && k != attr ==> r.attrs[k] == c.attrs[k]
  {
    if attr in c.attrs then
      CleanIdempotent(c.attrs[attr]);
      c.(attrs := c.attrs[attr := Clean(c.attrs[attr])])
    else c
  }

  /** The picked list as appended: each entry cleaned when `return_clean` is set. */
  function CleanAll(picked: seq<Candidate>, attr: string, returnClean: bool): (r: seq<Candidate>)
    requires HasAttr(picked, attr)
    ensures |r| == |picked|
    ensures !returnClean ==> r == picked
    ensures forall i :: 0 <= i < |r| ==> r[i].id == picked[i].id && SameClean(r[i], picked[i], attr)
    ensures returnClean ==> forall i :: 0 <= i < |r| ==> attr in r[i].attrs && Clean(r[i].attrs[attr]) == r[i].attrs[attr]
  {
    if returnClean then seq(|picked|, i requires 0 <= i < |picked| => CleanAttr(picked[i], attr))
    else picked
  }

  /**
   * `DupePicker` as its documentation describes it: with `return_clean`,
   * the picked candidates carry their `attr_dupes` value cleaned.
   */
  function DupePickerCleaned(cs: seq<Candidate>, attrDupes: string, attrSort: string, orderedList: seq<Value>,
                             returnClean: bool): (r: seq<Candidate>)
    requires DupePickerDefined(cs, attrDupes, attrSort, orderedList)
    ensures var picked := PickDupes(cs, attrDupes, attrSort, orderedList);
      && |r| == |picked|
      && (!returnClean ==> r == picked)
      && (forall i :: 0 <= i < |r| ==> r[i].id == picked[i].id && SameClean(r[i], picked[i], attrDupes))
      && (returnClean ==> forall i :: 0 <= i < |r| ==> attrDupes in r[i].attrs && Clean(r[i].attrs[attrDupes]) == r[i].attrs[attrDupes])
  {
    var picked := PickDupes(cs, attrDupes, attrSort, orderedList);
    assert HasAttr(picked, attrDupes);
    CleanAll(picked, attrDupes, returnClean)
  }
}

=== FILE: esri.dfy ===
/**
 * The Esri adapters of `omgeo/services/esri.py`, up to the network call:
 * the token and endpoint rule of the older services, the request that
 * `EsriWGS._geocode` shapes from a query, the street address assembled
 * from a response's attributes, the optional components copied onto a
 * candidate, and the default postprocessor chain of `EsriWGS`.
 */
module Esri {
  import opened Wrappers
  import opened Values
  import opened Text
  import opened Places
  import opened Greedy
  import opened Postprocessors

  // ----------------------------------------------------------------------
  // _EsriGeocodeService

  const PremiumUrl := "http://premiumtasks.arcgisonline.com/server"
  const FreeUrl := "http://tasks.arcgisonline.com/ArcGIS"

  /** The older services use the premium host exactly when an API key is configured. */
  function ServiceEndpoint(settings: map<string, Value>, taskEndpoint: string): (r: string)
    ensures "api_key" in settings ==> r == PremiumUrl + taskEndpoint
    ensures "api_key" !in settings ==> r == FreeUrl + taskEndpoint
  {
    (if "api_key" in settings then PremiumUrl else FreeUrl) + taskEndpoint
  }

  /** `append_token_if_needed`: `token` is set to the API key when one is configured. */
  function AppendTokenIfNeeded(settings: map<string, Value>, query: map<string, Value>): (r: map<string, Value>)
    ensures "api_key" !in settings ==> r == query
    ensures "api_key" in settings ==> "token" in r && r["token"] == settings["api_key"]
    ensures r.Keys == query.Keys || r.Keys == query.Keys + {"token"}
    ensures forall k :: k in query && k != "token" ==> k in r && r[k] == query[k]
  {
    if "api_key" in settings then query["token" := settings["api_key"]] else query
  }

  /** Premium host and token go together: both follow from the same setting. */
  lemma {:induction false} PremiumIffToken(settings: map<string, Value>, taskEndpoint: string, query: map<string, Value>)
    requires "token" !in query
    ensures ServiceEndpoint(settings, taskEndpoint) == PremiumUrl + taskEndpoint
        <==> "token" in AppendTokenIfNeeded(settings, query)
  {
    if "api_key" !in settings {
      assert PremiumUrl[7] != FreeUrl[7];
      assert (PremiumUrl + taskEndpoint)[7] != (FreeUrl + taskEndpoint)[7];
    }
  }

  // ----------------------------------------------------------------------
  // EsriWGS._geocode: request shaping

  const Endpoint := "http://geocode.arcgis.com/arcgis/rest/services/World/GeocodeServer"

  /** The output fields asked for, comma-separated in order. */
  const OutFieldList := "Loc_name,Score,Match_Addr,Addr_Type,AddNum,StPreDir,StPreType,StName,StType,StDir,"
    + "City,Subregion,Region,Postal,Country,DisplayX,DisplayY"

  /** The request parameters `EsriWGS` may send. */
  datatype Param =
    | F | OutFields | MaxLocations
    | Text | SourceCountry | MagicKey | Bbox
    | Address | Neighborhood | City | Subregion | Region | Postal | CountryCode | SearchExtent

  /** The parameter's name on the wire. */
  function Name(p: Param): string {
    match p
    case F => "f"
    case OutFields => "outFields"
    case MaxLocations => "maxLocations"
    case Text => "text"
    case SourceCountry => "sourceCountry"
    case MagicKey => "magicKey"
    case Bbox => "bbox"
    case Address => "Address"
    case Neighborhood => "Neighborhood"
    case City => "City"
    case Subregion => "Subregion"
    case Region => "Region"
    case Postal => "Postal"
    case CountryCode => "CountryCode"
    case SearchExtent => "searchExtent"
  }

  /** The two tasks of the geocode server. */
  datatype Task = Find | FindAddressCandidates

  /** A request: the REST operation and its parameters. */
  datatype Request = Request(task: Task, params: map<Param, Value>)

  function Url(r: Request): string {
    Endpoint + "/" + (if r.task == Find then "find" else "findAddressCandidates")
  }

  /** The parameters every request carries. */
  function BaseParams(): (r: map<Param, Value>)
    ensures r.Keys == BaseKeys
  {
    map[F := Str("json"), OutFields := Str(OutFieldList), MaxLocations := Num(20.0)]
  }

  const BaseKeys: set<Param> := {F, OutFields, MaxLocations}

  /**
   * A query with neither free text nor an address but with a postal code
   * is searched as the single line `postal`.
   */
  function PromotePostal(pq: PlaceQuery): (r: PlaceQuery)
    ensures pq.query == "" && pq.address == "" && pq.postal != "" ==> r == pq.(query := pq.postal)
    ensures !(pq.query == "" && pq.address == "" && pq.postal != "") ==> r == pq
  {
    if pq.query == "" && pq.address == "" && pq.postal != "" then pq.(query := pq.postal) else pq
  }

  /** `pq.key if hasattr(pq, 'key') else ''`, kept when truthy. */
  predicate HasMagicKey(pq: PlaceQuery) {
    "key" in pq.ext && Truthy(pq.ext["key"])
  }

  /** The search extent is sent only for a bounded query with a viewbox. */
  predicate Bounded(pq: PlaceQuery) {
    pq.bounded && pq.viewbox.Some?
  }

  /** The structured-address parameters of a multipart request. */
  function StructuredParams(pq: PlaceQuery): (r: map<Param, Value>)
    ensures r.Keys == StructuredKeys
    ensures Address in r && r[Address] == Str(pq.address)
  {
    map[Address := Str(pq.address), Neighborhood := Str(pq.neighborhood), City := Str(pq.city),
        Subregion := Str(pq.subregion), Region := Str(pq.state), Postal := Str(pq.postal),
        CountryCode := Str(pq.country)]
  }

  const StructuredKeys: set<Param> := {Address, Neighborhood, City, Subregion, Region, Postal, CountryCode}

  /** The multipart request: the structured fields, and the extent of a bounded query. */
  function MultipartRequest(pq: PlaceQuery, show: real -> string): (r: Request)
    ensures r.task == FindAddressCandidates
    ensures Address in r.params && r.params[Address] == Str(pq.address)
  {
    var params := BaseParams() + StructuredParams(pq);
    MergeTakesRight(BaseParams(), StructuredParams(pq), Address);
    if Bounded(pq) then
      var extent := Str(ToEsriWgsJson(pq.viewbox.value, show));
      UpdateKeeps(params, SearchExtent, extent, {Address});
      Request(FindAddressCandidates, params[SearchExtent := extent])
    else Request(FindAddressCandidates, params)
  }

  /** A merge of maps takes the right one's value for its keys. */
  lemma {:induction false} MergeTakesRight<K, V>(a: map<K, V>, b: map<K, V>, k: K)
    requires k in b
    ensures k in a + b && (a + b)[k] == b[k]
  {
  }

  /** The multipart request sends the base and structured parameters, and the extent exactly when bounded. */
  lemma {:induction false} MultipartKeys(pq: PlaceQuery, show: real -> string)
    ensures MultipartRequest(pq, show).params.Keys
         == BaseKeys + StructuredParams(pq).Keys + (if Bounded(pq) then {SearchExtent} else {})
  {
  }

  /** The multipart request keeps the base parameters' values. */
  lemma {:induction false} MultipartBase(pq: PlaceQuery, show: real -> string)
    ensures var r := MultipartRequest(pq, show);
      forall k :: k in BaseParams() ==> k in r.params && r.params[k] == BaseParams()[k]
  {
    var params := BaseParams() + StructuredParams(pq);
    assert BaseKeys !! StructuredKeys;
    MergeKeepsLeft(BaseParams(), StructuredParams(pq));
    if Bounded(pq) {
      UpdateKeeps(params, SearchExtent, Str(ToEsriWgsJson(pq.viewbox.value, show)), BaseParams().Keys);
    }
  }

  /** A merge of maps with disjoint keys keeps the left one's values. */
  lemma {:induction false} MergeKeepsLeft<K, V>(a: map<K, V>, b: map<K, V>)
    requires a.Keys !! b.Keys
    ensures forall k :: k in a ==> k in a + b && (a + b)[k] == a[k]
  {
  }

  /** Setting a key outside `ks` keeps the values of `ks`. */
  lemma {:induction false} UpdateKeeps<K, V>(m: map<K, V>, k: K, v: V, ks: set<K>)
    requires k !in ks
    ensures forall j :: j in ks && j in m ==> j in m[k := v] && m[k := v][j] == m[j]
  {
  }

  /** The multipart request sends every structured field as given. */
  lemma {:induction false} MultipartValues(pq: PlaceQuery, show: real -> string)
    ensures var r := MultipartRequest(pq, show);
      forall k :: k in StructuredParams(pq) ==> k in r.params && r.params[k] == StructuredParams(pq)[k]
  {
  }

  /** A bounded multipart request carries the viewbox's envelope as its search extent. */
  lemma {:induction false} MultipartExtent(pq: PlaceQuery, show: real -> string)
    requires Bounded(pq)
    ensures var r := MultipartRequest(pq, show);
      SearchExtent in r.params && r.params[SearchExtent] == Str(ToEsriWgsJson(pq.viewbox.value, show))
  {
  }

  /** The single-line request: the text and country, a truthy magic key, and the box of a bounded query. */
  function SingleLineRequest(pq: PlaceQuery, show: real -> string): (r: Request)
    ensures r.task == Find
    ensures Text in r.params && r.params[Text] == Str(pq.query)
  {
    var params := BaseParams()[Text := Str(pq.query)][SourceCountry := Str(pq.country)];
    var params := if HasMagicKey(pq) then params[MagicKey := pq.ext["key"]] else params;
    if Bounded(pq) then Request(Find, params[Bbox := Str(ToEsriWgsJson(pq.viewbox.value, show))])
    else Request(Find, params)
  }

  /** The single-line request sends the base parameters, text and country, and the key and box exactly when present. */
  lemma {:induction false} SingleLineKeys(pq: PlaceQuery, show: real -> string)
    ensures SingleLineRequest(pq, show).params.Keys
         == BaseKeys + {Text, SourceCountry} + (if HasMagicKey(pq) then {MagicKey} else {})
            + (if Bounded(pq) then {Bbox} else {})
  {
  }

  /** The single-line request's values: the base ones, the country, the magic key and the rendered box. */
  lemma {:induction false} SingleLineValues(pq: PlaceQuery, show: real -> string)
    ensures var r := SingleLineRequest(pq, show);
      (forall k :: k in BaseParams() ==> k in r.params && r.params[k] == BaseParams()[k])
      && SourceCountry in r.params && r.params[SourceCountry] == Str(pq.country)
      && (HasMagicKey(pq) ==> MagicKey in r.params && r.params[MagicKey] == pq.ext["key"])
      && (Bounded(pq) ==> Bbox in r.params && r.params[Bbox] == Str(ToEsriWgsJson(pq.viewbox.value, show)))
  {
  }

  /**
   * The request `EsriWGS._geocode` sends for `pq`; `show` formats the
   * numbers of the viewbox's JSON envelope.
   */
  function GeocodeRequest(pq: PlaceQuery, show: real -> string): (r: Request)
    ensures r.task == Find <==> PromotePostal(pq).query != ""
    ensures r.task == Find ==> r == SingleLineRequest(PromotePostal(pq), show)
    ensures r.task == FindAddressCandidates ==> r == MultipartRequest(pq, show)
  {
    var pq := PromotePostal(pq);
    if pq.query == "" then MultipartRequest(pq, show) else SingleLineRequest(pq, show)
  }

  /** A postal-code-only query is searched as single-line text. */
  lemma {:induction false} PostalOnlyIsSingleLine(pq: PlaceQuery, show: real -> string)
    requires pq.query == "" && pq.address == "" && pq.postal != ""
    ensures GeocodeRequest(pq, show).task == Find
    ensures GeocodeRequest(pq, show).params[Text] == Str(pq.postal)
  {
  }

  /** A query with free text is single-line whatever its structured fields hold. */
  lemma {:induction false} FreeTextIgnoresFields(pq: PlaceQuery, show: real -> string)
    requires pq.query != ""
    ensures GeocodeRequest(pq, show) == GeocodeRequest(pq.(address := "", city := "", state := "", postal := ""), show)
  {
  }

  /**
   * The two kinds of request share nothing but the base parameters: the
   * free text never travels with the structured fields.
   */
  lemma {:induction false} RequestKindsDisjoint(pq: PlaceQuery, show: real -> string)
    ensures var r := GeocodeRequest(pq, show);
      (Text in r.params <==> r.task == Find) && (Address in r.params <==> r.task == FindAddressCandidates)
  {
    var p := PromotePostal(pq);
    if p.query == "" {
      MultipartKeys(p, show);
      MultipartKeySet(MultipartRequest(p, show).params.Keys, Bounded(p));
    } else {
      SingleLineKeys(p, show);
      SingleLineKeySet(SingleLineRequest(p, show).params.Keys, HasMagicKey(p), Bounded(p));
    }
  }

  /** The magic key only goes with single-line text, the search extent only with the structured fields. */
  lemma {:induction false} OptionalParamsByKind(pq: PlaceQuery, show: real -> string)
    ensures var r := GeocodeRequest(pq, show);
      (MagicKey in r.params ==> r.task == Find) && (SearchExtent in r.params ==> r.task == FindAddressCandidates)
  {
    var p := PromotePostal(pq);
    if p.query == "" {
      MultipartKeys(p, show);
      MultipartKeySet(MultipartRequest(p, show).params.Keys, Bounded(p));
    } else {
      SingleLineKeys(p, show);
      SingleLineKeySet(SingleLineRequest(p, show).params.Keys, HasMagicKey(p), Bounded(p));
    }
  }

  lemma {:induction false} MultipartKeySet(ks: set<Param>, bounded: bool)
    requires ks == BaseKeys + StructuredKeys + (if bounded then {SearchExtent} else {})
    ensures Address in ks && Text !in ks && MagicKey !in ks
  {
  }

  lemma {:induction false} SingleLineKeySet(ks: set<Param>, keyed: bool, bounded: bool)
    requires ks == BaseKeys + {Text, SourceCountry} + (if keyed then {MagicKey} else {}) + (if bounded then {Bbox} else {})
    ensures Text in ks && Address !in ks && SearchExtent !in ks
  {
  }

  // ----------------------------------------------------------------------
  // EsriWGS: candidates from a response

  /** The street-address fields of a response, in the order they are joined. */
  const StreetFields: seq<string> := ["AddNum", "StPreDir", "StPreType", "StName", "StType", "StDir"]

  /**
   * `_street_addr_from_response`: the non-empty street fields in order,
   * separated by single spaces; `''` when none is present and non-empty.
   */
  function StreetAddr(attributes: map<string, string>): (r: string)
    ensures r == "" <==> forall i :: 0 <= i < |StreetFields| ==> FieldValues(attributes, StreetFields)[i] == ""
  {
    var parts := FieldValues(attributes, StreetFields);
    if exists i :: 0 <= i < |parts| && parts[i] != "" then
      JoinNonEmptyParts(" ", NonEmpty(parts));
      Join(" ", NonEmpty(parts))
    else ""
  }

  /**
   * Splitting the street address at spaces gives back the non-empty
   * street fields, in order, when no field holds a space.
   */
  lemma {:induction false} StreetAddrSplits(attributes: map<string, string>)
    requires forall f :: f in attributes ==> ' ' !in attributes[f]
    requires exists i :: 0 <= i < |StreetFields| && FieldValues(attributes, StreetFields)[i] != ""
    ensures Split(StreetAddr(attributes), ' ') == NonEmpty(FieldValues(attributes, StreetFields))
  {
    var parts := FieldValues(attributes, StreetFields);
    var kept := NonEmpty(parts);
    forall k | 0 <= k < |kept|
      ensures ' ' !in kept[k]
    {
      var i :| 0 <= i < |parts| && parts[i] == kept[k];
      assert StreetFields[i] in attributes;
    }
    SplitJoin(kept, ' ');
  }

  /** The optional response fields and the candidate attributes they fill. */
  const Components: seq<(string, string)> := [("City", "match_city"), ("Subregion", "match_subregion"),
    ("Region", "match_region"), ("Postal", "match_postal"), ("Country", "match_country")]

  const ComponentKeys: set<string> := {"match_city", "match_subregion", "match_region", "match_postal", "match_country"}

  /** The optional components copied onto a candidate, `''` when the response lacks one. */
  function WithComponents(c: Candidate, attributes: map<string, Value>): (r: Candidate)
    ensures r.id == c.id
    ensures forall i :: 0 <= i < |Components| ==>
      (Components[i].1 in r.attrs
       && r.attrs[Components[i].1] == if Components[i].0 in attributes then attributes[Components[i].0] else Str(""))
    ensures forall k :: k in c.attrs && k !in ComponentKeys ==> k in r.attrs && r.attrs[k] == c.attrs[k]
  {
    var get := (k: string) => if k in attributes then attributes[k] else Str("");
    c.(attrs := c.attrs["match_city" := get("City")]["match_subregion" := get("Subregion")]
      ["match_region" := get("Region")]["match_postal" := get("Postal")]["match_country" := get("Country")])
  }

  // ----------------------------------------------------------------------
  // EsriWGS.DEFAULT_POSTPROCESSORS

  const GoodTypes: seq<Value> := [Str("PointAddress"), Str("StreetAddress")]

  /** `LOCATOR_MAP`, in its insertion order. */
  const LocatorMap: seq<(string, Value)> := [("PointAddress", Str("rooftop")), ("StreetAddress", Str("interpolation")),
    ("PostalExt", Str("postal_specific")), ("Postal", Str("postal"))]

  /** A candidate as the adapter builds it: everything the default chain reads is there. */
  predicate Built(c: Candidate) {
    "locator_type" in c.attrs && "locator" in c.attrs && c.attrs["locator"].Str?
    && HasNumScore(c) && "match_addr" in c.attrs && "x" in c.attrs && "y" in c.attrs
  }

  /** What the steps after the renaming read. */
  predicate Graded(c: Candidate) {
    HasNumScore(c) && "match_addr" in c.attrs && "x" in c.attrs && "y" in c.attrs
  }

  function XY(c: Candidate): seq<Value> {
    KeyOf(c, ["x", "y"])
  }

  /** `a` has a score and it is no lower than `b`'s. */
  predicate NotWorse(a: Candidate, b: Candidate) {
    HasNumScore(a) && HasNumScore(b) && Score(a) >= Score(b)
  }

  /** Scores never rise along `s`: the best candidate comes first. */
  predicate BestFirst(s: seq<Candidate>) {
    forall i, j :: 0 <= i < j < |s| ==> NotWorse(s[i], s[j])
  }

  /** Filter and bucket sort: the candidates of the listed types, grouped by type in list order. */
  function TypeSteps(cs: seq<Candidate>, types: seq<Value>): (r: seq<Candidate>)
    requires HasAttr(cs, "locator_type")
    ensures forall i :: 0 <= i < |r| ==> r[i] in cs && Lookup(r[i], "locator_type") in types
    ensures (exists i :: 0 <= i < |cs| && Lookup(cs[i], "locator_type") in types) ==> |r| > 0
  {
    TypeStepsMembers(cs, types);
    TypeStepsNonEmpty(cs, types);
    AttrSorter(AttrFilter(cs, types, "locator_type", true), types, "locator_type").out
  }

  /** The sorted selection holds candidates of the listed types only. */
  lemma {:induction false} TypeStepsMembers(cs: seq<Candidate>, types: seq<Value>)
    requires HasAttr(cs, "locator_type")
    ensures var filtered := AttrFilter(cs, types, "locator_type", true);
      HasAttr(filtered, "locator_type")
      && var sorted := AttrSorter(filtered, types, "locator_type").out;
      forall i :: 0 <= i < |sorted| ==> sorted[i] in cs && Lookup(sorted[i], "locator_type") in types
  {
    var filtered := AttrFilter(cs, types, "locator_type", true);
    var sorted := AttrSorter(filtered, types, "locator_type").out;
    forall i | 0 <= i < |sorted|
      ensures sorted[i] in cs && Lookup(sorted[i], "locator_type") in types
    {
      assert sorted[i] in multiset(filtered);
    }
  }

  /** A candidate of a listed type survives the selection. */
  lemma {:induction false} TypeStepsNonEmpty(cs: seq<Candidate>, types: seq<Value>)
    requires HasAttr(cs, "locator_type")
    ensures var filtered := AttrFilter(cs, types, "locator_type", true);
      HasAttr(filtered, "locator_type")
      && ((exists i :: 0 <= i < |cs| && Lookup(cs[i], "locator_type") in types) ==>
          |AttrSorter(filtered, types, "locator_type").out| > 0)
  {
    var filtered := AttrFilter(cs, types, "locator_type", true);
    if exists i :: 0 <= i < |cs| && Lookup(cs[i], "locator_type") in types {
      var i :| 0 <= i < |cs| && Lookup(cs[i], "locator_type") in types;
      assert cs[i] in filtered;
      var sorted := AttrSorter(filtered, types, "locator_type").out;
      assert |multiset(sorted)| == |multiset(filtered)|;
    }
  }

  /** The locator renaming touches nothing the later steps read. */
  function RenameStep(cs: seq<Candidate>): (r: seq<Candidate>)
    requires forall i :: 0 <= i < |cs| ==> Built(cs[i])
    ensures |r| == |cs| && Ids(r) == Ids(cs)
    ensures forall i :: 0 <= i < |r| ==> Graded(r[i]) && r[i].id == cs[i].id
  {
    BuiltHasAttrs(cs);
    var renamed := AttrRename(cs, "locator", LocatorMap, false, false);
    assert forall i :: 0 <= i < |renamed| ==> Graded(renamed[i]) by {
      forall i | 0 <= i < |renamed|
        ensures Graded(renamed[i])
      {
        assert Built(cs[i]);
      }
    }
    assert Ids(renamed) == Ids(cs) by {
      forall x | x in Ids(cs)
        ensures x in Ids(renamed)
      {
        var i :| 0 <= i < |cs| && cs[i].id == x;
        assert renamed[i].id == x;
      }
    }
    renamed
  }

  /** Keep the high scores if any, then sort by score: a non-empty list stays non-empty. */
  function ScoreSteps(cs: seq<Candidate>): (r: seq<Candidate>)
    requires forall i :: 0 <= i < |cs| ==> Graded(cs[i])
    ensures forall i :: 0 <= i < |r| ==> r[i] in cs
    ensures |cs| > 0 ==> |r| > 0
    ensures BestFirst(r)
  {
    assert Scored(cs) by {
      forall i | 0 <= i < |cs|
        ensures HasNumScore(cs[i])
      {
        assert Graded(cs[i]);
      }
    }
    var high := UseHighScoreIfAtLeast(cs, 99.8);
    HighScoreMembers(cs, 99.8);
    var bestFirst := ScoreSorter(high, true);
    forall i | 0 <= i < |bestFirst|
      ensures bestFirst[i] in cs
    {
      assert bestFirst[i] in multiset(high);
    }
    assert |bestFirst| == |high| by {
      assert |multiset(bestFirst)| == |multiset(high)|;
    }
    assert BestFirst(bestFirst) by {
      forall i, j | 0 <= i < j < |bestFirst|
        ensures NotWorse(bestFirst[i], bestFirst[j])
      {
        assert GoesFirst(bestFirst[i], bestFirst[j], true);
      }
    }
    bestFirst
  }

  /** The first candidate of each address: distinct addresses, nothing new, none lost entirely. */
  function AddressStep(cs: seq<Candidate>): (r: seq<Candidate>)
    requires forall i :: 0 <= i < |cs| ==> Graded(cs[i])
    ensures forall i, j :: 0 <= i < j < |r| ==> Lookup(r[i], "match_addr") != Lookup(r[j], "match_addr")
    ensures forall i :: 0 <= i < |r| ==> r[i] in cs && Graded(r[i])
    ensures |cs| > 0 ==> |r| > 0
    ensures BestFirst(cs) ==> BestFirst(r)
  {
    assert HasAttr(cs, "match_addr") by {
      forall i | 0 <= i < |cs|
        ensures "match_addr" in cs[i].attrs
      {
        assert Graded(cs[i]);
      }
    }
    var addrKey := (c: Candidate) => Lookup(c, "match_addr");
    var byAddress := GroupBy(cs, Single("match_addr")).out;
    UniqMembers(cs, addrKey, {});
    UniqDistinct(cs, addrKey, {});
    assert BestFirst(cs) ==> BestFirst(byAddress) by {
      if BestFirst(cs) {
        UniqKeepsOrder(cs, addrKey, {}, NotWorse);
      }
    }
    assert |cs| > 0 ==> |byAddress| > 0 by {
      if |cs| > 0 {
        UniqKeys(cs, addrKey, {});
        assert addrKey(cs[0]) in Keys(cs, addrKey);
      }
    }
    byAddress
  }

  /** The first candidate of each point: distinct points, nothing new, none lost entirely. */
  function PointStep(cs: seq<Candidate>): (r: seq<Candidate>)
    requires forall i :: 0 <= i < |cs| ==> Graded(cs[i])
    ensures forall i, j :: 0 <= i < j < |r| ==> XY(r[i]) != XY(r[j])
    ensures forall i :: 0 <= i < |r| ==> r[i] in cs
    ensures |cs| > 0 ==> |r| > 0
    ensures BestFirst(cs) ==> BestFirst(r)
  {
    assert HasAttrs(cs, ["x", "y"]) by {
      forall i | 0 <= i < |cs|
        ensures "x" in cs[i].attrs && "y" in cs[i].attrs
      {
        assert Graded(cs[i]);
      }
    }
    var pointKey := (c: Candidate) => KeyOf(c, ["x", "y"]);
    var byPoint := GroupBy(cs, Several(["x", "y"])).out;
    UniqMembers(cs, pointKey, {});
    UniqDistinct(cs, pointKey, {});
    assert BestFirst(cs) ==> BestFirst(byPoint) by {
      if BestFirst(cs) {
        UniqKeepsOrder(cs, pointKey, {}, NotWorse);
      }
    }
    assert |cs| > 0 ==> |byPoint| > 0 by {
      if |cs| > 0 {
        UniqKeys(cs, pointKey, {});
        assert pointKey(cs[0]) in Keys(cs, pointKey);
      }
    }
    byPoint
  }

  /** The two groupings: the first of each address, then the first of each point. */
  function GroupSteps(cs: seq<Candidate>): (r: seq<Candidate>)
    requires forall i :: 0 <= i < |cs| ==> Graded(cs[i])
    ensures forall i, j :: 0 <= i < j < |r| ==> Lookup(r[i], "match_addr") != Lookup(r[j], "match_addr")
    ensures forall i, j :: 0 <= i < j < |r| ==> XY(r[i]) != XY(r[j])
    ensures forall i :: 0 <= i < |r| ==> r[i] in cs
    ensures |cs| > 0 ==> |r| > 0
    ensures BestFirst(cs) ==> BestFirst(r)
  {
    var byAddress := AddressStep(cs);
    var byPoint := PointStep(byAddress);
    DistinctKeysInherited(byPoint, byAddress, XY, (c: Candidate) => Lookup(c, "match_addr"));
    WithinWithin(byPoint, byAddress, cs);
    byPoint
  }

  /** Membership in a sub-list carries over to the list it came from. */
  lemma {:induction false} WithinWithin<T>(r: seq<T>, s: seq<T>, t: seq<T>)
    requires forall i :: 0 <= i < |r| ==> r[i] in s
    requires forall i :: 0 <= i < |s| ==> s[i] in t
    ensures forall i :: 0 <= i < |r| ==> r[i] in t
  {
    forall i | 0 <= i < |r|
      ensures r[i] in t
    {
      var k :| 0 <= k < |s| && s[k] == r[i];
    }
  }

  /**
   * The default chain: keep point and street addresses, sort them in
   * that order, rename locators, keep the high scores if any, sort by
   * score, then keep the first of each address and of each point.  The
   * groupings keep the score order, so the best candidate comes first.
   */
  function DefaultChain(cs: seq<Candidate>): (r: seq<Candidate>)
    requires forall i :: 0 <= i < |cs| ==> Built(cs[i])
    ensures forall i, j :: 0 <= i < j < |r| ==> Lookup(r[i], "match_addr") != Lookup(r[j], "match_addr")
    ensures forall i, j :: 0 <= i < j < |r| ==> XY(r[i]) != XY(r[j])
    ensures Ids(r) <= Ids(cs)
    ensures (exists i :: 0 <= i < |cs| && Lookup(cs[i], "locator_type") in GoodTypes) ==> |r| > 0
    ensures BestFirst(r)
  {
    var renamed := FrontSteps(cs);
    var r := BackSteps(renamed);
    IdsWithin(r, renamed);
    r
  }

  /** Keep and sort the good types, then rename their locators. */
  function FrontSteps(cs: seq<Candidate>): (r: seq<Candidate>)
    requires forall i :: 0 <= i < |cs| ==> Built(cs[i])
    ensures forall i :: 0 <= i < |r| ==> Graded(r[i])
    ensures Ids(r) <= Ids(cs)
    ensures (exists i :: 0 <= i < |cs| && Lookup(cs[i], "locator_type") in GoodTypes) ==> |r| > 0
  {
    BuiltHasAttrs(cs);
    var typed := TypeSteps(cs, GoodTypes);
    Members(typed, cs);
    RenameStep(typed)
  }

  /** Keep the high scores if any, sort by score, then group by address and by point. */
  function BackSteps(cs: seq<Candidate>): (r: seq<Candidate>)
    requires forall i :: 0 <= i < |cs| ==> Graded(cs[i])
    ensures forall i, j :: 0 <= i < j < |r| ==> Lookup(r[i], "match_addr") != Lookup(r[j], "match_addr")
    ensures forall i, j :: 0 <= i < j < |r| ==> XY(r[i]) != XY(r[j])
    ensures forall i :: 0 <= i < |r| ==> r[i] in cs
    ensures |cs| > 0 ==> |r| > 0
    ensures BestFirst(r)
  {
    var scored := ScoreSteps(cs);
    GradedWithin(scored, cs);
    var r := GroupSteps(scored);
    WithinWithin(r, scored, cs);
    r
  }

  lemma {:induction false} GradedWithin(r: seq<Candidate>, s: seq<Candidate>)
    requires forall i :: 0 <= i < |r| ==> r[i] in s
    requires forall i :: 0 <= i < |s| ==> Graded(s[i])
    ensures forall i :: 0 <= i < |r| ==> Graded(r[i])
  {
    forall i | 0 <= i < |r|
      ensures Graded(r[i])
    {
      var k :| 0 <= k < |s| && s[k] == r[i];
    }
  }

  lemma {:induction false} IdsWithin(r: seq<Candidate>, s: seq<Candidate>)
    requires forall i :: 0 <= i < |r| ==> r[i] in s
    ensures Ids(r) <= Ids(s)
  {
    forall x | x in Ids(r)
      ensures x in Ids(s)
    {
      var i :| 0 <= i < |r| && r[i].id == x;
      var k :| 0 <= k < |s| && s[k] == r[i];
    }
  }

  /** A selection of built candidates is built, and its identities are among theirs. */
  lemma {:induction false} Members(r: seq<Candidate>, s: seq<Candidate>)
    requires forall i :: 0 <= i < |r| ==> r[i] in s
    ensures Ids(r) <= Ids(s)
    ensures (forall i :: 0 <= i < |s| ==> Built(s[i])) ==> forall i :: 0 <= i < |r| ==> Built(r[i])
  {
    forall x | x in Ids(r)
      ensures x in Ids(s)
    {
      var i :| 0 <= i < |r| && r[i].id == x;
      var k :| 0 <= k < |s| && s[k] == r[i];
    }
  }

  /** A built candidate carries what the filter, sorter and renamer read. */
  lemma {:induction false} BuiltHasAttrs(cs: seq<Candidate>)
    requires forall i :: 0 <= i < |cs| ==> Built(cs[i])
    ensures HasAttr(cs, "locator_type") && HasAttr(cs, "locator")
    ensures forall i :: 0 <= i < |cs| ==> cs[i].attrs["locator"].Str?
  {
    forall i | 0 <= i < |cs|
      ensures "locator_type" in cs[i].attrs && "locator" in cs[i].attrs
    {
      assert Built(cs[i]);
    }
  }

  /** The high-score step keeps only candidates it was given. */
  lemma {:induction false} HighScoreMembers(cs: seq<Candidate>, minScore: real)
    requires Scored(cs)
    ensures forall i :: 0 <= i < |UseHighScoreIfAtLeast(cs, minScore)| ==> UseHighScoreIfAtLeast(cs, minScore)[i] in cs
  {
    Seqs.FilterIsSubseq(cs, c => ScoreAtLeast(c, minScore));
  }

  /**
   * A selection `r` of `s` with pairwise different keys `k2` keeps the
   * pairwise distinctness of `s`'s keys `k1`.
   */
  lemma {:induction false} DistinctKeysInherited<K1, K2>(r: seq<Candidate>, s: seq<Candidate>, k2: Candidate -> K2, k1: Candidate -> K1)
    requires forall i :: 0 <= i < |r| ==> r[i] in s
    requires forall i, j :: 0 <= i < j < |r| ==> k2(r[i]) != k2(r[j])
    requires forall i, j :: 0 <= i < j < |s| ==> k1(s[i]) != k1(s[j])
    ensures forall i, j :: 0 <= i < j < |r| ==> k1(r[i]) != k1(r[j])
  {
    forall i, j | 0 <= i < j < |r|
      ensures k1(r[i]) != k1(r[j])
    {
      var a :| 0 <= a < |s| && s[a] == r[i];
      var b :| 0 <= b < |s| && s[b] == r[j];
      if a == b {
        assert false;
      } else if a < b {
        assert k1(s[a]) != k1(s[b]);
      } else {
        assert k1(s[b]) != k1(s[a]);
      }
    }
  }
}

=== FILE: geocoder.dfy ===
/**
 * The orchestrator of `omgeo/geocoder.py`: a `Geocoder` holds adapters in
 * a configured order plus universal pre- and postprocessors, and its
 * `geocode` asks the adapters in turn, stopping after the first that
 * yields candidates unless waterfall is on.
 *
 * An adapter is its `geocode`, a function from the preprocessed query to
 * candidates and an optional call record.  Building adapters from their
 * dotted names (`add_source`) is replaced by passing them directly.
 */
module Orchestrator {
  import opened Wrappers
  import opened Values
  import opened Places
  import opened Pipeline
  import opened ServiceBase

  /** An adapter as the orchestrator sees it. */
  type Source = PlaceQuery -> Response

  datatype Geocoder = Geocoder(sources: seq<Source>, pre: seq<Pre>, post: seq<Post>, waterfall: Value)

  /** The class-level defaults: the default adapters and universal postprocessors. */
  datatype Defaults = Defaults(sources: seq<Source>, post: seq<Post>)

  const NoSources := "Must declare at least one source for a geocoder"

  /** `set_sources`: refuses an empty list, otherwise replaces the adapters. */
  function SetSources(g: Geocoder, sources: seq<Source>): (r: Result<Geocoder, string>)
    ensures r.Err? <==> |sources| == 0
    ensures r.Err? ==> r.error == NoSources
    ensures r.Ok? ==> r.value == g.(sources := sources)
  {
    if |sources| == 0 then Err(NoSources) else Ok(g.(sources := sources))
  }

  /**
   * `Geocoder(sources, preprocessors, postprocessors, waterfall)`:
   * absent arguments take the class defaults (no universal
   * preprocessors), and the adapters go through `set_sources`.
   */
  function NewGeocoder(sources: Option<seq<Source>>, pre: Option<seq<Pre>>, post: Option<seq<Post>>,
                       waterfall: Value, defaults: Defaults): (r: Result<Geocoder, string>)
    ensures r.Err? <==> |sources.GetOr(defaults.sources)| == 0
    ensures r.Ok? ==> r.value == Geocoder(sources.GetOr(defaults.sources), pre.GetOr([]),
                                          post.GetOr(defaults.post), waterfall)
    ensures r.Ok? ==> |r.value.sources| > 0
  {
    var g := Geocoder([], pre.GetOr([]), post.GetOr(defaults.post), Null);
    var g :- SetSources(g, sources.GetOr(defaults.sources));
    Ok(g.(waterfall := waterfall))
  }

  // ----------------------------------------------------------------------
  // The adapter loop

  /** The candidates of the first `n` adapters, in adapter order. */
  function Concat(sources: seq<Source>, q: PlaceQuery, n: nat): seq<Candidate>
    requires n <= |sources|
  {
    if n == 0 then [] else Concat(sources, q, n - 1) + sources[n - 1](q).candidates
  }

  /** The call records the first `n` adapters returned, in adapter order. */
  function InfosOf(sources: seq<Source>, q: PlaceQuery, n: nat): seq<Info>
    requires n <= |sources|
  {
    if n == 0 then []
    else
      var info := sources[n - 1](q).info;
      InfosOf(sources, q, n - 1) + if info.Some? then [info.value] else []
  }

  /** What the loop gathered, and how many adapters it called. */
  datatype Gathered = Gathered(candidates: seq<Candidate>, infos: seq<Info>, called: nat)

  /**
   * The loop from adapter `i` on, with `acc` and `infos` gathered so far:
   * each adapter's candidates are appended and its record kept when there
   * is one; with `stopEarly` the loop ends right after an adapter that
   * leaves the gathered list non-empty.
   */
  function Gather(sources: seq<Source>, q: PlaceQuery, stopEarly: bool, i: nat,
                  acc: seq<Candidate>, infos: seq<Info>): (r: Gathered)
    requires i <= |sources|
    requires acc == Concat(sources, q, i) && infos == InfosOf(sources, q, i)
    ensures i <= r.called <= |sources|
    ensures r.candidates == Concat(sources, q, r.called) && r.infos == InfosOf(sources, q, r.called)
    ensures !stopEarly ==> r.called == |sources|
    ensures stopEarly && r.called < |sources| ==> r.candidates != []
    ensures stopEarly && acc == [] ==> forall k :: i <= k < r.called ==> Concat(sources, q, k) == []
    decreases |sources| - i
  {
    if i == |sources| then Gathered(acc, infos, i)
    else
      var response := sources[i](q);
      var infos := infos + if response.info.Some? then [response.info.value] else [];
      var acc := acc + response.candidates;
      if stopEarly && |acc| > 0 then Gathered(acc, infos, i + 1)
      else Gather(sources, q, stopEarly, i + 1, acc, infos)
  }

  /** The whole loop, from the first adapter with nothing gathered. */
  function GatherAll(sources: seq<Source>, q: PlaceQuery, stopEarly: bool): (r: Gathered)
    ensures r.called <= |sources|
    ensures r.candidates == Concat(sources, q, r.called) && r.infos == InfosOf(sources, q, r.called)
    ensures !stopEarly ==> r.called == |sources|
    ensures stopEarly && r.called < |sources| ==> r.candidates != []
    ensures stopEarly ==> forall k :: 0 <= k < r.called ==> Concat(sources, q, k) == []
  {
    Gather(sources, q, stopEarly, 0, [], [])
  }

  /**
   * The adapters after the last one called make no difference: they are
   * never called.
   */
  lemma {:induction false} GatherIgnoresLater(sources: seq<Source>, later: seq<Source>, q: PlaceQuery, stopEarly: bool,
                                              i: nat, acc: seq<Candidate>, infos: seq<Info>)
    requires i <= |sources|
    requires acc == Concat(sources, q, i) && infos == InfosOf(sources, q, i)
    ensures var r := Gather(sources, q, stopEarly, i, acc, infos);
      var cut := sources[..r.called] + later;
      r.called <= |cut| && acc == Concat(cut, q, i) && infos == InfosOf(cut, q, i)
      && (r.called < |sources| ==> Gather(cut, q, stopEarly, i, acc, infos) == r)
    decreases |sources| - i
  {
    var r := Gather(sources, q, stopEarly, i, acc, infos);
    var cut := sources[..r.called] + later;
    ConcatPrefix(sources, cut, q, i);
    if i < |sources| {
      var response := sources[i](q);
      var infos' := infos + if response.info.Some? then [response.info.value] else [];
      var acc' := acc + response.candidates;
      if !(stopEarly && |acc'| > 0) {
        GatherIgnoresLater(sources, later, q, stopEarly, i + 1, acc', infos');
      }
    }
  }

  /** Two adapter lists that agree on their first `n` adapters gather the same from them. */
  lemma {:induction false} ConcatPrefix(a: seq<Source>, b: seq<Source>, q: PlaceQuery, n: nat)
    requires n <= |a| && n <= |b| && a[..n] == b[..n]
    ensures Concat(a, q, n) == Concat(b, q, n) && InfosOf(a, q, n) == InfosOf(b, q, n)
  {
    if n > 0 {
      assert a[..n - 1] == b[..n - 1] && a[n - 1] == b[n - 1] by {
        assert a[..n][..n - 1] == a[..n - 1] && b[..n][..n - 1] == b[..n - 1];
        assert a[..n][n - 1] == a[n - 1] && b[..n][n - 1] == b[n - 1];
      }
      ConcatPrefix(a, b, q, n - 1);
    }
  }

  // ----------------------------------------------------------------------
  // Geocoder.geocode

  /** `geocode` accepts a `PlaceQuery` or a bare string. */
  datatype QueryArg = Text(s: string) | Query(pq: PlaceQuery)

  /** `{'candidates': ..., 'upstream_response_info': ...}`. */
  datatype GeocodeResult = GeocodeResult(candidates: seq<Candidate>, upstreamResponseInfo: seq<Info>)

  /** The ways `geocode` raises. */
  datatype GeocodeError =
    | BadQuery(msg: string)     // `PlaceQuery(s)` refused an empty string
    | UndefinedGetResult        // the rejection branch calls a name that is not defined
    | StatsLoggingFailed        // re-raised because stats logging was forced

  /**
   * `self.waterfall if waterfall is None else waterfall`.  `None` is the
   * omitted argument and `Some(Null)` an explicit `None`; both fall back
   * to the geocoder's own setting.
   */
  function EffectiveWaterfall(g: Geocoder, waterfall: Option<Value>): (w: Value)
    ensures waterfall.None? || waterfall.value.Null? ==> w == g.waterfall
    ensures waterfall.Some? && !waterfall.value.Null? ==> w == waterfall.value
  {
    if waterfall.None? || waterfall.value.Null? then g.waterfall else waterfall.value
  }

  /** The query a string or a query argument stands for. */
  function QueryFrom(q: QueryArg): (r: Result<PlaceQuery, GeocodeError>)
    ensures q.Query? ==> r == Ok(q.pq)
    ensures q.Text? ==> (r.Ok? <==> q.s != "")
    ensures q.Text? && r.Ok? ==> r.value.query == q.s && r.value.address == ""
  {
    match q
    case Query(pq) => Ok(pq)
    case Text(s) =>
      match QueryOf(s)
      case Ok(pq) => Ok(pq)
      case Err(msg) => Err(BadQuery(msg))
  }

  /**
   * `Geocoder.geocode(pq, waterfall, force_stats_logging)` as written.
   * `statsLogFails` says whether writing the stats record raises.  The
   * loop stops early exactly when the effective waterfall is the object
   * `False` (the test is `waterfall is False`).
   */
  function Geocode(g: Geocoder, q: QueryArg, waterfall: Option<Value>, forceStats: bool, statsLogFails: bool)
    : (r: Result<GeocodeResult, GeocodeError>)
    ensures QueryFrom(q).Err? ==> r == Err(QueryFrom(q).error)
    ensures QueryFrom(q).Ok? && RunPre(g.pre, QueryFrom(q).value).query.None? ==> r == Err(UndefinedGetResult)
    ensures r.Ok? ==>
      var gathered := GatherAll(g.sources, RunPre(g.pre, QueryFrom(q).value).query.value,
                                EffectiveWaterfall(g, waterfall) == Bool(false));
      r.value == GeocodeResult(Gated(g.post, gathered.candidates), gathered.infos)
    ensures r == Err(StatsLoggingFailed) <==>
      QueryFrom(q).Ok? && RunPre(g.pre, QueryFrom(q).value).query.Some? && forceStats && statsLogFails
  {
    var pq :- QueryFrom(q);
    match RunPre(g.pre, pq).query
    case None => Err(UndefinedGetResult)
    case Some(processed) =>
      var stopEarly := EffectiveWaterfall(g, waterfall) == Bool(false);
      var gathered := GatherAll(g.sources, processed, stopEarly);
      var result := GeocodeResult(Gated(g.post, gathered.candidates), gathered.infos);
      if statsLogFails && forceStats then Err(StatsLoggingFailed) else Ok(result)
  }

  /**
   * `geocode` with the rejection branch doing what its comment says:
   * a rejected query gives an empty result.
   */
  function GeocodeFixed(g: Geocoder, q: QueryArg, waterfall: Option<Value>, forceStats: bool, statsLogFails: bool)
    : (r: Result<GeocodeResult, GeocodeError>)
    ensures r != Err(UndefinedGetResult)
    ensures QueryFrom(q).Ok? && RunPre(g.pre, QueryFrom(q).value).query.None? ==> r == Ok(GeocodeResult([], []))
    ensures QueryFrom(q).Ok? && RunPre(g.pre, QueryFrom(q).value).query.Some? ==>
      r == Geocode(g, q, waterfall, forceStats, statsLogFails)
  {
    var pq :- QueryFrom(q);
    if RunPre(g.pre, pq).query.None? then Ok(GeocodeResult([], []))
    else Geocode(g, q, waterfall, forceStats, statsLogFails)
  }

  /** As written, a universal preprocessor's rejection raises instead of returning a result. */
  lemma {:induction false} RejectionRaises(g: Geocoder, pq: PlaceQuery, waterfall: Option<Value>, forceStats: bool, statsLogFails: bool)
    requires |g.pre| > 0 && g.pre[0](pq).None?
    ensures Geocode(g, Query(pq), waterfall, forceStats, statsLogFails) == Err(UndefinedGetResult)
    ensures GeocodeFixed(g, Query(pq), waterfall, forceStats, statsLogFails) == Ok(GeocodeResult([], []))
  {
  }

  /**
   * Passing `waterfall=None` is the same as leaving it out: the
   * geocoder's own setting decides, for `geocode` and `get_candidates`.
   */
  lemma {:induction false} ExplicitNoneIsDefault(g: Geocoder, q: QueryArg, forceStats: bool, statsLogFails: bool)
    ensures Geocode(g, q, Some(Null), forceStats, statsLogFails) == Geocode(g, q, None, forceStats, statsLogFails)
    ensures GeocodeFixed(g, q, Some(Null), forceStats, statsLogFails) == GeocodeFixed(g, q, None, forceStats, statsLogFails)
    ensures GetCandidates(g, q, Some(Null), statsLogFails) == GetCandidates(g, q, None, statsLogFails)
    ensures Geocode(g, q, Some(Null), forceStats, statsLogFails) == Geocode(g, q, Some(g.waterfall), forceStats, statsLogFails)
  {
  }

  /** A bare string is geocoded as `PlaceQuery(query=s)`. */
  lemma {:induction false} StringIsWrapped(g: Geocoder, s: string, waterfall: Option<Value>, forceStats: bool, statsLogFails: bool)
    requires s != ""
    ensures Geocode(g, Text(s), waterfall, forceStats, statsLogFails)
         == Geocode(g, Query(QueryOf(s).value), waterfall, forceStats, statsLogFails)
  {
  }

  /**
   * Without waterfall, adapters after the first one that yields
   * candidates are never called: replacing them changes nothing.
   */
  lemma {:induction false} LaterSourcesUnused(g: Geocoder, pq: PlaceQuery, later: seq<Source>, waterfall: Option<Value>,
                           forceStats: bool, statsLogFails: bool)
    requires RunPre(g.pre, pq).query.Some?
    requires EffectiveWaterfall(g, waterfall) == Bool(false)
    ensures var called := GatherAll(g.sources, RunPre(g.pre, pq).query.value, true).called;
      called < |g.sources| ==>
        Geocode(g.(sources := g.sources[..called] + later), Query(pq), waterfall, forceStats, statsLogFails)
        == Geocode(g, Query(pq), waterfall, forceStats, statsLogFails)
  {
    GatherIgnoresLater(g.sources, later, RunPre(g.pre, pq).query.value, true, 0, [], []);
  }

  /** With waterfall on (any value but `False`), every adapter is called once, in order. */
  lemma {:induction false} WaterfallCallsAll(g: Geocoder, pq: PlaceQuery, waterfall: Option<Value>)
    requires RunPre(g.pre, pq).query.Some?
    requires EffectiveWaterfall(g, waterfall) != Bool(false)
    ensures var q := RunPre(g.pre, pq).query.value;
      var gathered := GatherAll(g.sources, q, false);
      gathered.called == |g.sources| && gathered.candidates == Concat(g.sources, q, |g.sources|)
  {
  }

  /** Stats logging only matters when forced: otherwise its failure is swallowed. */
  lemma {:induction false} StatsFailureSwallowed(g: Geocoder, q: QueryArg, waterfall: Option<Value>)
    ensures Geocode(g, q, waterfall, false, true) == Geocode(g, q, waterfall, false, false)
    ensures Geocode(g, q, waterfall, true, false) == Geocode(g, q, waterfall, false, false)
  {
  }

  /** A gathered list that is empty is not postprocessed: the result is empty whatever the postprocessors do. */
  lemma {:induction false} EmptyNotPostprocessed(g: Geocoder, pq: PlaceQuery, waterfall: Option<Value>)
    requires RunPre(g.pre, pq).query.Some?
    requires Geocode(g, Query(pq), waterfall, false, false).Ok?
    requires GatherAll(g.sources, RunPre(g.pre, pq).query.value, EffectiveWaterfall(g, waterfall) == Bool(false)).candidates == []
    ensures Geocode(g, Query(pq), waterfall, false, false).value.candidates == []
  {
  }

  /**
   * `get_candidates(pq, waterfall)`: the candidate list of `geocode`
   * without forced stats logging, so a failing stats logger never
   * surfaces; a rejected query still raises.
   */
  function GetCandidates(g: Geocoder, q: QueryArg, waterfall: Option<Value>, statsLogFails: bool)
    : (r: Result<seq<Candidate>, GeocodeError>)
    ensures r.Ok? <==> QueryFrom(q).Ok? && RunPre(g.pre, QueryFrom(q).value).query.Some?
    ensures r.Err? ==> r.error != StatsLoggingFailed
    ensures r.Ok? ==>
      r.value == Gated(g.post, GatherAll(g.sources, RunPre(g.pre, QueryFrom(q).value).query.value,
                                         EffectiveWaterfall(g, waterfall) == Bool(false)).candidates)
  {
    var result :- Geocode(g, q, waterfall, false, statsLogFails);
    Ok(result.candidates)
  }
}

=== FILE: google.dfy ===
/**
 * The Google adapter of `omgeo/services/google.py`, up to the network
 * call: its default preprocessing, the request parameters, and the
 * candidate built from one result, with its address-component lookup.
 */
module Google {
  import opened Wrappers
  import opened Values
  import opened Places
  import opened Pipeline
  import opened ServiceBase
  import Preprocessors

  // ----------------------------------------------------------------------
  // Construction

  /** `ComposeSingleLine` as a preprocessor: it never rejects. */
  function ComposePre(): Pre {
    (pq: PlaceQuery) => Some(Preprocessors.ComposeSingleLine(pq))
  }

  /** `Google(preprocessors, postprocessors, settings)`: preprocessing defaults to `ComposeSingleLine` alone. */
  function NewGoogle(backend: PlaceQuery -> Outcome, pre: Option<seq<Pre>>, post: Option<seq<Post>>,
                     settings: Option<map<string, Value>>): (r: Service)
    ensures pre.None? ==> r.pre == [ComposePre()]
    ensures pre.Some? ==> r.pre == pre.value
    ensures post.None? ==> r.post == []
    ensures r.name == "Google"
  {
    NewService("Google", backend, Some(pre.GetOr([ComposePre()])), post, settings)
  }

  /** With the default preprocessing, every query reaches the backend, composed into one line. */
  lemma {:induction false} DefaultPreComposes(backend: PlaceQuery -> Outcome, settings: Option<map<string, Value>>, pq: PlaceQuery)
    ensures var s := NewGoogle(backend, None, None, settings);
      RunPre(s.pre, pq) == PreRun(Some(Preprocessors.ComposeSingleLine(pq)), 1)
  {
    var s := NewGoogle(backend, None, None, settings);
    assert s.pre[1..] == [];
  }

  // ----------------------------------------------------------------------
  // _geocode: request parameters

  datatype Param = Address | Key | Components | Bounds

  /**
   * The parameters for `pq`: the text and the API key, the country
   * restriction when a country is given, and the bounds when a viewbox
   * is.  A missing `api_key` setting raises.
   */
  function GeocodeParams(pq: PlaceQuery, settings: map<string, Value>, show: real -> string)
    : (r: Result<map<Param, Value>, string>)
    ensures r.Err? <==> "api_key" !in settings
    ensures r.Ok? ==> Address in r.value && Key in r.value
    ensures r.Ok? ==> r.value[Address] == Str(pq.query) && r.value[Key] == settings["api_key"]
    ensures r.Ok? ==> (Components in r.value <==> pq.country != "")
    ensures r.Ok? && pq.country != "" ==> r.value[Components] == Str("country:" + pq.country)
    ensures r.Ok? ==> (Bounds in r.value <==> pq.viewbox.Some?)
    ensures r.Ok? && pq.viewbox.Some? ==> r.value[Bounds] == Str(ToGoogleStr(pq.viewbox.value, show))
    ensures r.Ok? ==> r.value.Keys <= {Address, Key, Components, Bounds}
  {
    if "api_key" !in settings then Err("KeyError: api_key")
    else
      var params := map[Address := Str(pq.query), Key := settings["api_key"]];
      var params := if pq.country != "" then params[Components := Str("country:" + pq.country)] else params;
      var params := if pq.viewbox.Some? then params[Bounds := Str(ToGoogleStr(pq.viewbox.value, show))] else params;
      Ok(params)
  }

  // ----------------------------------------------------------------------
  // _get_component_from_result

  /** An entry of `address_components`: its types and its names by key. */
  datatype AddressComponent = AddressComponent(types: seq<string>, names: map<string, string>)

  /** Which component type to look for, and which of its names to take. */
  datatype ComponentLookup = ComponentLookup(kind: string, key: string)

  /** The requested name of a component, `''` when it has none. */
  function NameOf(c: AddressComponent, key: string): string {
    if key in c.names then c.names[key] else ""
  }

  /** Component `j` is the first whose types include `kind`. */
  predicate FirstOfKind(components: seq<AddressComponent>, kind: string, j: nat) {
    j < |components| && kind in components[j].types
    && forall l :: 0 <= l < j ==> kind !in components[l].types
  }

  /**
   * The requested name of the first component of the requested type;
   * `''` if that component lacks the name or no component has the type.
   */
  function GetComponent(components: seq<AddressComponent>, lookup: ComponentLookup): (r: string)
    ensures (forall j :: 0 <= j < |components| ==> lookup.kind !in components[j].types) ==> r == ""
    ensures forall j: nat :: FirstOfKind(components, lookup.kind, j) ==> r == NameOf(components[j], lookup.key)
    decreases |components|
  {
    if |components| == 0 then ""
    else if lookup.kind in components[0].types then NameOf(components[0], lookup.key)
    else
      var r := GetComponent(components[1..], lookup);
      assert forall j: nat :: FirstOfKind(components, lookup.kind, j) ==> r == NameOf(components[j], lookup.key) by {
        forall j: nat | FirstOfKind(components, lookup.kind, j)
          ensures r == NameOf(components[j], lookup.key)
        {
          assert j != 0;
          assert FirstOfKind(components[1..], lookup.kind, j - 1) by {
            forall l | 0 <= l < j - 1
              ensures lookup.kind !in components[1..][l].types
            {
              assert components[1..][l] == components[l + 1];
            }
          }
        }
      }
      r
  }

  /** Components after the first match are never looked at. */
  lemma {:induction false} GetComponentPrefix(components: seq<AddressComponent>, more: seq<AddressComponent>,
                                              lookup: ComponentLookup)
    requires exists j :: 0 <= j < |components| && lookup.kind in components[j].types
    ensures GetComponent(components + more, lookup) == GetComponent(components, lookup)
    decreases |components|
  {
    assert (components + more)[0] == components[0];
    if lookup.kind !in components[0].types {
      assert (components + more)[1..] == components[1..] + more;
      var j :| 0 <= j < |components| && lookup.kind in components[j].types;
      assert components[1..][j - 1] == components[j];
      GetComponentPrefix(components[1..], more, lookup);
    }
  }

  // ----------------------------------------------------------------------
  // _make_candidate_from_result

  /** The part of a result the candidate is built from. */
  datatype GeocodeResult = GeocodeResult(
    formattedAddress: Value, lng: Value, lat: Value, locationType: string,
    extra: map<string, Value>,  // optional keys such as `partial_match`
    components: seq<AddressComponent>)

  /** `LOCATOR_MAPPING.get(location_type, '')`. */
  function Locator(locationType: string): (r: string)
    ensures r == "rooftop" <==> locationType == "ROOFTOP"
    ensures r == "interpolated" <==> locationType == "RANGE_INTERPOLATED"
    ensures r != "rooftop" && r != "interpolated" ==> r == ""
  {
    if locationType == "ROOFTOP" then "rooftop"
    else if locationType == "RANGE_INTERPOLATED" then "interpolated"
    else ""
  }

  /** The fields a result gives its candidate, besides match address and coordinates. */
  datatype MatchFields = MatchFields(
    locator: string, partialMatch: Value,
    city: string, subregion: string, region: string, postal: string, country: string)

  /**
   * The fields of one result's candidate: the locator through the
   * mapping, `partial_match` defaulting to `False`, region and country by
   * short name and the other components by long name.
   */
  function ResultFields(result: GeocodeResult): (f: MatchFields)
    ensures f.locator == Locator(result.locationType)
    ensures "partial_match" !in result.extra ==> f.partialMatch == Bool(false)
    ensures "partial_match" in result.extra ==> f.partialMatch == result.extra["partial_match"]
    ensures f.city == GetComponent(result.components, ComponentLookup("locality", "long_name"))
    ensures f.subregion == GetComponent(result.components, ComponentLookup("administrative_area_level_2", "long_name"))
    ensures f.region == GetComponent(result.components, ComponentLookup("administrative_area_level_1", "short_name"))
    ensures f.postal == GetComponent(result.components, ComponentLookup("postal_code", "long_name"))
    ensures f.country == GetComponent(result.components, ComponentLookup("country", "short_name"))
  {
    var get := (kind: string, key: string) => GetComponent(result.components, ComponentLookup(kind, key));
    MatchFields(
      Locator(result.locationType),
      if "partial_match" in result.extra then result.extra["partial_match"] else Bool(false),
      get("locality", "long_name"), get("administrative_area_level_2", "long_name"),
      get("administrative_area_level_1", "short_name"), get("postal_code", "long_name"),
      get("country", "short_name"))
  }

  /** A result with no components gives empty component fields. */
  lemma {:induction false} NoComponentsEmpty(result: GeocodeResult)
    requires result.components == []
    ensures var f := ResultFields(result);
      f.city == "" && f.subregion == "" && f.region == "" && f.postal == "" && f.country == ""
  {
  }
}

=== FILE: greedy.dfy ===
/**
 * The greedy de-duplication loop shared by `GroupBy`, `GroupByMultiple`
 * and `SnapPoints`:
 *
 *     keepers = []
 *     for anchor in candidates[:]:          # snapshot of the input
 *         matches = [c for c in candidates if rel(anchor, c)]
 *         if matches != []:
 *             keepers.append(matches[0])
 *             for m in matches: candidates.remove(m)
 *
 * `Sweep` returns the keepers together with what is left of the live
 * list.  For `rel` an equality of keys, `Uniq` and `Firsts` are two
 * independent descriptions of the outcome: first-of-each-class scanning
 * with a set of seen keys, and "no earlier element has the same key".
 */
module Greedy {
  import opened Seqs

  /** One pass of the loop: anchors from the snapshot, matches from the live list `rest`. */
  function Sweep<T(==)>(anchors: seq<T>, rest: seq<T>, rel: (T, T) -> bool): (r: (seq<T>, seq<T>))
    ensures |r.0| <= |anchors|
    ensures forall i :: 0 <= i < |r.0| ==> r.0[i] in rest
    ensures forall i :: 0 <= i < |r.1| ==> r.1[i] in rest
    decreases |anchors|
  {
    if |anchors| == 0 then ([], rest)
    else
      var a := anchors[0];
      var matches := Filter(rest, c => rel(a, c));
      var remaining := Filter(rest, c => !rel(a, c));
      var (keepers, leftover) := Sweep(anchors[1..], remaining, rel);
      if |matches| > 0 then ([matches[0]] + keepers, leftover) else (keepers, leftover)
  }

  /** Nothing is invented or duplicated: keepers and leftover together are part of `rest`. */
  lemma {:induction false} SweepSubMultiset<T>(anchors: seq<T>, rest: seq<T>, rel: (T, T) -> bool)
    ensures multiset(Sweep(anchors, rest, rel).0) + multiset(Sweep(anchors, rest, rel).1) <= multiset(rest)
    decreases |anchors|
  {
    if |anchors| > 0 {
      var a := anchors[0];
      var matches := Filter(rest, c => rel(a, c));
      var remaining := Filter(rest, c => !rel(a, c));
      var inner := Sweep(anchors[1..], remaining, rel);
      FilterSplit(rest, c => rel(a, c), c => !rel(a, c));
      SweepSubMultiset(anchors[1..], remaining, rel);
      KeepFirstSub(matches, remaining, rest, inner.0, inner.1);
      if |matches| == 0 {
        assert [] + inner.0 == inner.0;
      }
    }
  }

  /** Keeping at most the first match, plus a part of the rest, keeps a part of the whole. */
  lemma {:induction false} KeepFirstSub<T>(m: seq<T>, rem: seq<T>, whole: seq<T>, k: seq<T>, l: seq<T>)
    requires multiset(m) + multiset(rem) == multiset(whole)
    requires multiset(k) + multiset(l) <= multiset(rem)
    ensures multiset((if |m| > 0 then [m[0]] else []) + k) + multiset(l) <= multiset(whole)
  {
    if |m| > 0 {
      assert m == [m[0]] + m[1..];
      assert multiset([m[0]]) <= multiset(m);
    } else {
      assert [] + k == k;
    }
  }

  /**
   * When every live element is also an anchor and relates to itself, the
   * live list ends up empty.
   */
  lemma {:induction false} SweepDrains<T>(anchors: seq<T>, rest: seq<T>, rel: (T, T) -> bool)
    requires forall x :: x in rest ==> x in anchors && rel(x, x)
    ensures Sweep(anchors, rest, rel).1 == []
    decreases |anchors|
  {
    if |anchors| > 0 {
      var a := anchors[0];
      var remaining := Filter(rest, c => !rel(a, c));
      forall x | x in remaining
        ensures x in anchors[1..] && rel(x, x)
      {
        var i :| 0 <= i < |remaining| && remaining[i] == x;
        assert x in rest && !rel(a, x);
        assert x != a;
        var k :| 0 <= k < |anchors| && anchors[k] == x;
        assert anchors[1..][k - 1] == x;
      }
      SweepDrains(anchors[1..], remaining, rel);
    } else {
      forall x
        ensures multiset(rest)[x] == 0
      {
        assert x !in rest;
      }
      assert multiset(rest) == multiset{};
    }
  }

  /** The first element of a non-empty input is kept, and kept first. */
  lemma {:induction false} SweepKeepsHead<T>(s: seq<T>, rel: (T, T) -> bool)
    requires |s| > 0 && rel(s[0], s[0])
    ensures |Sweep(s, s, rel).0| > 0 && Sweep(s, s, rel).0[0] == s[0]
  {
    var matches := Filter(s, c => rel(s[0], c));
    FilterHead(s, c => rel(s[0], c), 0);
    assert matches[0] == s[0];
  }

  /** `a` matches the keeper at `i` and none of the keepers after it. */
  predicate Guards<T>(a: T, kept: seq<T>, i: int, rel: (T, T) -> bool)
    requires 0 <= i < |kept|
  {
    rel(a, kept[i]) && forall j :: i < j < |kept| ==> !rel(a, kept[j])
  }

  /**
   * Every keeper was matched by some anchor whose range holds no later
   * keeper: that anchor's matches left the live list when it was kept.
   */
  predicate Separated<T>(kept: seq<T>, anchors: seq<T>, rel: (T, T) -> bool) {
    forall i :: 0 <= i < |kept| ==> Anchored(kept, i, anchors, rel)
  }

  /** Some anchor guards the keeper at `i`. */
  predicate Anchored<T>(kept: seq<T>, i: int, anchors: seq<T>, rel: (T, T) -> bool)
    requires 0 <= i < |kept|
  {
    exists k :: 0 <= k < |anchors| && Guards(anchors[k], kept, i, rel)
  }

  lemma {:induction false} SweepSeparates<T>(anchors: seq<T>, rest: seq<T>, rel: (T, T) -> bool)
    ensures Separated(Sweep(anchors, rest, rel).0, anchors, rel)
    decreases |anchors|
  {
    if |anchors| > 0 {
      var a := anchors[0];
      var matches := Filter(rest, c => rel(a, c));
      var remaining := Filter(rest, c => !rel(a, c));
      var inner := Sweep(anchors[1..], remaining, rel).0;
      SweepSeparates(anchors[1..], remaining, rel);
      var out := Sweep(anchors, rest, rel).0;
      var skip := if |matches| > 0 then 1 else 0;
      assert out[skip..] == inner;
      forall i | 0 <= i < |out|
        ensures Anchored(out, i, anchors, rel)
      {
        if i < skip {
          HeadAnchored(out, anchors, rel);
        } else {
          ShiftAnchored(out, skip, anchors, i, rel);
        }
      }
    }
  }

  /** A keeper guarded by a later anchor stays guarded once earlier keepers are put in front. */
  lemma {:induction false} ShiftAnchored<T>(out: seq<T>, skip: nat, anchors: seq<T>, i: int, rel: (T, T) -> bool)
    requires |anchors| > 0 && skip <= i < |out|
    requires Anchored(out[skip..], i - skip, anchors[1..], rel)
    ensures Anchored(out, i, anchors, rel)
  {
    var inner := out[skip..];
    var k :| 0 <= k < |anchors[1..]| && Guards(anchors[1..][k], inner, i - skip, rel);
    assert anchors[k + 1] == anchors[1..][k];
    forall j | i < j < |out|
      ensures !rel(anchors[k + 1], out[j])
    {
      assert out[j] == inner[j - skip];
    }
    assert Guards(anchors[k + 1], out, i, rel);
  }

  /** The first anchor guards its keeper when nothing after it is in its range. */
  lemma {:induction false} HeadAnchored<T>(out: seq<T>, anchors: seq<T>, rel: (T, T) -> bool)
    requires |anchors| > 0 && |out| > 0 && rel(anchors[0], out[0])
    requires forall x :: x in out[1..] ==> !rel(anchors[0], x)
    ensures Anchored(out, 0, anchors, rel)
  {
    forall j | 0 < j < |out|
      ensures !rel(anchors[0], out[j])
    {
      assert out[j] == out[1..][j - 1];
    }
    assert Guards(anchors[0], out, 0, rel);
  }

  /**
   * When every element relates to itself, the first element is kept and
   * no later keeper is within its range.
   */
  lemma {:induction false} SweepHeadGuards<T>(s: seq<T>, rel: (T, T) -> bool)
    requires |s| > 0 && rel(s[0], s[0])
    ensures |Sweep(s, s, rel).0| > 0 && Guards(s[0], Sweep(s, s, rel).0, 0, rel)
  {
    SweepKeepsHead(s, rel);
    var a := s[0];
    var remaining := Filter(s, c => !rel(a, c));
    var inner := Sweep(s[1..], remaining, rel).0;
    var out := Sweep(s, s, rel).0;
    assert out[1..] == inner;
    forall j | 0 < j < |out|
      ensures !rel(a, out[j])
    {
      assert out[j] == inner[j - 1] && inner[j - 1] in remaining;
    }
  }

  // ----------------------------------------------------------------------
  // Key equality

  /** The keys occurring in `s`. */
  function Keys<T, K>(s: seq<T>, key: T -> K): set<K> {
    set i | 0 <= i < |s| :: key(s[i])
  }

  lemma {:induction false} KeysCons<T, K>(s: seq<T>, key: T -> K)
    requires |s| > 0
    ensures Keys(s, key) == {key(s[0])} + Keys(s[1..], key)
  {
    forall k | k in Keys(s, key)
      ensures k in {key(s[0])} + Keys(s[1..], key)
    {
      var i :| 0 <= i < |s| && key(s[i]) == k;
      if i > 0 {
        assert s[1..][i - 1] == s[i];
      }
    }
    forall k | k in Keys(s[1..], key)
      ensures k in Keys(s, key)
    {
      var i :| 0 <= i < |s[1..]| && key(s[1..][i]) == k;
      assert s[i + 1] == s[1..][i];
    }
  }

  /** Scanning left to right, keep an element iff its key has not been seen. */
  function Uniq<T, K(==)>(s: seq<T>, key: T -> K, seen: set<K>): (r: seq<T>)
    decreases |s|
  {
    if |s| == 0 then []
    else if key(s[0]) in seen then Uniq(s[1..], key, seen)
    else [s[0]] + Uniq(s[1..], key, seen + {key(s[0])})
  }

  /**
   * Reference definition by position: `s[i]` is kept exactly when no
   * earlier element has its key.
   */
  function Firsts<T, K(==)>(s: seq<T>, key: T -> K): seq<T>
    decreases |s|
  {
    if |s| == 0 then []
    else
      var init := s[..|s| - 1];
      Firsts(init, key) + (if key(s[|s| - 1]) in Keys(init, key) then [] else [s[|s| - 1]])
  }

  lemma {:induction false} UniqSnoc<T, K>(a: seq<T>, x: T, key: T -> K, seen: set<K>)
    ensures Uniq(a + [x], key, seen)
         == Uniq(a, key, seen) + (if key(x) in seen + Keys(a, key) then [] else [x])
    decreases |a|
  {
    if |a| == 0 {
      assert a + [x] == [x];
      assert Uniq([x][1..], key, seen + {key(x)}) == [];
    } else {
      assert (a + [x])[0] == a[0];
      assert (a + [x])[1..] == a[1..] + [x];
      KeysCons(a, key);
      if key(a[0]) in seen {
        UniqSnoc(a[1..], x, key, seen);
      } else {
        UniqSnoc(a[1..], x, key, seen + {key(a[0])});
      }
    }
  }

  /** The two descriptions of first-of-each-class agree. */
  lemma {:induction false} UniqIsFirsts<T, K>(s: seq<T>, key: T -> K)
    ensures Uniq(s, key, {}) == Firsts(s, key)
    decreases |s|
  {
    if |s| > 0 {
      var init := s[..|s| - 1];
      UniqIsFirsts(init, key);
      assert s == init + [s[|s| - 1]];
      UniqSnoc(init, s[|s| - 1], key, {});
    }
  }

  /** Kept keys are pairwise distinct and none was seen before. */
  lemma {:induction false} UniqDistinct<T, K>(s: seq<T>, key: T -> K, seen: set<K>)
    ensures forall i :: 0 <= i < |Uniq(s, key, seen)| ==> key(Uniq(s, key, seen)[i]) !in seen
    ensures forall i, j :: 0 <= i < j < |Uniq(s, key, seen)| ==>
      key(Uniq(s, key, seen)[i]) != key(Uniq(s, key, seen)[j])
    decreases |s|
  {
    if |s| > 0 {
      if key(s[0]) in seen {
        UniqDistinct(s[1..], key, seen);
      } else {
        var seen' := seen + {key(s[0])};
        var tail := Uniq(s[1..], key, seen');
        UniqDistinct(s[1..], key, seen');
        var r := [s[0]] + tail;
        assert r == Uniq(s, key, seen);
        forall i | 0 <= i < |r|
          ensures key(r[i]) !in seen
        {
          if i > 0 {
            assert r[i] == tail[i - 1];
          }
        }
        forall i, j | 0 <= i < j < |r|
          ensures key(r[i]) != key(r[j])
        {
          assert r[j] == tail[j - 1];
          if i > 0 {
            assert r[i] == tail[i - 1];
          }
        }
      }
    }
  }

  /** Every key of the input that was not already seen is represented in the output. */
  lemma {:induction false} UniqKeys<T, K>(s: seq<T>, key: T -> K, seen: set<K>)
    ensures Keys(Uniq(s, key, seen), key) == Keys(s, key) - seen
    decreases |s|
  {
    if |s| > 0 {
      KeysCons(s, key);
      if key(s[0]) in seen {
        UniqKeys(s[1..], key, seen);
      } else {
        var r := Uniq(s[1..], key, seen + {key(s[0])});
        UniqKeys(s[1..], key, seen + {key(s[0])});
        KeysCons([s[0]] + r, key);
        assert ([s[0]] + r)[1..] == r;
      }
    }
  }

  /** Every kept element comes from the input. */
  lemma {:induction false} UniqMembers<T, K>(s: seq<T>, key: T -> K, seen: set<K>)
    ensures forall i :: 0 <= i < |Uniq(s, key, seen)| ==> Uniq(s, key, seen)[i] in s
    decreases |s|
  {
    if |s| > 0 {
      if key(s[0]) in seen {
        UniqMembers(s[1..], key, seen);
      } else {
        UniqMembers(s[1..], key, seen + {key(s[0])});
      }
    }
  }

  /** Keeping the first of each key keeps the survivors in their input order. */
  lemma {:induction false} UniqKeepsOrder<T, K>(s: seq<T>, key: T -> K, seen: set<K>, before: (T, T) -> bool)
    requires forall i, j :: 0 <= i < j < |s| ==> before(s[i], s[j])
    ensures forall i, j :: 0 <= i < j < |Uniq(s, key, seen)| ==> before(Uniq(s, key, seen)[i], Uniq(s, key, seen)[j])
    decreases |s|
  {
    if |s| > 0 {
      var t := s[1..];
      assert forall i, j :: 0 <= i < j < |t| ==> before(t[i], t[j]) by {
        forall i, j | 0 <= i < j < |t|
          ensures before(t[i], t[j])
        {
          assert t[i] == s[i + 1] && t[j] == s[j + 1];
        }
      }
      if key(s[0]) in seen {
        UniqKeepsOrder(t, key, seen, before);
      } else {
        var u := Uniq(t, key, seen + {key(s[0])});
        UniqKeepsOrder(t, key, seen + {key(s[0])}, before);
        UniqMembers(t, key, seen + {key(s[0])});
        var r := [s[0]] + u;
        assert r == Uniq(s, key, seen);
        forall i, j | 0 <= i < j < |r|
          ensures before(r[i], r[j])
        {
          if i == 0 {
            var m :| 0 <= m < |t| && t[m] == u[j - 1];
            assert t[m] == s[m + 1];
          } else {
            assert r[i] == u[i - 1] && r[j] == u[j - 1];
          }
        }
      }
    }
  }

  /** A list whose keys are already distinct and unseen is kept whole. */
  lemma {:induction false} UniqOfDistinct<T, K>(s: seq<T>, key: T -> K, seen: set<K>)
    requires forall i :: 0 <= i < |s| ==> key(s[i]) !in seen
    requires forall i, j :: 0 <= i < j < |s| ==> key(s[i]) != key(s[j])
    ensures Uniq(s, key, seen) == s
    decreases |s|
  {
    if |s| > 0 {
      forall i | 0 <= i < |s[1..]|
        ensures key(s[1..][i]) !in seen + {key(s[0])}
      {
        assert s[1..][i] == s[i + 1];
      }
      UniqOfDistinct(s[1..], key, seen + {key(s[0])});
    }
  }

  lemma {:induction false} UniqIdempotent<T, K>(s: seq<T>, key: T -> K)
    ensures Uniq(Uniq(s, key, {}), key, {}) == Uniq(s, key, {})
  {
    UniqDistinct(s, key, {});
    UniqOfDistinct(Uniq(s, key, {}), key, {});
  }

  /**
   * With `rel` the equality of keys, the loop computes `Uniq`: the live
   * list is the input less the elements whose key was already kept.
   */
  lemma {:induction false} SweepIsUniq<T, K>(
    t: seq<T>, key: T -> K, rel: (T, T) -> bool, seen: set<K>, unseen: T -> bool)
    requires forall x, y :: rel(x, y) == (key(x) == key(y))
    requires forall x :: unseen(x) == (key(x) !in seen)
    ensures Sweep(t, Filter(t, unseen), rel).0 == Uniq(t, key, seen)
    decreases |t|
  {
    if |t| > 0 {
      var a := t[0];
      var rest := Filter(t, unseen);
      var matches := Filter(rest, c => rel(a, c));
      var remaining := Filter(rest, c => !rel(a, c));
      if key(a) in seen {
        assert rest == Filter(t[1..], unseen);
        FilterNone(rest, c => rel(a, c));
        FilterAll(rest, c => !rel(a, c));
        SweepIsUniq(t[1..], key, rel, seen, unseen);
      } else {
        var tail := Filter(t[1..], unseen);
        assert rest == [a] + tail;
        assert matches[0] == a;
        assert remaining == Filter(tail, c => !rel(a, c));
        var unseen' := c => key(c) !in seen + {key(a)};
        FilterFilter(t[1..], unseen, c => !rel(a, c), unseen');
        SweepIsUniq(t[1..], key, rel, seen + {key(a)}, unseen');
      }
    }
  }

  /** The loop run over its own input, with key equality: the form `GroupBy` uses. */
  lemma {:induction false} SweepSelfIsUniq<T, K>(s: seq<T>, key: T -> K, rel: (T, T) -> bool)
    requires forall x, y :: rel(x, y) == (key(x) == key(y))
    ensures Sweep(s, s, rel).0 == Uniq(s, key, {})
  {
    var always := (c: T) => true;
    FilterAll(s, always);
    SweepIsUniq(s, key, rel, {}, always);
  }
}

=== FILE: legacy_geocoder.dfy ===
/**
 * The older orchestrator of `omgeo/__init__.py`.  Its `geocode` ignores
 * its `waterfall` argument and reads it from a settings map that the
 * constructor leaves empty, so it always stops after the first adapter
 * with candidates; a rejected query gives `[]`; the postprocessors run
 * without a stop on an empty list; only the candidate list is returned.
 */
module LegacyOrchestrator {
  import opened Wrappers
  import opened Values
  import opened Places
  import opened Pipeline
  import ServiceBase
  import Orchestrator

  /** An adapter of the older interface: its `geocode` returns candidates only. */
  type Source = PlaceQuery -> seq<Candidate>

  datatype Geocoder = Geocoder(sources: seq<Source>, pre: seq<Pre>, post: seq<Post>, settings: map<string, Value>)

  datatype Defaults = Defaults(sources: seq<Source>, pre: seq<Pre>, post: seq<Post>)

  /** `set_sources`: refuses an empty list, otherwise replaces the adapters. */
  function SetSources(g: Geocoder, sources: seq<Source>): (r: Result<Geocoder, string>)
    ensures r.Err? <==> |sources| == 0
    ensures r.Err? ==> r.error == Orchestrator.NoSources
    ensures r.Ok? ==> r.value == g.(sources := sources)
  {
    if |sources| == 0 then Err(Orchestrator.NoSources) else Ok(g.(sources := sources))
  }

  /** `Geocoder(sources, preprocessors, postprocessors)`: the settings start out empty. */
  function NewGeocoder(sources: Option<seq<Source>>, pre: Option<seq<Pre>>, post: Option<seq<Post>>,
                       defaults: Defaults): (r: Result<Geocoder, string>)
    ensures r.Err? <==> |sources.GetOr(defaults.sources)| == 0
    ensures r.Ok? ==> r.value == Geocoder(sources.GetOr(defaults.sources), pre.GetOr(defaults.pre),
                                          post.GetOr(defaults.post), map[])
  {
    var g := Geocoder([], pre.GetOr(defaults.pre), post.GetOr(defaults.post), map[]);
    SetSources(g, sources.GetOr(defaults.sources))
  }

  /** An older adapter seen through the current interface: no call record. */
  function Lift(sources: seq<Source>): (r: seq<Orchestrator.Source>)
    ensures |r| == |sources|
    ensures forall i, q :: 0 <= i < |sources| ==> r[i](q) == ServiceBase.Response(sources[i](q), None)
  {
    seq(|sources|, i requires 0 <= i < |sources| => (q: PlaceQuery) => ServiceBase.Response(sources[i](q), None))
  }

  /** `self._settings.get('waterfall', False)`. */
  function Waterfall(g: Geocoder): (w: Value)
    ensures "waterfall" !in g.settings ==> w == Bool(false)
    ensures "waterfall" in g.settings ==> w == g.settings["waterfall"]
  {
    if "waterfall" in g.settings then g.settings["waterfall"] else Bool(false)
  }

  /**
   * `Geocoder.geocode(pq, waterfall)`.  The argument `waterfall` is
   * accepted and never read.
   */
  function Geocode(g: Geocoder, pq: PlaceQuery, waterfall: Option<Value>): (r: seq<Candidate>)
    ensures RunPre(g.pre, pq).query.None? ==> r == []
    ensures RunPre(g.pre, pq).query.Some? ==>
      r == RunAll(g.post, Orchestrator.GatherAll(Lift(g.sources), RunPre(g.pre, pq).query.value,
                                                 Waterfall(g) == Bool(false)).candidates)
  {
    match RunPre(g.pre, pq).query
    case None => []
    case Some(processed) =>
      var gathered := Orchestrator.GatherAll(Lift(g.sources), processed, Waterfall(g) == Bool(false));
      RunAll(g.post, gathered.candidates)
  }

  /** The `waterfall` argument makes no difference. */
  lemma {:induction false} WaterfallIgnored(g: Geocoder, pq: PlaceQuery, w1: Option<Value>, w2: Option<Value>)
    ensures Geocode(g, pq, w1) == Geocode(g, pq, w2)
  {
  }

  /**
   * A constructed geocoder always stops after the first adapter with
   * candidates: adapters after it are never called.
   */
  lemma {:induction false} AlwaysStopsEarly(defaults: Defaults, sources: Option<seq<Source>>, pre: Option<seq<Pre>>,
                         post: Option<seq<Post>>, pq: PlaceQuery)
    requires NewGeocoder(sources, pre, post, defaults).Ok?
    ensures var g := NewGeocoder(sources, pre, post, defaults).value;
      Waterfall(g) == Bool(false)
      && (RunPre(g.pre, pq).query.Some? ==>
            var gathered := Orchestrator.GatherAll(Lift(g.sources), RunPre(g.pre, pq).query.value, true);
            forall k :: 0 <= k < gathered.called ==> Orchestrator.Concat(Lift(g.sources), RunPre(g.pre, pq).query.value, k) == [])
  {
  }

  /**
   * Unlike the current orchestrator, the older one hands an empty list to
   * its postprocessors: one that invents a candidate from nothing shows it.
   */
  lemma {:induction false} EmptyListPostprocessed(g: Geocoder, pq: PlaceQuery, c: Candidate)
    requires g.settings == map[]
    requires RunPre(g.pre, pq).query.Some?
    requires forall k :: 0 <= k < |g.sources| ==> g.sources[k](RunPre(g.pre, pq).query.value) == []
    requires g.post == [(cs: seq<Candidate>) => [c]]
    ensures Geocode(g, pq, None) == [c]
    ensures Gated(g.post, Orchestrator.GatherAll(Lift(g.sources), RunPre(g.pre, pq).query.value, true).candidates) == []
  {
    var q := RunPre(g.pre, pq).query.value;
    var gathered := Orchestrator.GatherAll(Lift(g.sources), q, true);
    NothingGathered(g.sources, q, gathered.called);
  }

  /** Adapters that all return nothing gather nothing. */
  lemma {:induction false} NothingGathered(sources: seq<Source>, q: PlaceQuery, n: nat)
    requires n <= |sources|
    requires forall k :: 0 <= k < |sources| ==> sources[k](q) == []
    ensures Orchestrator.Concat(Lift(sources), q, n) == []
  {
    if n > 0 {
      NothingGathered(sources, q, n - 1);
    }
  }

  /** Older adapters never produce call records. */
  lemma {:induction false} NoInfos(sources: seq<Source>, q: PlaceQuery, n: nat)
    requires n <= |sources|
    ensures Orchestrator.InfosOf(Lift(sources), q, n) == []
  {
    if n > 0 {
      NoInfos(sources, q, n - 1);
    }
  }

  /**
   * The current orchestrator, given the same adapters and processors with
   * waterfall off, returns what the older one does (and no call records)
   * when the query is rejected, in its corrected form, and when
   * postprocessing never sees an empty list.
   */
  lemma {:induction false} AgreesWithCurrent(g: Geocoder, pq: PlaceQuery, current: Orchestrator.Geocoder)
    requires g.settings == map[]
    requires current == Orchestrator.Geocoder(Lift(g.sources), g.pre, g.post, Bool(false))
    ensures RunPre(g.pre, pq).query.None? ==>
      Orchestrator.GeocodeFixed(current, Orchestrator.Query(pq), None, false, false)
        == Ok(Orchestrator.GeocodeResult(Geocode(g, pq, None), []))
    ensures RunPre(g.pre, pq).query.Some? ==>
      var cs := Orchestrator.GatherAll(Lift(g.sources), RunPre(g.pre, pq).query.value, true).candidates;
      cs != [] && (forall k :: 0 <= k <= |g.post| ==> RunAll(g.post[..k], cs) != []) ==>
        Orchestrator.Geocode(current, Orchestrator.Query(pq), None, false, false)
          == Ok(Orchestrator.GeocodeResult(Geocode(g, pq, None), []))
  {
    if RunPre(g.pre, pq).query.Some? {
      AgreesWhenGathered(g, pq, current);
    } else {
      AgreesWhenRejected(g, pq, current);
    }
  }

  lemma {:induction false} AgreesWhenRejected(g: Geocoder, pq: PlaceQuery, current: Orchestrator.Geocoder)
    requires current == Orchestrator.Geocoder(Lift(g.sources), g.pre, g.post, Bool(false))
    requires RunPre(g.pre, pq).query.None?
    ensures Orchestrator.GeocodeFixed(current, Orchestrator.Query(pq), None, false, false)
         == Ok(Orchestrator.GeocodeResult(Geocode(g, pq, None), []))
  {
  }

  lemma {:induction false} AgreesWhenGathered(g: Geocoder, pq: PlaceQuery, current: Orchestrator.Geocoder)
    requires g.settings == map[]
    requires current == Orchestrator.Geocoder(Lift(g.sources), g.pre, g.post, Bool(false))
    requires RunPre(g.pre, pq).query.Some?
    ensures var cs := Orchestrator.GatherAll(Lift(g.sources), RunPre(g.pre, pq).query.value, true).candidates;
      cs != [] && (forall k :: 0 <= k <= |g.post| ==> RunAll(g.post[..k], cs) != []) ==>
        Orchestrator.Geocode(current, Orchestrator.Query(pq), None, false, false)
          == Ok(Orchestrator.GeocodeResult(Geocode(g, pq, None), []))
  {
    var q := RunPre(g.pre, pq).query.value;
    var gathered := Orchestrator.GatherAll(Lift(g.sources), q, true);
    if gathered.candidates != [] && forall k :: 0 <= k <= |g.post| ==> RunAll(g.post[..k], gathered.candidates) != [] {
      NoInfos(g.sources, q, gathered.called);
      GatedNeverEmpty(g.post, gathered.candidates);
      CurrentGathered(current, pq, q);
      assert Geocode(g, pq, None) == RunAll(g.post, gathered.candidates);
    }
  }

  /** The newer `geocode` on an accepted query, with the waterfall off and stats not forced. */
  lemma {:induction false} CurrentGathered(current: Orchestrator.Geocoder, pq: PlaceQuery, q: PlaceQuery)
    requires current.waterfall == Bool(false)
    requires RunPre(current.pre, pq).query == Some(q)
    ensures var gathered := Orchestrator.GatherAll(current.sources, q, true);
      Orchestrator.Geocode(current, Orchestrator.Query(pq), None, false, false)
        == Ok(Orchestrator.GeocodeResult(Gated(current.post, gathered.candidates), gathered.infos))
  {
  }
}

=== FILE: legacy_postprocessors.dfy ===
/**
 * The older revision of the postprocessors (`omgeo/processors/postprocessors.py`)
 * where it differs from the current one: `AttrReverseSorter` builds its
 * inner sorter without passing `attr`, so it always sorts on `locator`,
 * and `GroupBy` takes a single attribute name.  The primitives whose code
 * is the same in both revisions (`LocatorFilter`, `LocatorSorter`,
 * `AttrFilter`, `AttrExclude`, `AttrRename`, `AttrMigrator`,
 * `UseHighScoreIfAtLeast`, `ScoreSorter`, `AttrSorter`, `DupePicker`) are
 * the ones of module `Postprocessors` and `Dupes`.
 */
module LegacyPostprocessors {
  import opened Values
  import opened Seqs
  import opened Places
  import opened Greedy
  import opened Postprocessors

  /**
   * `AttrReverseSorter(ordered_values, attr).process(cs)` of the older
   * revision: the stored list is reversed in place and the candidates
   * are sorted by it on `locator`, whatever `attr` is.
   */
  function AttrReverseSorter(orderedValues: seq<Value>, cs: seq<Candidate>, attr: string): (r: ReverseSorted)
    requires |orderedValues| > 0 ==> HasAttr(cs, "locator")
    ensures r.orderedValues == Reverse(orderedValues)
    ensures multiset(r.result.out) == multiset(cs)
    ensures r.result.out == Buckets(Reverse(orderedValues), "locator", cs, []) + r.result.input
    ensures r.result.input == UnlistedIn(cs, "locator", Reverse(orderedValues))
  {
    var reversed := Reverse(orderedValues);
    ReverseSorted(reversed, AttrSorter(cs, reversed, "locator"))
  }

  /**
   * The `attr` argument makes no difference, and the older sorter is the
   * current one applied to `locator`.
   */
  lemma {:induction false} ReverseSorterIgnoresAttr(orderedValues: seq<Value>, cs: seq<Candidate>, attr1: string, attr2: string)
    requires |orderedValues| > 0 ==> HasAttr(cs, "locator")
    ensures AttrReverseSorter(orderedValues, cs, attr1) == AttrReverseSorter(orderedValues, cs, attr2)
    ensures AttrReverseSorter(orderedValues, cs, attr1) == Postprocessors.AttrReverseSorter(orderedValues, cs, "locator")
  {
  }

  /**
   * On a pair neither of whose locators is listed, the older sorter keeps
   * the input order, whatever `attr` names.
   */
  lemma {:induction false} LegacyReverseSorterOnPair(x: Candidate, y: Candidate, attr: string, v: Value)
    requires "locator" in x.attrs && "locator" in y.attrs
    requires x.attrs["locator"] != v && y.attrs["locator"] != v
    ensures AttrReverseSorter([v], [x, y], attr).result.out == [x, y]
  {
    assert Reverse([v]) == [v];
    SortPairNoneListed(x, y, "locator", v);
  }

  lemma {:induction false} SortPairNoneListed(x: Candidate, y: Candidate, a: string, v: Value)
    requires a in x.attrs && a in y.attrs && x.attrs[a] != v && y.attrs[a] != v
    ensures AttrSorter([x, y], [v], a).out == [x, y]
  {
    NoneListedOut(AttrSorter([x, y], [v], a), x, y, a, v);
  }

  /** The sorter's output for a pair neither of whose values is listed. */
  lemma {:induction false} NoneListedOut(r: Processed, x: Candidate, y: Candidate, a: string, v: Value)
    requires a in x.attrs && a in y.attrs && x.attrs[a] != v && y.attrs[a] != v
    requires r.out == Buckets([v], a, [x, y], []) + r.input
    requires r.input == UnlistedIn([x, y], a, [v])
    ensures r.out == [x, y]
  {
    BucketsNone([v], a, [x, y], []);
    UnlistedOfPair([v], a, x, y);
  }

  lemma {:induction false} SortPairSecondListed(x: Candidate, y: Candidate, a: string, v: Value)
    requires a in x.attrs && a in y.attrs && x.attrs[a] != v && y.attrs[a] == v
    ensures AttrSorter([x, y], [v], a).out == [y, x]
  {
    BucketsSecondListed(x, y, a, v);
    UnlistedFirst(x, y, a, v);
  }

  lemma {:induction false} BucketsSecondListed(x: Candidate, y: Candidate, a: string, v: Value)
    requires a in x.attrs && a in y.attrs && x.attrs[a] != v && y.attrs[a] == v
    ensures Buckets([v], a, [x, y], []) == [y]
  {
    assert [v][1..] == [];
    BucketsOfPair([v], a, x, y);
    assert [] + [y] == [y];
  }

  lemma {:induction false} UnlistedFirst(x: Candidate, y: Candidate, a: string, v: Value)
    requires a in x.attrs && a in y.attrs && x.attrs[a] != v && y.attrs[a] == v
    ensures UnlistedIn([x, y], a, [v]) == [x]
  {
    UnlistedOfPair([v], a, x, y);
    assert [x] + [] == [x];
  }

  /**
   * The same pair under the current sorter: when only the second
   * candidate's `attr` is listed, it moves ahead.  So the two revisions
   * differ on any pair whose `attr` and `locator` disagree this way.
   */
  lemma {:induction false} ReverseSorterDiffers(x: Candidate, y: Candidate, attr: string, v: Value)
    requires "locator" in x.attrs && "locator" in y.attrs && attr in x.attrs && attr in y.attrs
    requires x.attrs["locator"] != v && y.attrs["locator"] != v
    requires x.attrs[attr] != v && y.attrs[attr] == v
    ensures AttrReverseSorter([v], [x, y], attr).result.out == [x, y]
    ensures Postprocessors.AttrReverseSorter([v], [x, y], attr).result.out == [y, x]
  {
    LegacyReverseSorterOnPair(x, y, attr, v);
    CurrentReverseSorterOnPair(x, y, attr, v);
  }

  lemma {:induction false} CurrentReverseSorterOnPair(x: Candidate, y: Candidate, attr: string, v: Value)
    requires attr in x.attrs && attr in y.attrs && x.attrs[attr] != v && y.attrs[attr] == v
    ensures Postprocessors.AttrReverseSorter([v], [x, y], attr).result.out == [y, x]
  {
    assert Reverse([v]) == [v];
    SortPairSecondListed(x, y, attr, v);
  }

  /**
   * `GroupBy(attr).process(cs)` of the older revision: the first
   * candidate of each value of the single attribute `attr`; the caller's
   * list is emptied.
   */
  function GroupBy(cs: seq<Candidate>, attr: string): (r: Processed)
    requires HasAttr(cs, attr)
    ensures r.out == Firsts(cs, c => Lookup(c, attr))
    ensures forall i, j :: 0 <= i < j < |r.out| ==> Lookup(r.out[i], attr) != Lookup(r.out[j], attr)
    ensures Keys(r.out, c => Lookup(c, attr)) == Keys(cs, c => Lookup(c, attr))
    ensures r.input == []
  {
    var rel := (a: Candidate, c: Candidate) => Lookup(c, attr) == Lookup(a, attr);
    var key := c => Lookup(c, attr);
    SweepSelfIsUniq(cs, key, rel);
    SweepDrains(cs, cs, rel);
    UniqIsFirsts(cs, key);
    UniqDistinct(cs, key, {});
    UniqKeys(cs, key, {});
    var (keepers, leftover) := Sweep(cs, cs, rel);
    Processed(keepers, leftover)
  }

  /** The older single-attribute `GroupBy` is the current one given one name. */
  lemma {:induction false} GroupByAgrees(cs: seq<Candidate>, attr: string)
    requires HasAttr(cs, attr)
    ensures GroupBy(cs, attr) == Postprocessors.GroupBy(cs, Single(attr))
  {
  }
}

=== FILE: legacy_preprocessors.dfy ===
/**
 * The older revision of the preprocessors (`omgeo/processors/preprocessors.py`).
 * `ReplaceRangeWithNumber` there has no whitespace after its pattern;
 * `ParseSingleLine`, `CountryPreProcessor` and `RequireCountry` are
 * written differently but behave as the current ones, which the
 * agreement lemmas below establish.  The single-line parse itself is the
 * same code in both revisions and is `Preprocessors.ParseQuery`.
 */
module LegacyPreprocessors {
  import opened Wrappers
  import opened Text
  import opened Places
  import Preprocessors

  /**
   * `replace_range` of the older revision: any leading
   * `\d+\w*-\d*\w*` token keeps only its part before the hyphen.
   */
  function ReplaceRange(s: string): (r: string)
    ensures r == s <==> Preprocessors.RangeToken(s).None?
    ensures Preprocessors.RangeToken(s).Some? ==>
      r == s[..Preprocessors.RangeToken(s).value.0] + s[Preprocessors.RangeToken(s).value.1..]
  {
    match Preprocessors.RangeToken(s)
    case None => s
    case Some((h, e)) =>
      var token := s[..e];
      Preprocessors.CutToken(s, h, e);
      assert |s[..h] + s[e..]| < |s|;
      ReplaceFirst(s, token, Split(token, '-')[0])
  }

  /** `ReplaceRangeWithNumber.process` of the older revision. */
  function ReplaceRangeWithNumber(pq: PlaceQuery): (r: PlaceQuery)
    ensures r == pq.(query := r.query, address := r.address)
    ensures r.query == ReplaceRange(pq.query) && r.address == ReplaceRange(pq.address)
  {
    pq.(query := ReplaceRange(pq.query), address := ReplaceRange(pq.address))
  }

  /**
   * The two revisions agree except on a range token not followed by
   * whitespace, which only the older one cuts.
   */
  lemma {:induction false} ReplaceRangeRevisions(s: string)
    ensures ReplaceRange(s) == Preprocessors.ReplaceRange(s)
        <==> !(Preprocessors.RangeToken(s).Some? && !Preprocessors.RangeBeforeSpace(s))
  {
  }

  /** The older revision cuts a ZIP+4 code to its first five digits. */
  lemma {:induction false} ZipPlusFourCut(s: string)
    requires s == "19127-1112"
    ensures ReplaceRange(s) == "19127"
  {
    assert s == "19127" + "-1112";
    assert "-1112"[1..] == "1112" + "";
    Preprocessors.RangeTokenSplit("19127", "-1112", "1112", "");
    assert s == "19127" + "-1112" + "";
    CutMiddle("19127", "-1112", "");
  }

  /** Cutting `m` out of `a + m + z` leaves `a + z`. */
  lemma {:induction false} CutMiddle(a: string, m: string, z: string)
    ensures (a + m + z)[..|a|] + (a + m + z)[|a| + |m|..] == a + z
  {
    assert (a + m + z)[..|a|] == a;
    assert (a + m + z)[|a| + |m|..] == z;
  }

  /**
   * Unlike the current one, the older cut is not idempotent: after
   * `1-2-3` loses `-2` the rest `1-3` is a range again.
   */
  lemma {:induction false} ReplaceRangeNotIdempotent(s: string)
    requires s == "1-2-3"
    ensures ReplaceRange(s) == "1-3" && ReplaceRange("1-3") == "1"
  {
    CutOnce(s);
    CutOnce("1-3");
  }

  lemma {:induction false} CutOnce(s: string)
    requires s == "1-2-3" || s == "1-3"
    ensures s == "1-2-3" ==> ReplaceRange(s) == "1-3"
    ensures s == "1-3" ==> ReplaceRange(s) == "1"
  {
    if s == "1-2-3" {
      assert s == "1" + "-2-3";
      assert "-2-3"[1..] == "2" + "-3";
      Preprocessors.RangeTokenSplit("1", "-2-3", "2", "-3");
      assert s == "1" + "-2" + "-3";
      CutMiddle("1", "-2", "-3");
    } else {
      assert s == "1" + "-3" && s == "1" + "-3" + "";
      assert "-3"[1..] == "3" + "";
      Preprocessors.RangeTokenSplit("1", "-3", "3", "");
      CutMiddle("1", "-3", "");
    }
  }

  /**
   * `ParseSingleLine.process` of the older revision: the parsed parts
   * fill the postal code, address and city where they are `''`.
   */
  function ParseSingleLine(p: Preprocessors.Patterns, pq: PlaceQuery): (r: PlaceQuery)
    ensures pq.query == "" ==> r == pq
    ensures r == pq.(postal := r.postal, address := r.address, city := r.city)
  {
    if pq.query != "" then
      var parsed := Preprocessors.ParseQuery(p, pq.query);
      var pq := if pq.postal == "" then pq.(postal := parsed.postcode) else pq;
      var pq := if pq.address == "" then pq.(address := parsed.address) else pq;
      if pq.city == "" then pq.(city := parsed.city) else pq
    else pq
  }

  /** Filling only empty fields is what the current revision's `or` does. */
  lemma {:induction false} ParseSingleLineAgrees(p: Preprocessors.Patterns, pq: PlaceQuery)
    ensures ParseSingleLine(p, pq) == Preprocessors.ParseSingleLine(p, pq)
  {
  }

  /** `CountryPreProcessor.process` of the older revision, whose settings default to `[]` and `{}`. */
  function CountryPreProcessor(acceptable: seq<string>, countryMap: map<string, string>, pq: PlaceQuery): (r: Option<PlaceQuery>)
    ensures r.Some? ==> r.value == pq.(country := r.value.country)
  {
    var pq := if pq.country !in acceptable && pq.country in countryMap then pq.(country := countryMap[pq.country]) else pq;
    if pq.country != "" && acceptable != [] && pq.country !in acceptable then None else Some(pq)
  }

  lemma {:induction false} CountryPreProcessorAgrees(acceptable: seq<string>, countryMap: map<string, string>, pq: PlaceQuery)
    ensures CountryPreProcessor(acceptable, countryMap, pq)
         == Preprocessors.CountryPreProcessor(Preprocessors.CountryRule(acceptable, countryMap), pq)
  {
  }

  /** `RequireCountry.process` of the older revision. */
  function RequireCountry(defaultCountry: string, pq: PlaceQuery): (r: Option<PlaceQuery>)
    ensures r.Some? ==> r.value == pq.(country := r.value.country)
  {
    if Strip(pq.country) == "" then
      if defaultCountry == "" then None else Some(pq.(country := defaultCountry))
    else Some(pq)
  }

  lemma {:induction false} RequireCountryAgrees(defaultCountry: string, pq: PlaceQuery)
    ensures RequireCountry(defaultCountry, pq) == Preprocessors.RequireCountry(defaultCountry, pq)
  {
  }
}

=== FILE: mapquest.dfy ===
/**
 * The MapQuest adapter of `omgeo/services/mapquest.py`, up to the network
 * call: the location object built from a query, the request parameters,
 * and the match address and fixed fields of its candidates.
 */
module MapQuest {
  import opened Wrappers
  import opened Values
  import opened Text
  import opened Places
  import opened Seqs

  // ----------------------------------------------------------------------
  // Location object

  /** The keys of the location object. */
  datatype LocKey = Street | City | County | State | PostalCode | Country

  function Name(k: LocKey): string {
    match k
    case Street => "street"
    case City => "city"
    case County => "county"
    case State => "state"
    case PostalCode => "postalCode"
    case Country => "country"
  }

  /** The keys among `kwargs` given a non-empty value. */
  function Offered(kwargs: seq<(LocKey, string)>): set<LocKey> {
    set i | 0 <= i < |kwargs| && kwargs[i].1 != "" :: kwargs[i].0
  }

  /** No later keyword argument names the same key as argument `i`. */
  predicate LastFor(kwargs: seq<(LocKey, string)>, i: int)
    requires 0 <= i < |kwargs|
  {
    forall j :: i < j < |kwargs| ==> kwargs[j].0 != kwargs[i].0
  }

  /**
   * `get_appended_location(location, **kwargs)`: each keyword argument
   * with a value other than `''` is written into the location, in order;
   * the others leave it as it is.
   */
  function Appended(location: map<LocKey, string>, kwargs: seq<(LocKey, string)>): (r: map<LocKey, string>)
    ensures r.Keys == location.Keys + Offered(kwargs)
    ensures forall i :: 0 <= i < |kwargs| && kwargs[i].1 != "" && LastFor(kwargs, i) ==> r[kwargs[i].0] == kwargs[i].1
    ensures forall k :: k in location && k !in Offered(kwargs) ==> r[k] == location[k]
    decreases |kwargs|
  {
    if |kwargs| == 0 then location
    else
      var init := kwargs[..|kwargs| - 1];
      var last := kwargs[|kwargs| - 1];
      var r0 := Appended(location, init);
      var r := if last.1 != "" then r0[last.0 := last.1] else r0;
      OfferedSnoc(init, last);
      assert kwargs == init + [last];
      assert forall i :: 0 <= i < |kwargs| && kwargs[i].1 != "" && LastFor(kwargs, i) ==> r[kwargs[i].0] == kwargs[i].1 by {
        forall i | 0 <= i < |kwargs| && kwargs[i].1 != "" && LastFor(kwargs, i)
          ensures r[kwargs[i].0] == kwargs[i].1
        {
          if i < |init| {
            LastForInit(init, last, i);
          }
        }
      }
      r
  }

  lemma {:induction false} OfferedSnoc(init: seq<(LocKey, string)>, last: (LocKey, string))
    ensures Offered(init + [last]) == Offered(init) + (if last.1 != "" then {last.0} else {})
  {
    var kwargs := init + [last];
    forall k | k in Offered(kwargs)
      ensures k in Offered(init) + (if last.1 != "" then {last.0} else {})
    {
      var i :| 0 <= i < |kwargs| && kwargs[i].1 != "" && kwargs[i].0 == k;
      if i < |init| {
        assert init[i] == kwargs[i];
      }
    }
    forall k | k in Offered(init)
      ensures k in Offered(kwargs)
    {
      var i :| 0 <= i < |init| && init[i].1 != "" && init[i].0 == k;
      assert kwargs[i] == init[i];
    }
    if last.1 != "" {
      assert kwargs[|init|] == last;
    }
  }

  lemma {:induction false} LastForInit(init: seq<(LocKey, string)>, last: (LocKey, string), i: int)
    requires 0 <= i < |init|
    requires LastFor(init + [last], i)
    ensures LastFor(init, i) && last.0 != init[i].0
  {
    var kwargs := init + [last];
    assert kwargs[|init|] == last;
    forall j | i < j < |init|
      ensures init[j].0 != init[i].0
    {
      assert kwargs[j] == init[j];
    }
  }

  /** Keyword arguments that are all `''` leave the location unchanged. */
  lemma {:induction false} AppendedNothing(location: map<LocKey, string>, kwargs: seq<(LocKey, string)>)
    requires forall i :: 0 <= i < |kwargs| ==> kwargs[i].1 == ""
    ensures Appended(location, kwargs) == location
  {
    assert Offered(kwargs) == {};
  }

  /** No two keyword arguments name the same key, as Python guarantees. */
  predicate DistinctKeys(kwargs: seq<(LocKey, string)>) {
    forall a, b :: 0 <= a < b < |kwargs| ==> kwargs[a].0 != kwargs[b].0
  }

  /** What `Appended` does to the key of one argument, when the keys are distinct. */
  lemma {:induction false} AppendedAt(location: map<LocKey, string>, kwargs: seq<(LocKey, string)>, i: int)
    requires DistinctKeys(kwargs) && 0 <= i < |kwargs|
    ensures var r := Appended(location, kwargs);
      (kwargs[i].0 in r <==> kwargs[i].0 in location || kwargs[i].1 != "")
      && (kwargs[i].1 != "" ==> r[kwargs[i].0] == kwargs[i].1)
      && (kwargs[i].1 == "" && kwargs[i].0 in location ==> r[kwargs[i].0] == location[kwargs[i].0])
  {
    assert LastFor(kwargs, i);
    if kwargs[i].1 == "" {
      assert kwargs[i].0 !in Offered(kwargs);
    }
  }

  /** A key no argument names keeps its presence and its value. */
  lemma {:induction false} AppendedOther(location: map<LocKey, string>, kwargs: seq<(LocKey, string)>, k: LocKey)
    requires forall i :: 0 <= i < |kwargs| ==> kwargs[i].0 != k
    ensures var r := Appended(location, kwargs);
      (k in r <==> k in location) && (k in location ==> r[k] == location[k])
  {
    assert k !in Offered(kwargs);
  }

  /** The location after the street step: one key at most. */
  function StreetLocation(pq: PlaceQuery): (r: map<LocKey, string>)
    ensures r.Keys <= {Street}
    ensures Street in r <==> pq.query != "" || pq.address != ""
    ensures Street in r ==> r[Street] == (if pq.query != "" then pq.query else pq.address)
  {
    var location := Appended(map[], [(Street, pq.query)]);
    AppendedAt(map[], [(Street, pq.query)], 0);
    if location == map[] then
      AppendedAt(location, [(Street, pq.address)], 0);
      Appended(location, [(Street, pq.address)])
    else location
  }

  /**
   * The location of `pq`: the street from the free text when there is
   * some, else from the address; then each other field that is not `''`.
   */
  function Location(pq: PlaceQuery): (r: map<LocKey, string>)
    ensures Street in r <==> pq.query != "" || pq.address != ""
    ensures Street in r ==> r[Street] == (if pq.query != "" then pq.query else pq.address)
    ensures City in r <==> pq.city != ""
    ensures County in r <==> pq.subregion != ""
    ensures State in r <==> pq.state != ""
    ensures PostalCode in r <==> pq.postal != ""
    ensures Country in r <==> pq.country != ""
    ensures City in r ==> r[City] == pq.city
    ensures County in r ==> r[County] == pq.subregion
    ensures State in r ==> r[State] == pq.state
    ensures PostalCode in r ==> r[PostalCode] == pq.postal
    ensures Country in r ==> r[Country] == pq.country
  {
    var location := StreetLocation(pq);
    FieldsAppended(location, pq);
    Appended(location, FieldArgs(pq))
  }

  /** The keyword arguments of the second `get_appended_location` call. */
  function FieldArgs(pq: PlaceQuery): seq<(LocKey, string)> {
    [(City, pq.city), (County, pq.subregion), (State, pq.state), (PostalCode, pq.postal), (Country, pq.country)]
  }

  /** The second call keeps the street and adds exactly the non-empty fields, with their values. */
  lemma {:induction false} FieldsAppended(location: map<LocKey, string>, pq: PlaceQuery)
    requires location.Keys <= {Street}
    ensures var r := Appended(location, FieldArgs(pq));
      (Street in r <==> Street in location) && (Street in r ==> r[Street] == location[Street])
      && (City in r <==> pq.city != "") && (County in r <==> pq.subregion != "")
      && (State in r <==> pq.state != "") && (PostalCode in r <==> pq.postal != "")
      && (Country in r <==> pq.country != "")
      && (City in r ==> r[City] == pq.city) && (County in r ==> r[County] == pq.subregion)
      && (State in r ==> r[State] == pq.state) && (PostalCode in r ==> r[PostalCode] == pq.postal)
      && (Country in r ==> r[Country] == pq.country)
  {
    FiveFields(location, pq.city, pq.subregion, pq.state, pq.postal, pq.country);
  }

  /** `FieldsAppended` for the five field values as they are. */
  lemma {:induction false} FiveFields(location: map<LocKey, string>, city: string, county: string, state: string, postal: string,
                   country: string)
    requires location.Keys <= {Street}
    ensures var r := Appended(location, [(City, city), (County, county), (State, state), (PostalCode, postal), (Country, country)]);
      (Street in r <==> Street in location) && (Street in r ==> r[Street] == location[Street])
      && (City in r <==> city != "") && (County in r <==> county != "")
      && (State in r <==> state != "") && (PostalCode in r <==> postal != "")
      && (Country in r <==> country != "")
      && (City in r ==> r[City] == city) && (County in r ==> r[County] == county)
      && (State in r ==> r[State] == state) && (PostalCode in r ==> r[PostalCode] == postal)
      && (Country in r ==> r[Country] == country)
  {
    var fields := [(City, city), (County, county), (State, state), (PostalCode, postal), (Country, country)];
    FrontFields(location, fields);
    BackFields(location, fields);
  }

  /** The street and the first two fields of `FiveFields`. */
  lemma {:induction false} FrontFields(location: map<LocKey, string>, fields: seq<(LocKey, string)>)
    requires location.Keys <= {Street} && |fields| == 5 && DistinctKeys(fields)
    requires fields[0].0 == City && fields[1].0 == County && fields[2].0 == State
    requires fields[3].0 == PostalCode && fields[4].0 == Country
    ensures var r := Appended(location, fields);
      (Street in r <==> Street in location) && (Street in r ==> r[Street] == location[Street])
      && (City in r <==> fields[0].1 != "") && (County in r <==> fields[1].1 != "")
      && (City in r ==> r[City] == fields[0].1) && (County in r ==> r[County] == fields[1].1)
  {
    AppendedAt(location, fields, 0);
    AppendedAt(location, fields, 1);
    AppendedOther(location, fields, Street);
  }

  /** The last three fields of `FiveFields`. */
  lemma {:induction false} BackFields(location: map<LocKey, string>, fields: seq<(LocKey, string)>)
    requires location.Keys <= {Street} && |fields| == 5 && DistinctKeys(fields)
    requires fields[2].0 == State && fields[3].0 == PostalCode && fields[4].0 == Country
    ensures var r := Appended(location, fields);
      (State in r <==> fields[2].1 != "") && (PostalCode in r <==> fields[3].1 != "")
      && (Country in r <==> fields[4].1 != "")
      && (State in r ==> r[State] == fields[2].1) && (PostalCode in r ==> r[PostalCode] == fields[3].1)
      && (Country in r ==> r[Country] == fields[4].1)
  {
    AppendedAt(location, fields, 2);
    AppendedAt(location, fields, 3);
    AppendedAt(location, fields, 4);
  }

  /** The street comes from the address only when the free text is empty. */
  lemma {:induction false} QueryWinsOverAddress(pq: PlaceQuery)
    requires pq.query != ""
    ensures Location(pq) == Location(pq.(address := ""))
  {
    var a := Location(pq);
    var b := Location(pq.(address := ""));
    assert a.Keys == b.Keys;
  }

  // ----------------------------------------------------------------------
  // Request parameters

  datatype Param = Key | Json | ViewboxParam

  /**
   * The parameters for `pq`: the unquoted API key, the encoded location,
   * and the viewbox when there is one.  A missing `api_key` raises.
   * URL-unquoting and JSON encoding are given as functions.
   */
  function GeocodeParams(pq: PlaceQuery, settings: map<string, Value>, unquote: Value -> string,
                         dumps: map<LocKey, string> -> string, show: real -> string)
    : (r: Result<map<Param, string>, string>)
    ensures r.Err? <==> "api_key" !in settings
    ensures r.Ok? ==> Key in r.value && Json in r.value
    ensures r.Ok? ==> r.value[Key] == unquote(settings["api_key"]) && r.value[Json] == dumps(Location(pq))
    ensures r.Ok? ==> (ViewboxParam in r.value <==> pq.viewbox.Some?)
    ensures r.Ok? && pq.viewbox.Some? ==> r.value[ViewboxParam] == ToMapQuestStr(pq.viewbox.value, show)
    ensures r.Ok? ==> r.value.Keys <= {Key, Json, ViewboxParam}
  {
    if "api_key" !in settings then Err("KeyError: api_key")
    else
      var query := map[Key := unquote(settings["api_key"]), Json := dumps(Location(pq))];
      Ok(if pq.viewbox.Some? then query[ViewboxParam := ToMapQuestStr(pq.viewbox.value, show)] else query)
  }

  // ----------------------------------------------------------------------
  // Candidates

  /** The location fields joined into the match address, in order. */
  const MatchAddrElements: seq<string> := ["street", "adminArea5", "adminArea3", "adminArea2", "postalCode"]

  /** The keys of `ks` present in `r`, in the order of `ks`. */
  function PresentKeys(r: map<string, string>, ks: seq<string>): seq<string> {
    Filter(ks, (k: string) => k in r)
  }

  /**
   * The values of the keys of `ks` present in `r`, in the order of `ks`:
   * `[r[k] for k in ks if k in r]`.
   */
  function PresentValues(r: map<string, string>, ks: seq<string>): (vs: seq<string>)
    ensures |vs| <= |ks|
    ensures (forall i :: 0 <= i < |ks| ==> ks[i] !in r) <==> vs == []
    ensures forall v :: v in vs ==> exists k :: k in ks && k in r && r[k] == v
    ensures forall i :: 0 <= i < |ks| && ks[i] in r ==> r[ks[i]] in vs
    ensures |vs| == |PresentKeys(r, ks)|
    ensures forall j :: 0 <= j < |vs| ==> PresentKeys(r, ks)[j] in r && vs[j] == r[PresentKeys(r, ks)[j]]
    decreases |ks|
  {
    if |ks| == 0 then []
    else
      var rest := PresentValues(r, ks[1..]);
      var vs := if ks[0] in r then [r[ks[0]]] + rest else rest;
      PresentValuesStep(r, ks, rest, vs);
      PresentValuesOrderStep(r, ks, rest, vs);
      vs
  }

  /** Soundness, completeness and emptiness for one more key, given them for the keys after it. */
  lemma {:induction false} PresentValuesStep(r: map<string, string>, ks: seq<string>, rest: seq<string>, vs: seq<string>)
    requires |ks| > 0 && vs == if ks[0] in r then [r[ks[0]]] + rest else rest
    requires forall v :: v in rest ==> exists k :: k in ks[1..] && k in r && r[k] == v
    requires forall i :: 0 <= i < |ks[1..]| && ks[1..][i] in r ==> r[ks[1..][i]] in rest
    ensures forall v :: v in vs ==> exists k :: k in ks && k in r && r[k] == v
    ensures forall i :: 0 <= i < |ks| && ks[i] in r ==> r[ks[i]] in vs
    ensures (forall i :: 0 <= i < |ks| ==> ks[i] !in r) <==> vs == []
  {
    forall v | v in vs
      ensures exists k :: k in ks && k in r && r[k] == v
    {
      if v in rest {
        var k :| k in ks[1..] && k in r && r[k] == v;
        assert k in ks;
      } else {
        assert ks[0] in ks;
      }
    }
    forall i | 0 <= i < |ks| && ks[i] in r
      ensures r[ks[i]] in vs
    {
      if i > 0 {
        assert ks[i] == ks[1..][i - 1];
      }
    }
    if vs != [] {
      assert vs[0] in vs;
      var k :| k in ks && k in r && r[k] == vs[0];
    }
  }

  /** The order facts for one more key: `vs` looks up the present keys one by one. */
  lemma {:induction false} PresentValuesOrderStep(r: map<string, string>, ks: seq<string>, rest: seq<string>, vs: seq<string>)
    requires |ks| > 0 && vs == if ks[0] in r then [r[ks[0]]] + rest else rest
    requires |rest| == |PresentKeys(r, ks[1..])|
    requires forall j :: 0 <= j < |rest| ==> PresentKeys(r, ks[1..])[j] in r && rest[j] == r[PresentKeys(r, ks[1..])[j]]
    ensures |vs| == |PresentKeys(r, ks)| && |vs| <= |ks|
    ensures forall j :: 0 <= j < |vs| ==> PresentKeys(r, ks)[j] in r && vs[j] == r[PresentKeys(r, ks)[j]]
  {
    var tail := PresentKeys(r, ks[1..]);
    assert PresentKeys(r, ks) == if ks[0] in r then [ks[0]] + tail else tail;
  }

  /** The match address of one returned location. */
  function MatchAddr(r: map<string, string>): (m: string)
    ensures (forall k :: k in MatchAddrElements ==> k !in r) ==> m == ""
    ensures var vs := PresentValues(r, MatchAddrElements);
      |vs| > 0 ==> StartsWith(m, vs[0]) && (|vs| == 1 ==> m == vs[0])
  {
    var vs := PresentValues(r, MatchAddrElements);
    if |vs| > 0 then JoinStartsWithFirst(", ", vs); Join(", ", vs) else Join(", ", vs)
  }

  /** Only the five listed fields contribute to the match address. */
  lemma {:induction false} MatchAddrOnlyElements(r1: map<string, string>, r2: map<string, string>)
    requires forall k :: k in MatchAddrElements ==> (k in r1 <==> k in r2)
    requires forall k :: k in MatchAddrElements && k in r1 ==> r1[k] == r2[k]
    ensures MatchAddr(r1) == MatchAddr(r2)
  {
    SameValues(r1, r2, MatchAddrElements);
  }

  lemma {:induction false} SameValues(r1: map<string, string>, r2: map<string, string>, ks: seq<string>)
    requires forall k :: k in ks ==> (k in r1 <==> k in r2)
    requires forall k :: k in ks && k in r1 ==> r1[k] == r2[k]
    ensures PresentValues(r1, ks) == PresentValues(r2, ks)
    decreases |ks|
  {
    if |ks| > 0 {
      assert forall k :: k in ks[1..] ==> k in ks;
      SameValues(r1, r2, ks[1..]);
    }
  }

  /**
   * When no field holds a comma, splitting the match address at commas
   * gives back the present fields in order, each but the first led by
   * the space of the separator.
   */
  lemma {:induction false} MatchAddrSplits(r: map<string, string>)
    requires exists k :: k in MatchAddrElements && k in r
    requires forall k :: k in r ==> ',' !in r[k]
    ensures var vs := PresentValues(r, MatchAddrElements);
      Split(MatchAddr(r), ',') == [vs[0]] + SpaceLed(vs[1..])
  {
    var vs := PresentValues(r, MatchAddrElements);
    var k :| k in MatchAddrElements && k in r;
    assert vs != [];
    forall i | 0 <= i < |vs|
      ensures ',' !in vs[i]
    {
      assert vs[i] in vs;
    }
    CommaSpaceSplits(vs);
  }

  /** The fields a returned location gives its candidate. */
  datatype MatchFields = MatchFields(locator: Value, confidence: Value, matchAddr: string, x: Value, y: Value, wkid: int)

  /** A returned location: its text fields, its quality codes and its coordinates. */
  datatype ResultLocation = ResultLocation(fields: map<string, string>, quality: Value, qualityCode: Value,
                                           lng: Value, lat: Value)

  /** The candidate fields of one returned location, always in WGS84. */
  function ResultFields(loc: ResultLocation): (f: MatchFields)
    ensures f.wkid == 4326
    ensures f.x == loc.lng && f.y == loc.lat
    ensures f.locator == loc.quality && f.confidence == loc.qualityCode
    ensures f.matchAddr == MatchAddr(loc.fields)
  {
    MatchFields(loc.quality, loc.qualityCode, MatchAddr(loc.fields), loc.lng, loc.lat, 4326)
  }
}

=== FILE: pipeline.dfy ===
/**
 * The processor chains that the service template and both orchestrators
 * run: preprocessors one after the other until one rejects, and
 * postprocessors one after the other, with or without a stop on an
 * empty list.  Each processor's `process` is a function parameter.
 */
module Pipeline {
  import opened Wrappers
  import opened Places

  /** A preprocessor's `process`: the query to go on with, or `None` for the falsy `False`. */
  type Pre = PlaceQuery -> Option<PlaceQuery>

  /** A postprocessor's `process`. */
  type Post = seq<Candidate> -> seq<Candidate>

  /** The outcome of a preprocessor chain and how many preprocessors were called. */
  datatype PreRun = PreRun(query: Option<PlaceQuery>, ran: nat)

  /**
   * `for p in preprocessors: q = p.process(q); if not q: <stop>`: each
   * preprocessor gets the previous one's output; the first rejection
   * ends the chain.
   */
  function RunPre(pres: seq<Pre>, q: PlaceQuery): (r: PreRun)
    ensures r.ran <= |pres|
    ensures r.query.Some? ==> r.ran == |pres|
    ensures r.query.None? ==> 0 < r.ran
    ensures |pres| > 0 && pres[0](q).None? ==> r == PreRun(None, 1)
    decreases |pres|
  {
    if |pres| == 0 then PreRun(Some(q), 0)
    else
      match pres[0](q)
      case None => PreRun(None, 1)
      case Some(q') =>
        var rest := RunPre(pres[1..], q');
        PreRun(rest.query, rest.ran + 1)
  }

  /**
   * Running two chains one after the other is running their
   * concatenation; once the first rejects, the second is never called.
   */
  lemma {:induction false} RunPreAppend(a: seq<Pre>, b: seq<Pre>, q: PlaceQuery)
    ensures RunPre(a, q).query.None? ==> RunPre(a + b, q) == RunPre(a, q)
    ensures RunPre(a, q).query.Some? ==>
      var second := RunPre(b, RunPre(a, q).query.value);
      RunPre(a + b, q) == PreRun(second.query, |a| + second.ran)
    decreases |a|
  {
    if |a| == 0 {
      assert a + b == b;
    } else {
      assert (a + b)[0] == a[0];
      assert (a + b)[1..] == a[1..] + b;
      match a[0](q)
      case None =>
      case Some(q') =>
        RunPreAppend(a[1..], b, q');
    }
  }

  /** `for p in postprocessors: cs = p.process(cs)`, with no check in between. */
  function RunAll(posts: seq<Post>, cs: seq<Candidate>): (r: seq<Candidate>)
    ensures |posts| == 0 ==> r == cs
    decreases |posts|
  {
    if |posts| == 0 then cs else RunAll(posts[1..], posts[0](cs))
  }

  lemma {:induction false} RunAllAppend(a: seq<Post>, b: seq<Post>, cs: seq<Candidate>)
    ensures RunAll(a + b, cs) == RunAll(b, RunAll(a, cs))
    decreases |a|
  {
    if |a| == 0 {
      assert a + b == b;
    } else {
      assert (a + b)[0] == a[0];
      assert (a + b)[1..] == a[1..] + b;
      RunAllAppend(a[1..], b, a[0](cs));
    }
  }

  /**
   * `for p in postprocessors: if cs == []: break; cs = p.process(cs)`:
   * the chain stops as soon as the list is empty.
   */
  function Gated(posts: seq<Post>, cs: seq<Candidate>): (r: seq<Candidate>)
    ensures cs == [] ==> r == []
    ensures |posts| > 0 && cs != [] && posts[0](cs) == [] ==> r == []
    decreases |posts|
  {
    if |posts| == 0 || cs == [] then cs else Gated(posts[1..], posts[0](cs))
  }

  /**
   * The gate only ever cuts the chain short with an empty list: a
   * non-empty outcome is what the ungated chain computes.
   */
  lemma {:induction false} GatedNonEmpty(posts: seq<Post>, cs: seq<Candidate>)
    requires Gated(posts, cs) != []
    ensures Gated(posts, cs) == RunAll(posts, cs)
    decreases |posts|
  {
    if |posts| > 0 {
      GatedNonEmpty(posts[1..], posts[0](cs));
    }
  }

  /** When no postprocessor ever sees an empty list, the gate changes nothing. */
  lemma {:induction false} GatedNeverEmpty(posts: seq<Post>, cs: seq<Candidate>)
    requires cs != []
    requires forall k :: 0 <= k <= |posts| ==> RunAll(posts[..k], cs) != []
    ensures Gated(posts, cs) == RunAll(posts, cs)
    decreases |posts|
  {
    if |posts| > 0 {
      var next := posts[0](cs);
      assert posts[..1] == [posts[0]];
      assert RunAll(posts[..1], cs) == RunAll([], next);
      forall k | 0 <= k <= |posts[1..]|
        ensures RunAll(posts[1..][..k], next) != []
      {
        assert posts[..k + 1] == [posts[0]] + posts[1..][..k];
        assert RunAll(posts[..k + 1], cs) == RunAll(posts[1..][..k], next);
      }
      GatedNeverEmpty(posts[1..], next);
    }
  }
}

=== FILE: places.dfy ===
/**
 * The library's data model: the bounding box (`Viewbox`), the query
 * (`PlaceQuery`) and the result record (`Candidate`), with the
 * constructors' validation and the bounding-box encodings sent to the
 * geocoding services.
 *
 * Python formats numbers with `%s`; that formatting is a parameter
 * `show` here, and only the order and separators of the fields are
 * modelled.
 */
module Places {
  import opened Wrappers
  import opened Values
  import opened Text

  // ----------------------------------------------------------------------
  // Viewbox

  datatype Viewbox = Viewbox(left: real, top: real, right: real, bottom: real, wkid: int)

  /** What the constructor guarantees about every box it builds. */
  predicate ValidBox(vb: Viewbox) {
    vb.left <= vb.right && vb.bottom <= vb.top
  }

  /** The two kinds of exception the constructor can raise, with their messages. */
  datatype ViewboxError = TypeError(message: string) | ValueError(message: string)

  const NotANumber := "One or more bounds is not a real number."
  const LeftRight := "Left x-coord must be less than right x-coord."
  const BottomTop := "Bottom y-coord must be less than top y-coord."
  /** Python's complaint when a tuple has more items than the format has `%s` slots. */
  const NotAllConverted := "not all arguments converted during string formatting"

  /** `isinstance(x, (int, float))` holds for each of the four bounds. */
  predicate AllNumbers(left: Arg, top: Arg, right: Arg, bottom: Arg) {
    IsRealNumber(left) && IsRealNumber(top) && IsRealNumber(right) && IsRealNumber(bottom)
  }

  /** The two order checks and the box, once every bound is a number. */
  function OrderedBox(left: Arg, top: Arg, right: Arg, bottom: Arg, wkid: int): (r: Result<Viewbox, ViewboxError>)
    requires AllNumbers(left, top, right, bottom)
    ensures r.Ok? <==> NumberOf(left) <= NumberOf(right) && NumberOf(bottom) <= NumberOf(top)
    ensures r.Ok? ==> ValidBox(r.value) && r.value.wkid == wkid
    ensures r.Ok? ==> r.value.left == NumberOf(left) && r.value.right == NumberOf(right)
    ensures r.Ok? ==> r.value.top == NumberOf(top) && r.value.bottom == NumberOf(bottom)
    ensures NumberOf(left) > NumberOf(right) ==> r == Err(ValueError(LeftRight))
    ensures NumberOf(left) <= NumberOf(right) && NumberOf(bottom) > NumberOf(top) ==> r == Err(ValueError(BottomTop))
  {
    if NumberOf(left) > NumberOf(right) then Err(ValueError(LeftRight))
    else if NumberOf(bottom) > NumberOf(top) then Err(ValueError(BottomTop))
    else Ok(Viewbox(NumberOf(left), NumberOf(top), NumberOf(right), NumberOf(bottom), wkid))
  }

  /**
   * `Viewbox(left, top, right, bottom, wkid)` as written: the bounds must
   * be Python numbers (a bool counts as one); equal bounds are allowed.
   * The message for a non-number formats the 4-tuple `bounds` into a
   * single `%s`, so building it raises `TypeError` before the intended
   * `ValueError` exists.
   */
  function NewViewbox(left: Arg, top: Arg, right: Arg, bottom: Arg, wkid: int): (r: Result<Viewbox, ViewboxError>)
    ensures r.Ok? <==>
      && AllNumbers(left, top, right, bottom)
      && NumberOf(left) <= NumberOf(right) && NumberOf(bottom) <= NumberOf(top)
    ensures r.Ok? ==> ValidBox(r.value) && r.value.wkid == wkid
    ensures r.Ok? ==> r.value.left == NumberOf(left) && r.value.right == NumberOf(right)
    ensures r.Ok? ==> r.value.top == NumberOf(top) && r.value.bottom == NumberOf(bottom)
    ensures !AllNumbers(left, top, right, bottom) ==> r == Err(TypeError(NotAllConverted))
    ensures r.Err? && r.error.ValueError? ==> r.error.message in {LeftRight, BottomTop}
  {
    if !AllNumbers(left, top, right, bottom) then Err(TypeError(NotAllConverted))
    else OrderedBox(left, top, right, bottom, wkid)
  }

  /**
   * The constructor as evidently intended: a non-number bound raises the
   * `ValueError` whose message the source prepares, so every failure is
   * a `ValueError`.
   */
  function NewViewboxIntended(left: Arg, top: Arg, right: Arg, bottom: Arg, wkid: int): (r: Result<Viewbox, ViewboxError>)
    ensures r.Ok? <==>
      && AllNumbers(left, top, right, bottom)
      && NumberOf(left) <= NumberOf(right) && NumberOf(bottom) <= NumberOf(top)
    ensures r.Ok? ==> ValidBox(r.value) && r.value.wkid == wkid
    ensures r.Ok? ==> r.value.left == NumberOf(left) && r.value.right == NumberOf(right)
    ensures r.Ok? ==> r.value.top == NumberOf(top) && r.value.bottom == NumberOf(bottom)
    ensures !AllNumbers(left, top, right, bottom) ==> r == Err(ValueError(NotANumber))
    ensures r.Err? ==> r.error.ValueError?
  {
    if !AllNumbers(left, top, right, bottom) then Err(ValueError(NotANumber))
    else OrderedBox(left, top, right, bottom, wkid)
  }

  /**
   * The two constructors differ only on non-number bounds, and there
   * always: the code as written raises `TypeError` where `ValueError` was meant.
   */
  lemma {:induction false} ViewboxRevisionsAgree(left: Arg, top: Arg, right: Arg, bottom: Arg, wkid: int)
    ensures NewViewbox(left, top, right, bottom, wkid) == NewViewboxIntended(left, top, right, bottom, wkid)
        <==> AllNumbers(left, top, right, bottom)
  {
  }

  /** `Viewbox(left='a')`: the source raises `TypeError`, not the `ValueError` it prepares. */
  lemma {:induction false} NonNumberBoundTypeError(left: Arg)
    requires left == AStr("a")
    ensures NewViewbox(left, AInt(90), AInt(180), AInt(-90), 4326) == Err(TypeError(NotAllConverted))
    ensures NewViewboxIntended(left, AInt(90), AInt(180), AInt(-90), 4326) == Err(ValueError(NotANumber))
  {
  }

  /** With no arguments the box is the whole WGS84 world. */
  lemma {:induction false} DefaultViewbox()
    ensures NewViewbox(AInt(-180), AInt(90), AInt(180), AInt(-90), 4326)
         == Ok(Viewbox(-180.0, 90.0, 180.0, -90.0, 4326))
    ensures NewViewboxIntended(AInt(-180), AInt(90), AInt(180), AInt(-90), 4326)
         == Ok(Viewbox(-180.0, 90.0, 180.0, -90.0, 4326))
  {
  }

  /** Reprojection is not implemented: every target returns the same box. */
  function ConvertSrs(vb: Viewbox, newWkid: int): (r: Viewbox)
    ensures r == vb
  {
    vb
  }

  /** The four bounds contain no occurrence of separator `c` once shown. */
  predicate ShowsWithout(vb: Viewbox, show: real -> string, c: char) {
    c !in show(vb.left) && c !in show(vb.top) && c !in show(vb.right) && c !in show(vb.bottom)
  }

  /** Bing's `umv` parameter: bottom,left,top,right. */
  function ToBingStr(vb: Viewbox, show: real -> string): string {
    var b := ConvertSrs(vb, 4326);
    Join(",", [show(b.bottom), show(b.left), show(b.top), show(b.right)])
  }

  /** Google's `bounds` parameter: bottom,left|top,right. */
  function ToGoogleStr(vb: Viewbox, show: real -> string): string {
    var b := ConvertSrs(vb, 4326);
    Join("|", [Join(",", [show(b.bottom), show(b.left)]), Join(",", [show(b.top), show(b.right)])])
  }

  /** MapQuest's `viewbox` parameter: left,top,right,bottom. */
  function ToMapQuestStr(vb: Viewbox, show: real -> string): string {
    var b := ConvertSrs(vb, 4326);
    Join(",", [show(b.left), show(b.top), show(b.right), show(b.bottom)])
  }

  /** Splitting Bing's string recovers the shown bounds in Bing's order. */
  lemma {:induction false} BingFields(vb: Viewbox, show: real -> string)
    requires ShowsWithout(vb, show, ',')
    ensures Split(ToBingStr(vb, show), ',') == [show(vb.bottom), show(vb.left), show(vb.top), show(vb.right)]
  {
    SplitJoin([show(vb.bottom), show(vb.left), show(vb.top), show(vb.right)], ',');
  }

  /** Splitting MapQuest's string recovers the shown bounds in MapQuest's order. */
  lemma {:induction false} MapQuestFields(vb: Viewbox, show: real -> string)
    requires ShowsWithout(vb, show, ',')
    ensures Split(ToMapQuestStr(vb, show), ',') == [show(vb.left), show(vb.top), show(vb.right), show(vb.bottom)]
  {
    SplitJoin([show(vb.left), show(vb.top), show(vb.right), show(vb.bottom)], ',');
  }

  /** Google's string is the south-west corner, '|', then the north-east corner. */
  lemma {:induction false} GoogleFields(vb: Viewbox, show: real -> string)
    requires ShowsWithout(vb, show, ',') && ShowsWithout(vb, show, '|')
    ensures var corners := Split(ToGoogleStr(vb, show), '|');
      && |corners| == 2
      && Split(corners[0], ',') == [show(vb.bottom), show(vb.left)]
      && Split(corners[1], ',') == [show(vb.top), show(vb.right)]
  {
    var sw := Join(",", [show(vb.bottom), show(vb.left)]);
    var ne := Join(",", [show(vb.top), show(vb.right)]);
    assert [show(vb.bottom), show(vb.left)][1..] == [show(vb.left)];
    assert [show(vb.top), show(vb.right)][1..] == [show(vb.right)];
    assert Join(",", [show(vb.left)]) == show(vb.left);
    assert Join(",", [show(vb.right)]) == show(vb.right);
    assert sw == show(vb.bottom) + [','] + show(vb.left);
    assert ne == show(vb.top) + [','] + show(vb.right);
    assert '|' !in sw && '|' !in ne;
    SplitJoin([sw, ne], '|');
    SplitJoin([show(vb.bottom), show(vb.left)], ',');
    SplitJoin([show(vb.top), show(vb.right)], ',');
  }

  /** Mapzen's `boundary.rect.*` parameters. */
  function ToMapzenDict(vb: Viewbox): (r: map<string, real>)
    ensures r.Keys == {"boundary.rect.min_lat", "boundary.rect.min_lon", "boundary.rect.max_lat", "boundary.rect.max_lon"}
    ensures r["boundary.rect.min_lat"] == vb.bottom && r["boundary.rect.min_lon"] == vb.left
    ensures r["boundary.rect.max_lat"] == vb.top && r["boundary.rect.max_lon"] == vb.right
  {
    var b := ConvertSrs(vb, 4326);
    map["boundary.rect.min_lat" := b.bottom, "boundary.rect.min_lon" := b.left,
        "boundary.rect.max_lat" := b.top, "boundary.rect.max_lon" := b.right]
  }

  /** The ESRI JSON envelope before it is written out as text. */
  datatype Envelope = Envelope(xmin: real, ymin: real, xmax: real, ymax: real, wkid: int)

  function ToEsriEnvelope(vb: Viewbox): Envelope {
    Envelope(vb.left, vb.bottom, vb.right, vb.top, vb.wkid)
  }

  /** Reading an envelope back as a box, `xmin` is left and `ymax` is top. */
  function FromEsriEnvelope(e: Envelope): Viewbox {
    Viewbox(e.xmin, e.ymax, e.xmax, e.ymin, e.wkid)
  }

  /** The envelope keeps every bound and the box's wkid, in its own field order. */
  lemma {:induction false} EsriEnvelopeRoundTrip(vb: Viewbox)
    ensures FromEsriEnvelope(ToEsriEnvelope(vb)) == vb
    ensures ToEsriEnvelope(vb).xmin <= ToEsriEnvelope(vb).xmax <==> vb.left <= vb.right
    ensures ToEsriEnvelope(vb).ymin <= ToEsriEnvelope(vb).ymax <==> vb.bottom <= vb.top
  {
  }

  /** The JSON text of an envelope, as the World Geocoding Service expects it. */
  function EsriJson(e: Envelope, show: real -> string): string {
    "{ \"xmin\" : " + show(e.xmin) + ", \"ymin\" : " + show(e.ymin)
      + ", \"xmax\" : " + show(e.xmax) + ", \"ymax\" : " + show(e.ymax)
      + ", \"spatialReference\" : {\"wkid\" : " + IntToString(e.wkid) + "} }"
  }

  function ToEsriWgsJson(vb: Viewbox, show: real -> string): string {
    EsriJson(ToEsriEnvelope(vb), show)
  }

  function Spaces(n: nat): (r: string)
    ensures |r| == n && AllSpace(r)
  {
    seq(n, _ => ' ')
  }

  const MaxLabel := 8

  /**
   * The label helper of the box's text rendering: at most eight
   * characters, left as is ('L'), centred ('C') or right-aligned
   * (any other alignment).
   */
  function Lbl(s: string, align: string): (r: string)
    ensures |r| <= MaxLabel
    ensures |s| > MaxLabel ==> r == s[..MaxLabel]
    ensures |s| <= MaxLabel ==> |r| >= |s| && r[|r| - |s|..] == s && AllSpace(r[..|r| - |s|])
    ensures |s| <= MaxLabel && align == "L" ==> r == s
    ensures |s| <= MaxLabel && align == "C" ==> |r| == |s| + (MaxLabel - |s|) / 2
    ensures |s| <= MaxLabel && align != "L" && align != "C" ==> |r| == MaxLabel
  {
    if |s| > MaxLabel then s[..MaxLabel]
    else if align == "L" then s
    else
      var n := if align == "C" then (MaxLabel - |s|) / 2 else MaxLabel - |s|;
      var r := Spaces(n) + s;
      assert r[..n] == Spaces(n) && r[n..] == s;
      r
  }

  // ----------------------------------------------------------------------
  // PlaceQuery

  datatype PlaceQuery = PlaceQuery(
    query: string, address: string, neighborhood: string, city: string,
    subregion: string, state: string, postal: string, country: string,
    viewbox: Option<Viewbox>, bounded: bool,
    ext: map<string, Value>)  // further keyword arguments (user_lat, culture, key, ...)

  /** The condition under which the constructor refuses to build a query. */
  predicate NothingToGeocode(query: string, address: string, city: string, state: string, postal: string) {
    query == "" && address == "" && city == "" && state == "" && postal == ""
  }

  const NoQuery := "Must provide query or one or more of address, city, state, and postal."

  function NewPlaceQuery(
    query: string, address: string, neighborhood: string, city: string,
    subregion: string, state: string, postal: string, country: string,
    viewbox: Option<Viewbox>, bounded: bool, kwargs: map<string, Value>): (r: Result<PlaceQuery, string>)
    ensures r.Err? <==> NothingToGeocode(query, address, city, state, postal)
    ensures r.Err? ==> r.error == NoQuery
    ensures r.Ok? ==> r.value == PlaceQuery(query, address, neighborhood, city, subregion, state,
                                           postal, country, viewbox, bounded, kwargs)
  {
    if NothingToGeocode(query, address, city, state, postal) then Err(NoQuery)
    else Ok(PlaceQuery(query, address, neighborhood, city, subregion, state, postal, country,
                       viewbox, bounded, kwargs))
  }

  /** `PlaceQuery(query=s)`, the form the orchestrator builds from a bare string. */
  function QueryOf(s: string): (r: Result<PlaceQuery, string>)
    ensures r.Ok? <==> s != ""
    ensures r.Ok? ==> r.value.query == s && r.value.address == "" && r.value.viewbox.None?
  {
    NewPlaceQuery(s, "", "", "", "", "", "", "", None, false, map[])
  }

  /** Neighbourhood, subregion and country alone are not enough for a query. */
  lemma {:induction false} RegionOnlyRejected(neighborhood: string, subregion: string, country: string)
    ensures NewPlaceQuery("", "", neighborhood, "", subregion, "", "", country, None, false, map[]).Err?
  {
  }

  /** The value of a named query attribute (`getattr(pq, name)`), if it has one. */
  function Field(pq: PlaceQuery, name: string): Option<Value> {
    match name
    case "query" => Some(Str(pq.query))
    case "address" => Some(Str(pq.address))
    case "neighborhood" => Some(Str(pq.neighborhood))
    case "city" => Some(Str(pq.city))
    case "subregion" => Some(Str(pq.subregion))
    case "state" => Some(Str(pq.state))
    case "postal" => Some(Str(pq.postal))
    case "country" => Some(Str(pq.country))
    case "bounded" => Some(Bool(pq.bounded))
    case _ => if name in pq.ext then Some(pq.ext[name]) else None
  }

  // ----------------------------------------------------------------------
  // Candidate

  /**
   * A geocoding result.  `id` stands for the Python object's identity
   * (the class defines no equality, so `in` and `remove` compare
   * identities); `attrs` holds its attributes by name.
   */
  datatype Candidate = Candidate(id: nat, attrs: map<string, Value>)

  const Formals: set<string> := {"locator", "score", "match_addr", "x", "y", "wkid"}

  /**
   * `Candidate(locator, score, match_addr, x, y, wkid, **kwargs)`.  Python
   * refuses a keyword that repeats a formal parameter, so such keys are
   * not taken from `kwargs`.
   */
  function NewCandidate(id: nat, locator: Value, score: Value, matchAddr: Value, x: Value, y: Value,
                        wkid: Value, kwargs: map<string, Value>): (r: Candidate)
    ensures r.id == id
    ensures r.attrs.Keys == Formals + kwargs.Keys
    ensures r.attrs["locator"] == locator && r.attrs["score"] == score && r.attrs["match_addr"] == matchAddr
    ensures r.attrs["x"] == x && r.attrs["y"] == y && r.attrs["wkid"] == wkid
    ensures forall k :: k in kwargs && k !in Formals ==> r.attrs[k] == kwargs[k]
  {
    Candidate(id, kwargs + map["locator" := locator, "score" := score, "match_addr" := matchAddr,
                               "x" := x, "y" := y, "wkid" := wkid])
  }

  /** `Candidate()` with every default. */
  function DefaultCandidate(id: nat): Candidate {
    NewCandidate(id, Str(""), Num(0.0), Str(""), Null, Null, Num(4326.0), map[])
  }

  lemma {:induction false} CandidateDefaults(id: nat)
    ensures var c := DefaultCandidate(id);
      && c.attrs.Keys == Formals
      && c.attrs["locator"] == Str("") && c.attrs["score"] == Num(0.0) && c.attrs["match_addr"] == Str("")
      && c.attrs["x"] == Null && c.attrs["y"] == Null && c.attrs["wkid"] == Num(4326.0)
  {
  }

  /** Every candidate of `cs` carries attribute `a` (otherwise `getattr` raises). */
  predicate HasAttr(cs: seq<Candidate>, a: string) {
    forall i :: 0 <= i < |cs| ==> a in cs[i].attrs
  }

  /** The candidate has a numeric score. */
  predicate HasNumScore(c: Candidate) {
    "score" in c.attrs && c.attrs["score"].Num?
  }

  /** Every candidate of `cs` has a numeric score, so scores can be compared. */
  predicate Scored(cs: seq<Candidate>) {
    forall i :: 0 <= i < |cs| ==> HasNumScore(cs[i])
  }

  function Score(c: Candidate): real
    requires HasNumScore(c)
  {
    c.attrs["score"].n
  }

  /** The identities of the candidates of `cs`. */
  function Ids(cs: seq<Candidate>): set<nat> {
    set i | 0 <= i < |cs| :: cs[i].id
  }
}

=== FILE: postprocessors.dfy ===
/**
 * The candidate postprocessors of `omgeo/postprocessors.py`: pure
 * transformations of a list of candidates.
 *
 * Python's `getattr(c, attr)` raises when the attribute is missing, and
 * comparing a string with a number raises too; each primitive therefore
 * `requires` exactly the attributes and types its loop actually
 * inspects.  Primitives that also mutate the caller's list return a
 * `Processed` pair: the returned list and what the caller's list holds
 * afterwards.
 */
module Postprocessors {
  import opened Wrappers
  import opened Values
  import opened Text
  import opened Seqs
  import opened Places
  import opened Greedy

  /** `getattr(c, a)` for an attribute known to be present. */
  function Lookup(c: Candidate, a: string): Value {
    if a in c.attrs then c.attrs[a] else Null
  }

  /** The list a postprocessor returns, and the caller's list after the call. */
  datatype Processed = Processed(out: seq<Candidate>, input: seq<Candidate>)

  // ----------------------------------------------------------------------
  // AttrFilter / AttrExclude

  /**
   * `any(v in x for v in values)` evaluates `v in x` left to right until
   * one holds; each evaluation needs two strings.
   */
  predicate AnyInDefined(values: seq<Value>, x: Value)
    decreases |values|
  {
    |values| == 0
    || (values[0].Str? && x.Str? && (Contains(x.s, values[0].s) || AnyInDefined(values[1..], x)))
  }

  /** Some value of `values` is a substring of `x`. */
  function AnyIn(values: seq<Value>, x: Value): (r: bool)
    requires AnyInDefined(values, x)
    ensures r <==> exists i :: 0 <= i < |values| && values[i].Str? && x.Str? && Contains(x.s, values[i].s)
    decreases |values|
  {
    if |values| == 0 then false
    else if Contains(x.s, values[0].s) then true
    else
      var rest := AnyIn(values[1..], x);
      assert forall i :: 1 <= i < |values| ==> values[i] == values[1..][i - 1];
      assert rest ==> exists i :: 1 <= i < |values| && values[i].Str? && x.Str? && Contains(x.s, values[i].s);
      rest
  }

  /** Python evaluates the filter's test on every candidate without raising. */
  predicate FilterDefined(cs: seq<Candidate>, attr: string, values: seq<Value>, exact: bool) {
    if exact then HasAttr(cs, attr)
    else |values| == 0 || (HasAttr(cs, attr) && forall i :: 0 <= i < |cs| ==> AnyInDefined(values, cs[i].attrs[attr]))
  }

  /**
   * The test shared by `AttrFilter` and `AttrExclude`: the attribute is
   * one of `values` (exact), or contains one of them (inexact).
   */
  predicate Selects(c: Candidate, attr: string, values: seq<Value>, exact: bool) {
    if exact then attr in c.attrs && c.attrs[attr] in values
    else |values| > 0 && attr in c.attrs && AnyInDefined(values, c.attrs[attr]) && AnyIn(values, c.attrs[attr])
  }

  function AttrFilter(cs: seq<Candidate>, goodValues: seq<Value>, attr: string, exact: bool): (r: seq<Candidate>)
    requires FilterDefined(cs, attr, goodValues, exact)
    ensures forall i :: 0 <= i < |cs| ==> (cs[i] in r <==> Selects(cs[i], attr, goodValues, exact))
    ensures forall i :: 0 <= i < |r| ==> r[i] in cs && Selects(r[i], attr, goodValues, exact)
    ensures IsSubseq(r, cs)
  {
    FilterIsSubseq(cs, c => Selects(c, attr, goodValues, exact));
    Filter(cs, c => Selects(c, attr, goodValues, exact))
  }

  function AttrExclude(cs: seq<Candidate>, badValues: seq<Value>, attr: string, exact: bool): (r: seq<Candidate>)
    requires FilterDefined(cs, attr, badValues, exact)
    ensures forall i :: 0 <= i < |cs| ==> (cs[i] in r <==> !Selects(cs[i], attr, badValues, exact))
    ensures forall i :: 0 <= i < |r| ==> r[i] in cs && !Selects(r[i], attr, badValues, exact)
    ensures IsSubseq(r, cs)
  {
    FilterIsSubseq(cs, c => !Selects(c, attr, badValues, exact));
    Filter(cs, c => !Selects(c, attr, badValues, exact))
  }

  /** With the same values, `AttrExclude` keeps exactly what `AttrFilter` drops. */
  lemma {:induction false} FilterExcludePartition(cs: seq<Candidate>, values: seq<Value>, attr: string, exact: bool)
    requires FilterDefined(cs, attr, values, exact)
    ensures multiset(AttrFilter(cs, values, attr, exact)) + multiset(AttrExclude(cs, values, attr, exact)) == multiset(cs)
    ensures forall i :: 0 <= i < |cs| ==>
      (cs[i] in AttrFilter(cs, values, attr, exact) <==> cs[i] !in AttrExclude(cs, values, attr, exact))
  {
    FilterSplit(cs, c => Selects(c, attr, values, exact), c => !Selects(c, attr, values, exact));
  }

  /** `LocatorFilter`: drop candidates whose locator is not listed; the caller's list is the result. */
  function LocatorFilter(cs: seq<Candidate>, goodLocators: seq<Value>): (r: Processed)
    requires HasAttr(cs, "locator")
    ensures r.out == r.input
    ensures r.out == AttrFilter(cs, goodLocators, "locator", true)
  {
    var kept := AttrFilter(cs, goodLocators, "locator", true);
    Processed(kept, kept)
  }

  // ----------------------------------------------------------------------
  // AttrSorter / AttrReverseSorter / LocatorSorter

  /** The loop of `AttrSorter`: one bucket per listed value, taken out of the live list. */
  function SortLoop(vals: seq<Value>, attr: string, rest: seq<Candidate>): (r: (seq<Candidate>, seq<Candidate>))
    decreases |vals|
  {
    if |vals| == 0 then ([], rest)
    else
      var v := vals[0];
      var bucket := Filter(rest, c => Lookup(c, attr) == v);
      var (buckets, leftover) := SortLoop(vals[1..], attr, Filter(rest, c => Lookup(c, attr) != v));
      (bucket + buckets, leftover)
  }

  /**
   * Reference description of the sorted order: for each listed value in
   * turn, the candidates carrying it, in input order, unless an earlier
   * listed value was the same (a repeated value gets an empty bucket).
   */
  function Buckets(vals: seq<Value>, attr: string, s: seq<Candidate>, earlier: seq<Value>): seq<Candidate>
    decreases |vals|
  {
    if |vals| == 0 then []
    else
      Filter(s, c => Lookup(c, attr) == vals[0] && Lookup(c, attr) !in earlier)
        + Buckets(vals[1..], attr, s, earlier + [vals[0]])
  }

  /** The candidates of `s` whose value is none of `listed`. */
  function UnlistedIn(s: seq<Candidate>, attr: string, listed: seq<Value>): seq<Candidate> {
    Filter(s, c => Lookup(c, attr) !in listed)
  }

  lemma {:induction false} SortLoopIsBuckets(vals: seq<Value>, attr: string, s: seq<Candidate>, earlier: seq<Value>)
    ensures SortLoop(vals, attr, UnlistedIn(s, attr, earlier)).0 == Buckets(vals, attr, s, earlier)
    decreases |vals|
  {
    if |vals| > 0 {
      var v := vals[0];
      RemainingStep(s, attr, v, earlier);
      SortLoopIsBuckets(vals[1..], attr, s, earlier + [v]);
      BucketStep(s, attr, v, earlier);
    }
  }

  lemma {:induction false} SortLoopLeftover(vals: seq<Value>, attr: string, s: seq<Candidate>, earlier: seq<Value>)
    ensures SortLoop(vals, attr, UnlistedIn(s, attr, earlier)).1 == UnlistedIn(s, attr, earlier + vals)
    decreases |vals|
  {
    if |vals| == 0 {
      assert earlier + vals == earlier;
    } else {
      var v := vals[0];
      RemainingStep(s, attr, v, earlier);
      SortLoopLeftover(vals[1..], attr, s, earlier + [v]);
      assert earlier + [v] + vals[1..] == earlier + vals;
    }
  }

  lemma {:induction false} BucketStep(s: seq<Candidate>, attr: string, v: Value, earlier: seq<Value>)
    ensures Filter(UnlistedIn(s, attr, earlier), c => Lookup(c, attr) == v)
         == Filter(s, c => Lookup(c, attr) == v && Lookup(c, attr) !in earlier)
  {
    FilterFilter(s, c => Lookup(c, attr) !in earlier, c => Lookup(c, attr) == v,
                 c => Lookup(c, attr) == v && Lookup(c, attr) !in earlier);
  }

  lemma {:induction false} RemainingStep(s: seq<Candidate>, attr: string, v: Value, earlier: seq<Value>)
    ensures Filter(UnlistedIn(s, attr, earlier), c => Lookup(c, attr) != v) == UnlistedIn(s, attr, earlier + [v])
  {
    FilterFilter(s, c => Lookup(c, attr) !in earlier, c => Lookup(c, attr) != v,
                 c => Lookup(c, attr) !in earlier + [v]);
  }

  /** The loop neither loses nor invents candidates. */
  lemma {:induction false} SortLoopPermutes(vals: seq<Value>, attr: string, rest: seq<Candidate>)
    ensures multiset(SortLoop(vals, attr, rest).0) + multiset(SortLoop(vals, attr, rest).1) == multiset(rest)
    decreases |vals|
  {
    if |vals| > 0 {
      var v := vals[0];
      FilterSplit(rest, c => Lookup(c, attr) == v, c => Lookup(c, attr) != v);
      SortLoopPermutes(vals[1..], attr, Filter(rest, c => Lookup(c, attr) != v));
    }
  }

  /**
   * `AttrSorter(ordered_values, attr).process(cs)`: the buckets for the
   * listed values followed by the unlisted candidates; the caller's list
   * keeps only the unlisted ones.
   */
  function AttrSorter(cs: seq<Candidate>, orderedValues: seq<Value>, attr: string): (r: Processed)
    requires |orderedValues| > 0 ==> HasAttr(cs, attr)
    ensures multiset(r.out) == multiset(cs)
    ensures r.out == Buckets(orderedValues, attr, cs, []) + r.input
    ensures r.input == UnlistedIn(cs, attr, orderedValues)
  {
    var (buckets, leftover) := SortLoop(orderedValues, attr, cs);
    FilterAll(cs, c => Lookup(c, attr) !in []);
    SortLoopIsBuckets(orderedValues, attr, cs, []);
    SortLoopLeftover(orderedValues, attr, cs, []);
    SortLoopPermutes(orderedValues, attr, cs);
    assert [] + orderedValues == orderedValues;
    Processed(buckets + leftover, leftover)
  }

  /** A value listed twice contributes nothing the second time. */
  lemma {:induction false} RepeatedValueEmptyBucket(attr: string, s: seq<Candidate>, earlier: seq<Value>, v: Value, rest: seq<Value>)
    requires v in earlier
    ensures Buckets([v] + rest, attr, s, earlier) == Buckets(rest, attr, s, earlier + [v])
  {
    var p := c => Lookup(c, attr) == v && Lookup(c, attr) !in earlier;
    FilterNone(s, p);
    assert ([v] + rest)[1..] == rest;
  }

  /** No listed value occurs in `s`: every bucket is empty. */
  lemma {:induction false} BucketsNone(vals: seq<Value>, attr: string, s: seq<Candidate>, earlier: seq<Value>)
    requires forall i :: 0 <= i < |s| ==> Lookup(s[i], attr) !in vals
    ensures Buckets(vals, attr, s, earlier) == []
    decreases |vals|
  {
    if |vals| > 0 {
      FilterNone(s, c => Lookup(c, attr) == vals[0] && Lookup(c, attr) !in earlier);
      BucketsNone(vals[1..], attr, s, earlier + [vals[0]]);
    }
  }

  /** The buckets of a pair whose values are listed, if at all, only first. */
  lemma {:induction false} BucketsOfPair(vals: seq<Value>, attr: string, x: Candidate, y: Candidate)
    requires |vals| > 0 && Lookup(x, attr) !in vals[1..] && Lookup(y, attr) !in vals[1..]
    ensures Buckets(vals, attr, [x, y], [])
         == (if Lookup(x, attr) == vals[0] then [x] else []) + (if Lookup(y, attr) == vals[0] then [y] else [])
  {
    var s := [x, y];
    var e: seq<Value> := [];
    var first := c => Lookup(c, attr) == vals[0] && Lookup(c, attr) !in e;
    BucketsNone(vals[1..], attr, s, e + [vals[0]]);
    assert Buckets(vals, attr, s, e) == Filter(s, first) + Buckets(vals[1..], attr, s, e + [vals[0]]);
    FilterOf2(s, first);
  }

  /** The unlisted members of a pair. */
  lemma {:induction false} UnlistedOfPair(vals: seq<Value>, attr: string, x: Candidate, y: Candidate)
    ensures UnlistedIn([x, y], attr, vals)
         == (if Lookup(x, attr) !in vals then [x] else []) + (if Lookup(y, attr) !in vals then [y] else [])
  {
    FilterOf2([x, y], c => Lookup(c, attr) !in vals);
  }

  /** `LocatorSorter`: `AttrSorter` on the locator. */
  function LocatorSorter(cs: seq<Candidate>, orderedLocators: seq<Value>): (r: Processed)
    requires |orderedLocators| > 0 ==> HasAttr(cs, "locator")
    ensures multiset(r.out) == multiset(cs)
    ensures r.out == Buckets(orderedLocators, "locator", cs, []) + r.input
  {
    AttrSorter(cs, orderedLocators, "locator")
  }

  function Reverse<T>(s: seq<T>): (r: seq<T>)
    ensures |r| == |s|
    ensures forall i :: 0 <= i < |s| ==> r[i] == s[|s| - 1 - i]
  {
    seq(|s|, i requires 0 <= i < |s| => s[|s| - 1 - i])
  }

  /** The result of `AttrReverseSorter.process` and the sorter's list after the in-place reverse. */
  datatype ReverseSorted = ReverseSorted(orderedValues: seq<Value>, result: Processed)

  /**
   * `AttrReverseSorter.process`: reverses its own `ordered_values` in
   * place and sorts by the reversed list.
   */
  function AttrReverseSorter(orderedValues: seq<Value>, cs: seq<Candidate>, attr: string): (r: ReverseSorted)
    requires |orderedValues| > 0 ==> HasAttr(cs, attr)
    ensures r.orderedValues == Reverse(orderedValues)
    ensures r.result == AttrSorter(cs, Reverse(orderedValues), attr)
  {
    var reversed := Reverse(orderedValues);
    ReverseSorted(reversed, AttrSorter(cs, reversed, attr))
  }

  /** Two calls restore the stored list: successive calls alternate direction. */
  lemma {:induction false} ReverseSorterAlternates(orderedValues: seq<Value>, cs: seq<Candidate>, cs2: seq<Candidate>, attr: string)
    requires |orderedValues| > 0 ==> HasAttr(cs, attr) && HasAttr(cs2, attr)
    ensures var first := AttrReverseSorter(orderedValues, cs, attr);
      var second := AttrReverseSorter(first.orderedValues, cs2, attr);
      && second.orderedValues == orderedValues
      && second.result == AttrSorter(cs2, orderedValues, attr)
  {
    var once := Reverse(orderedValues);
    assert Reverse(once) == orderedValues;
  }

  // ----------------------------------------------------------------------
  // AttrRename / AttrMigrator

  /** `_cc`: lower-case the text unless the match is case sensitive. */
  function ChangeCase(s: string, caseSensitive: bool): string {
    if caseSensitive then s else Lower(s)
  }

  /** Map key `k` matches attribute value `v`: equal (exact) or contained (inexact), after `_cc`. */
  predicate KeyMatches(k: string, v: Value, equal: bool, caseSensitive: bool) {
    v.Str? && if equal then ChangeCase(k, caseSensitive) == ChangeCase(v.s, caseSensitive)
              else Contains(ChangeCase(v.s, caseSensitive), ChangeCase(k, caseSensitive))
  }

  predicate NoKeyMatches(amap: seq<(string, Value)>, v: Value, equal: bool, caseSensitive: bool) {
    forall j :: 0 <= j < |amap| ==> !KeyMatches(amap[j].0, v, equal, caseSensitive)
  }

  /** Entry `j` is the first, in the map's insertion order, whose key matches `v`. */
  predicate IsFirstMatch(amap: seq<(string, Value)>, j: nat, v: Value, equal: bool, caseSensitive: bool)
    requires j < |amap|
  {
    KeyMatches(amap[j].0, v, equal, caseSensitive)
    && forall l :: 0 <= l < j ==> !KeyMatches(amap[l].0, v, equal, caseSensitive)
  }

  /** Position of the first key, in the map's insertion order, matching `v`. */
  function FirstMatch(amap: seq<(string, Value)>, v: Value, equal: bool, caseSensitive: bool): (r: Option<nat>)
    ensures r.Some? ==> r.value < |amap| && KeyMatches(amap[r.value].0, v, equal, caseSensitive)
    ensures r.Some? ==> forall j :: 0 <= j < r.value ==> !KeyMatches(amap[j].0, v, equal, caseSensitive)
    ensures r.None? ==> forall j :: 0 <= j < |amap| ==> !KeyMatches(amap[j].0, v, equal, caseSensitive)
    decreases |amap|
  {
    if |amap| == 0 then None
    else if KeyMatches(amap[0].0, v, equal, caseSensitive) then Some(0)
    else
      match FirstMatch(amap[1..], v, equal, caseSensitive)
      case None => None
      case Some(i) => Some(i + 1)
  }

  /**
   * The value can be processed without raising: `_cc` lower-cases it
   * unless matching is case sensitive, and a substring test on it runs
   * whenever inexact matching meets a non-empty map.
   */
  predicate MigrateDefined(v: Value, amap: seq<(string, Value)>, exact: bool, caseSensitive: bool) {
    v.Str? || (caseSensitive && (exact || |amap| == 0))
  }

  predicate MigratorDefined(cs: seq<Candidate>, attrFrom: string, amap: seq<(string, Value)>, exact: bool, caseSensitive: bool) {
    HasAttr(cs, attrFrom) && forall i :: 0 <= i < |cs| ==> MigrateDefined(cs[i].attrs[attrFrom], amap, exact, caseSensitive)
  }

  /** The map entry chosen for value `v`, if any: substring match first (inexact), then equality. */
  function ChosenEntry(v: Value, amap: seq<(string, Value)>, exact: bool, caseSensitive: bool): (r: Option<nat>)
    ensures r.None? ==> NoKeyMatches(amap, v, exact, caseSensitive)
    ensures r.Some? ==> r.value < |amap| && IsFirstMatch(amap, r.value, v, exact, caseSensitive)
  {
    NoContainedNoEqual(amap, v, caseSensitive);
    var contained := FirstMatch(amap, v, false, caseSensitive);
    if !exact && contained.Some? then contained
    else FirstMatch(amap, v, true, caseSensitive)
  }

  function MigrateOne(c: Candidate, attrFrom: string, attrTo: string, amap: seq<(string, Value)>,
                      exact: bool, caseSensitive: bool): (r: Candidate)
    requires attrFrom in c.attrs
    ensures r.id == c.id
    ensures r.attrs.Keys == c.attrs.Keys || r.attrs.Keys == c.attrs.Keys + {attrTo}
    ensures forall k :: k != attrTo && k in c.attrs ==> r.attrs[k] == c.attrs[k]
    ensures NoKeyMatches(amap, c.attrs[attrFrom], exact, caseSensitive) ==> r == c
    ensures forall j :: (0 <= j < |amap| && IsFirstMatch(amap, j, c.attrs[attrFrom], exact, caseSensitive)) ==> attrTo in r.attrs && r.attrs[attrTo] == amap[j].1
  {
    match ChosenEntry(c.attrs[attrFrom], amap, exact, caseSensitive)
    case None => c
    case Some(i) =>
      FirstMatchUnique(amap, i, c.attrs[attrFrom], exact, caseSensitive);
      c.(attrs := c.attrs[attrTo := amap[i].1])
  }

  /** Only one entry can be the first match. */
  lemma {:induction false} FirstMatchUnique(amap: seq<(string, Value)>, i: nat, v: Value, equal: bool, caseSensitive: bool)
    requires i < |amap| && IsFirstMatch(amap, i, v, equal, caseSensitive)
    ensures forall j :: 0 <= j < |amap| && IsFirstMatch(amap, j, v, equal, caseSensitive) ==> j == i
  {
  }

  /**
   * `AttrMigrator(attr_from, attr_to, attr_map, exact_match,
   * case_sensitive).process(cs)`; `amap` lists the dict's entries in
   * insertion order.
   */
  function AttrMigrator(cs: seq<Candidate>, attrFrom: string, attrTo: string, amap: seq<(string, Value)>,
                        exact: bool, caseSensitive: bool): (r: seq<Candidate>)
    requires MigratorDefined(cs, attrFrom, amap, exact, caseSensitive)
    ensures |r| == |cs|
    ensures forall i :: 0 <= i < |cs| ==> r[i].id == cs[i].id
    // only attr_to is ever written
    ensures forall i :: 0 <= i < |cs| ==> r[i].attrs.Keys == cs[i].attrs.Keys || r[i].attrs.Keys == cs[i].attrs.Keys + {attrTo}
    ensures forall i, k :: 0 <= i < |cs| && k != attrTo && k in cs[i].attrs ==> r[i].attrs[k] == cs[i].attrs[k]
    // no matching key: unchanged
    ensures forall i :: (0 <= i < |cs| && NoKeyMatches(amap, cs[i].attrs[attrFrom], exact, caseSensitive)) ==> r[i] == cs[i]
    // otherwise the first matching key decides
    ensures forall i, j :: (0 <= i < |cs| && 0 <= j < |amap| && IsFirstMatch(amap, j, cs[i].attrs[attrFrom], exact, caseSensitive)) ==> attrTo in r[i].attrs && r[i].attrs[attrTo] == amap[j].1
  {
    seq(|cs|, i requires 0 <= i < |cs| => MigrateOne(cs[i], attrFrom, attrTo, amap, exact, caseSensitive))
  }

  /** In inexact mode an equal key is also a contained key, so the equality fallback never decides. */
  lemma {:induction false} EqualKeyIsContained(k: string, v: Value, caseSensitive: bool)
    requires KeyMatches(k, v, true, caseSensitive)
    ensures KeyMatches(k, v, false, caseSensitive)
  {
    ContainsSelf(ChangeCase(v.s, caseSensitive));
  }

  /** With no contained key there is no equal key either. */
  lemma {:induction false} NoContainedNoEqual(amap: seq<(string, Value)>, v: Value, caseSensitive: bool)
    ensures NoKeyMatches(amap, v, false, caseSensitive) ==> NoKeyMatches(amap, v, true, caseSensitive)
  {
    if NoKeyMatches(amap, v, false, caseSensitive) {
      forall j | 0 <= j < |amap|
        ensures !KeyMatches(amap[j].0, v, true, caseSensitive)
      {
        if KeyMatches(amap[j].0, v, true, caseSensitive) {
          EqualKeyIsContained(amap[j].0, v, caseSensitive);
        }
      }
    }
  }

  /** `AttrRename`: the migrator with source and target the same attribute. */
  function AttrRename(cs: seq<Candidate>, attr: string, amap: seq<(string, Value)>, exact: bool, caseSensitive: bool): (r: seq<Candidate>)
    requires MigratorDefined(cs, attr, amap, exact, caseSensitive)
    ensures |r| == |cs|
    ensures forall i :: 0 <= i < |cs| ==> r[i].id == cs[i].id && r[i].attrs.Keys == cs[i].attrs.Keys
    ensures forall i, k :: 0 <= i < |cs| && k != attr && k in cs[i].attrs ==> r[i].attrs[k] == cs[i].attrs[k]
    ensures forall i :: (0 <= i < |cs| && NoKeyMatches(amap, cs[i].attrs[attr], exact, caseSensitive)) ==> r[i] == cs[i]
    ensures forall i, j :: (0 <= i < |cs| && 0 <= j < |amap| && IsFirstMatch(amap, j, cs[i].attrs[attr], exact, caseSensitive)) ==>
      r[i].attrs[attr] == amap[j].1
  {
    AttrMigrator(cs, attr, attr, amap, exact, caseSensitive)
  }

  /** The dict built from distinct-key entries. */
  function ToMap(amap: seq<(string, Value)>): map<string, Value>
    decreases |amap|
  {
    if |amap| == 0 then map[] else ToMap(amap[1..])[amap[0].0 := amap[0].1]
  }

  predicate DistinctKeys(amap: seq<(string, Value)>) {
    forall i, j :: 0 <= i < j < |amap| ==> amap[i].0 != amap[j].0
  }

  lemma {:induction false} FirstMatchLookup(amap: seq<(string, Value)>, s: string)
    requires DistinctKeys(amap)
    ensures FirstMatch(amap, Str(s), true, true).Some? <==> s in ToMap(amap)
    ensures FirstMatch(amap, Str(s), true, true).Some? ==> amap[FirstMatch(amap, Str(s), true, true).value].1 == ToMap(amap)[s]
    decreases |amap|
  {
    if |amap| > 0 {
      FirstMatchLookup(amap[1..], s);
    }
  }

  /**
   * Exact, case-sensitive renaming of a string attribute is a dict
   * lookup: the value is replaced by `attr_map[value]` when it is a key.
   */
  lemma {:induction false} RenameExactIsLookup(cs: seq<Candidate>, attr: string, amap: seq<(string, Value)>, i: nat)
    requires HasAttr(cs, attr) && forall k :: 0 <= k < |cs| ==> cs[k].attrs[attr].Str?
    requires DistinctKeys(amap) && i < |cs|
    ensures var v := cs[i].attrs[attr].s;
      AttrRename(cs, attr, amap, true, true)[i].attrs[attr]
        == if v in ToMap(amap) then ToMap(amap)[v] else cs[i].attrs[attr]
  {
    FirstMatchLookup(amap, cs[i].attrs[attr].s);
  }

  // ----------------------------------------------------------------------
  // UseHighScoreIfAtLeast

  predicate ScoreAtLeast(c: Candidate, minScore: real) {
    "score" in c.attrs && c.attrs["score"].Num? && c.attrs["score"].n >= minScore
  }

  function UseHighScoreIfAtLeast(cs: seq<Candidate>, minScore: real): (r: seq<Candidate>)
    requires Scored(cs)
    ensures (exists i :: 0 <= i < |cs| && Score(cs[i]) >= minScore) ==>
      IsSubseq(r, cs) && forall i :: 0 <= i < |cs| ==> (cs[i] in r <==> Score(cs[i]) >= minScore)
    ensures (forall i :: 0 <= i < |cs| ==> Score(cs[i]) < minScore) ==> r == cs
    ensures |cs| > 0 ==> |r| > 0
  {
    var high := Filter(cs, c => ScoreAtLeast(c, minScore));
    FilterIsSubseq(cs, c => ScoreAtLeast(c, minScore));
    if high != [] then high else cs
  }

  lemma {:induction false} UseHighScoreIdempotent(cs: seq<Candidate>, minScore: real)
    requires Scored(cs)
    ensures Scored(UseHighScoreIfAtLeast(cs, minScore))
    ensures UseHighScoreIfAtLeast(UseHighScoreIfAtLeast(cs, minScore), minScore) == UseHighScoreIfAtLeast(cs, minScore)
  {
    var high := Filter(cs, c => ScoreAtLeast(c, minScore));
    if high != [] {
      FilterAll(high, c => ScoreAtLeast(c, minScore));
    }
  }

  // ----------------------------------------------------------------------
  // ScoreSorter

  /** `x` goes before `y`: a better or equal score (descending), or a lower or equal one (ascending). */
  predicate GoesFirst(x: Candidate, y: Candidate, descending: bool)
    requires HasNumScore(x) && HasNumScore(y)
  {
    if descending then Score(x) >= Score(y) else Score(x) <= Score(y)
  }

  predicate Sorted(s: seq<Candidate>, descending: bool)
    requires Scored(s)
  {
    forall i, j :: 0 <= i < j < |s| ==> GoesFirst(s[i], s[j], descending)
  }

  /** Insert `x` before the first element it is not worse than. */
  function Insert(x: Candidate, s: seq<Candidate>, descending: bool): (r: seq<Candidate>)
    requires HasNumScore(x) && Scored(s)
    ensures Scored(r) && multiset(r) == multiset(s) + multiset{x}
    decreases |s|
  {
    if |s| == 0 || GoesFirst(x, s[0], descending) then [x] + s
    else
      var r := [s[0]] + Insert(x, s[1..], descending);
      assert s == [s[0]] + s[1..];
      r
  }

  lemma {:induction false} InsertSorted(x: Candidate, s: seq<Candidate>, descending: bool)
    requires HasNumScore(x) && Scored(s) && Sorted(s, descending)
    ensures Sorted(Insert(x, s, descending), descending)
    decreases |s|
  {
    if |s| == 0 {
      SortedCons(x, s, descending);
    } else if GoesFirst(x, s[0], descending) {
      BeforeHead(x, s, descending);
      SortedCons(x, s, descending);
    } else {
      SortedHead(s, descending);
      InsertSorted(x, s[1..], descending);
      var t := Insert(x, s[1..], descending);
      HeadBeatsAll(s[0], x, s[1..], t, descending);
      SortedCons(s[0], t, descending);
    }
  }

  /** A sorted list: its head goes before every later element, and its tail is sorted. */
  lemma {:induction false} SortedHead(s: seq<Candidate>, descending: bool)
    requires Scored(s) && Sorted(s, descending) && |s| > 0
    ensures Scored(s[1..]) && Sorted(s[1..], descending)
    ensures forall k :: 0 <= k < |s[1..]| ==> GoesFirst(s[0], s[1..][k], descending)
  {
    forall k | 0 <= k < |s[1..]|
      ensures GoesFirst(s[0], s[1..][k], descending)
    {
      assert s[1..][k] == s[k + 1];
    }
  }

  /** Something that goes before every element of a sorted list may head it, if it goes before its old head. */
  lemma {:induction false} SortedCons(y: Candidate, t: seq<Candidate>, descending: bool)
    requires HasNumScore(y) && Scored(t) && Sorted(t, descending)
    requires forall j :: 0 <= j < |t| ==> GoesFirst(y, t[j], descending)
    ensures Scored([y] + t) && Sorted([y] + t, descending)
  {
    var r := [y] + t;
    forall i, j | 0 <= i < j < |r|
      ensures GoesFirst(r[i], r[j], descending)
    {
      if i == 0 {
        assert r[j] == t[j - 1];
      } else {
        assert r[i] == t[i - 1] && r[j] == t[j - 1];
      }
    }
  }

  /** What goes before the head of a sorted list goes before all of it. */
  lemma {:induction false} BeforeHead(x: Candidate, s: seq<Candidate>, descending: bool)
    requires HasNumScore(x) && Scored(s) && Sorted(s, descending) && |s| > 0
    requires GoesFirst(x, s[0], descending)
    ensures forall j :: 0 <= j < |s| ==> GoesFirst(x, s[j], descending)
  {
    forall j | 0 < j < |s|
      ensures GoesFirst(x, s[j], descending)
    {
      assert GoesFirst(s[0], s[j], descending);
    }
  }

  /**
   * `y` goes before every element of `rest` and before `x`, so before
   * every element of any rearrangement `t` of `rest` plus `x`.
   */
  lemma {:induction false} HeadBeatsAll(y: Candidate, x: Candidate, rest: seq<Candidate>, t: seq<Candidate>, descending: bool)
    requires HasNumScore(y) && HasNumScore(x) && Scored(rest) && Scored(t)
    requires multiset(t) == multiset(rest) + multiset{x}
    requires forall k :: 0 <= k < |rest| ==> GoesFirst(y, rest[k], descending)
    requires !GoesFirst(x, y, descending)
    ensures forall j :: 0 <= j < |t| ==> GoesFirst(y, t[j], descending)
  {
    forall j | 0 <= j < |t|
      ensures GoesFirst(y, t[j], descending)
    {
      assert t[j] in multiset(t);
      if t[j] != x {
        assert t[j] in multiset(rest);
        var k :| 0 <= k < |rest| && rest[k] == t[j];
      }
    }
  }

  /** Python's `sorted(cs, key=score, reverse=descending)`, which is stable. */
  function SortByScore(cs: seq<Candidate>, descending: bool): (r: seq<Candidate>)
    requires Scored(cs)
    ensures Scored(r) && multiset(r) == multiset(cs)
    decreases |cs|
  {
    if |cs| == 0 then []
    else
      assert cs == [cs[0]] + cs[1..];
      Insert(cs[0], SortByScore(cs[1..], descending), descending)
  }

  predicate HasScore(c: Candidate, v: real) {
    "score" in c.attrs && c.attrs["score"] == Num(v)
  }

  /** The candidates of `s` scoring exactly `v`, in order. */
  function ScoreClass(s: seq<Candidate>, v: real): seq<Candidate> {
    Filter(s, c => HasScore(c, v))
  }

  /** Inserting a candidate puts it ahead of every candidate with the same score. */
  lemma {:induction false} InsertStable(x: Candidate, s: seq<Candidate>, descending: bool, v: real)
    requires HasNumScore(x) && Scored(s)
    ensures Filter(Insert(x, s, descending), c => HasScore(c, v))
         == (if HasScore(x, v) then [x] else []) + Filter(s, c => HasScore(c, v))
    decreases |s|
  {
    var f := c => HasScore(c, v);
    if |s| > 0 && !GoesFirst(x, s[0], descending) {
      InsertStable(x, s[1..], descending, v);
      var t := Insert(x, s[1..], descending);
      assert !f(x) || !f(s[0]);
      StableStep(s[0], x, t, s[1..], f);
      assert [s[0]] + s[1..] == s;
    } else {
      FilterPrepend(x, s, f);
    }
  }

  /**
   * Putting `y` in front of `t` and of `rest` keeps the filters related as
   * they were, when `x` and `y` do not both pass.
   */
  lemma {:induction false} StableStep<T>(y: T, x: T, t: seq<T>, rest: seq<T>, f: T -> bool)
    requires Filter(t, f) == Keep(x, f) + Filter(rest, f)
    requires !f(x) || !f(y)
    ensures Filter([y] + t, f) == Keep(x, f) + Filter([y] + rest, f)
  {
    FilterPrepend(y, t, f);
    FilterPrepend(y, rest, f);
    SwapEmpty(Keep(y, f), Keep(x, f), Filter(rest, f));
  }

  /** Two sequences of which one is empty may trade places in front of a third. */
  lemma {:induction false} SwapEmpty<T>(a: seq<T>, b: seq<T>, c: seq<T>)
    requires a == [] || b == []
    ensures a + (b + c) == b + (a + c)
  {
    if a == [] {
      assert a + (b + c) == b + c;
    } else {
      assert b + (a + c) == a + c;
    }
  }

  /** `Filter` over one element put in front. */
  lemma {:induction false} FilterPrepend<T>(x: T, t: seq<T>, f: T -> bool)
    ensures Filter([x] + t, f) == Keep(x, f) + Filter(t, f)
  {
    FilterCons([x] + t, f);
    assert ([x] + t)[1..] == t;
  }

  lemma {:induction false} SortByScoreProperties(cs: seq<Candidate>, descending: bool, v: real)
    requires Scored(cs)
    ensures Sorted(SortByScore(cs, descending), descending)
    ensures Filter(SortByScore(cs, descending), c => HasScore(c, v)) == Filter(cs, c => HasScore(c, v))
  {
    SortByScoreSorted(cs, descending);
    SortByScoreStable(cs, descending, v);
  }

  /** The sort by score is ordered. */
  lemma {:induction false} SortByScoreSorted(cs: seq<Candidate>, descending: bool)
    requires Scored(cs)
    ensures Sorted(SortByScore(cs, descending), descending)
    decreases |cs|
  {
    if |cs| > 0 {
      assert Scored(cs[1..]);
      SortByScoreSorted(cs[1..], descending);
      InsertSorted(cs[0], SortByScore(cs[1..], descending), descending);
    }
  }

  /** The sort by score keeps each class of equal score in input order. */
  lemma {:induction false} SortByScoreStable(cs: seq<Candidate>, descending: bool, v: real)
    requires Scored(cs)
    ensures Filter(SortByScore(cs, descending), c => HasScore(c, v)) == Filter(cs, c => HasScore(c, v))
    decreases |cs|
  {
    if |cs| > 0 {
      var f := c => HasScore(c, v);
      assert Scored(cs[1..]);
      SortByScoreStable(cs[1..], descending, v);
      var t := SortByScore(cs[1..], descending);
      InsertStable(cs[0], t, descending, v);
      FilterCons(cs, f);
    }
  }

  /**
   * `ScoreSorter(reverse).process(cs)`: a permutation, ordered by score,
   * that keeps candidates of equal score in their input order.
   */
  function ScoreSorter(cs: seq<Candidate>, descending: bool): (r: seq<Candidate>)
    requires Scored(cs)
    ensures Scored(r) && multiset(r) == multiset(cs)
    ensures Sorted(r, descending)
    ensures forall v :: ScoreClass(r, v) == ScoreClass(cs, v)
  {
    forall v
      ensures ScoreClass(SortByScore(cs, descending), v) == ScoreClass(cs, v)
    {
      SortByScoreProperties(cs, descending, v);
    }
    SortByScoreProperties(cs, descending, 0.0);
    SortByScore(cs, descending)
  }

  // ----------------------------------------------------------------------
  // GroupBy / GroupByMultiple

  /** The value of `GroupBy`'s `attr`: one attribute name, or a list or tuple of them. */
  datatype GroupAttr = Single(name: string) | Several(names: seq<string>)

  /** The values of the attributes `names` of candidate `c`. */
  function KeyOf(c: Candidate, names: seq<string>): seq<Value> {
    seq(|names|, i requires 0 <= i < |names| => Lookup(c, names[i]))
  }

  predicate HasAttrs(cs: seq<Candidate>, names: seq<string>) {
    forall i :: 0 <= i < |names| ==> HasAttr(cs, names[i])
  }

  /**
   * `GroupByMultiple(attrs).process(cs)`: the first candidate of each
   * class of candidates agreeing on all of `attrs`; the caller's list is
   * emptied.
   */
  function GroupByMultiple(cs: seq<Candidate>, attrs: seq<string>): (r: Processed)
    requires HasAttrs(cs, attrs)
    ensures r.out == Uniq(cs, c => KeyOf(c, attrs), {})
    ensures r.input == []
  {
    var rel := (a: Candidate, c: Candidate) => forall i :: 0 <= i < |attrs| ==> Lookup(c, attrs[i]) == Lookup(a, attrs[i]);
    var key := (c: Candidate) => KeyOf(c, attrs);
    assert forall x, y :: rel(x, y) == (key(x) == key(y)) by {
      forall x, y
        ensures rel(x, y) == (key(x) == key(y))
      {
        if rel(x, y) {
          assert key(y) == key(x);
        }
        if key(x) == key(y) {
          forall i | 0 <= i < |attrs|
            ensures Lookup(y, attrs[i]) == Lookup(x, attrs[i])
          {
            assert key(x)[i] == Lookup(x, attrs[i]);
            assert key(y)[i] == Lookup(y, attrs[i]);
          }
        }
      }
    }
    SweepSelfIsUniq(cs, key, rel);
    SweepDrains(cs, cs, rel);
    var (keepers, leftover) := Sweep(cs, cs, rel);
    Processed(keepers, leftover)
  }

  /** `GroupBy(attr).process(cs)`: a list or tuple `attr` delegates to `GroupByMultiple`. */
  function GroupBy(cs: seq<Candidate>, attr: GroupAttr): (r: Processed)
    requires attr.Single? ==> HasAttr(cs, attr.name)
    requires attr.Several? ==> HasAttrs(cs, attr.names)
    ensures attr.Single? ==> r.out == Uniq(cs, c => Lookup(c, attr.name), {})
    ensures attr.Several? ==> r.out == Uniq(cs, c => KeyOf(c, attr.names), {})
    ensures r.input == []
  {
    match attr
    case Several(names) => GroupByMultiple(cs, names)
    case Single(name) =>
      var rel := (a: Candidate, c: Candidate) => Lookup(c, name) == Lookup(a, name);
      SweepSelfIsUniq(cs, c => Lookup(c, name), rel);
      SweepDrains(cs, cs, rel);
      var (keepers, leftover) := Sweep(cs, cs, rel);
      Processed(keepers, leftover)
  }

  /**
   * What `GroupBy` keeps: the candidates with no earlier candidate of the
   * same value, in input order; those values are pairwise distinct and
   * every value of the input is represented.
   */
  lemma {:induction false} GroupByFirstOfEachValue(cs: seq<Candidate>, name: string)
    requires HasAttr(cs, name)
    ensures var r := GroupBy(cs, Single(name)).out;
      && r == Firsts(cs, c => Lookup(c, name))
      && (forall i, j :: 0 <= i < j < |r| ==> Lookup(r[i], name) != Lookup(r[j], name))
      && Keys(r, c => Lookup(c, name)) == Keys(cs, c => Lookup(c, name))
      && (forall i :: 0 <= i < |r| ==> r[i] in cs)
  {
    var key := c => Lookup(c, name);
    UniqIsFirsts(cs, key);
    UniqDistinct(cs, key, {});
    UniqKeys(cs, key, {});
    UniqMembers(cs, key, {});
  }

  /** Grouping twice is grouping once. */
  lemma {:induction false} GroupByIdempotent(cs: seq<Candidate>, attr: GroupAttr)
    requires attr.Single? ==> HasAttr(cs, attr.name)
    requires attr.Several? ==> HasAttrs(cs, attr.names)
    ensures var once := GroupBy(cs, attr).out;
      (attr.Single? ==> HasAttr(once, attr.name)) && (attr.Several? ==> HasAttrs(once, attr.names))
      && GroupBy(once, attr).out == once
  {
    var once := GroupBy(cs, attr).out;
    match attr
    case Single(name) =>
      UniqMembers(cs, c => Lookup(c, name), {});
      UniqIdempotent(cs, c => Lookup(c, name));
    case Several(names) =>
      UniqMembers(cs, c => KeyOf(c, names), {});
      UniqIdempotent(cs, c => KeyOf(c, names));
  }

  // ----------------------------------------------------------------------
  // SnapPoints

  /** The point `(c.x, c.y)` passed to the distance test. */
  function Point(c: Candidate): (Value, Value) {
    (Lookup(c, "x"), Lookup(c, "y"))
  }

  /** The distance test between two candidates' points. */
  function Near(within: ((Value, Value), (Value, Value)) -> bool): (Candidate, Candidate) -> bool {
    (a: Candidate, c: Candidate) => within(Point(a), Point(c))
  }

  /**
   * `SnapPoints(distance).process(cs)`, with the great-circle test "within
   * `distance` metres" as the parameter `within`; anchors come from a
   * snapshot of the list, matches from the live list.  Each kept point was
   * matched by some anchor of the input whose range holds none of the
   * points kept after it.
   */
  function SnapPoints(cs: seq<Candidate>, within: ((Value, Value), (Value, Value)) -> bool): (r: Processed)
    requires HasAttr(cs, "x") && HasAttr(cs, "y")
    ensures multiset(r.out) + multiset(r.input) <= multiset(cs)
    ensures |r.out| <= |cs|
    ensures Separated(r.out, cs, Near(within))
  {
    var rel := Near(within);
    SweepSubMultiset(cs, cs, rel);
    SweepSeparates(cs, cs, rel);
    var (keepers, leftover) := Sweep(cs, cs, rel);
    Processed(keepers, leftover)
  }

  /**
   * Every point is within distance of itself, so the live list is drained,
   * the first point survives and no point kept after it is within its range.
   */
  lemma {:induction false} SnapPointsReflexive(cs: seq<Candidate>, within: ((Value, Value), (Value, Value)) -> bool)
    requires HasAttr(cs, "x") && HasAttr(cs, "y")
    requires forall i :: 0 <= i < |cs| ==> within(Point(cs[i]), Point(cs[i]))
    ensures SnapPoints(cs, within).input == []
    ensures |cs| > 0 ==> |SnapPoints(cs, within).out| > 0 && SnapPoints(cs, within).out[0] == cs[0]
    ensures |cs| > 0 ==> forall j :: 0 < j < |SnapPoints(cs, within).out| ==> !within(Point(cs[0]), Point(SnapPoints(cs, within).out[j]))
  {
    var rel := Near(within);
    SweepDrains(cs, cs, rel);
    if |cs| > 0 {
      SweepKeepsHead(cs, rel);
      SweepHeadGuards(cs, rel);
    }
  }
}

=== FILE: preprocessors.dfy ===
/**
 * The query preprocessors of `omgeo/preprocessors.py`.  A preprocessor
 * takes a `PlaceQuery` and hands on a (possibly changed) query, or
 * rejects it by returning `False`; here a rejection is `None`.
 *
 * The two small regular expressions (the house-number range and the PO
 * box) are written out by hand; the ones `ParseSingleLine` uses and the
 * pattern of a general `CancelIfRegexInAttr` are parameters.
 */
module Preprocessors {
  import opened Wrappers
  import opened Values
  import opened Text
  import opened Places
  import opened Seqs

  // ----------------------------------------------------------------------
  // ReplaceRangeWithNumber

  /**
   * The token `\d+\w*-\d*\w*` at the start of `s`, as `Some((h, e))` with
   * the hyphen at `h` and the token ending just before `e`.  `\w` does not
   * match `-`, so the first word run has to reach the hyphen and the
   * second one is the longest run after it.
   */
  function RangeToken(s: string): (r: Option<(nat, nat)>)
    ensures r.Some? ==> var (h, e) := r.value;
      && 0 < h < e <= |s| && IsDigit(s[0]) && s[h] == '-'
      && AllWord(s[..h]) && AllWord(s[h + 1..e]) && (e < |s| ==> !IsWordChar(s[e]))
    ensures r.None? ==> !(|s| > 0 && IsDigit(s[0]) && WordLen(s) < |s| && s[WordLen(s)] == '-')
  {
    var h := WordLen(s);
    if |s| > 0 && IsDigit(s[0]) && h < |s| && s[h] == '-' then
      var w := WordLen(s[h + 1..]);
      assert s[h + 1..][..w] == s[h + 1..h + 1 + w];
      Some((h, h + 1 + w))
    else None
  }

  /** `(^\d+\w*-\d*\w*)\s` matches at the start of `s`. */
  predicate RangeBeforeSpace(s: string) {
    var t := RangeToken(s);
    t.Some? && t.value.1 < |s| && IsSpace(s[t.value.1])
  }

  /** Replacing the matched token by its part before the first hyphen cuts `s[h..e]` out. */
  lemma {:induction false} CutToken(s: string, h: nat, e: nat)
    requires RangeToken(s) == Some((h, e))
    ensures ReplaceFirst(s, s[..e], Split(s[..e], '-')[0]) == s[..h] + s[e..]
  {
    var token := s[..e];
    assert StartsWith(s, token);
    forall j | 0 <= j < h
      ensures token[j] != '-'
    {
      assert s[..h][j] == token[j];
    }
    assert IndexOf(token, '-') == h;
    assert Split(token, '-')[0] == token[..h] == s[..h];
  }

  /**
   * `ReplaceRangeWithNumber.replace_range`: a leading house-number range
   * followed by whitespace keeps only its part before the hyphen.
   */
  function ReplaceRange(s: string): (r: string)
    ensures r == s <==> !RangeBeforeSpace(s)
    ensures RangeBeforeSpace(s) ==> r == s[..RangeToken(s).value.0] + s[RangeToken(s).value.1..]
  {
    if RangeBeforeSpace(s) then
      var (h, e) := RangeToken(s).value;
      var token := s[..e];
      CutToken(s, h, e);
      assert |s[..h] + s[e..]| < |s|;
      ReplaceFirst(s, token, Split(token, '-')[0])
    else s
  }

  /** `ReplaceRangeWithNumber.process`: both the query and the address are cut; nothing else changes. */
  function ReplaceRangeWithNumber(pq: PlaceQuery): (r: PlaceQuery)
    ensures r == pq.(query := r.query, address := r.address)
    ensures r.query == ReplaceRange(pq.query) && r.address == ReplaceRange(pq.address)
    ensures RangeBeforeSpace(pq.query) || RangeBeforeSpace(pq.address) <==> r != pq
  {
    pq.(query := ReplaceRange(pq.query), address := ReplaceRange(pq.address))
  }

  /**
   * The pattern in terms of its parts: a word run starting with a digit,
   * a hyphen, a word run, then text starting with whitespace loses the
   * hyphen and the second run.
   */
  lemma {:induction false} ReplaceRangeOf(a: string, b: string, rest: string)
    requires |a| > 0 && IsDigit(a[0]) && AllWord(a) && AllWord(b)
    requires |rest| > 0 && IsSpace(rest[0])
    ensures ReplaceRange(a + "-" + b + rest) == a + rest
  {
    var s := a + "-" + b + rest;
    RangeTokenOf(a, b, rest);
    assert s[|a| + 1 + |b|] == rest[0];
    assert RangeBeforeSpace(s);
    assert s[..|a|] == a && s[|a| + 1 + |b|..] == rest;
  }

  /** Where the token of `a-b rest` lies. */
  lemma {:induction false} RangeTokenOf(a: string, b: string, rest: string)
    requires |a| > 0 && IsDigit(a[0]) && AllWord(a) && AllWord(b)
    requires |rest| > 0 && IsSpace(rest[0])
    ensures RangeToken(a + "-" + b + rest) == Some((|a|, |a| + 1 + |b|))
  {
    var t := "-" + b + rest;
    HyphenLed(b, rest);
    Regroup3(a, "-", b, rest);
    RangeTokenSplit(a, t, b, rest);
  }

  lemma {:induction false} HyphenLed(b: string, rest: string)
    ensures ("-" + b + rest)[0] == '-' && ("-" + b + rest)[1..] == b + rest
  {
  }

  lemma {:induction false} Regroup3(a: string, m: string, b: string, rest: string)
    ensures a + m + b + rest == a + (m + b + rest)
  {
  }

  /** The token of `a + t` where `t` is a hyphen, a word run `b` and text not starting with a word character. */
  lemma {:induction false} RangeTokenSplit(a: string, t: string, b: string, rest: string)
    requires |a| > 0 && IsDigit(a[0]) && AllWord(a) && AllWord(b)
    requires |t| > 0 && t[0] == '-' && t[1..] == b + rest
    requires rest == [] || !IsWordChar(rest[0])
    ensures RangeToken(a + t) == Some((|a|, |a| + 1 + |b|))
  {
    WordLenOf(a, t);
    WordLenOf(b, rest);
    assert (a + t)[|a| + 1..] == t[1..];
    RangeTokenAt(a + t, |a|, |a| + 1 + |b|);
  }

  /** The token found once its hyphen and the word run after it are known. */
  lemma {:induction false} RangeTokenAt(s: string, h: nat, e: nat)
    requires 0 < h < |s| && h < e && IsDigit(s[0]) && WordLen(s) == h && s[h] == '-'
    requires WordLen(s[h + 1..]) == e - h - 1
    ensures RangeToken(s) == Some((h, e))
  {
  }

  /** Cutting a range leaves nothing to cut. */
  lemma {:induction false} ReplaceRangeIdempotent(s: string)
    ensures ReplaceRange(ReplaceRange(s)) == ReplaceRange(s)
  {
    if RangeBeforeSpace(s) {
      var (h, e) := RangeToken(s).value;
      var r := s[..h] + s[e..];
      WordLenOf(s[..h], s[e..]);
      assert r[h] == s[e];
    }
  }

  /**
   * The documented house-number ranges: `4452-54 Main Street` becomes
   * `4452 Main Street`, and likewise `4109-4113` and `272-B`, whatever
   * follows the space.
   */
  lemma {:induction false} RangeExamples(rest: string)
    requires |rest| > 0 && IsSpace(rest[0])
    ensures ReplaceRange("4452-54" + rest) == "4452" + rest
    ensures ReplaceRange("4109-4113" + rest) == "4109" + rest
    ensures ReplaceRange("272-B" + rest) == "272" + rest
  {
    RangeWithRest("4452-54", "4452", "54", rest);
    RangeWithRest("4109-4113", "4109", "4113", rest);
    RangeWithRest("272-B", "272", "B", rest);
  }

  /** A range token `a-b` followed by whitespace loses its `-b`. */
  lemma {:induction false} RangeWithRest(token: string, a: string, b: string, rest: string)
    requires (token == "4452-54" && a == "4452" && b == "54")
          || (token == "4109-4113" && a == "4109" && b == "4113")
          || (token == "272-B" && a == "272" && b == "B")
          || (token == "76-20" && a == "76" && b == "20")
    requires |rest| > 0 && IsSpace(rest[0])
    ensures ReplaceRange(token + rest) == a + rest
  {
    TokenParts(token, a, b);
    ReplaceRangeOf(a, b, rest);
  }

  lemma {:induction false} TokenParts(token: string, a: string, b: string)
    requires (token == "4452-54" && a == "4452" && b == "54")
          || (token == "4109-4113" && a == "4109" && b == "4113")
          || (token == "272-B" && a == "272" && b == "B")
          || (token == "76-20" && a == "76" && b == "20")
    ensures token == a + "-" + b
    ensures |a| > 0 && IsDigit(a[0]) && AllWord(a) && AllWord(b)
  {
  }

  /** A Queens-style number keeps the cross street and loses the house number. */
  lemma {:induction false} RangeExampleQueens()
    ensures ReplaceRange("76-20 34th Ave, Queens NY") == "76 34th Ave, Queens NY"
  {
    var rest := " 34th Ave, Queens NY";
    assert "76-20 34th Ave, Queens NY" == "76-20" + rest;
    assert "76 34th Ave, Queens NY" == "76" + rest;
    RangeWithRest("76-20", "76", "20", rest);
  }

  /** A ZIP+4 code alone has no whitespace after its range, so it is left alone. */
  lemma {:induction false} ZipPlusFourUnchanged()
    ensures ReplaceRange("19127-1112") == "19127-1112"
  {
    assert "19127-1112" == "19127" + "-1112";
    assert "-1112"[1..] == "1112" + "";
    RangeTokenSplit("19127", "-1112", "1112", "");
  }

  // ----------------------------------------------------------------------
  // ParseSingleLine

  /**
   * The regular expressions of `ParseSingleLine`, left abstract:
   * `postcodes(q)` is `re_UK_postcode.findall(q)`, and the two predicates
   * are searches for the numbered and unnumbered unit patterns.
   */
  datatype Patterns = Patterns(
    postcodes: string -> seq<string>,
    unitNumbered: string -> bool,
    unitNotNumbered: string -> bool)

  /** What the parse extracts from a single-line query. */
  datatype Parsed = Parsed(postcode: string, address: string, city: string)

  function CommaJoin(left: string, right: string): (r: string)
    ensures left == "" ==> r == right
    ensures left != "" ==> r == left + ", " + right
  {
    if left == "" then right else left + ", " + right
  }

  /**
   * The loop over the comma-separated parts after the first: a part with
   * the postcode in it loses the postcode; unit parts join the address,
   * the others the city.
   */
  function ClassifyParts(p: Patterns, postcode: string, parts: seq<string>, address: string, city: string): (r: (string, string))
    ensures address != "" ==> r.0 != ""
    ensures city != "" ==> r.1 != ""
    decreases |parts|
  {
    if |parts| == 0 then (address, city)
    else
      var part := CleanPart(postcode, parts[0]);
      if IsUnit(p, part) then
        ClassifyParts(p, postcode, parts[1..], CommaJoin(address, part), city)
      else
        ClassifyParts(p, postcode, parts[1..], address, CommaJoin(city, part))
  }

  /** A later part as the loop sees it: stripped, and without the postcode when it holds it. */
  function CleanPart(postcode: string, part: string): string {
    var part := Strip(part);
    if postcode != "" && Contains(part, postcode) then Strip(RemoveAll(part, postcode)) else part
  }

  /** A part that names a unit ("Ste 402", "Basement") belongs to the address. */
  predicate IsUnit(p: Patterns, part: string) {
    p.unitNumbered(part) || p.unitNotNumbered(part)
  }

  function CleanParts(postcode: string, parts: seq<string>): (r: seq<string>)
    ensures |r| == |parts| && forall i :: 0 <= i < |parts| ==> r[i] == CleanPart(postcode, parts[i])
  {
    seq(|parts|, i requires 0 <= i < |parts| => CleanPart(postcode, parts[i]))
  }

  /** The unit parts of `parts`, in order. */
  function Units(p: Patterns, parts: seq<string>): seq<string> {
    Filter(parts, (part: string) => IsUnit(p, part))
  }

  /** The other parts of `parts`, in order. */
  function Others(p: Patterns, parts: seq<string>): seq<string> {
    Filter(parts, (part: string) => !IsUnit(p, part))
  }

  /** `_comma_join` applied to each of `parts` in turn, starting from `acc`. */
  function CommaJoinAll(acc: string, parts: seq<string>): string
    decreases |parts|
  {
    if |parts| == 0 then acc else CommaJoinAll(CommaJoin(acc, parts[0]), parts[1..])
  }

  /** Once the accumulated text is non-empty, the comma joins are one `", ".join`. */
  lemma {:induction false} CommaJoinAllIsJoin(acc: string, parts: seq<string>)
    requires acc != ""
    ensures CommaJoinAll(acc, parts) == Join(", ", [acc] + parts)
    decreases |parts|
  {
    if |parts| > 0 {
      var next := acc + ", " + parts[0];
      CommaJoinAllIsJoin(next, parts[1..]);
      if |parts| == 1 {
        assert ([acc] + parts)[1..] == parts;
      } else {
        assert ([acc] + parts)[1..] == parts;
        assert ([next] + parts[1..])[1..] == parts[1..];
        assert parts[1..] == ([parts[0]] + parts[1..])[1..];
        assert Join(", ", parts) == parts[0] + ", " + Join(", ", parts[1..]);
      }
    }
  }

  /**
   * The loop sends the unit parts to the address and the others to the
   * city, each in its original order: it is the same as joining the two
   * kinds separately.
   */
  lemma {:induction false} ClassifyPartsSeparates(p: Patterns, postcode: string, parts: seq<string>, address: string, city: string)
    ensures ClassifyParts(p, postcode, parts, address, city)
         == (CommaJoinAll(address, Units(p, CleanParts(postcode, parts))),
             CommaJoinAll(city, Others(p, CleanParts(postcode, parts))))
    decreases |parts|
  {
    if |parts| > 0 {
      var cleaned := CleanParts(postcode, parts);
      var part := cleaned[0];
      CleanPartsTail(postcode, parts);
      if IsUnit(p, part) {
        ClassifyPartsSeparates(p, postcode, parts[1..], CommaJoin(address, part), city);
        SplitKindsUnit(p, cleaned);
      } else {
        ClassifyPartsSeparates(p, postcode, parts[1..], address, CommaJoin(city, part));
        SplitKindsOther(p, cleaned);
      }
    }
  }

  lemma {:induction false} CleanPartsTail(postcode: string, parts: seq<string>)
    requires |parts| > 0
    ensures CleanParts(postcode, parts)[1..] == CleanParts(postcode, parts[1..])
  {
  }

  /** A leading unit part heads the units and is not among the others. */
  lemma {:induction false} SplitKindsUnit(p: Patterns, parts: seq<string>)
    requires |parts| > 0 && IsUnit(p, parts[0])
    ensures Units(p, parts) == [parts[0]] + Units(p, parts[1..])
    ensures Others(p, parts) == Others(p, parts[1..])
  {
  }

  /** A leading part that is no unit heads the others and is not among the units. */
  lemma {:induction false} SplitKindsOther(p: Patterns, parts: seq<string>)
    requires |parts| > 0 && !IsUnit(p, parts[0])
    ensures Units(p, parts) == Units(p, parts[1..])
    ensures Others(p, parts) == [parts[0]] + Others(p, parts[1..])
  {
  }

  /** The postcode, address and city read from a non-empty query. */
  function ParseQuery(p: Patterns, query: string): (r: Parsed)
    ensures var found := p.postcodes(query);
      r.postcode == if |found| > 0 then found[|found| - 1] else ""
    ensures ',' !in query ==> r.city == ""
  {
    var found := p.postcodes(query);
    var postcode := if |found| > 0 then found[|found| - 1] else "";
    var parts := Split(query, ',');
    var address := FirstPartAddress(postcode, Strip(parts[0]));
    SplitWithout(query, ',');
    var (address, city) := ClassifyParts(p, postcode, parts[1..], address, "");
    Parsed(postcode, address, city)
  }

  /**
   * The address read from the first comma-separated part: the part itself,
   * or, when it holds the postcode, the text before the postcode if that
   * text has no whitespace (otherwise the "postcode" was probably a unit
   * number and the whole part is kept).
   */
  function FirstPartAddress(postcode: string, first: string): (a: string)
    ensures !(postcode != "" && Contains(first, postcode)) ==> a == first
  {
    if postcode != "" && Contains(first, postcode) then
      var before := Strip(BeforeFirst(first, postcode));
      if HasSpace(before) then first else before
    else first
  }

  /**
   * The parse in terms of the comma-separated parts: the address is the
   * first part's address followed by the later unit parts, the city the
   * other later parts, each list `_comma_join`ed in its original order.
   */
  lemma {:induction false} ParseQueryParts(p: Patterns, query: string)
    ensures var found := p.postcodes(query);
      var postcode := if |found| > 0 then found[|found| - 1] else "";
      var parts := Split(query, ',');
      var rest := CleanParts(postcode, parts[1..]);
      && ParseQuery(p, query).address == CommaJoinAll(FirstPartAddress(postcode, Strip(parts[0])), Units(p, rest))
      && ParseQuery(p, query).city == CommaJoinAll("", Others(p, rest))
  {
    var found := p.postcodes(query);
    var postcode := if |found| > 0 then found[|found| - 1] else "";
    var parts := Split(query, ',');
    ClassifyPartsSeparates(p, postcode, parts[1..], FirstPartAddress(postcode, Strip(parts[0])), "");
  }

  /** Text that begins and ends with a non-space character. */
  predicate Trimmed(s: string) {
    |s| > 0 && !IsSpace(s[0]) && !IsSpace(s[|s| - 1])
  }

  /**
   * A query shaped like the UK address of the library's parsing test,
   * "32 Bond Road, Surbiton, Surrey KT6 7SH": with the postcode search
   * finding the trailing postcode and neither town matching a unit
   * pattern, the street is the address, the two towns the city and the
   * trailing code the postcode.
   */
  lemma {:induction false} ParseUKShape(p: Patterns, street: string, town: string, county: string, pc: string)
    requires Trimmed(street) && Trimmed(town) && Trimmed(county) && Trimmed(pc)
    requires ',' !in street && ',' !in town && ',' !in county && ',' !in pc
    requires pc[0] !in street && pc[0] !in town && pc[0] !in county
    requires p.postcodes(street + ", " + town + ", " + county + " " + pc) == [pc]
    requires !IsUnit(p, town) && !IsUnit(p, county)
    ensures ParseQuery(p, street + ", " + town + ", " + county + " " + pc) == Parsed(pc, street, town + ", " + county)
  {
    var query := street + ", " + town + ", " + county + " " + pc;
    UKShapeParts(street, town, county, pc);
    ParseQueryParts(p, query);
    TwoPlaces(p, town, county);
    assert CommaJoinAll(street, []) == street;
  }

  /** The first part gives the street, the later ones the two towns. */
  lemma {:induction false} UKShapeParts(street: string, town: string, county: string, pc: string)
    requires Trimmed(street) && Trimmed(town) && Trimmed(county) && Trimmed(pc)
    requires ',' !in street && ',' !in town && ',' !in county && ',' !in pc
    requires pc[0] !in street && pc[0] !in town && pc[0] !in county
    ensures var parts := Split(street + ", " + town + ", " + county + " " + pc, ',');
      |parts| == 3 && FirstPartAddress(pc, Strip(parts[0])) == street && CleanParts(pc, parts[1..]) == [town, county]
  {
    UKShapeSplit(street, town, county, pc);
    StripTrimmed(street);
    NotContains(street, pc);
    LaterParts(pc, town, county);
  }

  /** The two later parts clean to the two towns. */
  lemma {:induction false} LaterParts(pc: string, town: string, county: string)
    requires Trimmed(town) && Trimmed(county) && Trimmed(pc)
    requires pc[0] !in town && pc[0] !in county
    ensures CleanParts(pc, [" " + town, " " + county + " " + pc]) == [town, county]
  {
    CleanPartsPair(pc, " " + town, " " + county + " " + pc);
    CleanTown(pc, town);
    CleanCounty(pc, county);
  }

  lemma {:induction false} CleanPartsPair(postcode: string, x: string, y: string)
    ensures CleanParts(postcode, [x, y]) == [CleanPart(postcode, x), CleanPart(postcode, y)]
  {
  }

  /** Two non-unit parts both go to the city, joined in order. */
  lemma {:induction false} TwoPlaces(p: Patterns, a: string, b: string)
    requires a != "" && !IsUnit(p, a) && !IsUnit(p, b)
    ensures Units(p, [a, b]) == [] && Others(p, [a, b]) == [a, b]
    ensures CommaJoinAll("", [a, b]) == a + ", " + b
  {
    var f := (part: string) => IsUnit(p, part);
    var g := (part: string) => !IsUnit(p, part);
    assert [a, b][1..] == [b] && [b][1..] == [];
    assert Filter([b], f) == [];
    assert Filter([b], g) == [b];
    assert Filter([a, b], g) == [a] + [b];
    assert CommaJoinAll("", [a, b]) == CommaJoinAll(a, [b]);
  }

  /** The library's own test case: "32 Bond Road" / "Surbiton, Surrey" / "KT6 7SH". */
  lemma {:induction false} ParseUKExample(p: Patterns, query: string)
    requires query == "32 Bond Road, Surbiton, Surrey KT6 7SH"
    requires p.postcodes(query) == ["KT6 7SH"]
    requires !IsUnit(p, "Surbiton") && !IsUnit(p, "Surrey")
    ensures ParseQuery(p, query) == Parsed("KT6 7SH", "32 Bond Road", "Surbiton, Surrey")
  {
    var street, town, county, pc := "32 Bond Road", "Surbiton", "Surrey", "KT6 7SH";
    UKJoined(street, town, county, pc);
    UKTrimmed(street, town, county, pc);
    UKCommaFree(street, town, county, pc);
    UKNoPostcodeStart(street, town, county, pc);
    ParseUKShape(p, street, town, county, pc);
  }

  lemma {:induction false} UKJoined(street: string, town: string, county: string, pc: string)
    requires street == "32 Bond Road" && town == "Surbiton" && county == "Surrey" && pc == "KT6 7SH"
    ensures street + ", " + town + ", " + county + " " + pc == "32 Bond Road, Surbiton, Surrey KT6 7SH"
    ensures town + ", " + county == "Surbiton, Surrey"
  {
  }

  lemma {:induction false} UKTrimmed(street: string, town: string, county: string, pc: string)
    requires street == "32 Bond Road" && town == "Surbiton" && county == "Surrey" && pc == "KT6 7SH"
    ensures Trimmed(street) && Trimmed(town) && Trimmed(county) && Trimmed(pc)
  {
  }

  lemma {:induction false} UKCommaFree(street: string, town: string, county: string, pc: string)
    requires street == "32 Bond Road" && town == "Surbiton" && county == "Surrey" && pc == "KT6 7SH"
    ensures ',' !in street && ',' !in town && ',' !in county && ',' !in pc
  {
  }

  lemma {:induction false} UKNoPostcodeStart(street: string, town: string, county: string, pc: string)
    requires street == "32 Bond Road" && town == "Surbiton" && county == "Surrey" && pc == "KT6 7SH"
    ensures pc[0] !in street && pc[0] !in town && pc[0] !in county
  {
  }

  /** The query of that shape splits at its commas into its three parts. */
  lemma {:induction false} UKShapeSplit(street: string, town: string, county: string, pc: string)
    requires ',' !in street && ',' !in town && ',' !in county && ',' !in pc
    ensures Split(street + ", " + town + ", " + county + " " + pc, ',') == [street, " " + town, " " + county + " " + pc]
  {
    var parts := [street, " " + town, " " + county + " " + pc];
    assert parts[1..] == [" " + town, " " + county + " " + pc];
    assert parts[1..][1..] == [" " + county + " " + pc];
    assert Join([','], parts[1..][1..]) == " " + county + " " + pc;
    assert Join([','], parts[1..]) == " " + town + [','] + (" " + county + " " + pc);
    assert Join([','], parts) == street + [','] + (" " + town + [','] + (" " + county + " " + pc));
    assert street + [','] + (" " + town + [','] + (" " + county + " " + pc)) == street + ", " + town + ", " + county + " " + pc;
    assert ',' !in " " + county + " " + pc by {
      assert " " + county + " " + pc == (" " + county) + (" " + pc);
    }
    SplitJoin(parts, ',');
  }

  /** A town after its comma: the space goes, and it holds no postcode. */
  lemma {:induction false} CleanTown(pc: string, town: string)
    requires Trimmed(town) && |pc| > 0 && pc[0] !in town
    ensures CleanPart(pc, " " + town) == town
  {
    StripLeading(" " + town);
    assert (" " + town)[1..] == town;
    NotContains(town, pc);
  }

  /** The last part: the space goes, then the postcode and the space before it. */
  lemma {:induction false} CleanCounty(pc: string, county: string)
    requires Trimmed(county) && Trimmed(pc) && pc[0] !in county
    ensures CleanPart(pc, " " + county + " " + pc) == county
  {
    var spaced := county + " ";
    var t := spaced + pc;
    CountyStripped(pc, county);
    ContainsSuffix(spaced, pc);
    assert pc[0] !in spaced;
    RemoveAllSuffix(spaced, pc);
    StripTrailing(spaced);
    assert spaced[..|spaced| - 1] == county;
  }

  lemma {:induction false} CountyStripped(pc: string, county: string)
    requires Trimmed(county) && Trimmed(pc)
    ensures Strip(" " + county + " " + pc) == county + " " + pc
  {
    var t := county + " " + pc;
    var part := " " + county + " " + pc;
    assert part == " " + t;
    assert part[1..] == t;
    assert t[0] == county[0];
    assert t[|t| - 1] == pc[|pc| - 1];
    StripLeading(part);
  }

  /**
   * `ParseSingleLine.process`: a non-empty query is parsed and fills the
   * postal code, address and city, each only where the query has none.
   */
  function ParseSingleLine(p: Patterns, pq: PlaceQuery): (r: PlaceQuery)
    ensures pq.query == "" ==> r == pq
    ensures r == pq.(postal := r.postal, address := r.address, city := r.city)
    ensures pq.postal != "" ==> r.postal == pq.postal
    ensures pq.address != "" ==> r.address == pq.address
    ensures pq.city != "" ==> r.city == pq.city
    ensures pq.query != "" && pq.postal == "" ==> r.postal == ParseQuery(p, pq.query).postcode
    ensures pq.query != "" && pq.address == "" ==> r.address == ParseQuery(p, pq.query).address
    ensures pq.query != "" && pq.city == "" ==> r.city == ParseQuery(p, pq.query).city
  {
    if pq.query != "" then
      var parsed := ParseQuery(p, pq.query);
      pq.(postal := Or(pq.postal, parsed.postcode),
          address := Or(pq.address, parsed.address),
          city := Or(pq.city, parsed.city))
    else pq
  }

  /** Python's `a or b` on strings. */
  function Or(a: string, b: string): (r: string)
    ensures a != "" ==> r == a
    ensures a == "" ==> r == b
  {
    if a != "" then a else b
  }

  // ----------------------------------------------------------------------
  // ComposeSingleLine

  /**
   * `ComposeSingleLine.process`: a query without single-line text gets
   * the comma-joined address, city, subregion, "state postal" and
   * country, empty pieces dropped.
   */
  function ComposeSingleLine(pq: PlaceQuery): (r: PlaceQuery)
    ensures pq.query != "" ==> r == pq
    ensures r == pq.(query := r.query)
    ensures pq.query == "" ==> (r.query == "" <==> NoComponents(pq))
  {
    if pq.query == "" then
      var parts := ComposeParts(pq);
      ComposedEmpty(pq, parts);
      pq.(query := Join(", ", NonEmpty(parts)))
    else pq
  }

  /** The pieces the single line is made of, before the empty ones are dropped. */
  function ComposeParts(pq: PlaceQuery): seq<string> {
    [pq.address, pq.city, pq.subregion, Join(" ", NonEmpty([pq.state, pq.postal]))]
    + (if pq.country != "" then [pq.country] else [])
  }

  /** No field `ComposeSingleLine` draws on holds a comma. */
  predicate CommaFreeComponents(pq: PlaceQuery) {
    ',' !in pq.address && ',' !in pq.city && ',' !in pq.subregion
    && ',' !in pq.state && ',' !in pq.postal && ',' !in pq.country
  }

  /**
   * When no field holds a comma, splitting the composed line at commas
   * gives back its non-empty pieces in order (address, city, subregion,
   * "state postal", country), each but the first led by the space of the
   * separator.
   */
  lemma {:induction false} ComposeSplits(pq: PlaceQuery)
    requires pq.query == "" && !NoComponents(pq) && CommaFreeComponents(pq)
    ensures var ps := NonEmpty(ComposeParts(pq));
      |ps| > 0 && Split(ComposeSingleLine(pq).query, ',') == [ps[0]] + SpaceLed(ps[1..])
  {
    var parts := ComposeParts(pq);
    var ps := NonEmpty(parts);
    ComposedEmpty(pq, parts);
    var sp := NonEmpty([pq.state, pq.postal]);
    assert forall i :: 0 <= i < |sp| ==> ',' !in sp[i] by {
      forall i | 0 <= i < |sp|
        ensures ',' !in sp[i]
      {
        assert sp[i] in [pq.state, pq.postal];
      }
    }
    JoinWithout(" ", sp, ',');
    assert forall i :: 0 <= i < |ps| ==> ',' !in ps[i] by {
      forall i | 0 <= i < |ps|
        ensures ',' !in ps[i]
      {
        assert ps[i] in parts;
      }
    }
    CommaSpaceSplits(ps);
  }

  /** None of the fields `ComposeSingleLine` draws on has text. */
  predicate NoComponents(pq: PlaceQuery) {
    pq.address == "" && pq.city == "" && pq.subregion == "" && pq.state == "" && pq.postal == "" && pq.country == ""
  }

  /** A join of the non-empty pieces is empty exactly when every piece is. */
  lemma {:induction false} JoinedEmpty(sep: string, parts: seq<string>)
    ensures Join(sep, NonEmpty(parts)) == "" <==> forall i :: 0 <= i < |parts| ==> parts[i] == ""
  {
    JoinNonEmptyParts(sep, NonEmpty(parts));
  }

  lemma {:induction false} ComposedEmpty(pq: PlaceQuery, parts: seq<string>)
    requires parts == [pq.address, pq.city, pq.subregion, Join(" ", NonEmpty([pq.state, pq.postal]))]
                      + (if pq.country != "" then [pq.country] else [])
    ensures Join(", ", NonEmpty(parts)) == "" <==> NoComponents(pq)
  {
    var sp := [pq.state, pq.postal];
    JoinedEmpty(" ", sp);
    assert Join(" ", NonEmpty(sp)) == "" <==> pq.state == "" && pq.postal == "" by {
      assert sp[0] == pq.state && sp[1] == pq.postal;
    }
    JoinedEmpty(", ", parts);
    assert parts[0] == pq.address && parts[1] == pq.city && parts[2] == pq.subregion;
    assert parts[3] == Join(" ", NonEmpty(sp));
    if NoComponents(pq) {
      assert |parts| == 4;
      assert forall i :: 0 <= i < |parts| ==> parts[i] == "";
    } else if pq.country != "" {
      assert parts[4] == pq.country;
    } else if pq.state != "" || pq.postal != "" {
      assert parts[3] != "";
    }
  }

  lemma {:induction false} ComposeExample(pq: PlaceQuery)
    requires pq.query == "" && pq.subregion == "" && pq.country == ""
    requires pq.address != "" && pq.city != "" && pq.state != "" && pq.postal != ""
    ensures ComposeSingleLine(pq).query == pq.address + ", " + pq.city + ", " + pq.state + " " + pq.postal
  {
    ComposeNoCountry(pq);
    JoinExample(pq.address, pq.city, pq.subregion, pq.state, pq.postal);
  }

  /** Without a country, the line is the join of the first four pieces. */
  lemma {:induction false} ComposeNoCountry(pq: PlaceQuery)
    requires pq.query == "" && pq.country == ""
    ensures ComposeSingleLine(pq).query
         == Join(", ", NonEmpty([pq.address, pq.city, pq.subregion, Join(" ", NonEmpty([pq.state, pq.postal]))]))
  {
    var parts := [pq.address, pq.city, pq.subregion, Join(" ", NonEmpty([pq.state, pq.postal]))];
    assert parts + [] == parts;
  }

  lemma {:induction false} JoinExample(a: string, b: string, c: string, s: string, p: string)
    requires a != "" && b != "" && c == "" && s != "" && p != ""
    ensures Join(", ", NonEmpty([a, b, c, Join(" ", NonEmpty([s, p]))])) == a + ", " + b + ", " + s + " " + p
  {
    var line := s + " " + p;
    assert Join(" ", NonEmpty([s, p])) == line by {
      NonEmptyPair(s, p);
      JoinPair(" ", s, p);
    }
    NonEmptyThirdEmpty(a, b, c, line);
    JoinThree(", ", a, b, line);
    Flatten(a, ", ", b, s, " ", p);
  }

  lemma {:induction false} Flatten<T>(a: seq<T>, x: seq<T>, b: seq<T>, s: seq<T>, y: seq<T>, p: seq<T>)
    ensures a + x + (b + x + (s + y + p)) == a + x + b + x + s + y + p
  {
  }

  lemma {:induction false} JoinPair(sep: string, a: string, b: string)
    ensures Join(sep, [a, b]) == a + sep + b
  {
    assert [a, b][1..] == [b];
  }

  lemma {:induction false} NonEmptyPair(a: string, b: string)
    requires a != "" && b != ""
    ensures NonEmpty([a, b]) == [a, b]
  {
    assert [a, b][1..] == [b];
  }

  lemma {:induction false} NonEmptyThirdEmpty(a: string, b: string, c: string, d: string)
    requires a != "" && b != "" && c == "" && d != ""
    ensures NonEmpty([a, b, c, d]) == [a, b, d]
  {
    assert [d][1..] == [];
    assert NonEmpty([d]) == [d];
    assert [c, d][1..] == [d];
    assert NonEmpty([c, d]) == [d];
    assert [b, c, d][1..] == [c, d];
    assert NonEmpty([b, c, d]) == [b] + [d] == [b, d];
    assert [a, b, c, d][1..] == [b, c, d];
    assert NonEmpty([a, b, c, d]) == [a] + [b, d];
  }

  lemma {:induction false} JoinThree(sep: string, a: string, b: string, c: string)
    ensures Join(sep, [a, b, c]) == a + sep + (b + sep + c)
  {
    assert [b, c][1..] == [c];
    assert Join(sep, [b, c]) == b + sep + c;
    assert [a, b, c][1..] == [b, c];
  }

  // ----------------------------------------------------------------------
  // CountryPreProcessor

  /** The settings of a `CountryPreProcessor`. */
  datatype CountryRule = CountryRule(acceptable: seq<string>, countryMap: map<string, string>)

  /** The constructor: absent settings mean "any country" and "no mapping". */
  function NewCountryRule(acceptable: Option<seq<string>>, countryMap: Option<map<string, string>>): (r: CountryRule)
    ensures acceptable.None? ==> r.acceptable == []
    ensures countryMap.None? ==> r.countryMap == map[]
    ensures acceptable.Some? ==> r.acceptable == acceptable.value
    ensures countryMap.Some? ==> r.countryMap == countryMap.value
  {
    CountryRule(acceptable.GetOr([]), countryMap.GetOr(map[]))
  }

  /** The country is accepted: empty, or no list to check against, or on the list. */
  predicate Accepted(rule: CountryRule, country: string) {
    country == "" || rule.acceptable == [] || country in rule.acceptable
  }

  /**
   * `CountryPreProcessor.process`: a country not already acceptable is
   * mapped if the map has it; the query is then rejected unless the
   * country is accepted.
   */
  function CountryPreProcessor(rule: CountryRule, pq: PlaceQuery): (r: Option<PlaceQuery>)
    ensures r.Some? ==> r.value == pq.(country := r.value.country) && Accepted(rule, r.value.country)
    ensures r.Some? && r.value.country != pq.country ==>
      pq.country !in rule.acceptable && pq.country in rule.countryMap && r.value.country == rule.countryMap[pq.country]
    ensures r.None? ==>
      var c := if pq.country in rule.countryMap then rule.countryMap[pq.country] else pq.country;
      pq.country !in rule.acceptable && !Accepted(rule, c)
    ensures pq.country in rule.acceptable ==> r == Some(pq)
    ensures rule.acceptable == [] ==> r.Some?
    ensures pq.country == "" && "" !in rule.countryMap ==> r == Some(pq)
    ensures r.Some? && pq.country !in rule.acceptable && pq.country in rule.countryMap ==>
      r.value.country == rule.countryMap[pq.country]
    ensures pq.country !in rule.acceptable && pq.country in rule.countryMap && Accepted(rule, rule.countryMap[pq.country]) ==>
      r == Some(pq.(country := rule.countryMap[pq.country]))
    ensures pq.country !in rule.countryMap && Accepted(rule, pq.country) ==> r == Some(pq)
    ensures pq.country !in rule.acceptable && pq.country !in rule.countryMap && rule.acceptable == [] ==> r == Some(pq)
  {
    var country :=
      if pq.country !in rule.acceptable && pq.country in rule.countryMap then rule.countryMap[pq.country]
      else pq.country;
    if country != "" && rule.acceptable != [] && country !in rule.acceptable then None
    else Some(pq.(country := country))
  }

  /** A query the rule let through with a listed country passes again unchanged. */
  lemma {:induction false} CountryStable(rule: CountryRule, pq: PlaceQuery)
    requires CountryPreProcessor(rule, pq).Some?
    requires rule.acceptable != [] && CountryPreProcessor(rule, pq).value.country != ""
    ensures CountryPreProcessor(rule, CountryPreProcessor(rule, pq).value) == CountryPreProcessor(rule, pq)
  {
  }

  // ----------------------------------------------------------------------
  // RequireCountry

  /**
   * `RequireCountry.process`: a blank country becomes the default, or the
   * query is rejected when there is no default.
   */
  function RequireCountry(defaultCountry: string, pq: PlaceQuery): (r: Option<PlaceQuery>)
    ensures r.None? <==> AllSpace(pq.country) && defaultCountry == ""
    ensures r.Some? && !AllSpace(pq.country) ==> r.value == pq
    ensures r.Some? && AllSpace(pq.country) ==> r.value == pq.(country := defaultCountry)
  {
    StripBlank(pq.country);
    if Strip(pq.country) == "" then
      if defaultCountry == "" then None else Some(pq.(country := defaultCountry))
    else Some(pq)
  }

  /** With a non-blank default, requiring a country twice is requiring it once. */
  lemma {:induction false} RequireCountryIdempotent(defaultCountry: string, pq: PlaceQuery)
    requires !AllSpace(defaultCountry)
    ensures RequireCountry(defaultCountry, pq).Some?
    ensures RequireCountry(defaultCountry, RequireCountry(defaultCountry, pq).value) == RequireCountry(defaultCountry, pq)
  {
  }

  // ----------------------------------------------------------------------
  // CancelIfRegexInAttr, CancelIfPOBox

  /** The settings of a `CancelIfRegexInAttr`. */
  datatype RegexCanceller = RegexCanceller(regex: string, attrs: seq<string>, ignorecase: bool)

  /** The constructor's three type checks, in the order it makes them. */
  datatype CancellerError = RegexNotString | AttrsNotSequence | AttrNotString

  function ItemsOf(a: Arg): seq<Arg> {
    if a.AList? || a.ATuple? then a.items else []
  }

  predicate AllStrings(items: seq<Arg>) {
    forall i :: 0 <= i < |items| ==> items[i].AStr?
  }

  function Strings(items: seq<Arg>): (r: seq<string>)
    requires AllStrings(items)
    ensures |r| == |items| && forall i :: 0 <= i < |items| ==> r[i] == items[i].s
  {
    seq(|items|, i requires 0 <= i < |items| => items[i].s)
  }

  /** `CancelIfRegexInAttr(regex, attrs, ignorecase)`. */
  function NewRegexCanceller(regex: Arg, attrs: Arg, ignorecase: bool): (r: Result<RegexCanceller, CancellerError>)
    ensures r.Ok? <==> regex.AStr? && (attrs.AList? || attrs.ATuple?) && AllStrings(attrs.items)
    ensures !regex.AStr? ==> r == Err(RegexNotString)
    ensures regex.AStr? && !(attrs.AList? || attrs.ATuple?) ==> r == Err(AttrsNotSequence)
    ensures regex.AStr? && (attrs.AList? || attrs.ATuple?) && !AllStrings(attrs.items) ==> r == Err(AttrNotString)
    ensures r.Ok? ==> r.value.regex == regex.s && r.value.attrs == Strings(attrs.items) && r.value.ignorecase == ignorecase
  {
    if !regex.AStr? then Err(RegexNotString)
    else if !(attrs.AList? || attrs.ATuple?) then Err(AttrsNotSequence)
    else if !AllStrings(attrs.items) then Err(AttrNotString)
    else Ok(RegexCanceller(regex.s, Strings(attrs.items), ignorecase))
  }

  /** The values of the named attributes the query has, in order (`hasattr` filters the rest out). */
  function PresentValues(pq: PlaceQuery, names: seq<string>): (r: seq<Value>)
    ensures forall i :: 0 <= i < |r| ==> exists j :: 0 <= j < |names| && Field(pq, names[j]) == Some(r[i])
    ensures forall j :: 0 <= j < |names| && Field(pq, names[j]).Some? ==> Field(pq, names[j]).value in r
    decreases |names|
  {
    if |names| == 0 then []
    else
      var rest := PresentValues(pq, names[1..]);
      assert forall i :: 0 <= i < |rest| ==> exists j :: 1 <= j < |names| && Field(pq, names[j]) == Some(rest[i]) by {
        forall i | 0 <= i < |rest|
          ensures exists j :: 1 <= j < |names| && Field(pq, names[j]) == Some(rest[i])
        {
          var j :| 0 <= j < |names[1..]| && Field(pq, names[1..][j]) == Some(rest[i]);
          assert Field(pq, names[j + 1]) == Some(rest[i]);
        }
      }
      match Field(pq, names[0])
      case Some(v) => [v] + rest
      case None => rest
  }

  /**
   * `CancelIfRegexInAttr.process`, with `matches` standing for the
   * compiled pattern's `match`.  Every present attribute is matched
   * before `any` looks at the results, so a present attribute that is
   * not a string raises even when another one matched.
   */
  function CancelIfRegexInAttr(c: RegexCanceller, matches: string -> bool, pq: PlaceQuery): (r: Result<Option<PlaceQuery>, string>)
    ensures r.Err? <==> !AllStr(PresentValues(pq, c.attrs))
    ensures r.Ok? && r.value.Some? ==> r.value.value == pq
    ensures r == Ok(None) <==> AllStr(PresentValues(pq, c.attrs)) && AnyMatch(PresentValues(pq, c.attrs), matches)
    ensures (forall j :: 0 <= j < |c.attrs| ==> Field(pq, c.attrs[j]).None?) ==> r == Ok(Some(pq))
  {
    var vs := PresentValues(pq, c.attrs);
    if !AllStr(vs) then Err("TypeError: expected string or bytes-like object")
    else if AnyMatch(vs, matches) then Ok(None)
    else Ok(Some(pq))
  }

  predicate AllStr(vs: seq<Value>) {
    forall i :: 0 <= i < |vs| ==> vs[i].Str?
  }

  predicate AnyMatch(vs: seq<Value>, matches: string -> bool)
    requires AllStr(vs)
  {
    exists i :: 0 <= i < |vs| && matches(vs[i].s)
  }

  /** `i` past any whitespace from position `i` on (`\s*`). */
  function SkipSpace(s: string, i: nat): (j: nat)
    requires i <= |s|
    ensures i <= j <= |s|
    ensures forall k :: i <= k < j ==> IsSpace(s[k])
    ensures j < |s| ==> !IsSpace(s[j])
    decreases |s| - i
  {
    if i < |s| && IsSpace(s[i]) then SkipSpace(s, i + 1) else i
  }

  /** `i` past an optional `c` (`c?`, greedy). */
  function SkipOpt(s: string, i: nat, c: char): (j: nat)
    requires i <= |s|
    ensures j == i || (j == i + 1 && i < |s| && s[i] == c)
    ensures j <= |s|
  {
    if i < |s| && s[i] == c then i + 1 else i
  }

  /** `i` past an optional letter `c`, ignoring case. */
  function SkipOptLetter(s: string, i: nat, c: char): (j: nat)
    requires i <= |s|
    ensures j == i || (j == i + 1 && Letter(s, i, c))
    ensures j <= |s|
  {
    if Letter(s, i, c) then i + 1 else i
  }

  /** The upper-case letter `c` at position `i`, ignoring case. */
  predicate Letter(s: string, i: nat, c: char) {
    i < |s| && (s[i] == c || s[i] == LowerChar(c))
  }

  const POBoxPattern := "^\\s*P\\.?\\s*O\\.?\\s*B\\.?O?X?[\\s\\d]"

  /** `c\.?\s*` at position `i`: where the next piece starts, if the letter is there. */
  function LetterDotSpace(s: string, i: nat, c: char): (r: Option<nat>)
    requires i <= |s|
    ensures r.Some? ==> Letter(s, i, c) && i < r.value <= |s|
  {
    if Letter(s, i, c) then Some(SkipSpace(s, SkipOpt(s, i + 1, '.'))) else None
  }

  /** `B\.?O?X?[\s\d]` at position `i`. */
  predicate BoxEnd(s: string, i: nat)
    requires i <= |s|
  {
    Letter(s, i, 'B') &&
      var k := SkipOptLetter(s, SkipOptLetter(s, SkipOpt(s, i + 1, '.'), 'O'), 'X');
      k < |s| && (IsSpace(s[k]) || IsDigit(s[k]))
  }

  /**
   * `re.match(POBoxPattern, s, re.IGNORECASE)` succeeds.  Each optional
   * piece of the pattern is followed by something it cannot match, so
   * taking every optional piece greedily is the only way to match.
   */
  predicate POBoxMatch(s: string) {
    var p := LetterDotSpace(s, SkipSpace(s, 0), 'P');
    p.Some? &&
      var o := LetterDotSpace(s, p.value, 'O');
      o.Some? && BoxEnd(s, o.value)
  }

  /**
   * `CancelIfPOBox.process`: rejects exactly when the address or the
   * query starts with a PO box; the query's attributes are strings, so
   * it never raises.
   */
  function CancelIfPOBox(pq: PlaceQuery): (r: Result<Option<PlaceQuery>, string>)
    ensures r.Ok?
    ensures r.value.None? <==> POBoxMatch(pq.address) || POBoxMatch(pq.query)
    ensures r.value.Some? ==> r.value.value == pq
  {
    var c := NewRegexCanceller(AStr(POBoxPattern), ATuple([AStr("address"), AStr("query")]), true);
    POBoxSetup(pq);
    AnyMatchPair(pq.address, pq.query, POBoxMatch);
    CancelIfRegexInAttr(c.value, POBoxMatch, pq)
  }

  /** The canceller `CancelIfPOBox` builds, and the two string values it reads from any query. */
  lemma {:induction false} POBoxSetup(pq: PlaceQuery)
    ensures var c := NewRegexCanceller(AStr(POBoxPattern), ATuple([AStr("address"), AStr("query")]), true);
      c.Ok? && PresentValues(pq, c.value.attrs) == [Str(pq.address), Str(pq.query)]
  {
    var c := NewRegexCanceller(AStr(POBoxPattern), ATuple([AStr("address"), AStr("query")]), true);
    assert c.Ok?;
    assert c.value.attrs == ["address", "query"];
  }

  /** Two strings: some matches exactly when one of them does. */
  lemma {:induction false} AnyMatchPair(a: string, b: string, matches: string -> bool)
    ensures AllStr([Str(a), Str(b)])
    ensures AnyMatch([Str(a), Str(b)], matches) <==> matches(a) || matches(b)
  {
    var vs := [Str(a), Str(b)];
    if matches(a) {
      assert matches(vs[0].s);
    } else if matches(b) {
      assert matches(vs[1].s);
    }
  }

  /** Skipping whitespace inside `s` is not affected by what follows `s`. */
  lemma {:induction false} SkipSpaceExtend(s: string, t: string, i: nat)
    requires i <= |s| && SkipSpace(s, i) < |s|
    ensures SkipSpace(s + t, i) == SkipSpace(s, i)
    decreases |s| - i
  {
    if IsSpace(s[i]) {
      SkipSpaceExtend(s, t, i + 1);
    }
  }

  lemma {:induction false} LetterDotSpaceExtend(s: string, t: string, i: nat, c: char)
    requires i <= |s| && LetterDotSpace(s, i, c).Some? && LetterDotSpace(s, i, c).value < |s|
    ensures LetterDotSpace(s + t, i, c) == LetterDotSpace(s, i, c)
  {
    var j := SkipOpt(s, i + 1, '.');
    assert SkipOpt(s + t, i + 1, '.') == j;
    SkipSpaceExtend(s, t, j);
  }

  lemma {:induction false} BoxEndExtend(s: string, t: string, i: nat)
    requires i <= |s| && BoxEnd(s, i)
    ensures BoxEnd(s + t, i)
  {
    var u := s + t;
    var k0 := SkipOpt(s, i + 1, '.');
    assert SkipOpt(u, i + 1, '.') == k0;
    var k1 := SkipOptLetter(s, k0, 'O');
    assert SkipOptLetter(u, k0, 'O') == k1;
    var k2 := SkipOptLetter(s, k1, 'X');
    assert SkipOptLetter(u, k1, 'X') == k2;
  }

  /**
   * A match depends only on a prefix: text appended after a PO box does
   * not undo it.
   */
  lemma {:induction false} POBoxExtend(s: string, t: string)
    requires POBoxMatch(s)
    ensures POBoxMatch(s + t)
  {
    var i := SkipSpace(s, 0);
    SkipSpaceExtend(s, t, 0);
    var p := LetterDotSpace(s, i, 'P').value;
    LetterDotSpaceExtend(s, t, i, 'P');
    var o := LetterDotSpace(s, p, 'O').value;
    LetterDotSpaceExtend(s, t, p, 'O');
    BoxEndExtend(s, t, o);
  }

  /**
   * The pattern is anchored: text whose first character is neither
   * whitespace nor a P never matches, whatever comes later.
   */
  lemma {:induction false} POBoxOnlyAtStart(s: string)
    requires |s| > 0 && !IsSpace(s[0]) && s[0] != 'P' && s[0] != 'p'
    ensures !POBoxMatch(s)
  {
  }

  lemma {:induction false} POBoxExampleSpaced()
    ensures POBoxMatch("PO Box 123")
  {
    var s := "PO Box 123";
    SpacedLetters(s);
    SpacedBox(s);
    POBoxAt(s, 0, 1, 3);
  }

  /** The match assembled from its pieces. */
  lemma {:induction false} POBoxAt(s: string, p0: nat, p1: nat, o1: nat)
    requires p0 <= |s| && p1 <= |s| && o1 <= |s|
    requires SkipSpace(s, 0) == p0 && LetterDotSpace(s, p0, 'P') == Some(p1)
    requires LetterDotSpace(s, p1, 'O') == Some(o1) && BoxEnd(s, o1)
    ensures POBoxMatch(s)
  {
  }

  lemma {:induction false} SpacedLetters(s: string)
    requires s == "PO Box 123"
    ensures SkipSpace(s, 0) == 0 && LetterDotSpace(s, 0, 'P') == Some(1) && LetterDotSpace(s, 1, 'O') == Some(3)
  {
    assert SkipSpace(s, 2) == 3;
  }

  lemma {:induction false} SpacedBox(s: string)
    requires s == "PO Box 123"
    ensures BoxEnd(s, 3)
  {
    assert SkipOptLetter(s, 4, 'O') == 5;
    assert SkipOptLetter(s, 5, 'X') == 6;
  }

  lemma {:induction false} POBoxExampleDotted()
    ensures POBoxMatch("p.o. box 9")
  {
    var s := "p.o. box 9";
    DottedLetters(s);
    DottedBox(s);
    POBoxAt(s, 0, 2, 5);
  }

  lemma {:induction false} DottedLetters(s: string)
    requires s == "p.o. box 9"
    ensures SkipSpace(s, 0) == 0 && LetterDotSpace(s, 0, 'P') == Some(2) && LetterDotSpace(s, 2, 'O') == Some(5)
  {
    assert SkipSpace(s, 4) == 5;
  }

  lemma {:induction false} DottedBox(s: string)
    requires s == "p.o. box 9"
    ensures BoxEnd(s, 5)
  {
    assert SkipOptLetter(s, 6, 'O') == 7;
    assert SkipOptLetter(s, 7, 'X') == 8;
  }

  /** A PO box after the street address does not count. */
  lemma {:induction false} POBoxExampleLater()
    ensures !POBoxMatch("123 Main St, PO Box 5")
  {
    POBoxOnlyAtStart("123 Main St, PO Box 5");
  }
}

=== FILE: seqs.dfy ===
/**
 * Order-preserving filtering of sequences: Python's
 * `[x for x in s if f(x)]`, and the facts about it that the
 * postprocessors rely on.
 */
module Seqs {

  /** The elements of `s` satisfying `f`, in their original order. */
  function Filter<T(==)>(s: seq<T>, f: T -> bool): (r: seq<T>)
    ensures |r| <= |s|
    ensures forall i :: 0 <= i < |r| ==> r[i] in s
    ensures forall i :: 0 <= i < |s| && f(s[i]) ==> s[i] in r
    ensures forall i :: 0 <= i < |r| ==> f(r[i])
    decreases |s|
  {
    if |s| == 0 then []
    else if f(s[0]) then [s[0]] + Filter(s[1..], f)
    else Filter(s[1..], f)
  }

  /** `r` is an order-preserving subsequence of `s`. */
  predicate IsSubseq<T(==)>(r: seq<T>, s: seq<T>)
    decreases |s|
  {
    |r| == 0 || (|s| > 0 && if r[0] == s[0] then IsSubseq(r[1..], s[1..]) else IsSubseq(r, s[1..]))
  }

  lemma {:induction false} FilterIsSubseq<T>(s: seq<T>, f: T -> bool)
    ensures IsSubseq(Filter(s, f), s)
    decreases |s|
  {
    if |s| > 0 {
      FilterIsSubseq(s[1..], f);
      if f(s[0]) {
        assert Filter(s, f)[1..] == Filter(s[1..], f);
      }
    }
  }

  /** Filtering distributes over concatenation. */
  lemma {:induction false} FilterAppend<T>(a: seq<T>, b: seq<T>, f: T -> bool)
    ensures Filter(a + b, f) == Filter(a, f) + Filter(b, f)
    decreases |a|
  {
    if |a| > 0 {
      assert (a + b)[1..] == a[1..] + b;
      FilterAppend(a[1..], b, f);
    } else {
      assert a + b == b;
    }
  }

  /** A filter and its complement split a sequence without loss. */
  lemma {:induction false} FilterSplit<T>(s: seq<T>, f: T -> bool, g: T -> bool)
    requires forall i :: 0 <= i < |s| ==> g(s[i]) == !f(s[i])
    ensures multiset(Filter(s, f)) + multiset(Filter(s, g)) == multiset(s)
    decreases |s|
  {
    if |s| > 0 {
      var t := s[1..];
      FilterSplit(t, f, g);
      var r1, r2 := Filter(t, f), Filter(t, g);
      assert s == [s[0]] + t;
      assert multiset(s) == multiset{s[0]} + multiset(t);
      if f(s[0]) {
        assert Filter(s, f) == [s[0]] + r1;
        assert multiset([s[0]] + r1) == multiset{s[0]} + multiset(r1);
      } else {
        assert Filter(s, g) == [s[0]] + r2;
        assert multiset([s[0]] + r2) == multiset{s[0]} + multiset(r2);
      }
    }
  }

  /** Filters that agree on the elements of `s` select the same subsequence. */
  lemma {:induction false} FilterExt<T>(s: seq<T>, f: T -> bool, g: T -> bool)
    requires forall i :: 0 <= i < |s| ==> f(s[i]) == g(s[i])
    ensures Filter(s, f) == Filter(s, g)
    decreases |s|
  {
    if |s| > 0 {
      FilterExt(s[1..], f, g);
    }
  }

  /** Two filters in a row are one filter on the conjunction. */
  lemma {:induction false} FilterFilter<T>(s: seq<T>, f: T -> bool, g: T -> bool, h: T -> bool)
    requires forall i :: 0 <= i < |s| ==> h(s[i]) == (f(s[i]) && g(s[i]))
    ensures Filter(Filter(s, f), g) == Filter(s, h)
    decreases |s|
  {
    if |s| > 0 {
      FilterFilter(s[1..], f, g, h);
    }
  }

  /** A filter every element passes changes nothing. */
  lemma {:induction false} FilterAll<T>(s: seq<T>, f: T -> bool)
    requires forall i :: 0 <= i < |s| ==> f(s[i])
    ensures Filter(s, f) == s
    decreases |s|
  {
    if |s| > 0 {
      FilterAll(s[1..], f);
    }
  }

  /** A filter no element passes keeps nothing. */
  lemma {:induction false} FilterNone<T>(s: seq<T>, f: T -> bool)
    requires forall i :: 0 <= i < |s| ==> !f(s[i])
    ensures Filter(s, f) == []
    decreases |s|
  {
    if |s| > 0 {
      FilterNone(s[1..], f);
    }
  }

  /** The first element kept is the first element of `s` that passes. */
  lemma {:induction false} FilterHead<T>(s: seq<T>, f: T -> bool, k: nat)
    requires k < |s| && f(s[k])
    requires forall j :: 0 <= j < k ==> !f(s[j])
    ensures Filter(s, f) != [] && Filter(s, f)[0] == s[k]
    decreases k
  {
    if k > 0 {
      FilterHead(s[1..], f, k - 1);
    }
  }

  /** Filtering never adds occurrences. */
  lemma {:induction false} FilterMultiset<T>(s: seq<T>, f: T -> bool)
    ensures multiset(Filter(s, f)) <= multiset(s)
    decreases |s|
  {
    if |s| > 0 {
      FilterMultiset(s[1..], f);
      assert s == [s[0]] + s[1..];
      if f(s[0]) {
        assert Filter(s, f) == [s[0]] + Filter(s[1..], f);
      }
    }
  }

  /** `[x]` if `x` passes `f`, else nothing: one step of `Filter`. */
  function Keep<T>(x: T, f: T -> bool): seq<T> {
    if f(x) then [x] else []
  }

  /** `Filter` unrolled once. */
  lemma {:induction false} FilterCons<T>(s: seq<T>, f: T -> bool)
    requires |s| > 0
    ensures Filter(s, f) == Keep(s[0], f) + Filter(s[1..], f)
  {
  }

  /** `Filter` over a short sequence, spelled out. */
  lemma {:induction false} FilterOf1<T>(s: seq<T>, f: T -> bool)
    requires |s| == 1
    ensures Filter(s, f) == Keep(s[0], f)
  {
    FilterCons(s, f);
    assert s[1..] == [];
  }

  lemma {:induction false} FilterOf2<T>(s: seq<T>, f: T -> bool)
    requires |s| == 2
    ensures Filter(s, f) == Keep(s[0], f) + Keep(s[1], f)
  {
    FilterCons(s, f);
    FilterOf1(s[1..], f);
  }

  lemma {:induction false} FilterOf3<T>(s: seq<T>, f: T -> bool)
    requires |s| == 3
    ensures Filter(s, f) == Keep(s[0], f) + (Keep(s[1], f) + Keep(s[2], f))
  {
    FilterCons(s, f);
    FilterOf2(s[1..], f);
  }

  lemma {:induction false} FilterOf4<T>(s: seq<T>, f: T -> bool)
    requires |s| == 4
    ensures Filter(s, f) == Keep(s[0], f) + (Keep(s[1], f) + (Keep(s[2], f) + Keep(s[3], f)))
  {
    FilterCons(s, f);
    FilterOf3(s[1..], f);
  }

  /** A sequence that starts with `a + b` starts with `a`. */
  lemma {:induction false} PrefixOfPrefix<T>(a: seq<T>, b: seq<T>, r: seq<T>)
    requires |a + b| <= |r| && r[..|a + b|] == a + b
    ensures |a| <= |r| && r[..|a|] == a
  {
    assert r[..|a + b|][..|a|] == a;
  }
}

=== FILE: service_base.dfy ===
/**
 * The adapter base of `omgeo/services/base.py`: the record describing an
 * upstream call (`UpstreamResponseInfo`) with its validating setters, the
 * `GeocodeService` constructor and settings checker, and the `geocode`
 * template every adapter inherits.
 *
 * The adapter's own `_geocode` (an HTTP call and response decoding) is a
 * function parameter whose outcome is either a raised exception or a
 * candidate list together with the elapsed time; the clock readings
 * around it are folded into that elapsed time.
 */
module ServiceBase {
  import opened Wrappers
  import opened Values
  import opened Places
  import opened Pipeline

  // ----------------------------------------------------------------------
  // UpstreamResponseInfo

  /** `UpstreamResponseInfo`: which service answered, for which query, and how. */
  datatype Info = Info(
    geoservice: string,
    processedPq: PlaceQuery,
    responseCode: Option<int>,
    responseTime: Option<int>,
    success: bool,
    errors: seq<string>)

  const CodeNotInt := "response_code must be an integer."
  // The two literals of the source are joined without a space.
  const TimeNotNumber := "If response_time is provided,it must be an integer or float."
  const TimeNegative := "response_time cannot be negative."
  // `raise ('...')` raises a string, which Python 3 refuses with a TypeError.
  const SuccessNotBool := "exceptions must derive from BaseException"

  /** `set_response_code`: `None` or an `int` (a `bool` is not one: the check is on the exact type). */
  function SetResponseCode(info: Info, code: Arg): (r: Result<Info, string>)
    ensures r.Ok? <==> code.ANone? || code.AInt?
    ensures r.Err? ==> r.error == CodeNotInt
    ensures code.ANone? ==> r == Ok(info.(responseCode := None))
    ensures code.AInt? ==> r == Ok(info.(responseCode := Some(code.i)))
  {
    if !code.ANone? && !code.AInt? then Err(CodeNotInt)
    else Ok(info.(responseCode := if code.AInt? then Some(code.i) else None))
  }

  /** Python 3's `round` of a float to an integer: halves go to the even neighbour. */
  function RoundHalfEven(x: real): (n: int)
    ensures x - 0.5 <= n as real <= x + 0.5
    ensures (n as real == x - 0.5 || n as real == x + 0.5) ==> n % 2 == 0
    ensures x >= 0.0 ==> n >= 0
  {
    var f := x.Floor;
    var d := x - f as real;
    if d < 0.5 then f
    else if d > 0.5 then f + 1
    else if f % 2 == 0 then f
    else f + 1
  }

  /**
   * `set_response_time`: `None` stays `None`; otherwise an `int` or
   * `float` (not a `bool`) that is not negative, stored rounded.
   */
  function SetResponseTime(info: Info, t: Arg): (r: Result<Info, string>)
    ensures t.ANone? ==> r == Ok(info.(responseTime := None))
    ensures !t.ANone? && !t.AInt? && !t.AFloat? ==> r == Err(TimeNotNumber)
    ensures (t.AInt? || t.AFloat?) && NumberOf(t) < 0.0 ==> r == Err(TimeNegative)
    ensures (t.AInt? || t.AFloat?) && NumberOf(t) >= 0.0 ==>
      r.Ok? && r.value == info.(responseTime := r.value.responseTime) && r.value.responseTime.Some?
      && r.value.responseTime.value >= 0
      && NumberOf(t) - 0.5 <= r.value.responseTime.value as real <= NumberOf(t) + 0.5
    ensures t.AInt? && t.i >= 0 ==> r == Ok(info.(responseTime := Some(t.i)))
  {
    if t.ANone? then Ok(info.(responseTime := None))
    else if !t.AInt? && !t.AFloat? then Err(TimeNotNumber)
    else if NumberOf(t) < 0.0 then Err(TimeNegative)
    else Ok(info.(responseTime := Some(RoundHalfEven(NumberOf(t)))))
  }

  /** `set_success`: a `bool` only. */
  function SetSuccess(info: Info, success: Arg): (r: Result<Info, string>)
    ensures r.Ok? <==> success.ABool?
    ensures r.Ok? ==> r.value == info.(success := success.b)
  {
    if success.ABool? then Ok(info.(success := success.b)) else Err(SuccessNotBool)
  }

  /**
   * `UpstreamResponseInfo(geoservice, processed_pq, response_code,
   * response_time, success, errors)`: the setters run in that order and
   * the first to raise ends construction; absent errors start empty.
   */
  function NewInfo(geoservice: string, pq: PlaceQuery, code: Arg, time: Arg, success: Arg,
                   errors: Option<seq<string>>): (r: Result<Info, string>)
    ensures r.Ok? <==> (code.ANone? || code.AInt?) && SetResponseTime(Blank(geoservice, pq), time).Ok? && success.ABool?
    ensures !(code.ANone? || code.AInt?) ==> r == Err(CodeNotInt)
    ensures r.Ok? ==> r.value.geoservice == geoservice && r.value.processedPq == pq
                      && r.value.success == success.b && r.value.errors == errors.GetOr([])
  {
    var info := Blank(geoservice, pq);
    var info :- SetResponseCode(info, code);
    var info :- SetResponseTime(info, time);
    var info :- SetSuccess(info, success);
    Ok(info.(errors := errors.GetOr([])))
  }

  /** The record before any setter has run. */
  function Blank(geoservice: string, pq: PlaceQuery): Info {
    Info(geoservice, pq, None, None, true, [])
  }

  /** With its defaults the constructor always succeeds: a successful call with no errors. */
  lemma {:induction false} NewInfoDefaults(geoservice: string, pq: PlaceQuery)
    ensures NewInfo(geoservice, pq, ANone, ANone, ABool(true), None) == Ok(Info(geoservice, pq, None, None, true, []))
  {
  }

  // ----------------------------------------------------------------------
  // GeocodeService

  /** What the adapter's `_geocode` did: raised, or returned candidates after some seconds. */
  datatype Outcome = Raised(trace: string) | Returned(candidates: seq<Candidate>, elapsedSec: real)

  /** A `GeocodeService` instance. */
  datatype Service = Service(
    name: string,
    pre: seq<Pre>,
    post: seq<Post>,
    settings: map<string, Value>,
    backend: PlaceQuery -> Outcome)

  /**
   * `GeocodeService.__init__`: absent processor lists are empty, given
   * ones are installed as they are, and the settings are copied into a
   * fresh dictionary.
   */
  function NewService(name: string, backend: PlaceQuery -> Outcome, pre: Option<seq<Pre>>,
                      post: Option<seq<Post>>, settings: Option<map<string, Value>>): (r: Service)
    ensures pre.None? ==> r.pre == []
    ensures pre.Some? ==> r.pre == pre.value
    ensures post.None? ==> r.post == []
    ensures post.Some? ==> r.post == post.value
    ensures settings.None? ==> r.settings == map[]
    ensures settings.Some? ==> r.settings.Keys == settings.value.Keys
                               && forall k :: k in r.settings ==> r.settings[k] == settings.value[k]
    ensures r.name == name && r.backend == backend
  {
    Service(name, pre.GetOr([]), post.GetOr([]), settings.GetOr(map[]), backend)
  }

  /** What `_settings_checker` returns: `True`, or the name of the first unsatisfied key. */
  datatype SettingsCheck = AllPresent | FirstMissing(key: string)

  /** The key is missing, or holds `None` when `None` is not accepted. */
  predicate Offending(settings: map<string, Value>, key: string, acceptNone: bool) {
    key !in settings || (!acceptNone && settings[key] == Null)
  }

  function CheckKeys(settings: map<string, Value>, keys: seq<string>, acceptNone: bool): (r: SettingsCheck)
    ensures r == AllPresent <==> forall i :: 0 <= i < |keys| ==> !Offending(settings, keys[i], acceptNone)
    ensures r.FirstMissing? ==> exists i :: FirstOffendingAt(settings, keys, acceptNone, r.key, i)
    decreases |keys|
  {
    if |keys| == 0 then AllPresent
    else if Offending(settings, keys[0], acceptNone) then
      assert FirstOffendingAt(settings, keys, acceptNone, keys[0], 0);
      FirstMissing(keys[0])
    else
      var r := CheckKeys(settings, keys[1..], acceptNone);
      FirstOffendingShift(settings, keys, acceptNone, r);
      r
  }

  /** The key `r` names is the first offending one in `keys[1..]`, so also in `keys`. */
  predicate FirstOffendingAt(settings: map<string, Value>, keys: seq<string>, acceptNone: bool, key: string, i: int) {
    0 <= i < |keys| && keys[i] == key && Offending(settings, keys[i], acceptNone)
    && forall j :: 0 <= j < i ==> !Offending(settings, keys[j], acceptNone)
  }

  lemma {:induction false} FirstOffendingShift(settings: map<string, Value>, keys: seq<string>, acceptNone: bool, r: SettingsCheck)
    requires |keys| > 0 && !Offending(settings, keys[0], acceptNone)
    ensures r.FirstMissing? && (exists i :: FirstOffendingAt(settings, keys[1..], acceptNone, r.key, i)) ==>
      exists i :: FirstOffendingAt(settings, keys, acceptNone, r.key, i)
  {
    if r.FirstMissing? && exists i :: FirstOffendingAt(settings, keys[1..], acceptNone, r.key, i) {
      var i :| FirstOffendingAt(settings, keys[1..], acceptNone, r.key, i);
      forall j | 0 <= j < i + 1
        ensures !Offending(settings, keys[j], acceptNone)
      {
        if j > 0 {
          assert keys[j] == keys[1..][j - 1];
        }
      }
      assert FirstOffendingAt(settings, keys, acceptNone, r.key, i + 1);
    }
  }

  /** `_settings_checker(required_settings, accept_none)`; no list means nothing is required. */
  function SettingsChecker(s: Service, required: Option<seq<string>>, acceptNone: bool): (r: SettingsCheck)
    ensures required.None? ==> r == AllPresent
    ensures required.Some? ==>
      (r == AllPresent <==> forall i :: 0 <= i < |required.value| ==> !Offending(s.settings, required.value[i], acceptNone))
    ensures r.FirstMissing? ==> r.key in required.value && Offending(s.settings, r.key, acceptNone)
    ensures r.FirstMissing? ==> required.Some? && exists i :: FirstOffendingAt(s.settings, required.value, acceptNone, r.key, i)
  {
    if required.None? then AllPresent else CheckKeys(s.settings, required.value, acceptNone)
  }

  // ----------------------------------------------------------------------
  // GeocodeService.geocode

  /** `geocode`'s `(candidates, upstream_response_info)`. */
  datatype Response = Response(candidates: seq<Candidate>, info: Option<Info>)

  /** The `except` branch: the call is marked failed and the traceback recorded. */
  function Failed(info: Info, trace: string): (r: Info)
    ensures r == info.(success := false, errors := info.errors + [trace])
  {
    var failed := SetSuccess(info, ABool(false));
    failed.value.(errors := failed.value.errors + [trace])
  }

  /**
   * `GeocodeService.geocode(pq)`: the preprocessors run on a copy and may
   * reject; otherwise the call record is created, `_geocode` runs, and
   * anything it raises (or a negative elapsed time, which the setter
   * refuses inside the same `try`) is absorbed into the record.  The
   * postprocessors run when the call returned at least one candidate.
   */
  function Geocode(s: Service, pq: PlaceQuery): (r: Response)
    ensures r.info.None? <==> RunPre(s.pre, pq).query.None?
    ensures r.info.None? ==> r.candidates == []
    ensures r.info.Some? ==>
      var info := r.info.value;
      && info.geoservice == s.name && info.processedPq == RunPre(s.pre, pq).query.value
      && info.responseCode.None?
      && (info.success <==> info.errors == []) && |info.errors| <= 1
      && (!info.success ==> r.candidates == [])
  {
    match RunPre(s.pre, pq).query
    case None => Response([], None)
    case Some(q) =>
      NewInfoDefaults(s.name, q);
      var info := NewInfo(s.name, q, ANone, ANone, ABool(true), None).value;
      match s.backend(q)
      case Raised(trace) => Response([], Some(Failed(info, trace)))
      case Returned(cs, elapsed) =>
        match SetResponseTime(info, AFloat(1000.0 * elapsed))
        case Err(msg) => Response([], Some(Failed(info, msg)))
        case Ok(timed) => Response(if |cs| > 0 then RunAll(s.post, cs) else cs, Some(timed))
  }

  /**
   * What `geocode` returns for each outcome of the call: a raise gives no
   * candidates and one error; a normal return gives the postprocessed
   * candidates (none if it had none) and the rounded milliseconds.
   */
  lemma {:induction false} GeocodeOutcomes(s: Service, pq: PlaceQuery)
    requires RunPre(s.pre, pq).query.Some?
    ensures var q := RunPre(s.pre, pq).query.value;
      var r := Geocode(s, pq);
      match s.backend(q)
      case Raised(trace) => r == Response([], Some(Info(s.name, q, None, None, false, [trace])))
      case Returned(cs, elapsed) =>
        if elapsed < 0.0 then r == Response([], Some(Info(s.name, q, None, None, false, [TimeNegative])))
        else
          r.candidates == (if cs == [] then [] else RunAll(s.post, cs))
          && r.info == Some(Info(s.name, q, None, Some(RoundHalfEven(1000.0 * elapsed)), true, []))
  {
    var q := RunPre(s.pre, pq).query.value;
    var e: seq<string> := [];
    match s.backend(q)
    case Raised(trace) =>
      assert e + [trace] == [trace];
    case Returned(cs, elapsed) =>
      assert e + [TimeNegative] == [TimeNegative];
  }

  /** A rejected query never reaches the adapter's call: the result does not depend on it. */
  lemma {:induction false} RejectionSkipsCall(s: Service, pq: PlaceQuery, other: PlaceQuery -> Outcome)
    requires RunPre(s.pre, pq).query.None?
    ensures Geocode(s, pq) == Geocode(s.(backend := other), pq) == Response([], None)
  {
  }

  /**
   * The non-empty check happens once, before the chain: a postprocessor
   * still runs after an earlier one emptied the list.
   */
  lemma {:induction false} PostprocessorsNotGated(s: Service, pq: PlaceQuery, c: Candidate)
    requires RunPre(s.pre, pq).query.Some?
    requires s.backend(RunPre(s.pre, pq).query.value) == Returned([c], 0.0)
    requires s.post == [(cs: seq<Candidate>) => [], (cs: seq<Candidate>) => [c]]
    ensures Geocode(s, pq).candidates == [c]
  {
    GeocodeOutcomes(s, pq);
    assert RunAll(s.post, [c]) == RunAll(s.post[1..], []) == RunAll([], [c]);
  }
}

=== FILE: snap_examples.dfy ===
/**
 * Two small runs of `SnapPoints` (`omgeo/postprocessors.py`) showing how
 * its greedy loop clusters: a point already absorbed still serves as an
 * anchor for what is left, and clustering is not transitive.  The
 * distance test is kept abstract; only the relations between the points
 * named in each lemma matter.
 */
module SnapExamples {
  import opened Values
  import opened Seqs
  import opened Places
  import opened Greedy
  import opened Postprocessors

  /** The first element of `m`, if any. */
  function First<T>(m: seq<T>): (r: seq<T>)
    ensures |r| <= 1 && (|m| > 0 ==> r == [m[0]])
  {
    if |m| > 0 then [m[0]] else []
  }

  /** One turn of the loop, given the outcome of the turns after it. */
  lemma {:induction false} SweepTurn<T>(x: T, anchors: seq<T>, rest: seq<T>, rel: (T, T) -> bool, kept: seq<T>, leftover: seq<T>)
    requires |anchors| > 0 && anchors[0] == x
    requires Sweep(anchors[1..], Filter(rest, c => !rel(x, c)), rel) == (kept, leftover)
    ensures Sweep(anchors, rest, rel) == (First(Filter(rest, c => rel(x, c))) + kept, leftover)
  {
    assert [] + kept == kept;
  }

  /** The loop with no anchors left keeps nothing and leaves the live list alone. */
  lemma {:induction false} SweepDone<T>(rest: seq<T>, rel: (T, T) -> bool)
    ensures Sweep([], rest, rel) == ([], rest)
  {
  }

  /** A last anchor finds nothing once the live list is empty. */
  lemma {:induction false} SweepOneEmpty<T>(x: T, rel: (T, T) -> bool)
    ensures Sweep([x], [], rel) == ([], [])
  {
    assert [x][1..] == [];
    SweepDone([], rel);
    SweepTurn(x, [x], [], rel, [], []);
  }

  /** An anchor near the only live point keeps it and drains the list. */
  lemma {:induction false} SweepNear<T>(x: T, y: T, rest: seq<T>, rel: (T, T) -> bool)
    requires rel(x, y) && Sweep(rest, [], rel) == ([], [])
    ensures Sweep([x] + rest, [y], rel) == ([y], [])
  {
    FilterOf1([y], (z: T) => !rel(x, z));
    FilterOf1([y], (z: T) => rel(x, z));
    assert ([x] + rest)[1..] == rest;
    SweepTurn(x, [x] + rest, [y], rel, [], []);
    assert [y] + [] == [y];
  }

  /**
   * Three points where the second is near both others but the outer two
   * are apart: the first absorbs the second, and the second, though
   * absorbed, still absorbs the third, which is kept.
   */
  lemma {:induction false} SweepChain<T>(a: T, b: T, c: T, rel: (T, T) -> bool)
    requires rel(a, a) && rel(a, b) && !rel(a, c) && rel(b, c)
    ensures Sweep([a, b, c], [a, b, c], rel) == ([a, c], [])
  {
    var s := [a, b, c];
    SweepOneEmpty(c, rel);
    SweepNear(b, c, [c], rel);
    assert [b] + [c] == s[1..];
    FilterOf3(s, (x: T) => !rel(a, x));
    assert Filter(s, (x: T) => !rel(a, x)) == [c] by {
      assert [] + ([] + [c]) == [c];
    }
    FilterOf3(s, (x: T) => rel(a, x));
    var m := Filter(s, (x: T) => rel(a, x));
    assert |m| > 0 && m[0] == a;
    assert First(m) == [a];
    SweepTurn(a, s, s, rel, [c], []);
    assert Sweep(s, s, rel) == (First(m) + [c], []);
    assert [a] + [c] == [a, c];
  }

  /** The second anchor of the four-point run: it absorbs the last point and leaves the third. */
  lemma {:induction false} SweepSecondOfFour<T>(b: T, c: T, d: T, rel: (T, T) -> bool)
    requires rel(b, d) && !rel(b, c) && rel(c, c)
    ensures Sweep([b, c, d], [c, d], rel) == ([d, c], [])
  {
    SweepOneEmpty(d, rel);
    SweepNear(c, c, [d], rel);
    assert [c] + [d] == [b, c, d][1..];
    FilterPairFirst(c, d, (x: T) => !rel(b, x));
    FilterPairSecond(c, d, (x: T) => rel(b, x));
    SweepTurn(b, [b, c, d], [c, d], rel, [c], []);
    assert First([d]) + [c] == [d, c];
  }

  lemma {:induction false} FilterPairFirst<T>(x: T, y: T, f: T -> bool)
    requires f(x) && !f(y)
    ensures Filter([x, y], f) == [x]
  {
    FilterOf2([x, y], f);
    assert [x] + [] == [x];
  }

  lemma {:induction false} FilterPairSecond<T>(x: T, y: T, f: T -> bool)
    requires !f(x) && f(y)
    ensures Filter([x, y], f) == [y]
  {
    FilterOf2([x, y], f);
    assert [] + [y] == [y];
  }

  lemma {:induction false} FilterFourHead<T>(a: T, b: T, c: T, d: T, f: T -> bool)
    requires f(a) && f(b) && !f(c) && !f(d)
    ensures Filter([a, b, c, d], f) == [a, b]
  {
    FilterOf4([a, b, c, d], f);
    assert [a] + ([b] + ([] + [])) == [a, b];
  }

  lemma {:induction false} FilterFourTail<T>(a: T, b: T, c: T, d: T, f: T -> bool)
    requires !f(a) && !f(b) && f(c) && f(d)
    ensures Filter([a, b, c, d], f) == [c, d]
  {
    FilterOf4([a, b, c, d], f);
    assert [] + ([] + ([c] + [d])) == [c, d];
  }

  /**
   * Four points: the first absorbs the second; the second, already
   * absorbed, absorbs the fourth, which is kept ahead of the third.
   */
  lemma {:induction false} SweepAbsorbedAnchor<T>(a: T, b: T, c: T, d: T, rel: (T, T) -> bool)
    requires rel(a, a) && rel(a, b) && !rel(a, c) && !rel(a, d)
    requires rel(b, d) && !rel(b, c) && rel(c, c)
    ensures Sweep([a, b, c, d], [a, b, c, d], rel) == ([a, d, c], [])
  {
    var s := [a, b, c, d];
    SweepSecondOfFour(b, c, d, rel);
    assert s[1..] == [b, c, d];
    FilterFourTail(a, b, c, d, (x: T) => !rel(a, x));
    FilterFourHead(a, b, c, d, (x: T) => rel(a, x));
    SweepTurn(a, s, s, rel, [d, c], []);
    assert First([a, b]) + [d, c] == [a, d, c];
  }

  /**
   * `SnapPoints` is not transitive: with `b` within distance of both `a`
   * and `c`, but `a` and `c` apart, both `a` and `c` are kept.
   */
  lemma {:induction false} SnapNotTransitive(a: Candidate, b: Candidate, c: Candidate, within: ((Value, Value), (Value, Value)) -> bool)
    requires HasAttr([a, b, c], "x") && HasAttr([a, b, c], "y")
    requires within(Point(a), Point(a)) && within(Point(a), Point(b)) && !within(Point(a), Point(c))
    requires within(Point(b), Point(c))
    ensures SnapPoints([a, b, c], within) == Processed([a, c], [])
  {
    SweepChain(a, b, c, (a: Candidate, c: Candidate) => within(Point(a), Point(c)));
  }

  /**
   * An absorbed point still anchors: `b`, absorbed by `a`, absorbs `d`,
   * which is kept ahead of `c`; the output is not in input order.
   */
  lemma {:induction false} SnapAbsorbedAnchor(a: Candidate, b: Candidate, c: Candidate, d: Candidate,
                           within: ((Value, Value), (Value, Value)) -> bool)
    requires HasAttr([a, b, c, d], "x") && HasAttr([a, b, c, d], "y")
    requires within(Point(a), Point(a)) && within(Point(a), Point(b))
    requires !within(Point(a), Point(c)) && !within(Point(a), Point(d))
    requires within(Point(b), Point(d)) && !within(Point(b), Point(c)) && within(Point(c), Point(c))
    ensures SnapPoints([a, b, c, d], within) == Processed([a, d, c], [])
  {
    SweepAbsorbedAnchor(a, b, c, d, (a: Candidate, c: Candidate) => within(Point(a), Point(c)));
  }

  /**
   * Kept points need not be apart: in the run above, when `d` and `c` are
   * also within distance of each other both are kept, because `d` was
   * matched by the anchor `b` and `c` is outside `b`'s range.  The guard
   * that holds is the one `SnapPoints` states: each kept point is apart
   * from the points kept after it as seen from its anchor, not from itself.
   */
  lemma {:induction false} SnapKeepsNearPair(a: Candidate, b: Candidate, c: Candidate, d: Candidate,
                           within: ((Value, Value), (Value, Value)) -> bool)
    requires HasAttr([a, b, c, d], "x") && HasAttr([a, b, c, d], "y")
    requires within(Point(a), Point(a)) && within(Point(a), Point(b))
    requires !within(Point(a), Point(c)) && !within(Point(a), Point(d))
    requires within(Point(b), Point(d)) && !within(Point(b), Point(c)) && within(Point(c), Point(c))
    requires within(Point(d), Point(c))
    ensures var out := SnapPoints([a, b, c, d], within).out;
      |out| == 3 && out[1] == d && out[2] == c && within(Point(out[1]), Point(out[2]))
  {
    SnapAbsorbedAnchor(a, b, c, d, within);
  }
}

=== FILE: text.dfy ===
/**
 * String operations of Python's `str` that the library relies on:
 * whitespace, case mapping, substring search, `strip`, `join`, `split`
 * and `replace`.
 *
 * Whitespace is Python's own set (`str.isspace`, which is also what `\s`
 * and `strip()` use).  Digits, word characters and case mapping are the
 * ASCII ones; see the README for what that leaves out.
 */
module Text {

  /** Python's `str.isspace` for one character. */
  predicate IsSpace(c: char) {
    || c == ' '
    || ('\t' <= c <= '\r')
    || ('\U{1C}' <= c <= '\U{1F}')
    || c == '\U{85}' || c == '\U{A0}' || c == '\U{1680}'
    || ('\U{2000}' <= c <= '\U{200A}')
    || c == '\U{2028}' || c == '\U{2029}' || c == '\U{202F}'
    || c == '\U{205F}' || c == '\U{3000}'
  }

  predicate IsDigit(c: char) {
    '0' <= c <= '9'
  }

  /** Regex `\w`, restricted to ASCII. */
  predicate IsWordChar(c: char) {
    IsDigit(c) || ('a' <= c <= 'z') || ('A' <= c <= 'Z') || c == '_'
  }

  function UpperChar(c: char): char {
    if 'a' <= c <= 'z' then (c as int - 32) as char else c
  }

  function LowerChar(c: char): char {
    if 'A' <= c <= 'Z' then (c as int + 32) as char else c
  }

  function Upper(s: string): (r: string)
    ensures |r| == |s|
    ensures forall i :: 0 <= i < |s| ==> r[i] == UpperChar(s[i])
  {
    seq(|s|, i requires 0 <= i < |s| => UpperChar(s[i]))
  }

  function Lower(s: string): (r: string)
    ensures |r| == |s|
    ensures forall i :: 0 <= i < |s| ==> r[i] == LowerChar(s[i])
  {
    seq(|s|, i requires 0 <= i < |s| => LowerChar(s[i]))
  }

  predicate AllSpace(s: string) {
    forall i :: 0 <= i < |s| ==> IsSpace(s[i])
  }

  predicate StartsWith(s: string, p: string) {
    |p| <= |s| && s[..|p|] == p
  }

  /** Python's `p in s` for strings: `p` occurs somewhere in `s`. */
  predicate Contains(s: string, p: string)
    decreases |s|
  {
    StartsWith(s, p) || (|s| > 0 && Contains(s[1..], p))
  }

  /** Every string contains the empty string and itself. */
  lemma {:induction false} ContainsSelf(s: string)
    ensures Contains(s, "") && Contains(s, s)
  {
    assert s[..0] == "";
    assert s[..|s|] == s;
  }

  function StripLeft(s: string): (r: string)
    ensures |r| <= |s| && r == s[|s| - |r|..]
    ensures AllSpace(s[..|s| - |r|])
    ensures r == "" || !IsSpace(r[0])
    decreases |s|
  {
    if |s| > 0 && IsSpace(s[0]) then
      var r := StripLeft(s[1..]);
      SpacePrefixCons(s, |s| - 1 - |r|);
      assert s[1..][|s| - 1 - |r|..] == s[|s| - |r|..];
      r
    else s
  }

  /** A blank prefix of `s[1..]` after a blank `s[0]` is a blank prefix of `s`. */
  lemma {:induction false} SpacePrefixCons(s: string, k: nat)
    requires 0 < |s| && k < |s| && IsSpace(s[0]) && AllSpace(s[1..][..k])
    ensures AllSpace(s[..k + 1])
  {
    forall i | 0 < i < k + 1
      ensures IsSpace(s[i])
    {
      assert s[i] == s[1..][..k][i - 1];
    }
  }

  function StripRight(s: string): (r: string)
    ensures |r| <= |s| && r == s[..|r|]
    ensures AllSpace(s[|r|..])
    ensures r == "" || !IsSpace(r[|r| - 1])
    decreases |s|
  {
    if |s| > 0 && IsSpace(s[|s| - 1]) then
      var t := s[..|s| - 1];
      var r := StripRight(t);
      assert s[..|r|] == t[..|r|];
      assert s[|r|..] == t[|r|..] + [s[|s| - 1]];
      AllSpaceAppend(t[|r|..], [s[|s| - 1]]);
      r
    else s
  }

  lemma {:induction false} AllSpaceAppend(a: string, b: string)
    requires AllSpace(a) && AllSpace(b)
    ensures AllSpace(a + b)
  {
    forall i | 0 <= i < |a + b|
      ensures IsSpace((a + b)[i])
    {
      if i >= |a| {
        assert (a + b)[i] == b[i - |a|];
      }
    }
  }

  /** Python's `s.strip()`. */
  function Strip(s: string): string {
    StripRight(StripLeft(s))
  }

  lemma {:induction false} StripLeftAllSpace(s: string)
    requires AllSpace(s)
    ensures StripLeft(s) == ""
    decreases |s|
  {
    if |s| > 0 {
      StripLeftAllSpace(s[1..]);
    }
  }

  /** `s.strip() == ''` holds exactly for the all-whitespace strings. */
  lemma {:induction false} StripBlank(s: string)
    ensures Strip(s) == "" <==> AllSpace(s)
  {
    var l := StripLeft(s);
    if Strip(s) == "" {
      assert l[0..] == l;
      assert l == "";
      forall i | 0 <= i < |s|
        ensures IsSpace(s[i])
      {
        assert s[..|s| - |l|][i] == s[i];
      }
    }
    if AllSpace(s) {
      StripLeftAllSpace(s);
    }
  }

  /** Text that begins and ends with a non-space character is its own strip. */
  lemma {:induction false} StripTrimmed(s: string)
    requires |s| > 0 && !IsSpace(s[0]) && !IsSpace(s[|s| - 1])
    ensures Strip(s) == s
  {
  }

  /** One leading space before trimmed text is all `strip` removes. */
  lemma {:induction false} StripLeading(s: string)
    requires |s| > 1 && IsSpace(s[0]) && !IsSpace(s[1]) && !IsSpace(s[|s| - 1])
    ensures Strip(s) == s[1..]
  {
    assert StripLeft(s[1..]) == s[1..];
  }

  /** One trailing space after trimmed text is all `strip` removes. */
  lemma {:induction false} StripTrailing(s: string)
    requires |s| > 1 && !IsSpace(s[0]) && !IsSpace(s[|s| - 2]) && IsSpace(s[|s| - 1])
    ensures Strip(s) == s[..|s| - 1]
  {
    var t := s[..|s| - 1];
    assert t[|t| - 1] == s[|s| - 2];
  }

  /** Python's `sep.join(parts)`. */
  function Join(sep: string, parts: seq<string>): string
    decreases |parts|
  {
    if |parts| == 0 then ""
    else if |parts| == 1 then parts[0]
    else parts[0] + sep + Join(sep, parts[1..])
  }

  /** The non-empty strings of `parts`, in order (`[p for p in parts if p]`). */
  function NonEmpty(parts: seq<string>): (r: seq<string>)
    ensures |r| <= |parts|
    ensures forall i :: 0 <= i < |r| ==> r[i] != "" && r[i] in parts
    ensures (forall i :: 0 <= i < |parts| ==> parts[i] == "") ==> r == []
    ensures (exists i :: 0 <= i < |parts| && parts[i] != "") ==> r != []
    decreases |parts|
  {
    if |parts| == 0 then []
    else if parts[0] == "" then NonEmpty(parts[1..])
    else [parts[0]] + NonEmpty(parts[1..])
  }

  /** A join of non-empty parts is empty exactly when there are no parts. */
  lemma {:induction false} JoinNonEmptyParts(sep: string, parts: seq<string>)
    requires forall i :: 0 <= i < |parts| ==> parts[i] != ""
    ensures Join(sep, parts) == "" <==> |parts| == 0
    decreases |parts|
  {
    if |parts| > 1 {
      assert |parts[0] + sep + Join(sep, parts[1..])| >= |parts[0]|;
    }
  }

  /** Joining parts without `c` by a separator without `c` gives a string without `c`. */
  lemma {:induction false} JoinWithout(sep: string, parts: seq<string>, c: char)
    requires c !in sep
    requires forall i :: 0 <= i < |parts| ==> c !in parts[i]
    ensures c !in Join(sep, parts)
    decreases |parts|
  {
    if |parts| > 1 {
      JoinWithout(sep, parts[1..], c);
      assert Join(sep, parts) == parts[0] + sep + Join(sep, parts[1..]);
    }
  }

  /** A join starts with its first part, and a join of one part is that part. */
  lemma {:induction false} JoinStartsWithFirst(sep: string, parts: seq<string>)
    requires |parts| > 0
    ensures StartsWith(Join(sep, parts), parts[0])
    ensures |parts| == 1 ==> Join(sep, parts) == parts[0]
  {
    var s := Join(sep, parts);
    if |parts| > 1 {
      assert s == parts[0] + (sep + Join(sep, parts[1..]));
    }
    assert s[..|parts[0]|] == parts[0];
  }

  /** `s` with a space in front of every part but the first. */
  function SpaceLed(parts: seq<string>): (r: seq<string>)
    ensures |r| == |parts|
    ensures forall i :: 0 <= i < |parts| ==> r[i] == " " + parts[i]
  {
    seq(|parts|, i requires 0 <= i < |parts| => " " + parts[i])
  }

  /** Joining with `", "` is joining with `","` parts that start with a space. */
  lemma {:induction false} JoinCommaSpace(parts: seq<string>)
    requires |parts| >= 1
    ensures " " + Join(", ", parts) == Join(",", SpaceLed(parts))
    decreases |parts|
  {
    if |parts| > 1 {
      JoinCommaSpace(parts[1..]);
      assert SpaceLed(parts)[1..] == SpaceLed(parts[1..]);
    }
  }

  /** Concatenation regrouped. */
  lemma {:induction false} Regroup(a: string, b: string, c: string, d: string)
    ensures a + (b + c) + d == a + b + (c + d)
  {
  }

  /** Joining comma-free parts with `", "` and splitting at commas gives them back, space-led after the first. */
  lemma {:induction false} CommaSpaceSplits(vs: seq<string>)
    requires |vs| > 0
    requires forall i :: 0 <= i < |vs| ==> ',' !in vs[i]
    ensures Split(Join(", ", vs), ',') == [vs[0]] + SpaceLed(vs[1..])
  {
    var parts := [vs[0]] + SpaceLed(vs[1..]);
    CommaSpaceJoin(vs);
    SpaceLedCommaFree(vs);
    SplitJoin(parts, ',');
  }

  /** `", ".join(vs)` is `",".join` of the first part and the others space-led. */
  lemma {:induction false} CommaSpaceJoin(vs: seq<string>)
    requires |vs| > 0
    ensures Join(", ", vs) == Join(",", [vs[0]] + SpaceLed(vs[1..]))
  {
    if |vs| == 1 {
      assert [vs[0]] + SpaceLed(vs[1..]) == vs;
    } else {
      assert vs == [vs[0]] + vs[1..];
      CommaSpaceJoinCons(vs[0], vs[1..]);
    }
  }

  lemma {:induction false} CommaSpaceJoinCons(head: string, tail: seq<string>)
    requires |tail| > 0
    ensures Join(", ", [head] + tail) == Join(",", [head] + SpaceLed(tail))
  {
    JoinCommaSpace(tail);
    JoinHead(", ", head, tail);
    JoinHead(",", head, SpaceLed(tail));
    CommaSpaceStep(head, Join(", ", tail), Join(",", SpaceLed(tail)));
  }

  lemma {:induction false} CommaSpaceStep(head: string, tail: string, spaced: string)
    requires spaced == " " + tail
    ensures head + ", " + tail == head + "," + spaced
  {
    assert ", " == "," + " ";
    Regroup(head, ",", " ", tail);
  }

  lemma {:induction false} JoinHead(sep: string, head: string, rest: seq<string>)
    requires |rest| > 0
    ensures Join(sep, [head] + rest) == head + sep + Join(sep, rest)
  {
    assert ([head] + rest)[1..] == rest;
  }

  /** Space-leading comma-free parts keeps them comma-free. */
  lemma {:induction false} SpaceLedCommaFree(vs: seq<string>)
    requires |vs| > 0
    requires forall i :: 0 <= i < |vs| ==> ',' !in vs[i]
    ensures forall i :: 0 <= i < |vs| ==> ',' !in ([vs[0]] + SpaceLed(vs[1..]))[i]
  {
    var parts := [vs[0]] + SpaceLed(vs[1..]);
    forall i | 0 <= i < |parts|
      ensures ',' !in parts[i]
    {
      if i > 0 {
        assert parts[i] == " " + vs[i];
      }
    }
  }

  /** Position of the first `c` in `s`, or `|s|` when there is none. */
  function IndexOf(s: string, c: char): (i: nat)
    ensures i <= |s|
    ensures i < |s| ==> s[i] == c
    ensures forall j :: 0 <= j < i ==> s[j] != c
    decreases |s|
  {
    if |s| == 0 then 0
    else if s[0] == c then 0
    else 1 + IndexOf(s[1..], c)
  }

  /** Python's `s.split(c)` for a one-character separator. */
  function Split(s: string, c: char): (r: seq<string>)
    ensures |r| >= 1
    ensures forall k :: 0 <= k < |r| ==> c !in r[k]
    decreases |s|
  {
    var i := IndexOf(s, c);
    if i == |s| then [s] else [s[..i]] + Split(s[i + 1..], c)
  }

  /** A string without the separator splits into itself alone. */
  lemma {:induction false} SplitWithout(s: string, c: char)
    ensures c !in s ==> Split(s, c) == [s]
  {
  }

  /**
   * Splitting a separator-joined list recovers the list, provided no part
   * contains the separator.
   */
  lemma {:induction false} SplitJoin(parts: seq<string>, c: char)
    requires |parts| >= 1
    requires forall k :: 0 <= k < |parts| ==> c !in parts[k]
    ensures Split(Join([c], parts), c) == parts
    decreases |parts|
  {
    var s := Join([c], parts);
    if |parts| == 1 {
      assert IndexOf(s, c) == |s|;
    } else {
      var p := parts[0];
      var tail := Join([c], parts[1..]);
      assert s == p + [c] + tail;
      IndexOfPrefix(p, tail, c);
      assert s[..|p|] == p;
      assert s[|p| + 1..] == tail;
      SplitJoin(parts[1..], c);
    }
  }

  lemma {:induction false} IndexOfPrefix(p: string, tail: string, c: char)
    requires c !in p
    ensures IndexOf(p + [c] + tail, c) == |p|
    decreases |p|
  {
    if |p| > 0 {
      assert (p + [c] + tail)[1..] == p[1..] + [c] + tail;
      IndexOfPrefix(p[1..], tail, c);
    }
  }

  /** `s` with every `c` removed (`s.replace(c, '')`). */
  function RemoveChar(s: string, c: char): (r: string)
    ensures c !in r
    ensures |r| <= |s|
    ensures c !in s ==> r == s
    decreases |s|
  {
    if |s| == 0 then ""
    else if s[0] == c then RemoveChar(s[1..], c)
    else [s[0]] + RemoveChar(s[1..], c)
  }

  /** Removing a character distributes over concatenation. */
  lemma {:induction false} RemoveCharAppend(a: string, b: string, c: char)
    ensures RemoveChar(a + b, c) == RemoveChar(a, c) + RemoveChar(b, c)
    decreases |a|
  {
    if |a| > 0 {
      assert (a + b)[1..] == a[1..] + b;
      RemoveCharAppend(a[1..], b, c);
    } else {
      assert a + b == b;
    }
  }

  /** Python's `s.replace(sub, '')`: occurrences removed left to right. */
  function RemoveAll(s: string, sub: string): (r: string)
    requires |sub| > 0
    ensures |r| <= |s|
    decreases |s|
  {
    if |s| == 0 then ""
    else if StartsWith(s, sub) then RemoveAll(s[|sub|..], sub)
    else [s[0]] + RemoveAll(s[1..], sub)
  }

  /** A string without the first character of `p` does not contain `p`. */
  lemma {:induction false} NotContains(s: string, p: string)
    requires |p| > 0 && p[0] !in s
    ensures !Contains(s, p)
    decreases |s|
  {
    if |s| > 0 {
      assert s[0] != p[0];
      NotContains(s[1..], p);
    }
  }

  /** A string ending in `p` contains it. */
  lemma {:induction false} ContainsSuffix(a: string, p: string)
    ensures Contains(a + p, p)
    decreases |a|
  {
    if |a| == 0 {
      assert (a + p)[..|p|] == p;
    } else {
      ContainsSuffix(a[1..], p);
      assert (a + p)[1..] == a[1..] + p;
    }
  }

  /** Removing `sub` from a text that has it only at the end drops that end. */
  lemma {:induction false} RemoveAllSuffix(a: string, sub: string)
    requires |sub| > 0 && sub[0] !in a
    ensures RemoveAll(a + sub, sub) == a
    decreases |a|
  {
    if |a| == 0 {
      assert (a + sub)[..|sub|] == sub;
      assert (a + sub)[|sub|..] == "";
    } else {
      assert (a + sub)[0] == a[0] != sub[0];
      assert (a + sub)[1..] == a[1..] + sub;
      RemoveAllSuffix(a[1..], sub);
      assert a == [a[0]] + a[1..];
    }
  }

  /** Python's `s.split(sub)[0]`: the text before the first occurrence of `sub`. */
  function BeforeFirst(s: string, sub: string): (r: string)
    requires |sub| > 0
    ensures StartsWith(s, r)
    decreases |s|
  {
    if |s| == 0 || StartsWith(s, sub) then ""
    else [s[0]] + BeforeFirst(s[1..], sub)
  }

  /** Python's `str(n)` for an integer. */
  function IntToString(n: int): (r: string)
    ensures |r| > 0
    decreases if n < 0 then 1 - n else n
  {
    if n < 0 then "-" + IntToString(-n)
    else if n < 10 then [('0' as int + n) as char]
    else IntToString(n / 10) + [('0' as int + n % 10) as char]
  }

  predicate AllWord(s: string) {
    forall i :: 0 <= i < |s| ==> IsWordChar(s[i])
  }

  /** Length of the longest prefix of `s` made of word characters (`\w*`). */
  function WordLen(s: string): (n: nat)
    ensures n <= |s| && AllWord(s[..n])
    ensures n < |s| ==> !IsWordChar(s[n])
    decreases |s|
  {
    if |s| > 0 && IsWordChar(s[0]) then
      var n := 1 + WordLen(s[1..]);
      assert s[..n] == [s[0]] + s[1..][..n - 1];
      n
    else 0
  }

  /** The word run of `a + b` when `a` is all word characters and `b` does not start with one. */
  lemma {:induction false} WordLenOf(a: string, b: string)
    requires AllWord(a)
    requires b == [] || !IsWordChar(b[0])
    ensures WordLen(a + b) == |a|
    decreases |a|
  {
    if |a| > 0 {
      assert (a + b)[1..] == a[1..] + b;
      WordLenOf(a[1..], b);
    } else {
      assert a + b == b;
    }
  }

  /** Python's `s.replace(target, repl, 1)`: the first occurrence of `target` replaced. */
  function ReplaceFirst(s: string, target: string, repl: string): (r: string)
    decreases |s|
  {
    if StartsWith(s, target) then repl + s[|target|..]
    else if |s| == 0 then s
    else [s[0]] + ReplaceFirst(s[1..], target, repl)
  }

  /** `s` contains a whitespace character (`re.search(r'\s', s)`). */
  predicate HasSpace(s: string) {
    exists i :: 0 <= i < |s| && IsSpace(s[i])
  }

  /** `[attributes.get(f, '') for f in fields]`: each field's text, `''` when absent. */
  function FieldValues(attributes: map<string, string>, fields: seq<string>): (r: seq<string>)
    ensures |r| == |fields|
    ensures forall i :: 0 <= i < |fields| ==> r[i] == if fields[i] in attributes then attributes[fields[i]] else ""
  {
    seq(|fields|, i requires 0 <= i < |fields| => if fields[i] in attributes then attributes[fields[i]] else "")
  }
}

=== FILE: us_census.dfy ===
/**
 * The US Census adapter of `omgeo/services/us_census.py`, up to the
 * network call: the endpoint and parameters chosen for a query, the
 * street address rebuilt from a match, and the fixed component fields of
 * its candidates.
 */
module USCensus {
  import opened Values
  import opened Text
  import opened Places

  const EndpointBase := "https://geocoding.geo.census.gov/geocoder/locations/"

  /** The request parameters the adapter may send. */
  datatype Param = Format | Benchmark | OneLine | Street | City | State | Zip

  function Name(p: Param): string {
    match p
    case Format => "format"
    case Benchmark => "benchmark"
    case OneLine => "address"
    case Street => "street"
    case City => "city"
    case State => "state"
    case Zip => "zip"
  }

  datatype Request = Request(endpoint: string, params: map<Param, string>)

  function BaseParams(): map<Param, string> {
    map[Format := "json", Benchmark := "Public_AR_Current"]
  }

  /**
   * The request for `pq`: free text goes to `onelineaddress`, otherwise
   * the structured fields go to `address`.
   */
  function GeocodeRequest(pq: PlaceQuery): (r: Request)
    ensures pq.query != "" ==>
      (r.endpoint == EndpointBase + "onelineaddress"
       && r.params.Keys == {Format, Benchmark, OneLine} && r.params[OneLine] == pq.query)
    ensures pq.query == "" ==>
      (r.endpoint == EndpointBase + "address"
       && r.params.Keys == {Format, Benchmark, Street, City, State, Zip}
       && r.params[Street] == pq.address && r.params[City] == pq.city
       && r.params[State] == pq.state && r.params[Zip] == pq.postal)
    ensures r.params[Format] == "json" && r.params[Benchmark] == "Public_AR_Current"
  {
    if pq.query != "" then
      Request(EndpointBase + "onelineaddress", BaseParams()[OneLine := pq.query])
    else
      Request(EndpointBase + "address",
              BaseParams()[Street := pq.address][City := pq.city][State := pq.state][Zip := pq.postal])
  }

  /** The two endpoints never share their address parameters. */
  lemma {:induction false} RequestKindsDisjoint(pq: PlaceQuery)
    ensures var r := GeocodeRequest(pq);
      (OneLine in r.params <==> pq.query != "") && (Street in r.params <==> pq.query == "")
  {
  }

  // ----------------------------------------------------------------------
  // _street_addr_from_response

  predicate IsAsciiDigit(c: char) {
    '0' <= c <= '9'
  }

  predicate AllDigits(s: string) {
    forall i :: 0 <= i < |s| ==> IsAsciiDigit(s[i])
  }

  /** The length of the leading run of `[0-9]`. */
  function DigitLen(s: string): (n: nat)
    ensures n <= |s| && AllDigits(s[..n])
    ensures n < |s| ==> !IsAsciiDigit(s[n])
    decreases |s|
  {
    if |s| > 0 && IsAsciiDigit(s[0]) then
      var n := 1 + DigitLen(s[1..]);
      assert s[..n] == [s[0]] + s[1..][..n - 1];
      n
    else 0
  }

  /** The street fields after the house number, in the order they are joined. */
  const StreetFields: seq<string> := ["preQualifier", "preDirection", "preType", "streetName",
    "suffixType", "suffixDirection", "suffixQualifier"]

  /**
   * The street address of a match: the house number at the start of
   * `matched` and the non-empty street fields, separated by single
   * spaces; `''` when the match does not start with a digit.
   */
  function StreetAddr(matched: string, components: map<string, string>): (r: string)
    ensures r == "" <==> DigitLen(matched) == 0
    ensures DigitLen(matched) > 0 ==> StartsWith(r, matched[..DigitLen(matched)])
  {
    var n := DigitLen(matched);
    if n == 0 then ""
    else
      var parts := [matched[..n]] + FieldValues(components, StreetFields);
      var kept := NonEmpty(parts);
      assert kept[0] == matched[..n];
      JoinNonEmptyParts(" ", kept);
      Join(" ", kept)
  }

  /**
   * When no street field holds a space, splitting the street address at
   * spaces gives back the house number followed by the non-empty fields.
   */
  lemma {:induction false} StreetAddrSplits(matched: string, components: map<string, string>)
    requires DigitLen(matched) > 0
    requires forall f :: f in components ==> ' ' !in components[f]
    ensures Split(StreetAddr(matched, components), ' ')
         == [matched[..DigitLen(matched)]] + NonEmpty(FieldValues(components, StreetFields))
  {
    var n := DigitLen(matched);
    var fields := FieldValues(components, StreetFields);
    var parts := [matched[..n]] + fields;
    assert parts[1..] == fields;
    var kept := NonEmpty(parts);
    assert AllDigits(matched[..n]);
    forall k | 0 <= k < |kept|
      ensures ' ' !in kept[k]
    {
      var i :| 0 <= i < |parts| && parts[i] == kept[k];
      if i == 0 {
        forall j | 0 <= j < |kept[k]|
          ensures kept[k][j] != ' '
        {
          assert IsAsciiDigit(matched[..n][j]);
        }
      } else {
        assert parts[i] == fields[i - 1];
      }
    }
    SplitJoin(kept, ' ');
  }

  // ----------------------------------------------------------------------
  // Candidate fields

  const ComponentKeys: set<string> := {"match_city", "match_region", "match_postal", "match_subregion", "match_country"}

  /** The response's address components copied onto a candidate, and the two fixed fields. */
  function WithComponents(c: Candidate, components: map<string, Value>): (r: Candidate)
    ensures r.id == c.id
    ensures ComponentKeys <= r.attrs.Keys
    ensures r.attrs["match_subregion"] == Str("") && r.attrs["match_country"] == Str("USA")
    ensures r.attrs["match_city"] == (if "city" in components then components["city"] else Str(""))
    ensures r.attrs["match_region"] == (if "state" in components then components["state"] else Str(""))
    ensures r.attrs["match_postal"] == (if "zip" in components then components["zip"] else Str(""))
    ensures forall k :: k in c.attrs && k !in ComponentKeys ==> k in r.attrs && r.attrs[k] == c.attrs[k]
  {
    var get := (k: string) => if k in components then components[k] else Str("");
    c.(attrs := c.attrs["match_city" := get("city")]["match_region" := get("state")]["match_postal" := get("zip")]
      ["match_subregion" := Str("")]["match_country" := Str("USA")])
  }
}

=== FILE: values.dfy ===
/**
 * Dynamic values of the geocoding library.
 *
 * `Value` is what a candidate attribute, a setting or a query extension
 * holds and what Python's `==` compares.  Python ints and floats are merged
 * into one `Num` because the library only ever compares them numerically.
 *
 * `Arg` is an argument together with its Python type, for the few places
 * that check `type(x)` or `isinstance(x, ...)` before using it.
 */
module Values {

  datatype Value = Null | Bool(b: bool) | Num(n: real) | Str(s: string)

  /** Python truthiness of a value (`if v:`). */
  predicate Truthy(v: Value) {
    match v
    case Null => false
    case Bool(b) => b
    case Num(n) => n != 0.0
    case Str(s) => s != ""
  }

  /** An argument as passed by a caller, with its Python type. */
  datatype Arg =
    | ANone
    | AInt(i: int)
    | AFloat(f: real)
    | ABool(b: bool)
    | AStr(s: string)
    | AList(items: seq<Arg>)
    | ATuple(items: seq<Arg>)

  /** `isinstance(a, (int, float))`: a bool is an int in Python. */
  predicate IsRealNumber(a: Arg) {
    a.AInt? || a.AFloat? || a.ABool?
  }

  /** The numeric value of an argument that `IsRealNumber` accepts. */
  function NumberOf(a: Arg): real
    requires IsRealNumber(a)
  {
    match a
    case AInt(i) => i as real
    case AFloat(f) => f
    case ABool(b) => if b then 1.0 else 0.0
  }
}

=== FILE: wrappers.dfy ===
/** Failure-carrying datatypes shared by the whole model. */
module Wrappers {

  /** A value that may be absent: Python's `None` versus an object. */
  datatype Option<+T> = None | Some(value: T) {
    function GetOr(default: T): T {
      match this
      case Some(v) => v
      case None => default
    }
  }

  /** The outcome of a Python call that either returns a value or raises. */
  datatype Result<+R, +E> = Ok(value: R) | Err(error: E) {
    predicate IsFailure() {
      Err?
    }

    function PropagateFailure<U>(): Result<U, E>
      requires Err?
    {
      Err(error)
    }

    function Extract(): R
      requires Ok?
    {
      value
    }
  }
}
